=== FILE: README.md ===
# LatestVersionManager core, modelled in Dafny

LatestVersionManager watches folders of numbered render versions
(`hero_comp_v001/`, `hero_comp_v002.exr`, ...) and promotes one chosen
version into a stable "latest" folder by copy, hard link or symbolic link.
It keeps a history record beside that folder, which later detects files
that were changed or overwritten. This project models the
deterministic core of that engine as immutable Dafny values and pure
functions, and proves what the code promises about it.

One module per source file, plus shared helpers:

| module | models |
|---|---|
| `TaskTokens` | `task_tokens.py`: task-token matching with counted `%` wildcards, token removal and divider clean-up, `strip_version`, `strip_frame_and_ext`, the four source name tokens, the naming rules and the naming options offered |
| `Patterns` | the fixed regular expressions `VERSION_RE` and `FRAME_EXT_RE`, written as position predicates |
| `Scanner`, `FrameRanges` | `scanner.py`: the `{version}` template matcher, version labels, the folder and file scans, the frame-range summaries, `detect_sequence_from_file`, `scan_directory_as_version`, `create_manual_version` |
| `Discovery` | `discovery.py`: the depth-bounded walk, versioned folders and files, merging files by version number, the suggested pattern and extensions, keyword filters, ordering |
| `Timecode` | `timecode.py`: SMPTE ST 12-1 BCD decoding, the DPX television-header word (SMPTE ST 268), the OpenEXR attribute walk, the timecode-string validator, extension dispatch and `populate_timecodes` |
| `History` | `history.py`: load with recovery of a corrupt record, the save through a temporary file and one rename, `record_promotion`, `get_current`, `get_history`, `verify_integrity` |
| `Promoter` | `promoter.py`: filename remapping, `promote` (checks, clearing, placing, recording, in that order), `_link_or_copy`, `_clear_target`, `dry_run`, `_get_max_mtime`, `verify`, `generate_report` |
| `Models`, `Config` | `models.py` and `config.py`: the `to_dict`/`from_dict` codecs with their legacy keys, `from_version_info`, `resolve_path`, `{group}` expansion, group roots, `apply_project_defaults`, `_sanitize_filename` |
| `Updater` | `parse_version` and `is_newer` of `updater.py` |
| `Strs`, `Paths`, `Sorting`, `Fs`, `Wrappers` | Python's string methods, `pathlib` names and suffixes, stable `sorted`, an immutable snapshot of a directory tree, and `Option`/`Result` |

The file system is a value: a tree of `Fs.Node`s (files with their contents,
size, mtime and lock state; symbolic links; folders). Operations that change
it return the new listing. The history file is a map from paths to stored
documents. The user name, the clock reading, the `ffprobe` query and the
outcome of a failing save are parameters.

Where comments and code differ, the model follows the code:
- Without a rename template, `_remap_filename` substitutes `([_.\-]){2,}`
  with `\1`. A backreference to a repeated group names its last repetition,
  so each run of dividers keeps its LAST character (`Strs.CollapseRunsToLast`).
  So `hero_comp_v003_.1001.exr` loses `_v003`, and the run `_.` left behind
  becomes `.`, giving `hero_comp.1001.exr`. In `hero_comp_v003.1001.exr` the
  marker takes its divider with it and no run is left
  (`Promoter.RemapDropsVersion`).
- The two frame-range summaries disagree on a single framed file among
  several: `_detect_frame_range` reports "N-N", while the sequence helpers
  report no range (`FrameRanges.SummariesDisagreeOnOneFrame`).
- Discovery keeps a versioned folder that holds no media file, while the
  scanner drops it (`Discovery.EveryVersionFolderReported`,
  `Scanner.FolderWithoutMediaIsSkipped`).
- `_suggest_pattern("hero_comp_v003", ...)` gives `_v{version}`, not the
  `hero_comp_v{version}` of its first docstring example
  (`Discovery.SuggestDropsLeadingText`).
- `VersionScanner.__init__` takes the watched source only; the scanner is
  modelled with that one argument.

## Model

| member | source | states |
|---|---|---|
| TaskTokens.PercentRun | src/lvm/task_tokens.py:57-62 | the counted run is made only of '%' and is maximal: the next character, if any, is not '%' |
| TaskTokens.Compile | src/lvm/task_tokens.py:53-67 | the compiled pattern body consumes exactly as many characters as the token has |
| TaskTokens.WildOkIff | src/lvm/task_tokens.py:63-64 | a run of n wildcards matches at i exactly when n characters are left and none of them is '_', '.' or '-' |
| TaskTokens.CompileMatchesPerChar | src/lvm/task_tokens.py:53-67 | the compiled pattern body matches exactly when every '%' meets a non-divider and every other character meets itself, case-insensitively |
| TaskTokens.PatternAtIff | src/lvm/task_tokens.py:36-77 | the compiled bounded pattern matches at i exactly when the per-character reading matches and the match is divider-bounded on both sides |
| TaskTokens.NoMatchInsideWord | src/lvm/task_tokens.py:41-46 | a token followed by a non-divider character does not match there, so 'comp' never matches inside 'compositor' (also lines 69-74) |
| TaskTokens.FindFrom | src/lvm/task_tokens.py:93 | every position finditer reports is a match, in increasing order and without overlap |
| TaskTokens.FindFromEmptyIff | src/lvm/task_tokens.py:93 | finditer reports nothing exactly when no position matches |
| TaskTokens.NoOverlap | src/lvm/task_tokens.py:43 | two matches of a divider-free token are at least a token's length apart (also lines 69-74) |
| TaskTokens.FindFromComplete | src/lvm/task_tokens.py:93 | every match of a divider-free token is reported by finditer |
| TaskTokens.MatchesFor | src/lvm/task_tokens.py:93-99 | each reported record carries its token, its start, and the matched text of the token's length |
| TaskTokens.TokenMatches | src/lvm/task_tokens.py:91-99 | the matches of one token are genuine, and there are none exactly when the token matches nowhere |
| TaskTokens.AllMatches | src/lvm/task_tokens.py:90-99 | the matches of all tokens are genuine and belong to a listed token; there are none exactly when no token matches anywhere |
| TaskTokens.FindTaskTokens | src/lvm/task_tokens.py:80-102 | `find_task_tokens` returns genuine matches sorted by start, and none exactly when nothing matches |
| TaskTokens.FindTaskTokensComplete | src/lvm/task_tokens.py:80-102 | every match of a listed divider-free token appears in the result with its start, end and text |
| TaskTokens.InAllMatches | src/lvm/task_tokens.py:90-99 | a match of a listed divider-free token is among the collected matches before sorting |
| TaskTokens.StripTaskTokens | src/lvm/task_tokens.py:105-144 | the name is returned unchanged when the token list is empty or nothing matches; after a removal there is no leading or trailing divider and no two adjacent dividers; the result is never longer |
| TaskTokens.RemoveMatch | src/lvm/task_tokens.py:127-139 | removing one clamped match, with its preceding or else following divider, never lengthens the text; characterised by TaskTokens.RemoveTrailingToken |
| TaskTokens.RemoveReversed | src/lvm/task_tokens.py:126-139 | the removals, last match first, never lengthen the text; characterised by TaskTokens.StripTaskTokens |
| TaskTokens.RemoveTrailingToken | src/lvm/task_tokens.py:127-139 | removing a token at the end of the name also removes the divider in front of it |
| TaskTokens.StripVersion | src/lvm/task_tokens.py:147-162 | the result never starts or ends with a divider nor holds two adjacent dividers; a removed marker shortens the name by at least three characters |
| TaskTokens.StripVersionFixed | src/lvm/task_tokens.py:158-162 | a tidy name with no version marker is returned unchanged |
| TaskTokens.StripVersionKeepsLaterText | src/lvm/task_tokens.py:158 | only the leftmost divider+v+digits occurrence is removed: the text after it is kept |
| TaskTokens.StripFrameAndExt | src/lvm/task_tokens.py:165-183 | with a frame suffix the result is the text before it; otherwise it is the stem of the file name |
| TaskTokens.StripFrameAndExtSplits | src/lvm/task_tokens.py:29 | the stripped suffix is a divider, 3 to 8 digits, a dot and a non-empty run of word characters running to the end (also lines 177-179) |
| TaskTokens.StripFrameAndExtDropsExtension | src/lvm/task_tokens.py:181-183 | without a frame suffix only the last extension is dropped: result plus suffix gives back the file name |
| TaskTokens.DeriveSourceTokens | src/lvm/task_tokens.py:186-231 | fullname strips frame and extension from the file name, name strips the version from fullname, basename strips task tokens from name and falls back to name when empty |
| TaskTokens.ParseInt | src/lvm/task_tokens.py:258 | digits with single underscores between them read as their decimal value, all-digit text included |
| TaskTokens.ParseIntUnderscores | src/lvm/task_tokens.py:258 | "1_0" reads as 10, while "1__0", "_1" and "1_" are a ValueError |
| TaskTokens.ComputeSourceName | src/lvm/task_tokens.py:234-282 | 'parent:N' gives the (N+1)-th path component from the end, or the first component when N is too large, a non-integer N counting as 0; the file rules give the matching derived token and any other rule gives source_name |
| TaskTokens.ParentName | src/lvm/task_tokens.py:261-264 | a depth within the path picks the folder that many levels up, a larger one the first component (or the result name for an empty path), and a negative depth indexes from the front and fails with IndexError when it falls off the end |
| TaskTokens.FileRuleName | src/lvm/task_tokens.py:272-282 | source_basename and source_fullname pick those derived tokens; every other rule picks source_name |
| TaskTokens.ParentOptions | src/lvm/task_tokens.py:310-320 | every parent option offers the component at its depth under rule 'parent:depth', drive letters skipped |
| TaskTokens.FileOptions | src/lvm/task_tokens.py:322-345 | source_name is always offered first; source_basename is offered exactly when tokens are given and differ; source_fullname exactly when it differs from source_name |
| TaskTokens.ParentCount | src/lvm/task_tokens.py:310 | at most min(max_parent_depth, number of components) parent levels are offered |
| TaskTokens.GetNamingOptions | src/lvm/task_tokens.py:285-347 | without a sample file only the parent options are offered |
| TaskTokens.ParentDepthOf | src/lvm/task_tokens.py:256-260 | the rule 'parent:d' the options write reads back as depth d (also line 317) |
| TaskTokens.ParentDepthGrouped | src/lvm/task_tokens.py:256-260 | a rule "parent:N" with underscore-grouped digits asks for the depth int() reads from N |
| TaskTokens.ParentDepthUnderscore | src/lvm/task_tokens.py:256-260 | "parent:1_0" asks for depth 10 |
| TaskTokens.NamingOptionsAgree | src/lvm/task_tokens.py:234-347 | applying any offered option's rule with `compute_source_name` reproduces the option's preview |
| TaskTokens.ParentOptionAgrees | src/lvm/task_tokens.py:256-264 | a parent option's rule computes its preview (also lines 310-320) |
| TaskTokens.FileOptionAgrees | src/lvm/task_tokens.py:266-282 | a file-based option's rule computes its preview (also lines 322-345) |
| TaskTokens.DeriveExample | src/lvm/task_tokens.py:192-198 | hero_comp_v001.1001.exr with task 'comp' gives hero_comp_v001 / hero_comp / hero |
| TaskTokens.ExampleFullname | src/lvm/task_tokens.py:168 | strip_frame_and_ext of hero_comp_v001.1001.exr is hero_comp_v001 |
| TaskTokens.ExampleName | src/lvm/task_tokens.py:150 | strip_version of hero_comp_v001 is hero_comp |
| TaskTokens.ExampleBasename | src/lvm/task_tokens.py:108 | stripping task 'comp' from hero_comp gives hero |
| Patterns.VersionDigitCount | src/lvm/task_tokens.py:26 | the greedy digit run after a version marker is non-empty, all digits, and stops at a non-digit or the end |
| Patterns.FindVersion | src/lvm/task_tokens.py:26 | `VERSION_RE.search` finds the leftmost divider+v+digits marker, and none when there is none |
| Patterns.FindVersionAt | src/lvm/task_tokens.py:26 | a marker with none before it is the one the search finds |
| Patterns.RemoveFirstVersion | src/lvm/task_tokens.py:158 | `VERSION_RE.sub(..., count=1)` leaves a marker-free name alone and otherwise cuts out exactly the leftmost marker |
| Patterns.RemoveFirstVersionKeepsPrefix | src/lvm/task_tokens.py:158 | the text before the removed marker is kept and the marker takes at least three characters |
| Patterns.FindFrame | src/lvm/task_tokens.py:29 | `FRAME_EXT_RE.search` finds the frame suffix, and none when there is none |
| Patterns.FrameSplit | src/lvm/task_tokens.py:29 | a frame suffix is '.' or '_', 3 to 8 digits, '.', and a non-empty run of word characters to the end |
| Patterns.FrameAtUnique | src/lvm/task_tokens.py:29 | a name has at most one frame suffix, because it is anchored at the end |
| Patterns.FindFrameFinds | src/lvm/task_tokens.py:29 | any frame suffix of the name is the one the search reports |
| Scanner.JoinSplitOn | src/lvm/scanner.py:43 | cutting a template at every '{version}' and joining the pieces again gives the template back |
| Scanner.SplitOnFinds | src/lvm/scanner.py:42 | the template has at least two pieces exactly when it contains '{version}' |
| Scanner.CompileVersionPattern | src/lvm/scanner.py:33-46 | a pattern holding '{version}' becomes a template, any other pattern stays a raw regex |
| Scanner.CompileKeepsLiterals | src/lvm/scanner.py:43 | the template's literal pieces, joined by '{version}', are the pattern itself |
| Scanner.Greedy | src/lvm/scanner.py:43-44 | each `(\d+)` backtracks from the longest digit run: the count it settles on fits, and no longer count does |
| Scanner.GreedyIsLargest | src/lvm/scanner.py:43-44 | started from the full digit run, the search finds the largest fitting count, or reports that none fits |
| Scanner.FindTemplate | src/lvm/scanner.py:81 | `search` returns the leftmost start where the template matches, and none when it matches nowhere |
| Scanner.TemplateNoMatch | src/lvm/scanner.py:81-83 | a template yields no number exactly when it matches at no start |
| Scanner.GreedyFindsLargestFit | src/lvm/scanner.py:43-44 | whenever a largest fitting digit count exists, that is the one the engine takes |
| Scanner.LeftmostIsFound | src/lvm/scanner.py:81 | a match with no match before it is the one the search returns |
| Scanner.TemplateCapture | src/lvm/scanner.py:81-84 | the captured number is the decimal value of the digits at the leftmost match with the largest fitting count |
| Scanner.SingleTokenTakesWholeRun | src/lvm/scanner.py:43-44 | with one placeholder followed by a non-digit or the end, the capture takes the whole digit run |
| Scanner.VersionLabel | src/lvm/scanner.py:85 | the label is 'v' and the number zero-padded to three characters: for n >= 0 digits reading back as n, exactly three of them below 1000; for n < 0 a '-' and digits reading back as -n, four characters in all above -100 ("v-01") |
| Scanner.LabelRoundTrip | src/lvm/scanner.py:85 | reading the digits of 'v' + zero-padded number gives the number back |
| Scanner.LabelInjective | src/lvm/scanner.py:85 | different version numbers get different labels |
| Scanner.ExtractVersion | src/lvm/scanner.py:76-86 | a version is found exactly when the pattern captures a number, and the label reads back as that number |
| Scanner.MediaFiles | src/lvm/scanner.py:147-154 | exactly the plain files whose text from the last '.', lowercased, is a valid extension are kept |
| Scanner.NamesOfMember | src/lvm/scanner.py:172-174 | a name is listed exactly when some file has it |
| Scanner.SizeOf | src/lvm/scanner.py:103 | the total is 0 for no file and the file's size for one, and covers every file |
| Scanner.SizeOfAppend | src/lvm/scanner.py:103 | the total of two lists together is the sum of their totals, so it is the sum of all file sizes |
| Scanner.CollectMedia | src/lvm/scanner.py:143-158 | exactly the media files of the folder are collected, sorted by name |
| Scanner.CollectFiles | src/lvm/scanner.py:138-158 | `_collect_files` lowercases the configured extensions and collects exactly the matching files, sorted |
| Scanner.ScanVersionFolder | src/lvm/scanner.py:88-114 | a folder yields a version exactly when its name has a version and it holds a media file; the version carries the label, path, file count, the total size and the frame summary of those files |
| Scanner.FolderWithoutMediaIsSkipped | src/lvm/scanner.py:97-100 | a versioned folder without a file of a configured extension yields no version |
| Scanner.ScanVersionFile | src/lvm/scanner.py:116-136 | a file yields a version exactly when its lowercased suffix is literally configured and its name has a version; it gets no frame range, frame count 1, file count 1 and its size |
| Scanner.LowerStrIdempotent | src/lvm/scanner.py:118-143 | lowercasing twice is lowercasing once |
| Scanner.UpperCaseExtensionsOnlyInFolders | src/lvm/scanner.py:118-143 | with only upper-case configured extensions a bare file is never a version, while the same file still counts inside a version folder |
| Scanner.ScanEntries | src/lvm/scanner.py:62-71 | the collected versions are exactly those some entry yields |
| Scanner.VersionLeTotalPreorder | src/lvm/scanner.py:73 | ordering by version number is a total preorder, so the stable sort applies |
| Scanner.Scan | src/lvm/scanner.py:48-74 | a missing source folder gives []; otherwise the versions of the entries, as a permutation, sorted ascending by version number |
| Scanner.ScanReportsEachEntry | src/lvm/scanner.py:60-74 | a version is reported exactly when some entry yields it |
| Scanner.LastIsLargest | src/lvm/scanner.py:197 | the last version of the sorted list has the largest number |
| Scanner.GetLatestVersion | src/lvm/scanner.py:194-197 | None exactly when the scan is empty; otherwise a scanned version with the largest number |
| Scanner.LatestIsLastOfHighest | src/lvm/scanner.py:73 | the stable sort keeps name order among equal numbers, so the latest version is the one of the highest number whose entry comes last by name (also lines 194-197) |
| Scanner.LatestExists | src/lvm/scanner.py:194-197 | whenever there is a latest version, there is such a last highest-numbered entry |
| Sorting.SortByLast | src/lvm/scanner.py:73 | `sorted` is stable: of the largest elements the one that came last ends up last |
| Sorting.LastLargestExists | src/lvm/scanner.py:73 | under a total preorder a non-empty list has a last largest element |
| Scanner.RuleOf | src/lvm/scanner.py:233-242 | the sibling rule keeps the name up to and including the frame divider, the digit count (3 to 8), and '.' + the lowercased extension |
| Scanner.RuleExtIsSuffix | src/lvm/scanner.py:236 | the rule's extension is the lowercased suffix of the file |
| Scanner.SiblingsOf | src/lvm/scanner.py:248-255 | exactly the entries matching the sibling rule are kept |
| Scanner.SiblingFiles | src/lvm/scanner.py:244-262 | exactly the media siblings matching the rule are collected, sorted |
| Scanner.DetectSequenceFromFile | src/lvm/scanner.py:208-282 | a missing file gives ([file], None, 0), an unframed one ([file], None, 1), and at least one file is always listed |
| Scanner.FramedSequence | src/lvm/scanner.py:258-282 | for a framed file: its matching media siblings in name order, or the file itself when there are none; no range with fewer than two files, otherwise the range text of their frames; the count is the number of files |
| Scanner.SequenceFiles | src/lvm/scanner.py:245-262 | at least one file is listed; characterised by Scanner.FramedSequence, Scanner.SequenceFilesAreSiblings and Scanner.SequenceFilesFramed |
| Scanner.OwnNameIsSibling | src/lvm/scanner.py:239-242 | a framed name matches its own sibling regex |
| Scanner.SiblingHasFrame | src/lvm/scanner.py:239-267 | a name matching a sibling rule carries a frame suffix at the same place |
| Scanner.SiblingFilesFramed | src/lvm/scanner.py:254-269 | every sibling found carries a frame number |
| Scanner.SequenceCountsEveryFile | src/lvm/scanner.py:264-273 | for a framed file, every listed file contributes a frame number |
| Scanner.SequenceFilesFramed | src/lvm/scanner.py:259-269 | every listed file, the fallback included, is framed |
| Scanner.SequenceFilesAreSiblings | src/lvm/scanner.py:233-262 | each listed file is the given file or a media sibling with the same prefix, digit count and extension (case-insensitive) |
| Scanner.SequenceKeepsDroppedFile | src/lvm/scanner.py:248-262 | a given file that is itself media is among the listed files |
| Scanner.ScanDirectoryAsVersion | src/lvm/scanner.py:285-330 | exactly the media files of the folder, in name order; no range and count 0 when there are none, no range and the file count below two framed files, otherwise the range text and the number of framed files |
| Scanner.CreateManualVersion | src/lvm/scanner.py:333-359 | the manual version copies its inputs and its label reads back as the given number |
| Scanner.ManualLabelMatchesScan | src/lvm/scanner.py:85 | a manual version gets the same label the scanner gives that number (also line 352) |
| FrameRanges.FramesOf | src/lvm/scanner.py:171-177 | the frame numbers are collected from the framed names only: none exactly when no name is framed, one per name when all are |
| FrameRanges.MinOf | src/lvm/scanner.py:182-183 | the first frame after sorting is the smallest one found |
| FrameRanges.MaxOf | src/lvm/scanner.py:182-184 | the last frame after sorting is the largest one found |
| FrameRanges.RangeText | src/lvm/scanner.py:185-190 | the summary always starts with "first-last" |
| FrameRanges.RangeTextNote | src/lvm/scanner.py:185-190 | the "(a/e frames, gaps detected)" note is left out exactly when the frame count equals last - first + 1 |
| FrameRanges.GapNoteMeansMissingFrame | src/lvm/scanner.py:185-190 | with distinct frames the note is left out exactly when every frame of the span is present |
| FrameRanges.RepeatedFrameReportsGap | src/lvm/scanner.py:185-190 | the same frame found twice is reported as a gap, since the count exceeds the span |
| FrameRanges.DetectFrameRange | src/lvm/scanner.py:160-192 | (None, 0) for no files, (None, 1) for one, (None, n) when nothing is framed; otherwise the range text of the frames and their count |
| FrameRanges.SequenceOf | src/lvm/scanner.py:264-282 | the standalone helpers report no range when fewer than two frames are found, with the file count; otherwise the range text and the frame count |
| FrameRanges.SummariesDisagreeOnOneFrame | src/lvm/scanner.py:179-192 | with a single framed file among several, the scanner reports "N-N" with count 1 while the standalone helpers report no range and the file count (also lines 272-273) |
| FrameRanges.SummariesAgree | src/lvm/scanner.py:179-192 | with two or more framed files both summaries agree (also lines 272-282) |
| Discovery.ValidExtensions | src/lvm/discovery.py:26-29 | no extension list means the media extensions; otherwise exactly the given ones (also line 62) |
| Discovery.VersionNumber | src/lvm/discovery.py:166 | a name has a number exactly when it carries a version marker, and the number is the value of the marker's digits (also lines 173, 188, 240) |
| Discovery.VersionedDirs | src/lvm/discovery.py:161-168 | exactly the visible directories with a version marker are versioned folders |
| Discovery.PlainSubdirs | src/lvm/discovery.py:161-170 | exactly the visible directories without a marker are walked into |
| Discovery.VersionedFiles | src/lvm/discovery.py:161-175 | exactly the visible files whose lowercased suffix is allowed and whose stem has a marker are versioned files |
| Discovery.SuggestPattern | src/lvm/discovery.py:330-339 | the suggested pattern is the matched divider, the 'v' in its original case, then '{version}' |
| Discovery.SuggestDropsLeadingText | src/lvm/discovery.py:333 | "hero_comp_v003" gives "_v{version}", not the "hero_comp_v{version}" of the first docstring example |
| Discovery.CompileSuggested | src/lvm/discovery.py:336-339 | the scanner compiles a suggested pattern to a template with the marker as its only literal |
| Discovery.SuggestedPatternRecoversVersion | src/lvm/discovery.py:215 | the suggested pattern, used by the scanner on the same name, captures the version number discovery read (also lines 268, 330-339) |
| Discovery.Dedup | src/lvm/discovery.py:179 | collecting into a set keeps every value once (also line 236) |
| Discovery.SortedUnique | src/lvm/discovery.py:229 | `sorted(set(...))` holds every value once, in increasing order (also line 275) |
| Discovery.SuffixesOf | src/lvm/discovery.py:198-199 | the suffixes collected are exactly the lowercased suffixes of the files (also lines 209-210, 242) |
| Discovery.MediaOf | src/lvm/discovery.py:284-300 | `_collect_media_files` keeps exactly the plain files whose lowercased text from the last '.' is an allowed extension |
| Discovery.ScanVersionDir | src/lvm/discovery.py:110-136 | a version folder gives its number and label, its path, one file count per media file, the frame summary of those files, and the sum of their sizes; an empty folder gives count 0, no range and size 0 |
| Discovery.DiscoveryKeepsEmptyVersionFolder | src/lvm/discovery.py:116-136 | a versioned folder without media, which the scanner drops, still yields a version with file count 0 and no range |
| Discovery.DirVersions | src/lvm/discovery.py:182-211 | one version per versioned folder, each scanned with the number of its marker |
| Discovery.DirExtensions | src/lvm/discovery.py:179 | the extensions found are exactly those of the media files of the versioned folders (also lines 198-199, 209-210) |
| Discovery.HitOf | src/lvm/discovery.py:239-255 | a versioned file contributes its path, size, and the number read from its stem |
| Discovery.IndexOf | src/lvm/discovery.py:244 | the lookup finds the version with the number, or reports that none has it |
| Discovery.AddHitNumbers | src/lvm/discovery.py:244-265 | a merge step adds the file's number and no other, and keeps one version per number |
| Discovery.AddHit | src/lvm/discovery.py:244-265 | a merge step opens at most one new version; characterised by Discovery.AddHitNumbers |
| Discovery.Merge | src/lvm/discovery.py:237-265 | definition; characterised by Discovery.MergeNumbers and Discovery.MergeByNumber |
| Discovery.MergeNumbers | src/lvm/discovery.py:237-265 | the merge holds exactly one version per number of some versioned file |
| Discovery.MergeByNumber | src/lvm/discovery.py:239-265 | each merged version has the path of the first file with its number, counts and sizes those files, and keeps frame count 0 and no range |
| Discovery.DirsResult | src/lvm/discovery.py:178-231 | the versions of the folders, as a permutation, sorted by version number |
| Discovery.FilesResult | src/lvm/discovery.py:234-277 | the merged versions, as a permutation, sorted by number, with the first versioned file as sample |
| Discovery.FilesResultVersions | src/lvm/discovery.py:234-277 | the reported versions are sorted, each merged from the files with its number, and cover exactly the files' numbers |
| Discovery.Here | src/lvm/discovery.py:177-277 | a directory is reported exactly when it has a versioned folder or a versioned file, under its own path and name |
| Discovery.VersionFoldersWin | src/lvm/discovery.py:178 | when versioned folders are present, versioned files are ignored (also line 234) |
| Discovery.EveryVersionFolderReported | src/lvm/discovery.py:116-136 | every versioned folder, with media or not, gives a version of the reported directory (also lines 178-231) |
| Discovery.ResultExtensions | src/lvm/discovery.py:179 | the suggested extensions are sorted, duplicate-free, and exactly the lowercased suffixes of the media found (also lines 198-199, 229, 242, 275) |
| Discovery.Subdirs | src/lvm/discovery.py:160-170 | the walk descends into exactly the visible child directories without a version marker |
| Discovery.WalkBy | src/lvm/discovery.py:139-281 | nothing is reported beyond max_depth; otherwise characterised by Discovery.WalkByRoute, Discovery.RouteIsWalked and Discovery.WalkByExactly |
| Discovery.Walk | src/lvm/discovery.py:65 | the walk `discover` starts at depth 0 (body at lines 139-281); definition; characterised by Discovery.WalkExactly and Discovery.WalkReportsHere |
| Discovery.WalkAllPick | src/lvm/discovery.py:279-281 | a report of the recursion comes from the walk of one of the subfolders |
| Discovery.WalkAllHas | src/lvm/discovery.py:279-281 | every report of a subfolder's walk is among the reports of the recursion |
| Discovery.WalkByRoute | src/lvm/discovery.py:139-281 | soundness: every report is the report of a directory reached through at most max_depth - depth visible non-versioned folders |
| Discovery.RouteIsWalked | src/lvm/discovery.py:139-281 | completeness: the report of every directory reached through at most max_depth - depth visible non-versioned folders is in the walk |
| Discovery.WalkByExactly | src/lvm/discovery.py:139-281 | a result is reported if and only if it is the report of a directory within max_depth - depth visible non-versioned levels |
| Discovery.ReportIsHere | src/lvm/discovery.py:177-277 | the report made for each visited directory is `Here` of its entries in name order |
| Discovery.WalkExactly | src/lvm/discovery.py:139-281 | the walk discover starts reports exactly what `Here` makes of the directories within max_depth - depth visible non-versioned levels |
| Discovery.WalkReportsHere | src/lvm/discovery.py:177-231 | every directory within reach that holds a visible versioned folder or versioned file is reported with its own path, and the starting directory's report comes first (also lines 234-281) |
| Discovery.LowerAll | src/lvm/discovery.py:82-83 | every keyword is lowercased |
| Discovery.ApplyFilters | src/lvm/discovery.py:75-107 | a result is kept exactly when no blacklist keyword occurs in its search text and, with a whitelist, some whitelist keyword does |
| Discovery.NoKeywordsKeepsAll | src/lvm/discovery.py:68-69 | with both lists empty nothing is filtered |
| Discovery.Discover | src/lvm/discovery.py:32-72 | a missing root gives []; a root that is not a directory fails; the results are sorted by path |
| Discovery.DiscoverReports | src/lvm/discovery.py:57-72 | the results are exactly the walked results that pass the filters, and exactly the reports of directories within max_depth visible non-versioned levels of the root that pass them |
| Discovery.DiscoverFindsEveryLocation | src/lvm/discovery.py:41-43 | every directory within max_depth visible non-versioned levels that holds versioned folders or files is reported when it passes the filters, always when there are none (also lines 55-72) |
| Timecode.Read | src/lvm/timecode.py:46 | `f.read(n)` gives n bytes when they are there and fewer at the end of the data (also lines 61-62, 67, 70, 160-162) |
| Timecode.LE32RoundTrip | src/lvm/timecode.py:64 | four bytes written least significant first read back with `struct.unpack("<I")` as the same word (also line 113) |
| Timecode.GroupsAreValid | src/lvm/timecode.py:128-135 | four non-empty digit groups joined by ':' or ';', eight characters or more, pass the validator |
| Timecode.IsValidTimecodeString | src/lvm/timecode.py:128-135 | definition; characterised by Timecode.GroupsAreValid, Timecode.TextIsValid and Timecode.ThreeGroupsAreInvalid |
| Timecode.TextIsValid | src/lvm/timecode.py:123-135 | every "HH:MM:SS:FF" the decoders produce passes the validator |
| Timecode.ThreeGroupsAreInvalid | src/lvm/timecode.py:132-134 | digit groups separated by only two ':' are rejected |
| Timecode.WordNibbles | src/lvm/timecode.py:113-117 | each 4-bit field of the little-endian word is a nibble of one of the four bytes |
| Timecode.SmpteWordIsBytes | src/lvm/timecode.py:113-117 | reading the fields from the word gives the same time as reading them from the bytes |
| Timecode.DecodeSmpte | src/lvm/timecode.py:101-125 | a result needs at least 8 bytes and is a valid timecode string; hours > 23, minutes > 59 or seconds > 59 give None |
| Timecode.DecodeSmpteWord | src/lvm/timecode.py:110-123 | with 8 bytes, the result is the formatted time of frames = bits 0-3 + 10·bits 4-5, seconds = bits 8-11 + 10·bits 12-14, minutes = bits 16-19 + 10·bits 20-22, hours = bits 24-27 + 10·bits 28-29 of the first little-endian word, or None when out of range |
| Timecode.SmpteReadsFirstWord | src/lvm/timecode.py:113 | bytes 4 to 7 are ignored |
| Timecode.SmpteIgnoresFlags | src/lvm/timecode.py:114-117 | the flag bits 6, 7, 15, 23, 30 and 31 do not change the decoded time |
| Timecode.SmpteRoundTrip | src/lvm/timecode.py:101-123 | packing BCD digits of a time with h <= 23, m <= 59, s <= 59, f <= 39 at the documented positions and decoding gives "HH:MM:SS:FF", each field padded to two digits |
| Timecode.ReadDpx | src/lvm/timecode.py:142-187 | a result needs the 'SDPX' or 'XPDS' magic and four bytes at offset 1920, and is a valid timecode string |
| Timecode.DpxReadsWord | src/lvm/timecode.py:164-183 | the word at 1920 is read big-endian after 'SDPX' and little-endian after 'XPDS'; 0xFFFFFFFF or a field out of range gives None, else the time with each field tens·10 + units |
| Timecode.DpxRoundTripBE | src/lvm/timecode.py:151-152 | a valid time stored big-endian at offset 1920 behind 'SDPX' reads back as its text (also lines 159-183) |
| Timecode.DpxRoundTripLE | src/lvm/timecode.py:153-183 | the same behind 'XPDS' with the word stored little-endian |
| Timecode.DpxRejects | src/lvm/timecode.py:150-162 | any other magic, or a short read at offset 1920, gives None |
| Timecode.ReadNull | src/lvm/timecode.py:90-98 | the string read holds no NUL and the position moves past it |
| Timecode.ReadNullOf | src/lvm/timecode.py:90-98 | a NUL-terminated string reads back without its NUL, and reading resumes after the NUL |
| Timecode.TrimNul | src/lvm/timecode.py:71 | `rstrip(b"\x00")` removes exactly the trailing zero bytes |
| Timecode.StripLeft | src/lvm/timecode.py:71 | `lstrip` removes a prefix and leaves no leading white space |
| Timecode.StripRight | src/lvm/timecode.py:71 | `rstrip` removes a suffix and leaves no trailing white space |
| Timecode.StripDecoded | src/lvm/timecode.py:71 | stripping the bytes before decoding them as ASCII is the same as `.strip()` on the decoded text |
| Timecode.NukeTimecode | src/lvm/timecode.py:70-73 | the Nuke string is kept only when it passes the validator |
| Timecode.Prefer | src/lvm/timecode.py:83 | the SMPTE timecode wins over the Nuke string when both are there |
| Timecode.NextAttr | src/lvm/timecode.py:56-64 | the next attribute header ends after its position and within the data |
| Timecode.Take | src/lvm/timecode.py:66-77 | only a 'timeCode' attribute of type 'timecode' and size 8 changes the SMPTE slot, and only a 'nuke/input/timecode' string of size <= 32 changes the Nuke slot |
| Timecode.AttrsValid | src/lvm/timecode.py:55-83 | whatever the walk returns is a valid timecode string |
| Timecode.ReadExr | src/lvm/timecode.py:34-87 | a wrong magic gives None; any result is a valid timecode string |
| Timecode.HeaderOf | src/lvm/timecode.py:56-64 | a written attribute (name NUL, type NUL, u32-LE size, value) reads back as written |
| Timecode.ExrSkipsOther | src/lvm/timecode.py:74-76 | an attribute that is neither timecode is skipped by its size |
| Timecode.ExrReadsTimeCode | src/lvm/timecode.py:66-80 | a 'timeCode' attribute is decoded from its 8 bytes, and the walk stops when both timecodes are then known |
| Timecode.ExrReadsNuke | src/lvm/timecode.py:69-80 | a Nuke attribute is read, trimmed and validated, and the walk stops when both timecodes are then known |
| Timecode.ExrEnds | src/lvm/timecode.py:57-83 | an empty name ends the header with the preferred timecode |
| Timecode.AttrsAtEnd | src/lvm/timecode.py:56-83 | when no further header can be read, the walk answers with the preferred timecode |
| Timecode.NukeThenTimeCode | src/lvm/timecode.py:55-83 | a Nuke attribute followed by a 'timeCode' attribute gives the SMPTE time when it decodes, else the Nuke string |
| Timecode.SmpteWinsOverNuke | src/lvm/timecode.py:79-83 | a valid SMPTE time address wins over an earlier Nuke string |
| Timecode.ExrReadsSmpte | src/lvm/timecode.py:34-83 | an EXR header holding a packed 'timeCode' attribute yields that time's text |
| Timecode.ExrTimeCodeThenEnd | src/lvm/timecode.py:55-83 | a single 'timeCode' attribute and the end of the header give its decoded value |
| Timecode.ExrWalksFrom8 | src/lvm/timecode.py:46-49 | behind the magic, the four version bytes are skipped and the walk starts at offset 8 |
| Timecode.NoAttrAtZero | src/lvm/timecode.py:56-58 | a zero byte where a name would start ends the header |
| Timecode.NukeThenEnd | src/lvm/timecode.py:69-83 | a single Nuke attribute gives the validated Nuke string |
| Timecode.ExrNukeThenEnd | src/lvm/timecode.py:69-83 | a written Nuke attribute followed by the end of the header gives its validated value |
| Timecode.ExrFallsBackToNuke | src/lvm/timecode.py:34-83 | an EXR header with only a Nuke attribute yields the validated Nuke string |
| Timecode.Contents | src/lvm/timecode.py:43-44 | a file's bytes are readable exactly when a file lies at the path (also line 149) |
| Timecode.ExtractTimecode | src/lvm/timecode.py:264-280 | '.exr' and '.dpx' (lowercased suffix) use the native readers and give only valid strings; other extensions ask the external probe |
| Timecode.NativeReaders | src/lvm/timecode.py:275-278 | '.exr' goes to the EXR reader and '.dpx' to the DPX reader |
| Timecode.FirstTimecode | src/lvm/timecode.py:320-324 | a found timecode comes from a non-hidden file of the folder |
| Timecode.FirstTimecodeNone | src/lvm/timecode.py:320-326 | nothing is found exactly when no non-hidden file yields a timecode |
| Timecode.FirstTimecodeIsFirst | src/lvm/timecode.py:320-324 | the timecode found is that of the first file, in order, that yields one |
| Timecode.FirstTimecodeSkipsOthers | src/lvm/timecode.py:321 | hidden entries and non-files do not change the answer |
| Timecode.Candidates | src/lvm/timecode.py:321 | only non-hidden files are tried |
| Timecode.ExtractForVersion | src/lvm/timecode.py:298-326 | a file is read directly; a folder with a file list uses its first file; anything else gives None |
| Timecode.FolderScan | src/lvm/timecode.py:315-326 | a folder without a file list gives the timecode of the first non-hidden file, in sorted order, that yields one, and None exactly when none does |
| Timecode.Populate | src/lvm/timecode.py:283-295 | only versions without a timecode are filled in, from their source path; the others stay as they are |
| Timecode.PopulateIdempotent | src/lvm/timecode.py:283-295 | populating twice is populating once |
| History.SidecarPathsDiffer | src/lvm/history.py:49-69 | the record, its '.json.bak' backup and its '.json.tmp' temp file are three different paths |
| History.MapResult | src/lvm/history.py:44 | decoding a list succeeds with one entry per item, or fails with the error of some item |
| History.MapResultRoundTrip | src/lvm/history.py:44-65 | decoding what an inverse encoder wrote gives the list back |
| History.EntriesFromJson | src/lvm/history.py:44 | the history decodes item by item, and a failure is a KeyError or TypeError |
| History.HistoryOf | src/lvm/history.py:44 | a missing or non-list 'history' decodes only when it iterates as empty (an empty string or object), otherwise it raises TypeError |
| History.Parse | src/lvm/history.py:41-45 | a JSON value that is not an object raises an AttributeError, which `load` does not catch; every other failure is one it catches |
| History.Backup | src/lvm/history.py:49-51 | the rename moves the record to its backup name and touches no other file |
| History.Load | src/lvm/history.py:31-53 | a missing file gives no current entry and an empty history; a readable record is returned as parsed with the store unchanged; a corrupt one is renamed to '.json.bak' and the empty record returned; only an uncaught error fails |
| History.LoadIdempotent | src/lvm/history.py:31-53 | loading again after a load gives the same record and store |
| History.CorruptRecordIsKept | src/lvm/history.py:46-53 | an unparseable record is moved to the backup name intact, and the next load finds no record |
| History.EntriesToJson | src/lvm/history.py:65 | one JSON object per entry |
| History.Trim | src/lvm/history.py:17 | at most 100 entries are kept, namely the first ones, and all of them when there are at most 100 (also line 61) |
| History.Save | src/lvm/history.py:55-81 | the temp file never survives; without a fault the record holds exactly the new document; on a fault the old record is left untouched and the error re-raised; no other file changes |
| History.EntryCodecInverse | src/lvm/history.py:43-65 | every entry decodes back from what it encodes to |
| History.EntriesRoundTrip | src/lvm/history.py:44-65 | the history list decodes back from what it encodes to |
| History.EntryIsTruthy | src/lvm/history.py:43-64 | a saved current entry is a non-empty object, so `load` decodes it instead of reading None |
| History.DocumentParses | src/lvm/history.py:43-66 | the saved document parses as the current entry and the trimmed history |
| History.SaveThenLoad | src/lvm/history.py:31-81 | what a successful save writes, a load reads back: current and the first 100 history entries |
| History.RecordPromotion | src/lvm/history.py:93-107 | recording fails exactly when the load fails, and otherwise saves the entry as current with the entry prepended to the loaded history |
| History.TrimPrepend | src/lvm/history.py:61 | after prepending and trimming, the new entry is first and the rest is the old history in order, cut to 100 in total (also line 105) |
| History.RecordedPromotionIsCurrent | src/lvm/history.py:97-107 | after a successful record, a load gives the entry as current and as history[0], followed by the previous history |
| History.FailedRecordKeepsRecord | src/lvm/history.py:77-107 | a failed save reports an OSError and leaves the record the load left |
| History.GetCurrent | src/lvm/history.py:83-86 | the current entry of a load |
| History.GetHistory | src/lvm/history.py:88-91 | the history of a load, newest first |
| History.Classify | src/lvm/history.py:119-143 | no record with files is invalid, no record and no files is valid, a record with no files is invalid; otherwise invalid exactly when the recorded count is positive and differs from the file count |
| History.VerifyIntegrity | src/lvm/history.py:109-143 | the verdict is the classification of the loaded current entry against the files, and fails only when the load fails |
| History.RecordedCountIsChecked | src/lvm/history.py:93-143 | right after recording an entry with a positive file count, the check passes exactly when that many files are present |
| Models.ReqStr | src/lvm/models.py:109-110 | `data[key]` raises KeyError for a missing key and reads back exactly the string stored (also lines 207-208) |
| Models.GetStr | src/lvm/models.py:111-112 | `data.get(key, default)` gives the default for a missing key and otherwise exactly the stored string (also lines 209-216) |
| Models.GetBool | src/lvm/models.py:217-221 | `data.get(key, False)` gives the default for a missing key and otherwise the stored flag (also line 321) |
| Models.GetInt | src/lvm/models.py:114-115 | `data.get(key, 0)` gives the default for a missing key and otherwise the stored integer |
| Models.GetOptStr | src/lvm/models.py:113-116 | `data.get(key)` is None for a missing key or null, and otherwise the stored string |
| Models.GetOptReal | src/lvm/models.py:117-118 | `data.get(key)` is None for a missing key or null, and the stored number when there is one |
| Models.AsStrList | src/lvm/models.py:210 | a JSON array of strings reads as exactly that list (also lines 312, 316-323) |
| Models.GetStrList | src/lvm/models.py:210 | a list field gives the default when missing and otherwise exactly the stored list (also lines 312, 316-323) |
| Models.StrListRoundTrip | src/lvm/models.py:170 | a list of strings written to JSON reads back unchanged (also line 210) |
| Models.OptStr | src/lvm/models.py:95-98 | None is written as null and nothing else is |
| Models.WriteIf | src/lvm/models.py:100-103 | an optional key is written exactly when its condition holds (also lines 175-191, 271-300) |
| Models.ObjectOfOther | src/lvm/models.py:89-104 | a key outside the written table never appears in the object (also lines 165-192, 266-301) |
| Models.ObjectLookup | src/lvm/models.py:89-104 | with distinct keys, a written key holds its value and an unwritten one is absent (also lines 165-192, 266-301) |
| Models.HistoryEntryToJson | src/lvm/models.py:89-104 | `to_dict` writes the mtime keys exactly when the mtimes are known |
| Models.HistoryEntryFromJson | src/lvm/models.py:106-119 | `from_dict` fails on a missing 'version' or 'source' and defaults set_by to 'unknown', set_at to '', the counts to 0 and the mtimes to None |
| Models.HistoryEntryHeadLookups | src/lvm/models.py:90-113 | the version, source, user, date and frame range read back from where `to_dict` writes them |
| Models.HistoryEntryTailLookups | src/lvm/models.py:96-118 | the counts, timecode and mtimes read back from where `to_dict` writes them |
| Models.HistoryEntryRoundTrip | src/lvm/models.py:89-119 | `from_dict(to_dict(e)) == e` for every entry |
| Models.HistoryEntryFromVersionInfo | src/lvm/models.py:121-132 | the entry copies the label, path, frame range and count, file count and timecode of the version, with the given user and date and no mtimes |
| Models.FromVersionInfoSerialises | src/lvm/models.py:100-103 | a fresh entry is written without mtime keys and reads back unchanged (also lines 121-132) |
| Models.NewWatchedSource | src/lvm/models.py:135-153 | a new source has the default pattern, extensions, link mode 'copy' and history name, and no overrides |
| Models.WatchedSourceWritesLinkMode | src/lvm/models.py:165-174 | `to_dict` always writes 'link_mode' and never the legacy 'use_symlinks' keys |
| Models.LinkModeOf | src/lvm/models.py:196-202 | 'link_mode' when present, else 'symlink' when use_symlinks is truthy, else 'copy' |
| Models.OverrideLinkOf | src/lvm/models.py:203-205 | override_link_mode falls back to override_use_symlinks, then to False |
| Models.WatchedSourceFromJson | src/lvm/models.py:194-222 | `from_dict` needs 'name' and 'source_dir', takes the link mode and its override through the legacy fallbacks, and defaults the pattern, extensions and history name |
| Models.DefaultedStrRoundTrip | src/lvm/models.py:175-180 | a string written only when it differs from its default reads back as itself (also lines 271-300) |
| Models.DefaultedListRoundTrip | src/lvm/models.py:277-298 | a list written only when it differs from its default reads back as itself |
| Models.FlagRoundTrip | src/lvm/models.py:181-191 | a flag written only when set reads back as itself (also lines 293-294) |
| Models.WatchedSourceNameLookups | src/lvm/models.py:167-170 | name, folder, pattern and extensions read back from where `to_dict` writes them (also lines 207-210) |
| Models.WatchedSourceTargetLookups | src/lvm/models.py:171-173 | the target, history name and link mode read back (also lines 211-214) |
| Models.WatchedSourceOptionLookups | src/lvm/models.py:175-180 | the rename template, sample file and group, written only when non-empty, read back (also lines 212-216) |
| Models.WatchedSourceFlagLookups | src/lvm/models.py:181-189 | the override flags, written only when set, read back (also lines 217-220) |
| Models.WatchedSourceOverrideLinkLookup | src/lvm/models.py:190-205 | the link-mode override reads back through its current key |
| Models.WatchedSourceRoundTrip | src/lvm/models.py:165-222 | `from_dict(to_dict(s)) == s` for every source, because optional keys are omitted only when they hold their defaults |
| Models.LegacySymlinkRecord | src/lvm/models.py:196-205 | an old record with use_symlinks and override_use_symlinks set loads as a 'symlink' source that has overrides (also lines 160-163) |
| Models.EffectiveProjectRoot | src/lvm/models.py:257-264 | the explicit project root when non-empty, else the config's folder |
| Models.SourcesFromJson | src/lvm/models.py:305 | the sources decode one by one, and any failure fails the whole |
| Models.SourcesRoundTrip | src/lvm/models.py:269 | the source list reads back unchanged (also line 305) |
| Models.GroupsToJson | src/lvm/models.py:287-288 | the groups table is written with the same group names |
| Models.GroupsFromJson | src/lvm/models.py:318 | a decoded groups table is what the encoder writes for it |
| Models.GroupsRoundTrip | src/lvm/models.py:287-288 | the groups table reads back unchanged (also line 318) |
| Models.ProjectConfigNeverWritten | src/lvm/models.py:254-255 | `to_dict` never writes project_dir or the legacy default_use_symlinks (also lines 266-301) |
| Models.ProjectConfigOmitsDefaults | src/lvm/models.py:279-282 | the rename template is written exactly when non-empty and not the default; the link mode exactly when not 'copy' |
| Models.DefaultLinkModeOf | src/lvm/models.py:314-315 | default_link_mode, else 'symlink' when default_use_symlinks is truthy, else 'copy' |
| Models.GetSources | src/lvm/models.py:305 | a missing source list reads as empty |
| Models.GetGroups | src/lvm/models.py:318 | a missing groups table reads as empty |
| Models.ProjectConfigFromJson | src/lvm/models.py:303-325 | `from_dict` leaves project_dir empty, reads the link mode through the legacy fallback, and defaults the name to 'Untitled', the rename template and the timecode mode |
| Models.Reloaded | src/lvm/models.py:255 | what a reload gives: project_dir cleared, and an empty rename template replaced by "{source_basename}_latest" (also lines 279-280, 313) |
| Models.ProjectConfigNameLookups | src/lvm/models.py:268 | the project name and project root read back (also lines 299-300, 307, 324) |
| Models.ProjectConfigTemplateLookups | src/lvm/models.py:271-274 | the base and latest path templates read back (also lines 309-310) |
| Models.ProjectConfigPatternLookups | src/lvm/models.py:275-278 | the default version pattern and extensions read back (also lines 311-312) |
| Models.ProjectConfigPublishLookups | src/lvm/models.py:279-282 | the rename template reads back, an empty one as the default, and the link mode reads back (also lines 313-315) |
| Models.ProjectConfigNamingLookups | src/lvm/models.py:289-296 | the task tokens, naming rule, naming flag and timecode mode read back (also lines 319-322) |
| Models.ProjectConfigTableLookups | src/lvm/models.py:269 | the sources and groups read back (also lines 287-288, 305, 308, 318) |
| Models.ProjectConfigListLookups | src/lvm/models.py:283-286 | the discovery filters and search history read back (also lines 297-298, 316-317, 323) |
| Models.ProjectConfigRoundTrip | src/lvm/models.py:266-325 | `from_dict(to_dict(c))` is c with project_dir cleared and an empty rename template restored to the default |
| Models.ReloadedEffectiveRoot | src/lvm/models.py:255-264 | after a reload the effective project root is the explicit root, since project_dir is not saved |
| Models.AllTokens | src/lvm/models.py:23-25 | project_root is supplied as project_dir only when the caller did not give it |
| Models.ExpandWithoutPlaceholders | src/lvm/models.py:27-30 | a template holding no '{key}' of the given keys is left intact |
| Models.ExpandSinglePlaceholder | src/lvm/models.py:27-30 | a template that is one placeholder becomes that token's value |
| Models.ResolvePath | src/lvm/models.py:15-37 | the result is in normal form, its components are those of project_dir (for a relative expansion) followed by those of the expanded template, and it is absolute exactly when the expansion or the project_dir it is placed under is |
| Models.ProjectRootDefaultsToProjectDir | src/lvm/models.py:23-37 | with no tokens, '{project_root}' resolves to the normal form of an absolute project folder |
| Models.ProjectRootTrailingSlash | src/lvm/models.py:23-37 | a project folder "/proj/" resolves to "/proj" |
| Paths.Normal | src/lvm/models.py:33-37 | `str(Path(p))` is never empty and is absolute exactly when p is |
| Paths.NormalKeepsComponents | src/lvm/models.py:33-37 | normalising keeps exactly the components of the path |
| Paths.NormalIdempotent | src/lvm/models.py:33-37 | a normalised path normalises to itself |
| Paths.NormalDropsTrailingSlash | src/lvm/models.py:33-37 | "/proj/" becomes "/proj" |
| Paths.NormalDropsDoubledSlash | src/lvm/models.py:33-37 | "a//b" becomes "a/b" |
| Paths.NormalOfEmpty | src/lvm/models.py:33-37 | "" becomes "." |
| Paths.JoinComponents | src/lvm/models.py:33-37 | `Path(project_dir) / path` for a relative path has the folder's components followed by the path's |
| Config.RemoveGroupTokensAbsent | src/lvm/config.py:22-36 | a text without '{group}' passes through the substitution unchanged |
| Config.RemoveGroupTokens | src/lvm/config.py:22-36 | `_GROUP_TOKEN_RE.sub("", s)` never lengthens the text; definition characterised by Config.RemoveGroupTokensAbsent, Config.RemoveTokenAndTrail and Config.RemoveIsReplaceWithoutTrail |
| Config.RemoveIsReplaceWithoutTrail | src/lvm/config.py:22-36 | when no '{group}' is followed by a divider, the substitution removes exactly the tokens |
| Config.RemoveTokenAndTrail | src/lvm/config.py:22-36 | a '{group}' followed by one of / \ _ . - disappears together with that one character |
| Config.ExpandGroupToken | src/lvm/config.py:25-36 | a template without '{group}' is returned unchanged; a non-empty group replaces every '{group}'; an empty group removes each token with at most one following divider |
| Config.SettingsOf | src/lvm/config.py:45-70 | the settings carry the configuration's effective project root |
| Config.SettingsIgnoreSources | src/lvm/config.py:53-88 | replacing the sources does not change the project settings the loop reads |
| Config.ResolveGroupRoot | src/lvm/config.py:39-50 | the group's root_dir when it is set, otherwise the effective project root |
| Config.AnchorTarget | src/lvm/config.py:78-83 | an absolute target stays as it is; a relative one is put under the source folder, else under the project folder |
| Config.TargetPath | src/lvm/config.py:67-83 | the filled-in target is absolute whenever the source folder is, or when there is none and the project folder is |
| Config.LatestTarget | src/lvm/config.py:64-84 | the latest target is the resolved, anchored template with every placeholder of the source filled in; it fails only when the group root cannot be read |
| Config.ApplyToSource | src/lvm/config.py:59-88 | one pass of the loop fails only on an unreadable group root when the target is recomputed, and never changes the source's identity, history file or override flags |
| Config.ApplyHonoursOverrides | src/lvm/config.py:60-88 | every field whose override flag is set is left alone, and the others take the project default |
| Config.ApplyRetargets | src/lvm/config.py:64-84 | the latest target is recomputed exactly when it is not overridden and the template is non-empty, and kept otherwise |
| Config.LatestTargetOfIdentity | src/lvm/config.py:64-84 | the latest target depends only on fields the defaults never change |
| Config.ApplyToSources | src/lvm/config.py:59 | every source goes through the same pass, and the loop fails exactly when some source's pass fails |
| Config.ApplyProjectDefaults | src/lvm/config.py:53-88 | only the sources change, each by its own pass, and the whole fails exactly when some pass fails |
| Config.ApplyToSourceIdempotent | src/lvm/config.py:59-88 | applying the defaults twice to a source is applying them once |
| Config.ApplyToSourcesIdempotent | src/lvm/config.py:59-88 | the same for a list of sources |
| Config.ApplyProjectDefaultsIdempotent | src/lvm/config.py:53-88 | applying the project defaults twice is applying them once |
| Config.FullyOverriddenUnchanged | src/lvm/config.py:59-88 | a source that overrides every field comes out exactly as it went in |
| Config.SpacesToUnderscores | src/lvm/config.py:177 | `str.replace(" ", "_")` keeps the length, turns each space into '_' and keeps every other character in place |
| Config.ReplaceSpaces | src/lvm/config.py:177 | the general `str.replace` model, applied to " " and "_", keeps the length, turns each space into '_' and keeps every other character in place |
| Config.KeepNameChars | src/lvm/config.py:178 | only word characters and '-' remain, and the result is no longer |
| Config.KeepNameCharsCounts | src/lvm/config.py:178 | each word character and '-' is kept as often as it occurs, every other character never |
| Config.KeepNameCharsAppend | src/lvm/config.py:178 | the substitution distributes over concatenation |
| Config.KeepNameCharsSplits | src/lvm/config.py:178 | in place, a word character or '-' is kept and any other character dropped, the rest in order |
| Config.KeepAllNameChars | src/lvm/config.py:178 | a text of word characters and '-' is kept whole |
| Config.NoNameChars | src/lvm/config.py:178 | a text without them is dropped whole |
| Config.SanitizeFilename | src/lvm/config.py:170-179 | the result is non-empty and made only of lowercase letters, digits, '_' and '-' |
| Config.SanitizeFallsBack | src/lvm/config.py:170-179 | a stripped name with no letter, digit, '_', '-' or space becomes "project" |
| Config.SanitizePlainName | src/lvm/config.py:170-179 | a non-empty stripped name of letters, digits, '_', '-' and spaces is lowercased character by character with each space turned into '_' |
| Config.SanitizeNothingKept | src/lvm/config.py:170-179 | "!!!" becomes "project" |
| Config.SanitizeSafeName | src/lvm/config.py:170-179 | a name already made of safe characters is its own sanitised form |
| Config.SanitizeIdempotent | src/lvm/config.py:170-179 | sanitising twice is sanitising once |
| Promoter.TemplateWithoutPlaceholders | src/lvm/promoter.py:254-259 | a rename template without any of the four placeholders is used verbatim as the base name |
| Promoter.ExpandTemplate | src/lvm/promoter.py:254-259 | definition; characterised by Promoter.TemplateWithoutPlaceholders and Config.ExpandGroupToken |
| Promoter.Unversioned | src/lvm/promoter.py:227-231 | without a template the result has no two adjacent dividers and is never longer than the input |
| Promoter.WithFrame | src/lvm/promoter.py:234-263 | with a frame suffix, the remapped name is the base followed by the original separator, frame digits, dot and extension, unchanged |
| Promoter.WithExtension | src/lvm/promoter.py:240-265 | without a frame suffix, the remapped name is the base followed by the original last suffix, or by a bare dot when the name has none |
| Strs.CollapseNothing | src/lvm/promoter.py:230 | collapsing divider runs leaves a text with no adjacent dividers unchanged |
| Promoter.PlainNameKept | src/lvm/promoter.py:227-231 | without a template, a name with no version marker and no divider run is kept as it is |
| Promoter.RemapDropsVersion | src/lvm/promoter.py:227-231 | without a template "hero_comp_v003.1001.exr" becomes "hero_comp.1001.exr" |
| Promoter.LockedFiles | src/lvm/promoter.py:315-333 | the locked list holds exactly the names of matching files that cannot be opened for appending |
| Promoter.Matches | src/lvm/promoter.py:146 | the shared test `f.is_file() and f.suffix.lower() in valid_extensions` (also lines 270, 356, 422); definition; characterised by Promoter.ActualFiles, Promoter.LockedFiles and Promoter.ClearTarget |
| Promoter.HasMediaFiles | src/lvm/promoter.py:117-133 | definition; characterised by Promoter.FolderMtime and Promoter.LockedTargetRefused |
| Promoter.Take | src/lvm/promoter.py:95 | at most the first ten locked names are shown, as a prefix of the list |
| Promoter.ClearTarget | src/lvm/promoter.py:267-276 | clearing fails exactly when some matching file cannot be removed, and names such a file; when it succeeds, exactly the entries that are neither matching files nor links remain |
| Promoter.LockCheckCoversClear | src/lvm/promoter.py:90-96 | when no extension is empty, a target that passes the lock check (or holds no media file) is always cleared without error |
| Promoter.Placed | src/lvm/promoter.py:278-289 | the placed entry has the target name and the source's contents, and is a symbolic link exactly in symlink mode |
| Promoter.LinkOrCopy | src/lvm/promoter.py:278-289 | placing fails exactly when a folder or a locked file holds the target name, since the unlink is unguarded; otherwise the new entry replaces any entry of that name and all other entries stay, keeping names unique |
| Promoter.TargetNames | src/lvm/promoter.py:159-161 | each source file is placed under its remapped name, in order |
| Promoter.Transfer | src/lvm/promoter.py:155-168 | after placing every file, every target name is present, an earlier entry survives exactly when no file took its name, every other entry was made for one of the files, and names stay unique; a failure is a file-operation error |
| Promoter.FolderFiles | src/lvm/promoter.py:143-147 | the files of a version folder are exactly its matching files, each with its path under the folder |
| Promoter.SourceFiles | src/lvm/promoter.py:352-358 | a promotion or preview works on a version folder's matching files, the version file itself, or nothing |
| Promoter.Place | src/lvm/promoter.py:99-102 | a version folder without matching files stops with the target untouched; other errors are a failed removal or a failed file operation |
| Promoter.MaxMediaMtime | src/lvm/promoter.py:387-404 | the loop's maximum is at least 0.0, bounds every media file's mtime and is one of them unless it is 0.0 |
| Promoter.FolderMtime | src/lvm/promoter.py:385-407 | a folder's max mtime is None exactly when it holds no media file, and otherwise bounds every media file's mtime |
| Promoter.MaxMtime | src/lvm/promoter.py:401-407 | a single file's max mtime is its own mtime; a missing path gives None |
| Promoter.Record | src/lvm/promoter.py:109-115 | the promotion returns the entry exactly when the history record succeeds, and the saved store is the record's result |
| Promoter.Promote | src/lvm/promoter.py:50-115 | a missing source changes nothing and fails; the history changes or the call succeeds only when the source exists, the target is not blocked and every file was placed |
| Promoter.LockedTargetRefused | src/lvm/promoter.py:89-96 | the promotion is refused as locked exactly when the source exists and the target holds media files some of which are locked; nothing is removed and at most ten locked names are listed |
| Promoter.NoMatchingFilesKeepsTarget | src/lvm/promoter.py:149-150 | a version folder without matching files fails before the target is cleared or the history touched |
| Promoter.PlacingErrors | src/lvm/promoter.py:98-106 | the placing step stops only with a failed file operation, a failed removal, or no matching files with the target untouched |
| Promoter.PromotionIsRecorded | src/lvm/promoter.py:108-115 | after a promotion the history's current entry is the returned entry, carrying the version's fields, the user, the time and the mtime snapshots taken after placing |
| Promoter.FolderPromotionReplacesMedia | src/lvm/promoter.py:135-168 | after a folder promotion, every matching file and link in the target was made for one of the version's files |
| Promoter.SizesAgree | src/lvm/promoter.py:371-383 | the preview's total size is the sum of its lines' sizes, which are the files' sizes |
| Promoter.DryRun | src/lvm/promoter.py:343-383 | the preview lists each file with its path, remapped name and size, and its totals count the lines and sum their sizes |
| Promoter.DryRunPredictsPromotion | src/lvm/promoter.py:343-383 | after a successful promotion every previewed name is in the target, and every new entry carries a previewed name |
| Promoter.PlacedNames | src/lvm/promoter.py:155-168 | a successful placing step writes every target name, and each entry it adds carries one of them |
| Promoter.ActualFiles | src/lvm/promoter.py:420-423 | the names checked are exactly the target's matching files |
| Promoter.Freshness | src/lvm/promoter.py:430-456 | after a passing count check, the result passes exactly when a recorded promotion is neither re-rendered (source more than a second newer) nor overwritten (target more than a second off); the source is checked first |
| Promoter.SourceIsStale | src/lvm/promoter.py:435-443 | definition; characterised by Promoter.VerifyPassesIffHealthy and Promoter.VerifyChecksSourceFirst |
| Promoter.Verify | src/lvm/promoter.py:409-456 | a missing target passes; otherwise the check succeeds exactly when the history loads, and a basic result is the record's integrity report for the target's matching files |
| Promoter.VerifyPassesIffHealthy | src/lvm/promoter.py:409-456 | verify passes exactly when the target is missing or the file count agrees with the record and the recorded promotion is not stale |
| Promoter.VerifyChecksSourceFirst | src/lvm/promoter.py:436-454 | an overwritten target is reported only when the source is not re-rendered |
| Promoter.PromoteThenVerify | src/lvm/promoter.py:108-115 | right after a promotion with the source unchanged, verify finds nothing stale and passes exactly when the file count check does |
| Promoter.GenerateReport | src/lvm/promoter.py:459-491 | the report holds only the known keys, and each key holds its value exactly when that value is written |
| Promoter.ReportFixedFields | src/lvm/promoter.py:470-480 | the report always carries the timestamp, version, source path, target path and link mode |
| Promoter.ReportOptionalFields | src/lvm/promoter.py:481-490 | the start timecode only when non-empty, each mtime only when known, the file map and total size only with a preview |
| Updater.StripV | src/lvm/updater.py:68 | the result is the longest suffix of the input whose first character is not 'v' or 'V'; everything removed is a 'v' or 'V' |
| Updater.LeadingNumber | src/lvm/updater.py:71-73 | a part yields a number exactly when it is non-empty and starts with a digit |
| Updater.NumbersOfOne | src/lvm/updater.py:69-73 | one part contributes its leading number, or nothing when it has none |
| Updater.NumbersEmpty | src/lvm/updater.py:69-74 | no number is collected exactly when no part starts with a digit, which is when parse_version falls back to (0,) |
| Updater.NumbersAppend | src/lvm/updater.py:69-73 | collecting numbers distributes over concatenation of the part list, so the order of the parts is kept |
| Updater.ParseVersion | src/lvm/updater.py:66-74 | the parsed tuple is never empty; it is (0,) exactly when no dot-separated part of the v-stripped text starts with a digit, and otherwise the numbers of those parts in order |
| Updater.TupleLessIffDecided | src/lvm/updater.py:79 | the recursive tuple comparison agrees with the direct description of Python's tuple order: after an equal prefix, either the left tuple ends or its next number is smaller |
| Updater.TupleLessIrreflexive | src/lvm/updater.py:79 | no version tuple is newer than itself |
| Updater.TupleLessAsymmetric | src/lvm/updater.py:79 | two tuples are never each smaller than the other |
| Updater.TupleLessTransitive | src/lvm/updater.py:79 | the tuple order is transitive |
| Updater.TupleLessTrichotomy | src/lvm/updater.py:79 | any two tuples are equal or one is smaller |
| Updater.IsNewerIsStrict | src/lvm/updater.py:77-79 | is_newer is false for a version against itself and never holds in both directions |
| Updater.IsNewer | src/lvm/updater.py:77-79 | definition; characterised by Updater.IsNewerIsStrict and Updater.LongerTagIsNewer |
| Updater.ProperPrefixIsSmaller | src/lvm/updater.py:79 | a tuple is smaller than any proper extension of it, as in (1, 2) < (1, 2, 0) |
| Updater.ParseFormatted | src/lvm/updater.py:66-74 | parsing the dotted decimal spelling of any non-empty tuple, with or without a leading 'v', gives the tuple back |
| Updater.StripOneV | src/lvm/updater.py:68 | text starting with a digit is left alone, and one leading 'v' in front of it is removed |
| Updater.ParseExample3 | src/lvm/updater.py:66-74 | "1.2.0" parses to (1, 2, 0) |
| Updater.ParseExampleV | src/lvm/updater.py:66-74 | "v1.2" parses to (1, 2) |
| Updater.LongerTagIsNewer | src/lvm/updater.py:77-79 | "1.2.0" is newer than "1.2", while "v1.2" and "1.2" are not newer than each other |
| Strs.CollapseRunsToFirst | src/lvm/task_tokens.py:142 | after collapsing, no two dividers are adjacent, the text is no longer and it starts with the same character |
| Strs.CollapseFirstIsDropAfter | src/lvm/task_tokens.py:142 | collapsing equals dropping every divider that directly follows a divider, so each run keeps its first character |
| Strs.CleanDividers | src/lvm/task_tokens.py:142-143 | the cleaned text has no leading or trailing divider and no two adjacent dividers, and is no longer than the input |
| Strs.CleanWellDivided | src/lvm/task_tokens.py:142-143 | cleaning leaves a text that already has no leading, trailing or adjacent dividers unchanged |
| Strs.CollapseRunsToLast | src/lvm/promoter.py:230 | after the backreference substitution no two dividers are adjacent, the text is no longer and it ends with the same character |
| Strs.CollapseLastIsDropBefore | src/lvm/promoter.py:230 | the substitution equals dropping every divider directly followed by a divider, so each run keeps its last character |
| Strs.ZeroPad | src/lvm/scanner.py:85 | the padded label digits read back as the number and are as long as the width or the number's own spelling, whichever is longer |
| Discovery.ReorderedMerge | src/lvm/discovery.py:239-267 | sorting the merged versions keeps each one merged from the files of its number, and a version exists for exactly the numbers some file carries |

## Left out

- Regular expressions in general: the fixed patterns are hand-written predicates. A raw version pattern without `{version}` is an oracle from a name to the value of its first group, so nothing is proved about its matches.
- Unicode: `\w`, `\d`, `str.isdigit`, `str.lower` and IGNORECASE are taken as ASCII, including the `\d+` of `parse_version`. File names are assumed to hold no line feed, so `$` means the end of the name.
- Real file-system effects: the result of `mkdir`, `unlink`, `copy2`, `symlink_to` and `os.link` is modelled as the new folder listing. `Path.resolve`, `os.path.relpath` and symbolic links to folders are not followed.
- Paths follow POSIX rules (`PurePosixPath`): only '/' separates components, and names compare case-sensitively, by code point. On Windows, which the tool targets, `Path.parts` also splits on '\\', a drive such as "D:\\" is its own component, and `sorted(iterdir())` ignores case. Under the model "D:\\shots\\sh010" is a single component, and folders whose names differ only in case may be listed in a different order.
- Paths.Parts: a path that starts with exactly two slashes has the root "//" in `PurePosixPath.parts`; the model lists "/" there. `Paths.Normal` keeps the "//".
- A hard link and a copy look alike here: both give a file with the source's contents and mtime.
- Failures of individual file operations beyond those named are not modelled:
  - an `OSError` from `symlink_to` or `os.link`, and its Windows-only wrapping into `PromotionError`;
  - a `stat` that fails (counted as size 0 in `dry_run`);
  - a `PermissionError` from `scandir` or `iterdir` that the source swallows;
  - `UnicodeDecodeError` when reading the history file.
- Thread pools run sequentially. The parallel copy of more than ten files is modelled as the same `_link_or_copy` sequence. On a failed copy the pool still copies the remaining files before the error propagates; the model stops at the first failure. Its non-atomic progress counter and the progress callback are omitted. The discovery pool's swallowing of per-folder errors has nothing to swallow, since the model's folder scans do not fail.
- Promoter.Message: the 'Cannot delete' text shows the entry's name and not its full path, and the 'File operation failed' text shows the file's name and not the exception's text, which the model does not carry.
- The `ffprobe` fallback is an external process; its answer is a parameter.
- Clocks, users and floats: `datetime.now` and `os.getlogin` are parameters. Mtimes are reals. `total_size_human`/`_human_size` formatting is omitted.
- JSON text: documents are the values `json.load` returns, or "unparseable". `config.py`'s `load_config`, `save_config`, `create_project`, `create_example_config` and `make_relative` do file I/O and are omitted.
- The self-updater beyond `parse_version` and `is_newer` (HTTP, zip extraction, scripts), the GUI, the CLI, the watcher, elevation probes and icon generation are not part of this model.
- `Models` `from_dict` on a value of the wrong JSON type: the model reports an error, where Python would keep the value and fail later, if at all.
- Config.ApplyProjectDefaults: returns a new configuration or an error. Python mutates the sources in place, so the sources updated before an error stay updated; that partial state is not modelled.
- Promoter.LockCheckCoversClear: assumes no allowed extension is empty. With "" allowed, a locked file without an extension is removed by `_clear_target` but not seen by `_target_has_media_files`, and the clear fails instead of the lock check.
- TaskTokens.FindTaskTokensComplete: completeness is proved only for tokens without dividers. `finditer` does not report overlapping matches, so with dividers inside a token, which matches are found depends on the scan order.

=== FILE: config.dfy ===
/** What loading a project does to its sources: the `{group}` token, the
    per-group root folder, the project defaults pushed into every source that
    does not override them, and the file name derived from a project name. */
module Config {
  import opened Wrappers
  import opened Strs
  import Paths
  import opened Models
  import TaskTokens

  // ---------------------------------------------------------------------------
  // The {group} token
  // ---------------------------------------------------------------------------

  const GroupToken := "{group}"

  /** The characters `_GROUP_TOKEN_RE` removes when they directly follow a
      `{group}` token: / \ _ . - */
  predicate IsGroupTrail(c: char) {
    c == '/' || c == '\\' || c == '_' || c == '.' || c == '-'
  }

  /** `_GROUP_TOKEN_RE.sub("", s)`: scanning left to right, every `{group}`
      is removed together with at most one directly following trail
      character. Removed text is not scanned again. */
  function RemoveGroupTokens(s: string): (r: string)
    ensures |r| <= |s|
    decreases |s|
  {
    if |s| < |GroupToken| then s
    else if s[..|GroupToken|] == GroupToken then
      var rest := s[|GroupToken|..];
      if |rest| > 0 && IsGroupTrail(rest[0]) then RemoveGroupTokens(rest[1..])
      else RemoveGroupTokens(rest)
    else [s[0]] + RemoveGroupTokens(s[1..])
  }

  /** An occurrence of `{group}` in `s[1..]` is one in `s`. */
  lemma ContainsTail(s: string, pat: string)
    requires |s| > 0 && Contains(s[1..], pat)
    ensures Contains(s, pat)
  {
    var i: nat :| i <= |s[1..]| && IsAt(s[1..], pat, i);
    assert s[i + 1..i + 1 + |pat|] == s[1..][i..i + |pat|];
    assert IsAt(s, pat, i + 1);
  }

  /** A text without the token passes through the substitution unchanged. */
  lemma {:induction false} RemoveGroupTokensAbsent(s: string)
    requires !Contains(s, GroupToken)
    ensures RemoveGroupTokens(s) == s
    decreases |s|
  {
    if |s| >= |GroupToken| {
      assert !IsAt(s, GroupToken, 0);
      if Contains(s[1..], GroupToken) {
        ContainsTail(s, GroupToken);
      }
      RemoveGroupTokensAbsent(s[1..]);
    }
  }

  /** No `{group}` in `s` is directly followed by a trail character. */
  predicate NoTrailAfterToken(s: string) {
    forall i: nat :: IsAt(s, GroupToken, i) && i + |GroupToken| < |s| ==> !IsGroupTrail(s[i + |GroupToken|])
  }

  lemma NoTrailAfterTokenTail(s: string, k: nat)
    requires NoTrailAfterToken(s) && k <= |s|
    ensures NoTrailAfterToken(s[k..])
  {
    forall i: nat | IsAt(s[k..], GroupToken, i) && i + |GroupToken| < |s[k..]|
      ensures !IsGroupTrail(s[k..][i + |GroupToken|])
    {
      assert s[k + i..k + i + |GroupToken|] == s[k..][i..i + |GroupToken|];
      assert IsAt(s, GroupToken, k + i);
    }
  }

  /** The only difference between removing the token and replacing it by the
      empty string is the trail character: where no token is followed by one,
      the two agree. */
  lemma {:induction false} RemoveIsReplaceWithoutTrail(s: string)
    requires NoTrailAfterToken(s)
    ensures RemoveGroupTokens(s) == ReplaceAll(s, GroupToken, "")
    decreases |s|
  {
    if |s| >= |GroupToken| {
      if s[..|GroupToken|] == GroupToken {
        assert IsAt(s, GroupToken, 0);
        NoTrailAfterTokenTail(s, |GroupToken|);
        RemoveIsReplaceWithoutTrail(s[|GroupToken|..]);
      } else {
        NoTrailAfterTokenTail(s, 1);
        RemoveIsReplaceWithoutTrail(s[1..]);
      }
    }
  }

  /** A token followed by a trail character disappears with it. */
  lemma RemoveTokenAndTrail(c: char, t: string)
    requires IsGroupTrail(c)
    ensures RemoveGroupTokens(GroupToken + [c] + t) == RemoveGroupTokens(t)
  {
    var s := GroupToken + [c] + t;
    assert s[..|GroupToken|] == GroupToken;
    assert s[|GroupToken|..][1..] == t;
  }

  /** `_expand_group_token(template, group_name)`. */
  function ExpandGroupToken(template: string, group: string): (r: string)
    ensures !Contains(template, GroupToken) ==> r == template
    ensures group != "" ==> r == ReplaceAll(template, GroupToken, group)
    ensures group == "" ==> r == RemoveGroupTokens(template)
  {
    if !Contains(template, GroupToken) then
      ReplaceAbsent(template, GroupToken, group);
      RemoveGroupTokensAbsent(template);
      template
    else if group != "" then ReplaceAll(template, GroupToken, group)
    else RemoveGroupTokens(template)
  }

  // ---------------------------------------------------------------------------
  // Project settings
  // ---------------------------------------------------------------------------

  /** Everything `apply_project_defaults` reads from the configuration besides
      the sources themselves. `effectiveRoot` is `effective_project_root`. */
  datatype Settings = Settings(
    versionPattern: string,
    fileExtensions: seq<string>,
    renameTemplate: string,
    linkMode: string,
    latestPathTemplate: string,
    taskTokens: seq<string>,
    groups: map<string, Fields>,
    effectiveRoot: string,
    projectDir: string)

  function SettingsOf(c: ProjectConfig): (p: Settings)
    ensures p.effectiveRoot == EffectiveProjectRoot(c)
  {
    Settings(c.defaultVersionPattern, c.defaultFileExtensions, c.defaultFileRenameTemplate,
             c.defaultLinkMode, c.latestPathTemplate, c.taskTokens, c.groups,
             EffectiveProjectRoot(c), c.projectDir)
  }

  /** Replacing the sources of a configuration leaves its settings alone. */
  lemma SettingsIgnoreSources(c: ProjectConfig, ss: seq<WatchedSource>)
    ensures SettingsOf(c.(watchedSources := ss)) == SettingsOf(c)
  {
  }

  // ---------------------------------------------------------------------------
  // Group roots
  // ---------------------------------------------------------------------------

  /** `_resolve_group_root(config, group_name)`: the group's "root_dir" when
      it is set, else the effective project root. A truthy "root_dir" that is
      not a string is returned by the source and fails at the following
      `str.replace`; the model reports that `TypeError` here. */
  function ResolveGroupRoot(p: Settings, group: string): (r: Result<string, string>)
    ensures group == "" || group !in p.groups || "root_dir" !in p.groups[group] ==>
      r == Ok(p.effectiveRoot)
    ensures group != "" && group in p.groups && "root_dir" in p.groups[group] ==>
      var v := p.groups[group]["root_dir"];
      (!Truthy(v) ==> r == Ok(p.effectiveRoot)) &&
      (Truthy(v) && v.JStr? ==> r == Ok(v.s)) &&
      (Truthy(v) && !v.JStr? ==> r == Err(TypeError))
    ensures r.Ok? ==> r.value == p.effectiveRoot || r.value != ""
  {
    var fallback := p.effectiveRoot;
    if group == "" then Ok(fallback)
    else
      var props := if group in p.groups then p.groups[group] else map[];
      var root := if "root_dir" in props then props["root_dir"] else JStr("");
      if !Truthy(root) then Ok(fallback)
      else if root.JStr? then Ok(root.s)
      else Err(TypeError)
  }

  // ---------------------------------------------------------------------------
  // Project defaults
  // ---------------------------------------------------------------------------

  /** The naming tokens of a source, derived from its sample file name or,
      when it has none, from its name. */
  function SourceTokensOf(p: Settings, s: WatchedSource): TaskTokens.SourceTokens {
    TaskTokens.DeriveSourceTokens(if s.sampleFilename != "" then s.sampleFilename else s.name, p.taskTokens)
  }

  /** The values `apply_project_defaults` substitutes into the latest-path
      template, in the order it replaces them. */
  function TargetTokens(projectRoot: string, groupRoot: string, t: TaskTokens.SourceTokens, sourceDir: string): seq<(string, string)> {
    [("project_root", projectRoot), ("group_root", groupRoot), ("source_name", t.name),
     ("source_basename", t.basename), ("source_fullname", t.fullname),
     ("source_filename", t.filename), ("source_dir", sourceDir)]
  }

  /** A relative target is anchored at the source folder, else at the
      project folder; an absolute one stays as it is. */
  function AnchorTarget(p: string, sourceDir: string, projectDir: string): (r: string)
    ensures EndsWith(r, p)
    ensures Paths.IsAbsolute(p) ==> r == p
    ensures Paths.IsAbsolute(r) <==>
      Paths.IsAbsolute(p) || (sourceDir != "" && Paths.IsAbsolute(sourceDir)) ||
      (sourceDir == "" && Paths.IsAbsolute(projectDir))
  {
    if !Paths.IsAbsolute(p) && sourceDir != "" then Paths.Join(sourceDir, p)
    else if !Paths.IsAbsolute(p) && projectDir != "" then Paths.Join(projectDir, p)
    else
      assert p[|p| - |p|..] == p;
      p
  }

  /** The latest-path template with every placeholder of the source filled
      in, anchored, before `Path.resolve()`. */
  function TargetPath(p: Settings, s: WatchedSource, groupRoot: string): (r: string)
    ensures Paths.IsAbsolute(s.sourceDir) ==> Paths.IsAbsolute(r)
    ensures s.sourceDir == "" && Paths.IsAbsolute(p.projectDir) ==> Paths.IsAbsolute(r)
  {
    var tokens := TargetTokens(p.effectiveRoot, groupRoot, SourceTokensOf(p, s), s.sourceDir);
    var tpl := ExpandTokens(p.latestPathTemplate, tokens);
    AnchorTarget(ExpandGroupToken(tpl, s.group), s.sourceDir, p.projectDir)
  }

  /** The latest target computed from the project's latest-path template.
      `resolve` stands for `Path.resolve()`, which consults the file system. */
  function LatestTarget(p: Settings, s: WatchedSource, resolve: string -> string): (r: Result<string, string>)
    ensures r.Err? <==> ResolveGroupRoot(p, s.group).Err?
    ensures r.Ok? ==> r.value == resolve(TargetPath(p, s, ResolveGroupRoot(p, s.group).value))
  {
    var groupRoot :- ResolveGroupRoot(p, s.group);
    Ok(resolve(TargetPath(p, s, groupRoot)))
  }

  /** The fields a source keeps whatever the project says: its identity, its
      history file and its override flags. */
  predicate SameIdentity(a: WatchedSource, b: WatchedSource) {
    a.name == b.name && a.sourceDir == b.sourceDir && a.historyFilename == b.historyFilename &&
    a.sampleFilename == b.sampleFilename && a.group == b.group &&
    a.overrideVersionPattern == b.overrideVersionPattern &&
    a.overrideFileExtensions == b.overrideFileExtensions &&
    a.overrideLatestTarget == b.overrideLatestTarget &&
    a.overrideFileRename == b.overrideFileRename && a.overrideLinkMode == b.overrideLinkMode
  }

  /** Whether the latest target is recomputed from the project template. */
  predicate Retargets(p: Settings, s: WatchedSource) {
    !s.overrideLatestTarget && p.latestPathTemplate != ""
  }

  /** One iteration of `apply_project_defaults`. */
  function ApplyToSource(p: Settings, s: WatchedSource, resolve: string -> string): (r: Result<WatchedSource, string>)
    ensures r.Err? <==> Retargets(p, s) && ResolveGroupRoot(p, s.group).Err?
    ensures r.Ok? ==> SameIdentity(r.value, s)
  {
    var target :- if Retargets(p, s) then LatestTarget(p, s, resolve) else Ok(s.latestTarget);
    Ok(s.(versionPattern := if s.overrideVersionPattern then s.versionPattern else p.versionPattern,
          fileExtensions := if s.overrideFileExtensions then s.fileExtensions else p.fileExtensions,
          latestTarget := target,
          fileRenameTemplate := if s.overrideFileRename then s.fileRenameTemplate else p.renameTemplate,
          linkMode := if s.overrideLinkMode then s.linkMode else p.linkMode))
  }

  /** Every field whose override flag is set is left alone; the others take
      the project's default. */
  lemma ApplyHonoursOverrides(p: Settings, s: WatchedSource, resolve: string -> string)
    requires ApplyToSource(p, s, resolve).Ok?
    ensures var t := ApplyToSource(p, s, resolve).value;
      && t.versionPattern == (if s.overrideVersionPattern then s.versionPattern else p.versionPattern)
      && t.fileExtensions == (if s.overrideFileExtensions then s.fileExtensions else p.fileExtensions)
      && t.fileRenameTemplate == (if s.overrideFileRename then s.fileRenameTemplate else p.renameTemplate)
      && t.linkMode == (if s.overrideLinkMode then s.linkMode else p.linkMode)
  {
  }

  /** The latest target is recomputed exactly when it is not overridden and
      the project has a latest-path template; otherwise it is kept. */
  lemma ApplyRetargets(p: Settings, s: WatchedSource, resolve: string -> string)
    requires ApplyToSource(p, s, resolve).Ok?
    ensures var t := ApplyToSource(p, s, resolve).value;
      && (!Retargets(p, s) ==> t.latestTarget == s.latestTarget)
      && (Retargets(p, s) ==> Ok(t.latestTarget) == LatestTarget(p, s, resolve))
  {
  }

  /** The latest target depends only on fields the defaults never change. */
  lemma LatestTargetOfIdentity(p: Settings, a: WatchedSource, b: WatchedSource, resolve: string -> string)
    requires SameIdentity(a, b)
    ensures LatestTarget(p, a, resolve) == LatestTarget(p, b, resolve)
  {
    var g := ResolveGroupRoot(p, a.group);
    assert g == ResolveGroupRoot(p, b.group);
    if g.Ok? {
      assert SourceTokensOf(p, a) == SourceTokensOf(p, b) by {
        assert a.sampleFilename == b.sampleFilename && a.name == b.name;
      }
      assert TargetPath(p, a, g.value) == TargetPath(p, b, g.value);
    }
  }

  /** The sources after defaults are applied, failing at the first source
      whose target cannot be computed. */
  function ApplyToSources(p: Settings, ss: seq<WatchedSource>, resolve: string -> string): (r: Result<seq<WatchedSource>, string>)
    ensures r.Ok? ==> |r.value| == |ss|
    ensures r.Ok? ==> forall k :: 0 <= k < |ss| ==> ApplyToSource(p, ss[k], resolve) == Ok(r.value[k])
    ensures r.Err? <==> exists k :: 0 <= k < |ss| && ApplyToSource(p, ss[k], resolve).Err?
  {
    if |ss| == 0 then Ok([])
    else
      var first :- ApplyToSource(p, ss[0], resolve);
      var rest :- ApplyToSources(p, ss[1..], resolve);
      assert forall k :: 0 < k < |ss| ==> ss[k] == ss[1..][k - 1];
      Ok([first] + rest)
  }

  /** `apply_project_defaults(config)`: only the sources change. */
  function ApplyProjectDefaults(c: ProjectConfig, resolve: string -> string): (r: Result<ProjectConfig, string>)
    ensures r.Ok? ==> r.value == c.(watchedSources := r.value.watchedSources)
    ensures r.Ok? ==> |r.value.watchedSources| == |c.watchedSources|
    ensures r.Ok? ==> forall k :: 0 <= k < |c.watchedSources| ==>
      ApplyToSource(SettingsOf(c), c.watchedSources[k], resolve) == Ok(r.value.watchedSources[k])
    ensures r.Err? <==>
      exists k :: 0 <= k < |c.watchedSources| && ApplyToSource(SettingsOf(c), c.watchedSources[k], resolve).Err?
  {
    var sources :- ApplyToSources(SettingsOf(c), c.watchedSources, resolve);
    Ok(c.(watchedSources := sources))
  }

  /** Applying the defaults to a source a second time changes nothing: every
      input of the computation is a field the first pass keeps. */
  lemma ApplyToSourceIdempotent(p: Settings, s: WatchedSource, resolve: string -> string)
    requires ApplyToSource(p, s, resolve).Ok?
    ensures ApplyToSource(p, ApplyToSource(p, s, resolve).value, resolve) == ApplyToSource(p, s, resolve)
  {
    var t := ApplyToSource(p, s, resolve).value;
    LatestTargetOfIdentity(p, t, s, resolve);
    ApplyHonoursOverrides(p, s, resolve);
    ApplyRetargets(p, s, resolve);
    ApplyHonoursOverrides(p, t, resolve);
    ApplyRetargets(p, t, resolve);
  }

  lemma {:induction false} ApplyToSourcesIdempotent(p: Settings, ss: seq<WatchedSource>, resolve: string -> string)
    requires ApplyToSources(p, ss, resolve).Ok?
    ensures ApplyToSources(p, ApplyToSources(p, ss, resolve).value, resolve) == ApplyToSources(p, ss, resolve)
    decreases |ss|
  {
    if |ss| > 0 {
      var r := ApplyToSources(p, ss, resolve).value;
      ApplyToSourceIdempotent(p, ss[0], resolve);
      ApplyToSourcesIdempotent(p, ss[1..], resolve);
      assert r[1..] == ApplyToSources(p, ss[1..], resolve).value;
      assert r == [r[0]] + r[1..];
    }
  }

  /** Loading the same configuration twice yields the same sources: applying
      the project defaults is idempotent. */
  lemma ApplyProjectDefaultsIdempotent(c: ProjectConfig, resolve: string -> string)
    requires ApplyProjectDefaults(c, resolve).Ok?
    ensures ApplyProjectDefaults(ApplyProjectDefaults(c, resolve).value, resolve) == ApplyProjectDefaults(c, resolve)
  {
    var d := ApplyProjectDefaults(c, resolve).value;
    SettingsIgnoreSources(c, d.watchedSources);
    ApplyToSourcesIdempotent(SettingsOf(c), c.watchedSources, resolve);
  }

  /** A source that overrides every field comes out exactly as it went in. */
  lemma FullyOverriddenUnchanged(p: Settings, s: WatchedSource, resolve: string -> string)
    requires s.overrideVersionPattern && s.overrideFileExtensions && s.overrideLatestTarget
    requires s.overrideFileRename && s.overrideLinkMode
    ensures ApplyToSource(p, s, resolve) == Ok(s)
  {
  }

  // ---------------------------------------------------------------------------
  // Project file names
  // ---------------------------------------------------------------------------

  /** The characters `[\w\-]` keeps. */
  predicate IsNameChar(c: char) {
    IsWordChar(c) || c == '-'
  }

  /** What a sanitised name is made of. */
  predicate IsSafeChar(c: char) {
    ('a' <= c <= 'z') || IsDigit(c) || c == '_' || c == '-'
  }

  /** `s.replace(" ", "_")`: every space becomes '_' and every other
      character stays where it is. */
  function SpacesToUnderscores(s: string): (r: string)
    ensures |r| == |s|
    ensures forall i :: 0 <= i < |s| ==> r[i] == (if s[i] == ' ' then '_' else s[i])
  {
    ReplaceSpaces(s);
    ReplaceAll(s, " ", "_")
  }

  lemma {:induction false} ReplaceSpaces(s: string)
    ensures |ReplaceAll(s, " ", "_")| == |s|
    ensures forall i :: 0 <= i < |s| ==> ReplaceAll(s, " ", "_")[i] == (if s[i] == ' ' then '_' else s[i])
    decreases |s|
  {
    if |s| > 0 {
      ReplaceSpaces(s[1..]);
      var t := ReplaceAll(s[1..], " ", "_");
      var r := ReplaceAll(s, " ", "_");
      if s[0] == ' ' {
        assert s[..1] == " ";
        assert r == "_" + t;
      } else {
        assert s[..1] != " ";
        assert r == [s[0]] + t;
      }
    }
  }

  /** `re.sub(r"[^\w\-]", "", s)`. */
  function KeepNameChars(s: string): (r: string)
    ensures |r| <= |s|
    ensures forall i :: 0 <= i < |r| ==> IsNameChar(r[i])
  {
    if |s| == 0 then ""
    else (if IsNameChar(s[0]) then [s[0]] else "") + KeepNameChars(s[1..])
  }

  /** Each name character is kept as often as it occurs, and nothing else is. */
  lemma {:induction false} KeepNameCharsCounts(s: string)
    ensures forall c :: multiset(KeepNameChars(s))[c] == if IsNameChar(c) then multiset(s)[c] else 0
    decreases |s|
  {
    if |s| > 0 {
      KeepNameCharsCounts(s[1..]);
      assert s == [s[0]] + s[1..];
    }
  }

  /** The substitution distributes over concatenation. */
  lemma {:induction false} KeepNameCharsAppend(a: string, b: string)
    ensures KeepNameChars(a + b) == KeepNameChars(a) + KeepNameChars(b)
    decreases |a|
  {
    if |a| == 0 {
      assert a + b == b;
    } else {
      assert (a + b)[1..] == a[1..] + b;
      KeepNameCharsAppend(a[1..], b);
    }
  }

  /** The substitution works character by character, keeping the order:
      it keeps a name character and drops any other. */
  lemma KeepNameCharsSplits(a: string, c: char, b: string)
    ensures KeepNameChars(a + [c] + b) ==
      KeepNameChars(a) + (if IsNameChar(c) then [c] else "") + KeepNameChars(b)
  {
    KeepNameCharsAppend(a + [c], b);
    KeepNameCharsAppend(a, [c]);
    assert KeepNameChars([c]) == (if IsNameChar(c) then [c] else "") + KeepNameChars([c][1..]);
    assert [c][1..] == "";
  }

  /** A text of name characters only is kept whole. */
  lemma {:induction false} KeepAllNameChars(s: string)
    requires forall i :: 0 <= i < |s| ==> IsNameChar(s[i])
    ensures KeepNameChars(s) == s
    decreases |s|
  {
    if |s| > 0 {
      KeepAllNameChars(s[1..]);
      assert s == [s[0]] + s[1..];
    }
  }

  /** A text without name characters is dropped whole. */
  lemma {:induction false} NoNameChars(s: string)
    requires forall i :: 0 <= i < |s| ==> !IsNameChar(s[i])
    ensures KeepNameChars(s) == ""
    decreases |s|
  {
    if |s| > 0 {
      NoNameChars(s[1..]);
    }
  }

  /** `_sanitize_filename(name)`. */
  function SanitizeFilename(name: string): (r: string)
    ensures |r| > 0
    ensures forall i :: 0 <= i < |r| ==> IsSafeChar(r[i])
  {
    var safe := LowerStr(KeepNameChars(SpacesToUnderscores(TrimBy(name, IsSpace))));
    if safe == "" then "project" else safe
  }

  /** With no ASCII letter, digit, '_', '-' or space left inside the
      stripped name, the name is "project". */
  lemma SanitizeFallsBack(name: string)
    requires var t := TrimBy(name, IsSpace);
      forall i :: 0 <= i < |t| ==> !IsNameChar(t[i]) && t[i] != ' '
    ensures SanitizeFilename(name) == "project"
  {
    NoNameChars(SpacesToUnderscores(TrimBy(name, IsSpace)));
  }

  /** A stripped name of ASCII letters, digits, '_', '-' and spaces is
      lowercased with each space turned into '_'. */
  lemma SanitizePlainName(name: string)
    requires var t := TrimBy(name, IsSpace);
      t != "" && forall i :: 0 <= i < |t| ==> IsNameChar(t[i]) || t[i] == ' '
    ensures var t := TrimBy(name, IsSpace);
      var r := SanitizeFilename(name);
      |r| == |t| && forall i :: 0 <= i < |t| ==> r[i] == (if t[i] == ' ' then '_' else Lower(t[i]))
  {
    KeepAllNameChars(SpacesToUnderscores(TrimBy(name, IsSpace)));
  }

  /** A name with nothing to keep, such as "!!!", is stored as "project". */
  lemma SanitizeNothingKept()
    ensures SanitizeFilename("!!!") == "project"
  {
    assert TrimLeftBy("!!!", IsSpace) == "!!!";
    assert TrimRightBy("!!!", IsSpace) == "!!!";
    SanitizeFallsBack("!!!");
  }

  predicate AllSafe(s: string) {
    forall i :: 0 <= i < |s| ==> IsSafeChar(s[i])
  }

  /** A name already made of lower-case letters, digits, `_` and `-` is its
      own file name, so sanitising is idempotent. */
  lemma SanitizeSafeName(name: string)
    requires name != "" && AllSafe(name)
    ensures SanitizeFilename(name) == name
  {
    assert TrimLeftBy(name, IsSpace) == name;
    assert TrimRightBy(name, IsSpace) == name;
    assert SpacesToUnderscores(name) == name;
    KeepAllNameChars(name);
    assert LowerStr(name) == name;
  }

  lemma SanitizeIdempotent(name: string)
    ensures SanitizeFilename(SanitizeFilename(name)) == SanitizeFilename(name)
  {
    SanitizeSafeName(SanitizeFilename(name));
  }
}

=== FILE: discovery.dfy ===
/** The discovery walk: a depth-bounded walk over a directory tree that
    reports every directory holding versioned folders or versioned media
    files, with its versions, a suggested version pattern, the extensions
    seen and a sample file name; then keyword filters and ordering by path.
    The thread pool of the source is taken one version folder at a time. */
module Discovery {
  import opened Wrappers
  import opened Strs
  import opened Sorting
  import opened Fs
  import opened Patterns
  import opened FrameRanges
  import Paths
  import Models
  import Scanner

  // ---------------------------------------------------------------------------
  // Extensions and entry classes
  // ---------------------------------------------------------------------------

  /** `MEDIA_EXTENSIONS`. */
  const MediaExtensions: set<string> :=
    {".exr", ".dpx", ".tiff", ".tif", ".png", ".jpg", ".jpeg",
     ".mov", ".mxf", ".mp4", ".avi", ".wav", ".aiff"}

  /** `set(extensions) if extensions else MEDIA_EXTENSIONS`: the given
      extensions are taken as written, without lowercasing. */
  function ValidExtensions(extensions: seq<string>): (r: set<string>)
    ensures |extensions| == 0 ==> r == MediaExtensions
    ensures |extensions| > 0 ==> forall e :: e in r <==> e in extensions
  {
    if |extensions| == 0 then MediaExtensions else set e | e in extensions
  }

  /** `name.startswith(".")`. */
  predicate Hidden(name: string) {
    |name| > 0 && name[0] == '.'
  }

  /** `int(VERSION_RE.search(name).group(1))`. */
  function VersionNumber(name: string): (r: Option<nat>)
    ensures r.Some? <==> FindVersion(name).Some?
    ensures r.Some? ==> r.value == DigitsValue(VersionDigits(name, FindVersion(name).value))
  {
    match FindVersion(name)
    case None => None
    case Some(i) => Some(DigitsValue(VersionDigits(name, i)))
  }

  /** A visible directory whose name carries a version marker. Links to
      directories are not followed. */
  predicate IsVersionedDir(e: Node) {
    !Hidden(e.name) && e.Dir? && FindVersion(e.name).Some?
  }

  /** A visible directory without a version marker: the walk descends into it. */
  predicate IsPlainSubdir(e: Node) {
    !Hidden(e.name) && e.Dir? && FindVersion(e.name).None?
  }

  /** A visible file (links followed) whose lowercased suffix is allowed and
      whose stem carries a version marker. */
  predicate IsVersionedFile(e: Node, valid: set<string>) {
    !Hidden(e.name) && !e.Dir? && e.IsFile() &&
    LowerStr(Paths.Suffix(e.name)) in valid && FindVersion(Paths.Stem(e.name)).Some?
  }

  function VersionedDirs(entries: seq<Node>): (r: seq<Node>)
    ensures forall e :: e in r <==> e in entries && IsVersionedDir(e)
    ensures forall k :: 0 <= k < |r| ==> IsVersionedDir(r[k])
  {
    var r := Keep(entries, IsVersionedDir);
    assert forall k :: 0 <= k < |r| ==> r[k] in r;
    r
  }

  function PlainSubdirs(entries: seq<Node>): (r: seq<Node>)
    ensures forall e :: e in r <==> e in entries && IsPlainSubdir(e)
    ensures forall k :: 0 <= k < |r| ==> r[k].Dir?
  {
    var r := Keep(entries, IsPlainSubdir);
    assert forall k :: 0 <= k < |r| ==> r[k] in r;
    r
  }

  function VersionedFiles(entries: seq<Node>, valid: set<string>): (r: seq<Node>)
    ensures forall e :: e in r <==> e in entries && IsVersionedFile(e, valid)
    ensures forall k :: 0 <= k < |r| ==> IsVersionedFile(r[k], valid)
  {
    var r := Keep(entries, (e: Node) => IsVersionedFile(e, valid));
    assert forall k :: 0 <= k < |r| ==> r[k] in r;
    r
  }

  // ---------------------------------------------------------------------------
  // Suggested pattern
  // ---------------------------------------------------------------------------

  /** `_suggest_pattern`: the matched divider and `v` (in their original
      case) followed by `{version}`; the text before the marker is dropped. */
  function SuggestPattern(name: string, i: nat): (p: string)
    requires VersionAt(name, i)
    ensures |p| == 2 + |Scanner.VersionToken|
    ensures IsDivider(p[0]) && (p[1] == 'v' || p[1] == 'V')
    ensures p[2..] == Scanner.VersionToken
  {
    name[i..i + 2] + Scanner.VersionToken
  }

  /** The first example of the source's own comment promises
      "hero_comp_v{version}" for "hero_comp_v003"; the code gives "_v{version}". */
  lemma SuggestDropsLeadingText()
    ensures FindVersion("hero_comp_v003") == Some(9)
    ensures SuggestPattern("hero_comp_v003", 9) == "_v{version}"
  {
    var s := "hero_comp_v003";
    assert VersionAt(s, 9);
    forall j: nat | j < 9 ensures !VersionAt(s, j) {
      assert s[j + 1] != 'v' && s[j + 1] != 'V';
    }
    FindVersionAt(s, 9);
  }

  /** The version scanner compiles a suggested pattern into the template
      with head "<divider>v" and nothing after its one placeholder. */
  lemma CompileSuggested(name: string, i: nat, raw: string -> Option<int>)
    requires VersionAt(name, i)
    ensures Scanner.CompileVersionPattern(SuggestPattern(name, i), raw) == Scanner.Template(name[i..i + 2], [""])
  {
    var p := SuggestPattern(name, i);
    var tok := Scanner.VersionToken;
    var s1 := p[1..];
    assert s1[1..] == tok;
    assert tok[..|tok|] == tok && tok[|tok|..] == "";
    var last := Scanner.SplitOn(tok, tok);
    assert last == ["", ""];
    assert s1[..|tok|] != tok by { assert s1[0] != tok[0]; }
    assert Scanner.SplitOn(s1, tok) == [[s1[0]] + last[0]] + last[1..];
    assert last[1..] == [""] && [s1[0]] + last[0] == [p[1]];
    assert Scanner.SplitOn(s1, tok) == [[p[1]], ""];
    assert p[..|tok|] != tok by { assert p[0] != tok[0]; }
    assert Scanner.SplitOn(p, tok) == [[p[0]] + [p[1]], ""];
    assert [p[0]] + [p[1]] == name[i..i + 2];
    assert Contains(p, tok) by { assert IsAt(p, tok, 2); }
  }

  /** Before the leftmost version marker the suggested template matches
      nowhere: a match would itself be a version marker. */
  lemma SuggestedMatchesNoEarlier(name: string, i: nat, head: string)
    requires VersionAt(name, i) && FindVersion(name) == Some(i) && head == name[i..i + 2]
    ensures forall j: nat :: j < i ==> !Scanner.TemplateAt(name, head, [""], j)
  {
    forall j: nat | j < i && Scanner.TemplateAt(name, head, [""], j) ensures false {
      Scanner.SingleTokenTakesWholeRun(name, "", j + 2);
      assert name[j..j + 2] == head;
      assert name[j] == head[0] && name[j + 1] == head[1];
      assert VersionAt(name, j);
    }
  }

  /** After a version marker, a template with nothing after its placeholder
      takes exactly the marker's digits. */
  lemma MarkerDigitsFit(name: string, i: nat)
    requires VersionAt(name, i)
    ensures Scanner.LargestFit(name, [""], i + 2, VersionDigitCount(name, i))
  {
    var pos := i + 2;
    var k := VersionDigitCount(name, i);
    Scanner.SingleTokenTakesWholeRun(name, "", pos);
    assert Scanner.Fits(name, [""], pos, k);
    forall n | n > k ensures !Scanner.Fits(name, [""], pos, n) {
      if pos + n <= |name| {
        assert name[pos..pos + n][k] == name[pos + k];
      }
    }
  }

  /** A watched source configured with the suggested pattern reads, from the
      name discovery took it from, the version number discovery reported. */
  lemma SuggestedPatternRecoversVersion(name: string, raw: string -> Option<int>)
    requires FindVersion(name).Some?
    ensures var m := Scanner.CompileVersionPattern(SuggestPattern(name, FindVersion(name).value), raw);
      Scanner.ValidMatcher(m) && Scanner.CapturedNumber(m, name) == Some(VersionNumber(name).value as int)
  {
    var i := FindVersion(name).value;
    CompileSuggested(name, i, raw);
    SuggestedCapture(name, i);
  }

  /** The template of the suggested pattern captures the marker's digits. */
  lemma SuggestedCapture(name: string, i: nat)
    requires VersionAt(name, i) && FindVersion(name) == Some(i)
    ensures Scanner.CapturedNumber(Scanner.Template(name[i..i + 2], [""]), name) ==
      Some(DigitsValue(VersionDigits(name, i)) as int)
  {
    var head := name[i..i + 2];
    var k := VersionDigitCount(name, i);
    SuggestedMatchesNoEarlier(name, i, head);
    MarkerDigitsFit(name, i);
    assert Scanner.CapturesAt(name, head, [""], i, k);
    Scanner.TemplateCapture(head, [""], name, i, k);
    assert name[i + |head|..i + |head| + k] == VersionDigits(name, i);
  }

  // ---------------------------------------------------------------------------
  // Suggested extensions
  // ---------------------------------------------------------------------------

  /** `s` without its later repetitions. */
  function Dedup(s: seq<string>): (r: seq<string>)
    ensures forall x :: x in r <==> x in s
    ensures forall x :: multiset(r)[x] <= 1
  {
    if |s| == 0 then []
    else
      var init := Dedup(s[..|s| - 1]);
      var last := s[|s| - 1];
      assert forall x :: x in s <==> x in s[..|s| - 1] || x == last;
      if last in init then init else init + [last]
  }

  /** A value at two positions occurs at least twice. */
  lemma RepeatCountsTwice(r: seq<string>)
    ensures forall i, j :: 0 <= i < j < |r| && r[i] == r[j] ==> multiset(r)[r[i]] >= 2
  {
    forall i, j | 0 <= i < j < |r| && r[i] == r[j] ensures multiset(r)[r[i]] >= 2 {
      assert r == r[..j] + r[j..];
      assert r[i] in r[..j] && r[j] in r[j..];
      assert multiset(r)[r[i]] == multiset(r[..j])[r[i]] + multiset(r[j..])[r[i]];
    }
  }

  /** `sorted(set(s))`: every value once, in increasing order. */
  function SortedUnique(s: seq<string>): (r: seq<string>)
    ensures forall x :: x in r <==> x in s
    ensures forall i, j :: 0 <= i < j < |r| ==> StrLe(r[i], r[j]) && r[i] != r[j]
  {
    var d := Dedup(s);
    StrLeIsTotalPreorder();
    var r := SortBy(d, StrLe);
    Scanner.SameElements(r, d);
    assert forall x :: multiset(r)[x] <= 1 by {
      forall x ensures multiset(r)[x] <= 1 { assert multiset(r)[x] == multiset(d)[x]; }
    }
    RepeatCountsTwice(r);
    r
  }

  /** `f.suffix.lower()`: a file's extension as reported. */
  function Ext(f: Node): string {
    LowerStr(Paths.Suffix(f.name))
  }

  /** The reported extension of each file. */
  function SuffixesOf(files: seq<Node>): (r: seq<string>)
    ensures forall x :: x in r <==> exists f :: f in files && Ext(f) == x
  {
    var r := seq(|files|, k requires 0 <= k < |files| => Ext(files[k]));
    forall x | x in r ensures exists f :: f in files && Ext(f) == x {
      var k :| 0 <= k < |r| && r[k] == x;
      assert files[k] in files && Ext(files[k]) == x;
    }
    forall f | f in files ensures Ext(f) in r {
      var k :| 0 <= k < |files| && files[k] == f;
      assert r[k] == Ext(f);
    }
    r
  }

  // ---------------------------------------------------------------------------
  // Versions from versioned folders
  // ---------------------------------------------------------------------------

  /** `_collect_media_files`: plain files whose text from the last dot,
      lowercased, is allowed, ordered by name. */
  function MediaOf(dir: Node, valid: set<string>): (r: seq<Node>)
    requires dir.Dir?
    ensures forall e :: e in r <==> e in dir.children && Scanner.IsMedia(e, valid)
    ensures forall k :: 0 <= k < |r| ==> r[k].IsFile()
  {
    Scanner.CollectMedia(dir.children, valid)
  }

  /** `_scan_version_dir`: one version per versioned folder, kept even when
      the folder holds no media file; no timecode is read. */
  function ScanVersionDir(vdir: Node, path: string, number: nat, valid: set<string>): (v: Models.VersionInfo)
    requires vdir.Dir?
    ensures v.versionNumber == number && Scanner.ParseLabel(v.versionString) == Some(number)
    ensures v.sourcePath == path && v.startTimecode.None?
    ensures v.fileCount == |MediaOf(vdir, valid)|
    ensures v.fileCount == 0 ==> v.frameRange.None? && v.frameCount == 0 && v.totalSizeBytes == 0
    ensures (v.frameRange, v.frameCount) == DetectFrameRange(Scanner.NamesOf(MediaOf(vdir, valid)))
    ensures forall f :: f in MediaOf(vdir, valid) ==> f.IsFile() && f.Size() <= v.totalSizeBytes
    ensures v.totalSizeBytes == Scanner.SizeOf(MediaOf(vdir, valid))
  {
    var files := MediaOf(vdir, valid);
    var (range, count) := DetectFrameRange(Scanner.NamesOf(files));
    Scanner.LabelRoundTrip(number);
    Models.VersionInfo(Scanner.VersionLabel(number), number, path, range, count,
                       |files|, Scanner.SizeOf(files), None)
  }

  /** A versioned folder with no media file: the version scanner skips it,
      discovery reports it as a version with no files. */
  lemma DiscoveryKeepsEmptyVersionFolder(m: Scanner.Matcher, exts: seq<string>, dir: string, folder: Node, number: nat)
    requires Scanner.ValidMatcher(m) && folder.Dir?
    requires forall e :: e in folder.children ==> !Scanner.IsMedia(e, Scanner.LowerSet(exts))
    ensures Scanner.ScanVersionFolder(m, exts, dir, folder).None?
    ensures var v := ScanVersionDir(folder, Paths.Join(dir, folder.name), number, Scanner.LowerSet(exts));
      v.fileCount == 0 && v.frameRange.None? && v.versionNumber == number
  {
    Scanner.FolderWithoutMediaIsSkipped(m, exts, dir, folder);
    var files := MediaOf(folder, Scanner.LowerSet(exts));
    assert forall k :: 0 <= k < |files| ==> files[k] in files;
  }

  /** The version of one versioned folder below `parent`. */
  function DirVersion(d: Node, parent: string, valid: set<string>): Models.VersionInfo
    requires IsVersionedDir(d)
  {
    ScanVersionDir(d, Paths.Join(parent, d.name), VersionNumber(d.name).value, valid)
  }

  /** The versions of the versioned folders, in folder order. */
  function DirVersions(vdirs: seq<Node>, parent: string, valid: set<string>): (r: seq<Models.VersionInfo>)
    requires forall k :: 0 <= k < |vdirs| ==> IsVersionedDir(vdirs[k])
    ensures |r| == |vdirs|
    ensures forall k :: 0 <= k < |vdirs| ==> r[k] == DirVersion(vdirs[k], parent, valid)
  {
    seq(|vdirs|, k requires 0 <= k < |vdirs| => DirVersion(vdirs[k], parent, valid))
  }

  /** The extensions of the media files of all versioned folders. */
  function DirExtensions(vdirs: seq<Node>, valid: set<string>): (r: seq<string>)
    requires forall k :: 0 <= k < |vdirs| ==> vdirs[k].Dir?
    ensures forall x :: x in r <==>
      exists d, f :: d in vdirs && f in MediaOf(d, valid) && Ext(f) == x
  {
    if |vdirs| == 0 then []
    else
      var here := SuffixesOf(MediaOf(vdirs[0], valid));
      var rest := DirExtensions(vdirs[1..], valid);
      assert forall d :: d in vdirs <==> d == vdirs[0] || d in vdirs[1..];
      here + rest
  }

  // ---------------------------------------------------------------------------
  // Versions from versioned files
  // ---------------------------------------------------------------------------

  /** A versioned media file: its path, its version number and its size. */
  datatype Hit = Hit(path: string, number: nat, size: nat)

  /** The path, number (read from the stem) and size of a versioned file. */
  function HitOf(f: Node, parent: string, valid: set<string>): (h: Hit)
    requires IsVersionedFile(f, valid)
    ensures h.path == Paths.Join(parent, f.name) && h.size == f.Size()
    ensures Some(h.number) == VersionNumber(Paths.Stem(f.name))
  {
    Hit(Paths.Join(parent, f.name), VersionNumber(Paths.Stem(f.name)).value, f.Size())
  }

  function HitsOf(vfiles: seq<Node>, parent: string, valid: set<string>): (r: seq<Hit>)
    requires forall k :: 0 <= k < |vfiles| ==> IsVersionedFile(vfiles[k], valid)
    ensures |r| == |vfiles|
    ensures forall k :: 0 <= k < |r| ==> r[k] == HitOf(vfiles[k], parent, valid)
  {
    seq(|vfiles|, k requires 0 <= k < |vfiles| => HitOf(vfiles[k], parent, valid))
  }

  /** The version a file opens when its number is seen for the first time. */
  function FirstSeen(h: Hit): Models.VersionInfo {
    Models.VersionInfo(Scanner.VersionLabel(h.number), h.number, h.path, None, 0, 1, h.size, None)
  }

  /** Position of the version numbered `n`, if any. */
  function IndexOf(vs: seq<Models.VersionInfo>, n: int): (r: Option<nat>)
    ensures r.Some? ==> r.value < |vs| && vs[r.value].versionNumber == n
    ensures r.None? ==> forall k :: 0 <= k < |vs| ==> vs[k].versionNumber != n
  {
    if |vs| == 0 then None
    else if vs[|vs| - 1].versionNumber == n then Some(|vs| - 1)
    else IndexOf(vs[..|vs| - 1], n)
  }

  /** One step of the merge: a new number opens a version; a number seen
      before adds one file and its size to that version. */
  function AddHit(vs: seq<Models.VersionInfo>, h: Hit): (r: seq<Models.VersionInfo>)
    ensures |r| == |vs| || |r| == |vs| + 1
  {
    match IndexOf(vs, h.number)
    case None => vs + [FirstSeen(h)]
    case Some(k) =>
      vs[k := vs[k].(fileCount := vs[k].fileCount + 1, totalSizeBytes := vs[k].totalSizeBytes + h.size)]
  }

  /** The versions of the versioned files, in order of first appearance. */
  function Merge(hits: seq<Hit>): seq<Models.VersionInfo> {
    if |hits| == 0 then [] else AddHit(Merge(hits[..|hits| - 1]), hits[|hits| - 1])
  }

  /** How many hits carry number `n`, and their total size. */
  function CountOf(hits: seq<Hit>, n: int): nat {
    if |hits| == 0 then 0
    else CountOf(hits[..|hits| - 1], n) + (if hits[|hits| - 1].number == n then 1 else 0)
  }

  function SizeOfNumber(hits: seq<Hit>, n: int): nat {
    if |hits| == 0 then 0
    else SizeOfNumber(hits[..|hits| - 1], n) + (if hits[|hits| - 1].number == n then hits[|hits| - 1].size else 0)
  }

  ghost predicate HasVersion(vs: seq<Models.VersionInfo>, n: int) {
    exists k :: 0 <= k < |vs| && vs[k].versionNumber == n
  }

  ghost predicate HasHit(hits: seq<Hit>, n: int) {
    exists j :: 0 <= j < |hits| && hits[j].number == n
  }

  predicate DistinctNumbers(vs: seq<Models.VersionInfo>) {
    forall i, j :: 0 <= i < j < |vs| ==> vs[i].versionNumber != vs[j].versionNumber
  }

  /** `j` is the first hit carrying number `n`. */
  ghost predicate FirstWith(hits: seq<Hit>, n: int, j: nat) {
    j < |hits| && hits[j].number == n && forall i :: 0 <= i < j ==> hits[i].number != n
  }

  /** What the merge promises for the version of each number. */
  ghost predicate MergedFrom(hits: seq<Hit>, v: Models.VersionInfo) {
    v.versionString == Scanner.VersionLabel(v.versionNumber) &&
    v.frameRange.None? && v.frameCount == 0 && v.startTimecode.None? &&
    v.fileCount == CountOf(hits, v.versionNumber) &&
    v.totalSizeBytes == SizeOfNumber(hits, v.versionNumber) &&
    exists j: nat :: FirstWith(hits, v.versionNumber, j) && hits[j].path == v.sourcePath
  }

  /** A merge step adds the hit's number and nothing else, and keeps the
      numbers apart. */
  lemma AddHitNumbers(vs: seq<Models.VersionInfo>, h: Hit)
    requires DistinctNumbers(vs)
    ensures DistinctNumbers(AddHit(vs, h))
    ensures forall n :: HasVersion(AddHit(vs, h), n) <==> HasVersion(vs, n) || n == h.number
  {
    var r := AddHit(vs, h);
    match IndexOf(vs, h.number)
    case None =>
      assert r[|vs|].versionNumber == h.number;
      forall n | HasVersion(vs, n) ensures HasVersion(r, n) {
        var k :| 0 <= k < |vs| && vs[k].versionNumber == n;
        assert r[k].versionNumber == n;
      }
    case Some(i) =>
      assert forall k :: 0 <= k < |vs| ==> r[k].versionNumber == vs[k].versionNumber;
  }

  /** The merge holds one version per number of a file, never two. */
  lemma {:induction false} MergeNumbers(hits: seq<Hit>)
    ensures DistinctNumbers(Merge(hits))
    ensures forall n :: HasVersion(Merge(hits), n) <==> HasHit(hits, n)
  {
    if |hits| > 0 {
      var init := hits[..|hits| - 1];
      var h := hits[|hits| - 1];
      MergeNumbers(init);
      AddHitNumbers(Merge(init), h);
      forall n ensures HasHit(hits, n) <==> HasHit(init, n) || n == h.number {
        if HasHit(init, n) {
          var j :| 0 <= j < |init| && init[j].number == n;
          assert hits[j].number == n;
        }
        if HasHit(hits, n) && n != h.number {
          var j :| 0 <= j < |hits| && hits[j].number == n;
          assert init[j].number == n;
        }
      }
    }
  }

  lemma {:induction false} NoneCounted(hits: seq<Hit>, n: int)
    requires !HasHit(hits, n)
    ensures CountOf(hits, n) == 0 && SizeOfNumber(hits, n) == 0
  {
    if |hits| > 0 {
      var init := hits[..|hits| - 1];
      forall j | 0 <= j < |init| ensures init[j].number != n {
        assert init[j] == hits[j];
      }
      NoneCounted(init, n);
    }
  }

  lemma FirstWithGrows(hits: seq<Hit>, h: Hit, n: int, j: nat)
    requires FirstWith(hits, n, j)
    ensures FirstWith(hits + [h], n, j)
  {
    assert (hits + [h])[j] == hits[j];
    forall i | 0 <= i < j ensures (hits + [h])[i].number != n {
      assert (hits + [h])[i] == hits[i];
    }
  }

  /** A version already merged stays what the merge promises after one more
      hit: its own counts grow only when the hit carries its number. */
  lemma MergedFromGrows(init: seq<Hit>, h: Hit, v: Models.VersionInfo, w: Models.VersionInfo)
    requires MergedFrom(init, v)
    requires w.versionString == v.versionString && w.versionNumber == v.versionNumber
    requires w.sourcePath == v.sourcePath && w.frameRange == v.frameRange
    requires w.frameCount == v.frameCount && w.startTimecode == v.startTimecode
    requires w.fileCount == v.fileCount + (if h.number == v.versionNumber then 1 else 0)
    requires w.totalSizeBytes == v.totalSizeBytes + (if h.number == v.versionNumber then h.size else 0)
    ensures MergedFrom(init + [h], w)
  {
    var hits := init + [h];
    assert hits[..|hits| - 1] == init;
    var j: nat :| FirstWith(init, v.versionNumber, j) && init[j].path == v.sourcePath;
    FirstWithGrows(init, h, v.versionNumber, j);
  }

  /** Files sharing a version number merge into one version whose path is
      the first such file's, whose file count counts them and whose size is
      the sum of theirs. */
  lemma {:induction false} MergeByNumber(hits: seq<Hit>)
    ensures forall k :: 0 <= k < |Merge(hits)| ==> MergedFrom(hits, Merge(hits)[k])
  {
    if |hits| > 0 {
      var init := hits[..|hits| - 1];
      var h := hits[|hits| - 1];
      assert hits == init + [h];
      MergeByNumber(init);
      MergeNumbers(init);
      var vs := Merge(init);
      var r := Merge(hits);
      forall k | 0 <= k < |r| ensures MergedFrom(hits, r[k]) {
        match IndexOf(vs, h.number)
        case None =>
          if k < |vs| {
            MergedFromGrows(init, h, vs[k], r[k]);
          } else {
            NoneCounted(init, h.number);
            assert FirstWith(hits, h.number, |init|);
          }
        case Some(i) =>
          assert k != i ==> vs[k].versionNumber != h.number;
          MergedFromGrows(init, h, vs[k], r[k]);
      }
    }
  }

  // ---------------------------------------------------------------------------
  // One directory
  // ---------------------------------------------------------------------------

  /** The report for a directory with versioned folders: one version per
      folder, ordered by number; pattern and sample come from the first
      folder in name order. */
  function DirsResult(path: string, vdirs: seq<Node>, valid: set<string>): (r: Models.DiscoveryResult)
    requires |vdirs| > 0 && forall k :: 0 <= k < |vdirs| ==> IsVersionedDir(vdirs[k])
    ensures multiset(r.versionsFound) == multiset(DirVersions(vdirs, path, valid))
    ensures SortedBy(r.versionsFound, Scanner.VersionLe)
  {
    var first := vdirs[0];
    assert IsVersionedDir(first);
    var sample := MediaOf(first, valid);
    Scanner.VersionLeTotalPreorder();
    Models.DiscoveryResult(
      path, Paths.Name(path),
      SortBy(DirVersions(vdirs, path, valid), Scanner.VersionLe),
      SuggestPattern(first.name, FindVersion(first.name).value),
      SortedUnique(DirExtensions(vdirs, valid)),
      if |sample| > 0 then sample[0].name else "")
  }

  /** The report for a directory with versioned files and no versioned
      folder: files merged by number, ordered by number; pattern from the
      first file's stem, sample is the first file. */
  function FilesResult(path: string, vfiles: seq<Node>, valid: set<string>): (r: Models.DiscoveryResult)
    requires |vfiles| > 0 && forall k :: 0 <= k < |vfiles| ==> IsVersionedFile(vfiles[k], valid)
    ensures multiset(r.versionsFound) == multiset(Merge(HitsOf(vfiles, path, valid)))
    ensures SortedBy(r.versionsFound, Scanner.VersionLe)
    ensures r.sampleFilename == vfiles[0].name
  {
    var first := vfiles[0];
    assert IsVersionedFile(first, valid);
    var stem := Paths.Stem(first.name);
    Scanner.VersionLeTotalPreorder();
    Models.DiscoveryResult(
      path, Paths.Name(path),
      SortBy(Merge(HitsOf(vfiles, path, valid)), Scanner.VersionLe),
      SuggestPattern(stem, FindVersion(stem).value),
      SortedUnique(SuffixesOf(vfiles)),
      first.name)
  }

  /** Any reordering of the merge keeps one version per number of a file,
      each merged from the files carrying that number. */
  lemma {:induction false} ReorderedMerge(hits: seq<Hit>, vs: seq<Models.VersionInfo>)
    requires multiset(vs) == multiset(Merge(hits))
    ensures forall v :: v in vs ==> MergedFrom(hits, v)
    ensures forall n :: HasVersion(vs, n) <==> HasHit(hits, n)
  {
    var merged := Merge(hits);
    MergeNumbers(hits);
    MergeByNumber(hits);
    PermutedVersions(vs, merged);
    forall v | v in vs ensures MergedFrom(hits, v) {
      var k :| 0 <= k < |merged| && merged[k] == v;
    }
  }

  /** A directory of versioned files reports, ordered by number, one version
      per number found in a file stem, each merged from the files carrying
      that number. */
  lemma FilesResultVersions(path: string, vfiles: seq<Node>, valid: set<string>)
    requires |vfiles| > 0 && forall k :: 0 <= k < |vfiles| ==> IsVersionedFile(vfiles[k], valid)
    ensures var vs := FilesResult(path, vfiles, valid).versionsFound;
      var hits := HitsOf(vfiles, path, valid);
      SortedBy(vs, Scanner.VersionLe) &&
      (forall v :: v in vs ==> MergedFrom(hits, v)) &&
      (forall n :: HasVersion(vs, n) <==> HasHit(hits, n))
  {
    ReorderedMerge(HitsOf(vfiles, path, valid), FilesResult(path, vfiles, valid).versionsFound);
  }

  lemma PermutedVersions(a: seq<Models.VersionInfo>, b: seq<Models.VersionInfo>)
    requires multiset(a) == multiset(b)
    ensures forall v :: v in a <==> v in b
    ensures forall n :: HasVersion(a, n) <==> HasVersion(b, n)
  {
    Scanner.SameElements(a, b);
    forall n | HasVersion(b, n) ensures HasVersion(a, n) {
      var k :| 0 <= k < |b| && b[k].versionNumber == n;
      assert b[k] in a;
    }
    forall n | HasVersion(a, n) ensures HasVersion(b, n) {
      var k :| 0 <= k < |a| && a[k].versionNumber == n;
      assert a[k] in b;
    }
  }

  /** What the walk reports for one directory, given its entries in name
      order: versioned folders win; versioned files count only when there
      is no versioned folder. */
  function Here(path: string, entries: seq<Node>, valid: set<string>): (r: Option<Models.DiscoveryResult>)
    ensures r.Some? <==> exists e :: e in entries && (IsVersionedDir(e) || IsVersionedFile(e, valid))
    ensures r.Some? ==> r.value.path == path && r.value.name == Paths.Name(path)
  {
    var vdirs := VersionedDirs(entries);
    var vfiles := VersionedFiles(entries, valid);
    if |vdirs| > 0 then
      Some(DirsResult(path, vdirs, valid))
    else if |vfiles| > 0 then
      Some(FilesResult(path, vfiles, valid))
    else
      assert forall e :: e in entries ==> !IsVersionedDir(e) && !IsVersionedFile(e, valid);
      None
  }

  /** With a versioned folder present, each versioned folder gives exactly
      one version (even without media files) and versioned files are ignored. */
  lemma VersionFoldersWin(path: string, entries: seq<Node>, valid: set<string>)
    requires exists e :: e in entries && IsVersionedDir(e)
    ensures var vdirs := VersionedDirs(entries);
      Here(path, entries, valid) == Some(DirsResult(path, vdirs, valid))
  {
    var e :| e in entries && IsVersionedDir(e);
    assert e in VersionedDirs(entries);
  }

  /** Every visible versioned folder of a reported directory appears among
      its versions. */
  lemma EveryVersionFolderReported(path: string, entries: seq<Node>, valid: set<string>, d: Node)
    requires d in entries && IsVersionedDir(d)
    ensures Here(path, entries, valid).Some?
    ensures DirVersion(d, path, valid) in Here(path, entries, valid).value.versionsFound
  {
    var vdirs := VersionedDirs(entries);
    VersionFoldersWin(path, entries, valid);
    var res := DirsResult(path, vdirs, valid);
    var all := DirVersions(vdirs, path, valid);
    var k :| 0 <= k < |vdirs| && vdirs[k] == d;
    assert all[k] in all;
    Scanner.SameElements(res.versionsFound, all);
  }

  /** The suggested extensions are the lowercased suffixes of the media
      files in the versioned folders (or of the versioned files), each once,
      in increasing order. */
  lemma ResultExtensions(path: string, entries: seq<Node>, valid: set<string>)
    requires Here(path, entries, valid).Some?
    ensures var xs := Here(path, entries, valid).value.suggestedExtensions;
      var vdirs := VersionedDirs(entries);
      var vfiles := VersionedFiles(entries, valid);
      (forall i, j :: 0 <= i < j < |xs| ==> StrLe(xs[i], xs[j]) && xs[i] != xs[j]) &&
      (|vdirs| > 0 ==> forall x :: x in xs <==>
        exists d, f :: d in vdirs && f in MediaOf(d, valid) && Ext(f) == x) &&
      (|vdirs| == 0 ==> forall x :: x in xs <==> exists f :: f in vfiles && Ext(f) == x)
  {
  }

  // ---------------------------------------------------------------------------
  // The walk
  // ---------------------------------------------------------------------------

  /** A directory: the walk lists it. */
  type Folder = n: Node | n.Dir? witness Dir("", [])

  /** The visible subdirectories without a version marker, in name order:
      the ones the walk descends into. */
  function Subdirs(dir: Folder): (r: seq<Folder>)
    ensures forall e :: e in r <==> e in dir.children && IsPlainSubdir(e)
  {
    var entries := SortedEntries(dir.children);
    Scanner.SameElements(entries, dir.children);
    PlainSubdirs(entries)
  }

  /** What the walk reports for a directory found at a path. */
  function Report(valid: set<string>): (Folder, string) -> Option<Models.DiscoveryResult> {
    (d: Folder, path: string) => Here(path, SortedEntries(d.children), valid)
  }

  /** `_walk_for_versions`, with the report made for one directory as a
      parameter: nothing beyond `maxDepth`; otherwise this directory's
      report, then the walks of its plain subdirectories one level deeper,
      in name order. */
  function WalkBy(dir: Folder, path: string, depth: int, maxDepth: int,
                  report: (Folder, string) -> Option<Models.DiscoveryResult>): (r: seq<Models.DiscoveryResult>)
    ensures depth > maxDepth ==> r == []
    decreases maxDepth - depth + 1, 0
  {
    if depth > maxDepth then []
    else
      var here := report(dir, path);
      (if here.Some? then [here.value] else []) +
        WalkAllBy(Subdirs(dir), 0, path, depth + 1, maxDepth, report)
  }

  /** The walks of `subdirs[i..]`, one after the other. */
  function WalkAllBy(subdirs: seq<Folder>, i: nat, parent: string, depth: int, maxDepth: int,
                     report: (Folder, string) -> Option<Models.DiscoveryResult>): seq<Models.DiscoveryResult>
    decreases maxDepth - depth + 1, |subdirs| - i
  {
    if i >= |subdirs| then []
    else
      WalkBy(subdirs[i], Paths.Join(parent, subdirs[i].name), depth, maxDepth, report) +
        WalkAllBy(subdirs, i + 1, parent, depth, maxDepth, report)
  }

  /** The walk `discover` starts, reporting each directory with `Here`. */
  function Walk(dir: Node, path: string, depth: int, maxDepth: int, valid: set<string>): (r: seq<Models.DiscoveryResult>)
    requires dir.Dir?
  {
    WalkBy(dir, path, depth, maxDepth, Report(valid))
  }

  /** A directory and the path it is found at. */
  datatype Spot = Spot(node: Folder, path: string)

  /** The directory reached from `dir` by entering, level by level, the
      `route[k]`-th plain subdirectory in name order; `None` when an index
      is out of range. */
  function Follow(dir: Folder, path: string, route: seq<nat>): (r: Option<Spot>)
    decreases |route|
  {
    if |route| == 0 then Some(Spot(dir, path))
    else
      var subs := Subdirs(dir);
      if route[0] < |subs| then Follow(subs[route[0]], Paths.Join(path, subs[route[0]].name), route[1..])
      else None
  }

  /** `res` is what `report` makes of the directory `route` leads to. */
  ghost predicate ReportedAt(dir: Folder, path: string, route: seq<nat>,
                             report: (Folder, string) -> Option<Models.DiscoveryResult>, res: Models.DiscoveryResult) {
    var s := Follow(dir, path, route);
    s.Some? && report(s.value.node, s.value.path) == Some(res)
  }

  /** `res` is the report `Here` makes for the directory `route` leads to. */
  ghost predicate FoundAt(dir: Folder, path: string, route: seq<nat>, valid: set<string>, res: Models.DiscoveryResult) {
    var s := Follow(dir, path, route);
    s.Some? && Here(s.value.path, SortedEntries(s.value.node.children), valid) == Some(res)
  }

  /** Following one more index first enters that plain subdirectory. */
  lemma FollowStep(dir: Folder, path: string, k: nat, rest: seq<nat>)
    requires k < |Subdirs(dir)|
    ensures var s := Subdirs(dir)[k];
      Follow(dir, path, [k] + rest) == Follow(s, Paths.Join(path, s.name), rest)
  {
    assert ([k] + rest)[0] == k && ([k] + rest)[1..] == rest;
  }

  /** A route that leads somewhere starts with an index in range. */
  lemma FollowFirst(dir: Folder, path: string, route: seq<nat>)
    requires |route| > 0 && Follow(dir, path, route).Some?
    ensures var subs := Subdirs(dir);
      route[0] < |subs| &&
      Follow(dir, path, route) == Follow(subs[route[0]], Paths.Join(path, subs[route[0]].name), route[1..])
  {
  }

  /** A report of the walks of `subdirs[i..]` comes from the walk of one of them. */
  lemma {:induction false} WalkAllPick(subdirs: seq<Folder>, i: nat, parent: string, depth: int, maxDepth: int,
                                       report: (Folder, string) -> Option<Models.DiscoveryResult>, res: Models.DiscoveryResult)
    returns (k: nat)
    requires res in WalkAllBy(subdirs, i, parent, depth, maxDepth, report)
    ensures i <= k < |subdirs| && res in WalkBy(subdirs[k], Paths.Join(parent, subdirs[k].name), depth, maxDepth, report)
    decreases |subdirs| - i
  {
    var first := WalkBy(subdirs[i], Paths.Join(parent, subdirs[i].name), depth, maxDepth, report);
    assert WalkAllBy(subdirs, i, parent, depth, maxDepth, report) == first + WalkAllBy(subdirs, i + 1, parent, depth, maxDepth, report);
    if res in first {
      k := i;
    } else {
      k := WalkAllPick(subdirs, i + 1, parent, depth, maxDepth, report, res);
    }
  }

  /** The walks of `subdirs[i..]` contain all reports of each of them. */
  lemma {:induction false} WalkAllHas(subdirs: seq<Folder>, i: nat, parent: string, depth: int, maxDepth: int,
                                      report: (Folder, string) -> Option<Models.DiscoveryResult>, k: nat, res: Models.DiscoveryResult)
    requires i <= k < |subdirs| && res in WalkBy(subdirs[k], Paths.Join(parent, subdirs[k].name), depth, maxDepth, report)
    ensures res in WalkAllBy(subdirs, i, parent, depth, maxDepth, report)
    decreases k - i
  {
    var first := WalkBy(subdirs[i], Paths.Join(parent, subdirs[i].name), depth, maxDepth, report);
    assert WalkAllBy(subdirs, i, parent, depth, maxDepth, report) == first + WalkAllBy(subdirs, i + 1, parent, depth, maxDepth, report);
    if k > i {
      WalkAllHas(subdirs, i + 1, parent, depth, maxDepth, report, k, res);
    }
  }

  /** Soundness: every report of the walk is the report of a directory
      reached through at most `maxDepth - depth` plain subdirectories. */
  lemma {:induction false} WalkByRoute(dir: Folder, path: string, depth: int, maxDepth: int,
                                       report: (Folder, string) -> Option<Models.DiscoveryResult>, res: Models.DiscoveryResult)
    returns (route: seq<nat>)
    requires res in WalkBy(dir, path, depth, maxDepth, report)
    ensures depth + |route| <= maxDepth && ReportedAt(dir, path, route, report, res)
    decreases maxDepth - depth
  {
    var here := report(dir, path);
    var head := if here.Some? then [here.value] else [];
    var subs := Subdirs(dir);
    assert WalkBy(dir, path, depth, maxDepth, report) == head + WalkAllBy(subs, 0, path, depth + 1, maxDepth, report);
    if res in head {
      route := [];
    } else {
      var k := WalkAllPick(subs, 0, path, depth + 1, maxDepth, report, res);
      var rest := WalkByRoute(subs[k], Paths.Join(path, subs[k].name), depth + 1, maxDepth, report, res);
      route := [k] + rest;
      FollowStep(dir, path, k, rest);
    }
  }

  /** Completeness: the report of every directory reached through at most
      `maxDepth - depth` plain subdirectories is in the walk. */
  lemma {:induction false} RouteIsWalked(dir: Folder, path: string, depth: int, maxDepth: int,
                                         report: (Folder, string) -> Option<Models.DiscoveryResult>,
                                         route: seq<nat>, res: Models.DiscoveryResult)
    requires depth + |route| <= maxDepth && ReportedAt(dir, path, route, report, res)
    ensures res in WalkBy(dir, path, depth, maxDepth, report)
    decreases |route|
  {
    var here := report(dir, path);
    var head := if here.Some? then [here.value] else [];
    var subs := Subdirs(dir);
    assert WalkBy(dir, path, depth, maxDepth, report) == head + WalkAllBy(subs, 0, path, depth + 1, maxDepth, report);
    if |route| == 0 {
      assert res in head;
    } else {
      var k := route[0];
      FollowFirst(dir, path, route);
      RouteIsWalked(subs[k], Paths.Join(path, subs[k].name), depth + 1, maxDepth, report, route[1..], res);
      WalkAllHas(subs, 0, path, depth + 1, maxDepth, report, k, res);
    }
  }

  /** The walk reports exactly the reports of the directories within
      `maxDepth - depth` levels, reached through plain subdirectories only:
      hidden entries and versioned folders are never descended into. */
  lemma WalkByExactly(dir: Folder, path: string, depth: int, maxDepth: int,
                      report: (Folder, string) -> Option<Models.DiscoveryResult>, res: Models.DiscoveryResult)
    ensures res in WalkBy(dir, path, depth, maxDepth, report) <==>
      exists route :: depth + |route| <= maxDepth && ReportedAt(dir, path, route, report, res)
  {
    if res in WalkBy(dir, path, depth, maxDepth, report) {
      var route := WalkByRoute(dir, path, depth, maxDepth, report, res);
    }
    if exists route :: depth + |route| <= maxDepth && ReportedAt(dir, path, route, report, res) {
      var route :| depth + |route| <= maxDepth && ReportedAt(dir, path, route, report, res);
      RouteIsWalked(dir, path, depth, maxDepth, report, route, res);
    }
  }

  /** With `Here` as the report, a route names the same report either way. */
  lemma ReportIsHere(dir: Folder, path: string, route: seq<nat>, valid: set<string>, res: Models.DiscoveryResult)
    ensures ReportedAt(dir, path, route, Report(valid), res) <==> FoundAt(dir, path, route, valid, res)
  {
  }

  /** `discover`'s walk reports exactly what `Here` makes of the directories
      within `maxDepth - depth` visible, non-versioned levels. */
  lemma WalkExactly(dir: Node, path: string, depth: int, maxDepth: int, valid: set<string>, res: Models.DiscoveryResult)
    requires dir.Dir?
    ensures res in Walk(dir, path, depth, maxDepth, valid) <==>
      exists route :: depth + |route| <= maxDepth && FoundAt(dir, path, route, valid, res)
  {
    WalkByExactly(dir, path, depth, maxDepth, Report(valid), res);
    forall route | ReportedAt(dir, path, route, Report(valid), res) || FoundAt(dir, path, route, valid, res)
      ensures ReportedAt(dir, path, route, Report(valid), res) && FoundAt(dir, path, route, valid, res)
    {
      ReportIsHere(dir, path, route, valid, res);
    }
  }

  /** Every directory within reach whose entries hold a visible versioned
      folder or versioned file is reported, with its own path; the starting
      directory's report comes first. */
  lemma WalkReportsHere(dir: Node, path: string, depth: int, maxDepth: int, valid: set<string>, route: seq<nat>)
    requires dir.Dir? && depth + |route| <= maxDepth && Follow(dir, path, route).Some?
    requires var s := Follow(dir, path, route).value;
      exists e :: e in s.node.children && (IsVersionedDir(e) || IsVersionedFile(e, valid))
    ensures var s := Follow(dir, path, route).value;
      var here := Here(s.path, SortedEntries(s.node.children), valid);
      here.Some? && here.value.path == s.path && here.value in Walk(dir, path, depth, maxDepth, valid)
    ensures |route| == 0 ==>
      var r := Walk(dir, path, depth, maxDepth, valid);
      |r| > 0 && r[0] == Here(path, SortedEntries(dir.children), valid).value
  {
    var s := Follow(dir, path, route).value;
    var entries := SortedEntries(s.node.children);
    Scanner.SameElements(entries, s.node.children);
    var e :| e in s.node.children && (IsVersionedDir(e) || IsVersionedFile(e, valid));
    assert e in entries;
    var here := Here(s.path, entries, valid);
    ReportIsHere(dir, path, route, valid, here.value);
    RouteIsWalked(dir, path, depth, maxDepth, Report(valid), route, here.value);
  }

  // ---------------------------------------------------------------------------
  // Filters and the whole discovery
  // ---------------------------------------------------------------------------

  function LowerAll(kws: seq<string>): (r: seq<string>)
    ensures |r| == |kws| && forall k :: 0 <= k < |r| ==> r[k] == LowerStr(kws[k])
  {
    seq(|kws|, k requires 0 <= k < |kws| => LowerStr(kws[k]))
  }

  /** The text the keywords are looked for in: name, path relative to the
      root (the full path when it is not below the root) and, when present,
      the sample file name, joined by spaces and lowercased. */
  function SearchText(r: Models.DiscoveryResult, root: string): string {
    var rel := match Paths.RelativeTo(r.path, root) case Some(p) => p case None => r.path;
    var parts := [r.name, rel] + (if r.sampleFilename != "" then [r.sampleFilename] else []);
    LowerStr(JoinWith(parts, ' '))
  }

  predicate AnyIn(kws: seq<string>, text: string) {
    exists k :: 0 <= k < |kws| && Contains(text, kws[k])
  }

  /** A result survives when no blacklist keyword occurs in its text and,
      if there is a whitelist, one of its keywords does. */
  predicate Passes(r: Models.DiscoveryResult, root: string, wl: seq<string>, bl: seq<string>) {
    var text := SearchText(r, root);
    !AnyIn(LowerAll(bl), text) && (|wl| == 0 || AnyIn(LowerAll(wl), text))
  }

  /** `_apply_filters`. */
  function ApplyFilters(results: seq<Models.DiscoveryResult>, root: string, wl: seq<string>, bl: seq<string>): (r: seq<Models.DiscoveryResult>)
    ensures forall x :: x in r <==> (x in results &&
      (forall k :: 0 <= k < |bl| ==> !Contains(SearchText(x, root), LowerStr(bl[k]))) &&
      (|wl| == 0 || exists k :: 0 <= k < |wl| && Contains(SearchText(x, root), LowerStr(wl[k]))))
  {
    Keep(results, (x: Models.DiscoveryResult) => Passes(x, root, wl, bl))
  }

  /** With both keyword lists empty the filter keeps everything, in order. */
  lemma {:induction false} NoKeywordsKeepsAll(results: seq<Models.DiscoveryResult>, root: string)
    ensures ApplyFilters(results, root, [], []) == results
  {
    if |results| > 0 {
      NoKeywordsKeepsAll(results[1..], root);
      assert Passes(results[0], root, [], []);
    }
  }

  predicate PathLe(a: Models.DiscoveryResult, b: Models.DiscoveryResult) {
    StrLe(a.path, b.path)
  }

  /** `discover`: nothing when the root does not exist; a root that is not a
      directory makes the listing fail unless `maxDepth` is negative;
      otherwise the walk's reports, filtered when a keyword list is given,
      ordered by path. */
  function Discover(root: Option<Node>, rootPath: string, maxDepth: int, extensions: seq<string>,
                    whitelist: seq<string>, blacklist: seq<string>): (r: Result<seq<Models.DiscoveryResult>, string>)
    ensures root.None? ==> r == Ok([])
    ensures r.Err? <==> root.Some? && !root.value.Dir? && maxDepth >= 0
    ensures r.Ok? ==> SortedBy(r.value, PathLe)
  {
    match root
    case None => Ok([])
    case Some(node) =>
      if maxDepth < 0 then Ok([])
      else if !node.Dir? then Err("NotADirectoryError")
      else
        var found := Walk(node, rootPath, 0, maxDepth, ValidExtensions(extensions));
        var kept := if |whitelist| > 0 || |blacklist| > 0 then ApplyFilters(found, rootPath, whitelist, blacklist) else found;
        PathSorted(kept);
        Ok(SortBy(kept, PathLe))
  }

  /** `sorted(..., key=lambda r: r.path)` orders the reports by path. */
  lemma PathSorted(xs: seq<Models.DiscoveryResult>)
    ensures SortedBy(SortBy(xs, PathLe), PathLe)
  {
    Sorting.StrLeIsTotalPreorder();
  }

  /** `discover` returns exactly the reports of the directories within
      `maxDepth` visible, non-versioned levels of the root that pass the
      keyword filters; with no keywords every report of the walk is kept. */
  lemma DiscoverReports(root: Node, rootPath: string, maxDepth: int, extensions: seq<string>,
                        whitelist: seq<string>, blacklist: seq<string>, res: Models.DiscoveryResult)
    requires root.Dir? && maxDepth >= 0
    ensures var out := Discover(Some(root), rootPath, maxDepth, extensions, whitelist, blacklist);
      var valid := ValidExtensions(extensions);
      out.Ok? &&
      (res in out.value <==> res in Walk(root, rootPath, 0, maxDepth, valid) && Passes(res, rootPath, whitelist, blacklist)) &&
      (res in out.value <==>
        Passes(res, rootPath, whitelist, blacklist) &&
        exists route :: |route| <= maxDepth && FoundAt(root, rootPath, route, valid, res))
  {
    var valid := ValidExtensions(extensions);
    var found := Walk(root, rootPath, 0, maxDepth, valid);
    var kept := if |whitelist| > 0 || |blacklist| > 0 then ApplyFilters(found, rootPath, whitelist, blacklist) else found;
    var out := Discover(Some(root), rootPath, maxDepth, extensions, whitelist, blacklist);
    Sorting.StrLeIsTotalPreorder();
    assert out.value == SortBy(kept, PathLe);
    Scanner.SameElements(out.value, kept);
    if |whitelist| == 0 && |blacklist| == 0 {
      assert Passes(res, rootPath, whitelist, blacklist);
    }
    WalkExactly(root, rootPath, 0, maxDepth, valid, res);
  }

  /** Completeness of `discover`: a directory within `maxDepth` visible,
      non-versioned levels of the root that holds a visible versioned folder
      or versioned file is reported when it passes the keyword filters, and
      always when there are no keywords. */
  lemma DiscoverFindsEveryLocation(root: Node, rootPath: string, maxDepth: int, extensions: seq<string>,
                                   whitelist: seq<string>, blacklist: seq<string>, route: seq<nat>)
    requires root.Dir? && |route| <= maxDepth && Follow(root, rootPath, route).Some?
    requires var s := Follow(root, rootPath, route).value;
      exists e :: e in s.node.children && (IsVersionedDir(e) || IsVersionedFile(e, ValidExtensions(extensions)))
    ensures var s := Follow(root, rootPath, route).value;
      var here := Here(s.path, SortedEntries(s.node.children), ValidExtensions(extensions));
      var out := Discover(Some(root), rootPath, maxDepth, extensions, whitelist, blacklist);
      here.Some? && out.Ok? &&
      (here.value in out.value <==> Passes(here.value, rootPath, whitelist, blacklist)) &&
      (|whitelist| == 0 && |blacklist| == 0 ==> here.value in out.value)
  {
    var valid := ValidExtensions(extensions);
    var s := Follow(root, rootPath, route).value;
    WalkReportsHere(root, rootPath, 0, maxDepth, valid, route);
    var here := Here(s.path, SortedEntries(s.node.children), valid);
    DiscoverReports(root, rootPath, maxDepth, extensions, whitelist, blacklist, here.value);
    if |whitelist| == 0 && |blacklist| == 0 {
      assert Passes(here.value, rootPath, whitelist, blacklist);
    }
  }
}

=== FILE: frame_ranges.dfy ===
/** The frame-range summary the scanner writes for a set of files: the frame
    numbers found in the names, the "first-last" text with its gap note, and
    the two variants of the summary (`_detect_frame_range` and the one the
    manual-import helpers share). */
module FrameRanges {
  import opened Wrappers
  import opened Strs
  import opened Patterns

  // ---------------------------------------------------------------------------
  // Frame numbers
  // ---------------------------------------------------------------------------

  /** The frame numbers of the names that carry a frame suffix, in order. */
  function FramesOf(names: seq<string>): (r: seq<nat>)
    ensures |r| <= |names|
    ensures |r| == 0 <==> forall k :: 0 <= k < |names| ==> FindFrame(names[k]).None?
    ensures (forall k :: 0 <= k < |names| ==> FindFrame(names[k]).Some?) ==> |r| == |names|
  {
    if |names| == 0 then []
    else
      var rest := FramesOf(names[1..]);
      assert forall k :: 1 <= k < |names| ==> names[k] == names[1..][k - 1];
      match FindFrame(names[0])
      case Some(i) => [FrameNumber(names[0], i)] + rest
      case None => rest
  }

  function MinOf(s: seq<nat>): (m: nat)
    requires |s| > 0
    ensures m in s && forall x :: x in s ==> m <= x
  {
    if |s| == 1 then s[0]
    else
      var m := MinOf(s[1..]);
      assert forall x :: x in s ==> x == s[0] || x in s[1..];
      if s[0] <= m then s[0] else m
  }

  function MaxOf(s: seq<nat>): (m: nat)
    requires |s| > 0
    ensures m in s && forall x :: x in s ==> x <= m
  {
    if |s| == 1 then s[0]
    else
      var m := MaxOf(s[1..]);
      assert forall x :: x in s ==> x == s[0] || x in s[1..];
      if s[0] >= m then s[0] else m
  }

  /** `f"{first}-{last}"`. */
  function SpanText(first: nat, last: nat): string {
    NatToString(first) + "-" + NatToString(last)
  }

  /** The range text: the source sorts the frames and reads the two ends,
      which are the smallest and the largest. The note is added whenever the
      number of frames differs from `last - first + 1`. */
  function RangeText(frames: seq<nat>): (r: string)
    requires |frames| > 0
    ensures StartsWith(r, SpanText(MinOf(frames), MaxOf(frames)))
  {
    var first := MinOf(frames);
    var last := MaxOf(frames);
    var expected := last - first + 1;
    var actual := |frames|;
    SpanText(first, last) +
      (if actual != expected
       then " (" + NatToString(actual) + "/" + NatToString(expected) + " frames, gaps detected)"
       else "")
  }

  /** The gap note is left out exactly when the count equals the span. */
  lemma RangeTextNote(frames: seq<nat>)
    requires |frames| > 0
    ensures RangeText(frames) == SpanText(MinOf(frames), MaxOf(frames))
            <==> |frames| == MaxOf(frames) - MinOf(frames) + 1
  {
  }

  // ---------------------------------------------------------------------------
  // What the gap note means
  // ---------------------------------------------------------------------------

  predicate Distinct(s: seq<nat>) {
    forall i, j :: 0 <= i < j < |s| ==> s[i] != s[j]
  }

  function Elems(s: seq<nat>): set<nat> {
    set x | x in s
  }

  /** The frame numbers from `a` to `b`. */
  function Span(a: nat, b: nat): (r: set<nat>)
    ensures forall x :: x in r <==> a <= x <= b
    decreases b + 1 - a
  {
    if a > b then {} else {a} + Span(a + 1, b)
  }

  lemma {:induction false} SpanSize(a: nat, b: nat)
    requires a <= b + 1
    ensures |Span(a, b)| == b + 1 - a
    decreases b + 1 - a
  {
    if a <= b {
      var rest := Span(a + 1, b);
      SpanSize(a + 1, b);
      assert a !in rest;
      assert |{a} + rest| == |rest| + 1;
    }
  }

  lemma {:induction false} DistinctSize(s: seq<nat>)
    requires Distinct(s)
    ensures |Elems(s)| == |s|
  {
    if |s| > 0 {
      var t := s[..|s| - 1];
      assert Elems(s) == Elems(t) + {s[|s| - 1]};
      assert s[|s| - 1] !in Elems(t);
      DistinctSize(t);
    }
  }

  lemma {:induction false} SubsetSize(a: set<nat>, b: set<nat>)
    requires a <= b
    ensures |a| <= |b|
    decreases |b|
  {
    if b != {} {
      var y :| y in b;
      SubsetSize(a - {y}, b - {y});
    }
  }

  lemma SubsetSameSize(a: set<nat>, b: set<nat>)
    requires a <= b && |a| == |b|
    ensures a == b
  {
    if a != b {
      var y :| y in b && y !in a;
      SubsetSize(a, b - {y});
    }
  }

  /** For frames with no repeated number, the text carries no gap note
      exactly when every frame between the first and the last is present. */
  lemma {:induction false} GapNoteMeansMissingFrame(frames: seq<nat>)
    requires |frames| > 0 && Distinct(frames)
    ensures RangeText(frames) == SpanText(MinOf(frames), MaxOf(frames))
            <==> forall f: nat :: MinOf(frames) <= f <= MaxOf(frames) ==> f in frames
  {
    var lo, hi := MinOf(frames), MaxOf(frames);
    RangeTextNote(frames);
    assert Elems(frames) <= Span(lo, hi);
    DistinctSize(frames);
    SpanSize(lo, hi);
    if |frames| == hi - lo + 1 {
      SubsetSameSize(Elems(frames), Span(lo, hi));
      forall f: nat | lo <= f <= hi ensures f in frames {
        assert f in Span(lo, hi);
      }
    }
    if forall f: nat :: lo <= f <= hi ==> f in frames {
      assert Span(lo, hi) <= Elems(frames);
      assert Elems(frames) == Span(lo, hi);
    }
  }

  /** A frame number that appears several times (files of two sequences in
      one folder) is reported with the gap note although nothing is missing. */
  lemma RepeatedFrameReportsGap(f: nat, n: nat)
    requires n >= 2
    ensures var frames := seq(n, _ => f);
      RangeText(frames) != SpanText(f, f)
  {
    var frames := seq(n, _ => f);
    assert frames[0] == f;
    assert MinOf(frames) == f && MaxOf(frames) == f;
    RangeTextNote(frames);
  }

  // ---------------------------------------------------------------------------
  // The two summaries
  // ---------------------------------------------------------------------------

  /** `_detect_frame_range`: no range for no file, one file, or files with no
      frame number among them; otherwise the range over the framed files,
      counting only those. */
  function DetectFrameRange(names: seq<string>): (r: (Option<string>, nat))
    ensures |names| <= 1 ==> r == (None, |names|)
    ensures r.0.None? <==> |names| <= 1 || |FramesOf(names)| == 0
    ensures r.0.None? ==> r.1 == |names|
    ensures r.0.Some? ==> r.0.value == RangeText(FramesOf(names)) && r.1 == |FramesOf(names)|
  {
    if |names| == 0 then (None, 0)
    else if |names| == 1 then (None, 1)
    else
      var frames := FramesOf(names);
      if |frames| == 0 then (None, |names|)
      else (Some(RangeText(frames)), |frames|)
  }

  /** What `detect_sequence_from_file` and `scan_directory_as_version`
      return for their sorted file list. */
  datatype Sequence = Sequence(files: seq<string>, frameRange: Option<string>, frameCount: nat)

  /** Their shared summary: no range unless at least two frame numbers were
      found, in which case the count is the number of framed files. */
  function SequenceOf(names: seq<string>): (r: Sequence)
    ensures r.files == names
    ensures r.frameRange.None? <==> |FramesOf(names)| < 2
    ensures r.frameRange.None? ==> r.frameCount == |names|
    ensures r.frameRange.Some? ==> r.frameRange.value == RangeText(FramesOf(names)) && r.frameCount == |FramesOf(names)|
  {
    var frames := FramesOf(names);
    if |frames| < 2 then Sequence(names, None, |names|)
    else Sequence(names, Some(RangeText(frames)), |frames|)
  }

  /** The two summaries differ when exactly one of several files carries a
      frame number: `_detect_frame_range` reports "N-N" for one frame, the
      manual-import helpers report no range and count every file. */
  lemma SummariesDisagreeOnOneFrame(names: seq<string>)
    requires |names| >= 2 && |FramesOf(names)| == 1
    ensures var f := FramesOf(names)[0];
      DetectFrameRange(names) == (Some(SpanText(f, f)), 1)
    ensures SequenceOf(names).frameRange == None && SequenceOf(names).frameCount == |names|
  {
    var frames := FramesOf(names);
    assert MinOf(frames) == frames[0] && MaxOf(frames) == frames[0];
    RangeTextNote(frames);
  }

  /** With two or more framed files the two summaries agree. */
  lemma SummariesAgree(names: seq<string>)
    requires |FramesOf(names)| >= 2
    ensures DetectFrameRange(names) == (SequenceOf(names).frameRange, SequenceOf(names).frameCount)
  {
  }
}

=== FILE: fs.dfy ===
/** An immutable snapshot of the part of a file system the core reads: a tree
    of named entries whose files carry their bytes, size and mtime. */
module Fs {
  import opened Wrappers
  import opened Strs
  import opened Sorting
  import Paths

  /** What `stat` and `open` report about one file. `mtime` is abstract
      (seconds as a real); `locked` means opening it for append fails. */
  datatype Body = Body(data: seq<bv8>, mtime: real, locked: bool)

  /** A directory entry. A symbolic link carries the body of the file it
      resolves to, or `None` when it dangles or points at a directory. */
  datatype Node =
    | File(name: string, body: Body)
    | Link(name: string, target: string, resolved: Option<Body>)
    | Dir(name: string, children: seq<Node>)
  {
    /** `os.DirEntry.is_file(follow_symlinks=False)`. */
    predicate IsPlainFile() {
      File?
    }

    /** `Path.is_file()`, which follows symbolic links. */
    predicate IsFile() {
      File? || (Link? && resolved.Some?)
    }

    predicate IsDir() {
      Dir?
    }

    /** The body `stat()` reports for a file, following a link. */
    function FileBody(): (b: Body)
      requires IsFile()
      ensures File? ==> b == body
    {
      if File? then body else resolved.value
    }

    /** `stat().st_size`. */
    function Size(): (n: nat)
      requires IsFile()
      ensures n == |FileBody().data|
    {
      |FileBody().data|
    }
  }

  predicate NameLe(a: Node, b: Node) {
    StrLe(a.name, b.name)
  }

  /** `sorted(folder.iterdir())`: siblings ordered by name. */
  function SortedEntries(children: seq<Node>): (r: seq<Node>)
    ensures |r| == |children| && multiset(r) == multiset(children)
    ensures SortedBy(r, NameLe)
  {
    NameLeTotalPreorder();
    SortBy(children, NameLe)
  }

  lemma NameLeTotalPreorder()
    ensures TotalPreorder(NameLe)
  {
    forall a: Node, b: Node ensures NameLe(a, b) || NameLe(b, a) {
      StrLeTotal(a.name, b.name);
    }
    forall a: Node, b: Node, c: Node | NameLe(a, b) && NameLe(b, c) ensures NameLe(a, c) {
      StrLeTransitive(a.name, b.name, c.name);
    }
  }

  /** A file found while listing a directory, with the path it was found at. */
  datatype Found = Found(path: string, node: Node)

  function Names(files: seq<Found>): (r: seq<string>)
    ensures |r| == |files|
    ensures forall k :: 0 <= k < |r| ==> r[k] == Paths.Name(files[k].path)
  {
    seq(|files|, k requires 0 <= k < |files| => Paths.Name(files[k].path))
  }

  /** Sum of the sizes of files (`sum(f.stat().st_size for f in files)`). */
  function TotalSize(files: seq<Found>): (n: nat)
    requires forall k :: 0 <= k < |files| ==> files[k].node.IsFile()
    ensures |files| > 0 ==> n >= files[0].node.Size()
  {
    if |files| == 0 then 0 else files[0].node.Size() + TotalSize(files[1..])
  }
}

=== FILE: history.dfy ===
/** The promotion history sidecar (`.latest_history.json` in a "latest"
    folder): loading it with recovery from a corrupt record, the atomic save
    that keeps at most 100 entries, recording a promotion, and the integrity
    check against the files on disk. The file system is a map from paths to
    stored documents; the JSON text itself is not modelled, a document is the
    value `json.load` would return or `Garbled` when it does not parse. */
module History {
  import opened Wrappers
  import opened Strs
  import opened Models
  import Paths

  const MaxHistoryEntries: nat := 100

  /** The error kinds `load` meets. The first three are caught. */
  const JsonDecodeError := "JSONDecodeError"
  const AttributeError := "AttributeError"
  const OSError := "OSError"

  predicate Caught(e: string) {
    e == JsonDecodeError || e == KeyError || e == TypeError
  }

  datatype Doc = Json(v: JVal) | Garbled

  type Store = map<string, Doc>

  /** What `load` returns: the current entry and the history, newest first. */
  datatype Record = Record(current: Option<HistoryEntry>, history: seq<HistoryEntry>)

  const Empty := Record(None, [])

  function BackupPath(path: string): string {
    Paths.WithSuffix(path, ".json.bak")
  }

  function TmpPath(path: string): string {
    Paths.WithSuffix(path, ".json.tmp")
  }

  /** The record, its backup and its temp file are three different files. */
  lemma SidecarPathsDiffer(path: string)
    ensures BackupPath(path) != path && TmpPath(path) != path && BackupPath(path) != TmpPath(path)
  {
    Paths.WithTwoDotSuffixDiffers(path, ".json.bak");
    Paths.WithTwoDotSuffixDiffers(path, ".json.tmp");
    if BackupPath(path) == TmpPath(path) {
      Paths.WithSuffixInjective(path, ".json.bak", ".json.tmp");
    }
  }

  // ---------------------------------------------------------------------------
  // Reading a record
  // ---------------------------------------------------------------------------

  function MapSeq<A, B>(xs: seq<A>, f: A -> B): (r: seq<B>)
    ensures |r| == |xs| && forall i :: 0 <= i < |xs| ==> r[i] == f(xs[i])
  {
    seq(|xs|, i requires 0 <= i < |xs| => f(xs[i]))
  }

  /** Decodes every item with `f`; the first failure wins. */
  function MapResult<A, B>(xs: seq<A>, f: A -> Result<B, string>): (r: Result<seq<B>, string>)
    ensures r.Ok? ==> |r.value| == |xs| && forall i :: 0 <= i < |xs| ==> f(xs[i]) == Ok(r.value[i])
    ensures r.Err? ==> exists i :: 0 <= i < |xs| && f(xs[i]) == Err(r.error)
  {
    if |xs| == 0 then Ok([])
    else
      var e :- f(xs[0]);
      var rest :- MapResult(xs[1..], f);
      assert forall i :: 1 <= i < |xs| ==> xs[i] == xs[1..][i - 1];
      Ok([e] + rest)
  }

  /** Decoding what `enc` encodes gives the items back when `dec` inverts
      `enc` item by item. */
  lemma {:induction false} MapResultRoundTrip<A, B>(xs: seq<B>, enc: B -> A, dec: A -> Result<B, string>)
    requires forall x :: dec(enc(x)) == Ok(x)
    ensures MapResult(MapSeq(xs, enc), dec) == Ok(xs)
  {
    if |xs| > 0 {
      var ys := MapSeq(xs, enc);
      MapResultRoundTrip(xs[1..], enc, dec);
      assert ys[1..] == MapSeq(xs[1..], enc);
      assert [xs[0]] + xs[1..] == xs;
    }
  }

  /** `[HistoryEntry.from_dict(h) for h in items]`: the first failure wins,
      and every failure is one `load` catches. */
  function EntriesFromJson(items: seq<JVal>): (r: Result<seq<HistoryEntry>, string>)
    ensures r.Ok? ==> |r.value| == |items|
    ensures r.Ok? ==> forall i :: 0 <= i < |items| ==> HistoryEntryFromJson(items[i]) == Ok(r.value[i])
    ensures r.Err? ==> r.error == KeyError || r.error == TypeError
  {
    MapResult(items, HistoryEntryFromJson)
  }

  /** Iterating `data.get("history", [])`: a list yields its entries; an
      empty string or object yields nothing; iterating anything else, or a
      non-empty string or object (whose items are strings), is a
      `TypeError`. */
  function HistoryOf(v: JVal): (r: Result<seq<HistoryEntry>, string>)
    ensures !v.JArr? ==> (r.Ok? <==> v == JStr("") || v == JObj(map[]))
    ensures r.Err? && !v.JArr? ==> r.error == TypeError
    ensures r.Err? ==> r.error == KeyError || r.error == TypeError
  {
    match v
    case JArr(items) => EntriesFromJson(items)
    case JStr(s) => if s == "" then Ok([]) else Err(TypeError)
    case JObj(m) => if m == map[] then Ok([]) else Err(TypeError)
    case _ => Err(TypeError)
  }

  /** The body of the `try` in `load`: a top level that is not an object has
      no `get` and raises `AttributeError`, which is not caught. */
  function Parse(doc: Doc): (r: Result<Record, string>)
    ensures r.Err? ==> Caught(r.error) || r.error == AttributeError
    ensures r.Err? && r.error == AttributeError <==> doc.Json? && !doc.v.JObj?
  {
    match doc
    case Garbled => Err(JsonDecodeError)
    case Json(v) =>
      if !v.JObj? then Err(AttributeError)
      else
        var m := v.fields;
        var current :-
          if "current" in m && Truthy(m["current"]) then
            match HistoryEntryFromJson(m["current"])
            case Ok(e) => Ok(Some(e))
            case Err(e) => Err(e)
          else Ok(None);
        var history :- if "history" in m then HistoryOf(m["history"]) else Ok([]);
        Ok(Record(current, history))
  }

  datatype Loaded = Loaded(store: Store, record: Record)

  /** `os.rename` of the record to its backup name. */
  function Backup(store: Store, path: string): (r: Store)
    requires path in store
    ensures path !in r && BackupPath(path) in r && r[BackupPath(path)] == store[path]
    ensures forall p :: p != path && p != BackupPath(path) ==> (p in r <==> p in store) && (p in r ==> r[p] == store[p])
  {
    SidecarPathsDiffer(path);
    (store - {path})[BackupPath(path) := store[path]]
  }

  /** `HistoryManager.load`: a missing record reads as empty; a record that
      does not parse is renamed to the `.json.bak` name and reads as empty;
      only a top level that is not an object propagates. */
  function Load(store: Store, path: string): (r: Result<Loaded, string>)
    ensures path !in store ==> r == Ok(Loaded(store, Empty))
    ensures r.Err? <==> path in store && Parse(store[path]).Err? && !Caught(Parse(store[path]).error)
    ensures r.Ok? && r.value.store != store ==> path in store && r.value.store == Backup(store, path) && r.value.record == Empty
    ensures path in store && Parse(store[path]).Ok? ==> r == Ok(Loaded(store, Parse(store[path]).value))
  {
    if path !in store then Ok(Loaded(store, Empty))
    else
      match Parse(store[path])
      case Ok(rec) => Ok(Loaded(store, rec))
      case Err(e) => if Caught(e) then Ok(Loaded(Backup(store, path), Empty)) else Err(e)
  }

  /** Loading again right after a load changes nothing: a record that was
      read is read again, and one that was moved aside is now missing, which
      reads as empty too. */
  lemma LoadIdempotent(store: Store, path: string)
    requires Load(store, path).Ok?
    ensures Load(Load(store, path).value.store, path) == Load(store, path)
  {
    if path in store && Parse(store[path]).Err? {
      assert path !in Backup(store, path);
    }
  }

  /** A record that does not parse is moved aside, not lost, and the next
      load starts from nothing. */
  lemma CorruptRecordIsKept(store: Store, path: string)
    requires path in store && store[path] == Garbled
    ensures Load(store, path).Ok?
    ensures var l := Load(store, path).value;
      && l.record == Empty && path !in l.store
      && BackupPath(path) in l.store && l.store[BackupPath(path)] == Garbled
      && Load(l.store, path) == Ok(Loaded(l.store, Empty))
  {
  }

  // ---------------------------------------------------------------------------
  // Writing a record
  // ---------------------------------------------------------------------------

  function EntriesToJson(hs: seq<HistoryEntry>): (r: seq<JVal>)
    ensures |r| == |hs| && forall i :: 0 <= i < |hs| ==> r[i] == HistoryEntryToJson(hs[i])
  {
    MapSeq(hs, HistoryEntryToJson)
  }

  /** The first `MaxHistoryEntries` entries. */
  function Trim(hs: seq<HistoryEntry>): (r: seq<HistoryEntry>)
    ensures |r| <= MaxHistoryEntries && |r| <= |hs|
    ensures r == hs[..|r|]
    ensures |r| == MaxHistoryEntries || r == hs
  {
    if |hs| <= MaxHistoryEntries then hs else hs[..MaxHistoryEntries]
  }

  /** The document `save` writes. */
  function Document(current: HistoryEntry, history: seq<HistoryEntry>): JVal {
    JObj(map["current" := HistoryEntryToJson(current), "history" := JArr(EntriesToJson(Trim(history)))])
  }

  /** Where an I/O error strikes during `save`: writing the temp file or
      renaming it over the record. */
  datatype Fault = NoFault | WriteFault | ReplaceFault

  datatype Saved = Saved(store: Store, error: Option<string>)

  /** `HistoryManager.save`: the record is replaced by one rename of a fully
      written temp file; after a fault the temp file is removed, the record
      is left as it was and the `OSError` is raised again. */
  function Save(store: Store, path: string, current: HistoryEntry, history: seq<HistoryEntry>, fault: Fault): (r: Saved)
    ensures TmpPath(path) !in r.store
    ensures r.error.None? <==> fault == NoFault
    ensures fault == NoFault ==> path in r.store && r.store[path] == Json(Document(current, history))
    ensures fault != NoFault ==> (path in r.store <==> path in store) && (path in store ==> r.store[path] == store[path])
    ensures forall p :: p != path && p != TmpPath(path) ==> (p in r.store <==> p in store) && (p in r.store ==> r.store[p] == store[p])
  {
    SidecarPathsDiffer(path);
    var tmp := TmpPath(path);
    match fault
    case NoFault => Saved((store - {tmp})[path := Json(Document(current, history))], None)
    case _ => Saved(store - {tmp}, Some(OSError))
  }

  lemma EntryCodecInverse()
    ensures forall e :: HistoryEntryFromJson(HistoryEntryToJson(e)) == Ok(e)
  {
    forall e ensures HistoryEntryFromJson(HistoryEntryToJson(e)) == Ok(e) {
      HistoryEntryRoundTrip(e);
    }
  }

  lemma EntriesRoundTrip(hs: seq<HistoryEntry>)
    ensures EntriesFromJson(EntriesToJson(hs)) == Ok(hs)
  {
    EntryCodecInverse();
    MapResultRoundTrip(hs, HistoryEntryToJson, HistoryEntryFromJson);
  }

  /** A saved entry's document is a non-empty object, so `load` reads it. */
  lemma EntryIsTruthy(e: HistoryEntry)
    ensures Truthy(HistoryEntryToJson(e))
  {
    HistoryEntryHeadLookups(e);
  }

  /** The saved document parses back to the current entry and the first
      100 entries of the history. */
  lemma DocumentParses(current: HistoryEntry, history: seq<HistoryEntry>)
    ensures Parse(Json(Document(current, history))) == Ok(Record(Some(current), Trim(history)))
  {
    EntryIsTruthy(current);
    HistoryEntryRoundTrip(current);
    EntriesRoundTrip(Trim(history));
  }

  /** What a successful save writes, a load reads back. */
  lemma SaveThenLoad(store: Store, path: string, current: HistoryEntry, history: seq<HistoryEntry>)
    ensures var s := Save(store, path, current, history, NoFault).store;
      Load(s, path) == Ok(Loaded(s, Record(Some(current), Trim(history))))
  {
    DocumentParses(current, history);
  }

  // ---------------------------------------------------------------------------
  // The operations
  // ---------------------------------------------------------------------------

  /** `HistoryManager.record_promotion`: load (which may move a corrupt
      record aside), put the entry in front of the history, save. */
  function RecordPromotion(store: Store, path: string, entry: HistoryEntry, fault: Fault): (r: Result<Saved, string>)
    ensures r.Err? <==> Load(store, path).Err?
    ensures r.Ok? ==> r.value == Save(Load(store, path).value.store, path, entry,
                                      [entry] + Load(store, path).value.record.history, fault)
  {
    var l :- Load(store, path);
    Ok(Save(l.store, path, entry, [entry] + l.record.history, fault))
  }

  /** Putting an entry in front and keeping the first 100: the entry leads,
      the earlier history follows in order, and only the oldest are lost. */
  lemma TrimPrepend(e: HistoryEntry, hs: seq<HistoryEntry>)
    ensures var t := Trim([e] + hs);
      && |t| == (if |hs| < MaxHistoryEntries then |hs| + 1 else MaxHistoryEntries)
      && t[0] == e && t[1..] == hs[..|t| - 1]
  {
  }

  /** After a promotion is recorded, a load reads the entry as current and
      at the head of the history, followed by the earlier history. */
  lemma RecordedPromotionIsCurrent(store: Store, path: string, entry: HistoryEntry)
    requires Load(store, path).Ok?
    ensures RecordPromotion(store, path, entry, NoFault).Ok?
    ensures var s := RecordPromotion(store, path, entry, NoFault).value.store;
      Load(s, path) == Ok(Loaded(s, Record(Some(entry), Trim([entry] + Load(store, path).value.record.history))))
  {
    var l := Load(store, path).value;
    SaveThenLoad(l.store, path, entry, [entry] + l.record.history);
  }

  /** A failed save leaves whatever record the load left. */
  lemma FailedRecordKeepsRecord(store: Store, path: string, entry: HistoryEntry, fault: Fault)
    requires fault != NoFault && Load(store, path).Ok?
    ensures var l := Load(store, path).value;
      var r := RecordPromotion(store, path, entry, fault).value;
      && r.error == Some(OSError)
      && (path in r.store <==> path in l.store) && (path in l.store ==> r.store[path] == l.store[path])
  {
  }

  /** `get_current` and `get_history`. */
  function GetCurrent(store: Store, path: string): (r: Result<(Store, Option<HistoryEntry>), string>)
    ensures r.Ok? <==> Load(store, path).Ok?
    ensures r.Ok? ==> r.value == (Load(store, path).value.store, Load(store, path).value.record.current)
  {
    var l :- Load(store, path);
    Ok((l.store, l.record.current))
  }

  function GetHistory(store: Store, path: string): (r: Result<(Store, seq<HistoryEntry>), string>)
    ensures r.Ok? <==> Load(store, path).Ok?
    ensures r.Ok? ==> r.value == (Load(store, path).value.store, Load(store, path).value.record.history)
  {
    var l :- Load(store, path);
    Ok((l.store, l.record.history))
  }

  // ---------------------------------------------------------------------------
  // Integrity
  // ---------------------------------------------------------------------------

  datatype Integrity = Integrity(valid: bool, message: string)

  /** The four outcomes of `verify_integrity`, the mismatch carrying the
      recorded count. */
  datatype Verdict = UntrackedFiles | CleanState | FilesMissing | CountMismatch(recorded: nat) | FilesMatch

  predicate Valid(v: Verdict) {
    v.CleanState? || v.FilesMatch?
  }

  /** Valid exactly for no record and no files, or for a record and some
      files whose number agrees with the recorded count when one was
      recorded; a mismatch names the recorded count. */
  function Classify(current: Option<HistoryEntry>, files: seq<string>): (r: Verdict)
    ensures Valid(r) <==> ((current.None? && |files| == 0)
                           || (current.Some? && |files| > 0 && (current.value.fileCount <= 0 || |files| == current.value.fileCount)))
    ensures r.CountMismatch? ==> current.Some? && r.recorded == current.value.fileCount != |files|
  {
    if current.None? then
      if |files| > 0 then UntrackedFiles else CleanState
    else
      var c := current.value;
      if |files| == 0 then FilesMissing
      else if c.fileCount > 0 && |files| != c.fileCount then CountMismatch(c.fileCount)
      else FilesMatch
  }

  /** The message reported with each outcome. */
  function Message(v: Verdict, version: string, found: nat): string {
    match v
    case UntrackedFiles =>
      "Files exist in latest folder but no history record found. Someone may have manually placed files here."
    case CleanState => "No history and no files - clean state."
    case FilesMissing => "History says " + version + " should be loaded, but no files found in latest folder."
    case CountMismatch(n) =>
      "History says " + NatToString(n) + " files for " + version + ", but found " + NatToString(found) + " files on disk."
    case FilesMatch => "Current: " + version + " - files match."
  }

  function Report(current: Option<HistoryEntry>, files: seq<string>): Integrity {
    var v := Classify(current, files);
    Integrity(Valid(v), Message(v, if current.Some? then current.value.version else "", |files|))
  }

  /** `HistoryManager.verify_integrity`, reading the record through
      `get_current`. */
  function VerifyIntegrity(store: Store, path: string, files: seq<string>): (r: Result<(Store, Integrity), string>)
    ensures r.Ok? <==> Load(store, path).Ok?
    ensures r.Ok? ==> r.value.0 == Load(store, path).value.store
    ensures r.Ok? ==> r.value.1.valid == Valid(Classify(Load(store, path).value.record.current, files))
  {
    var (s, current) :- GetCurrent(store, path);
    Ok((s, Report(current, files)))
  }

  /** Right after a promotion of `n > 0` files is recorded, `n` files in the
      folder pass the check and any other number fails it. */
  lemma RecordedCountIsChecked(store: Store, path: string, entry: HistoryEntry, files: seq<string>)
    requires Load(store, path).Ok? && entry.fileCount > 0
    ensures var s := RecordPromotion(store, path, entry, NoFault).value.store;
      VerifyIntegrity(s, path, files).Ok?
      && (VerifyIntegrity(s, path, files).value.1.valid <==> |files| == entry.fileCount)
  {
    RecordedPromotionIsCurrent(store, path, entry);
    TrimPrepend(entry, Load(store, path).value.record.history);
  }
}

=== FILE: models.dfy ===
/** The records the manager stores and exchanges: detected versions, history
    entries, watched sources and the project configuration, with their JSON
    encodings (`to_dict` / `from_dict`) and the path-template expansion used
    when a configured path is resolved. */
module Models {
  import opened Wrappers
  import opened Strs
  import Paths

  // ---------------------------------------------------------------------------
  // JSON values
  // ---------------------------------------------------------------------------

  /** A value as `json.load` produces it. */
  datatype JVal =
    | JNull
    | JBool(b: bool)
    | JInt(i: int)
    | JReal(r: real)
    | JStr(s: string)
    | JArr(items: seq<JVal>)
    | JObj(fields: map<string, JVal>)

  type Fields = map<string, JVal>

  /** Python's truth value of a decoded JSON value. */
  predicate Truthy(v: JVal) {
    match v
    case JNull => false
    case JBool(b) => b
    case JInt(i) => i != 0
    case JReal(r) => r != 0.0
    case JStr(s) => s != ""
    case JArr(a) => a != []
    case JObj(m) => m != map[]
  }

  /** The two ways `from_dict` fails: a missing required key, or a record
      that is not an object (or holds a value of the wrong type). */
  const KeyError := "KeyError"
  const TypeError := "TypeError"

  const DefaultFileExtensions: seq<string> :=
    [".exr", ".dpx", ".tiff", ".tif", ".png", ".jpg", ".mov", ".mxf", ".mp4"]
  const DefaultVersionPattern := "_v{version}"
  const DefaultRenameTemplate := "{source_basename}_latest"
  const DefaultHistoryFilename := ".latest_history.json"
  const DefaultLinkMode := "copy"
  const DefaultTimecodeMode := "lazy"
  const DefaultProjectName := "Untitled"

  // ---------------------------------------------------------------------------
  // Field readers: `data[key]` and `data.get(key, default)`
  // ---------------------------------------------------------------------------

  /** `data[key]` for a string field. */
  function ReqStr(m: Fields, key: string): (r: Result<string, string>)
    ensures key !in m ==> r == Err(KeyError)
    ensures r.Ok? <==> key in m && m[key].JStr?
    ensures r.Ok? ==> m[key] == JStr(r.value)
  {
    if key !in m then Err(KeyError)
    else if m[key].JStr? then Ok(m[key].s)
    else Err(TypeError)
  }

  /** `data.get(key, dflt)` for a string field. */
  function GetStr(m: Fields, key: string, dflt: string): (r: Result<string, string>)
    ensures key !in m ==> r == Ok(dflt)
    ensures key in m ==> (r.Ok? <==> m[key].JStr?)
    ensures key in m && r.Ok? ==> m[key] == JStr(r.value)
  {
    if key !in m then Ok(dflt)
    else if m[key].JStr? then Ok(m[key].s)
    else Err(TypeError)
  }

  /** `data.get(key, dflt)` for a boolean field. */
  function GetBool(m: Fields, key: string, dflt: bool): (r: Result<bool, string>)
    ensures key !in m ==> r == Ok(dflt)
    ensures key in m ==> (r.Ok? <==> m[key].JBool?)
    ensures key in m && r.Ok? ==> m[key] == JBool(r.value)
  {
    if key !in m then Ok(dflt)
    else if m[key].JBool? then Ok(m[key].b)
    else Err(TypeError)
  }

  /** `data.get(key, dflt)` for an integer field. */
  function GetInt(m: Fields, key: string, dflt: int): (r: Result<int, string>)
    ensures key !in m ==> r == Ok(dflt)
    ensures key in m ==> (r.Ok? <==> m[key].JInt?)
    ensures key in m && r.Ok? ==> m[key] == JInt(r.value)
  {
    if key !in m then Ok(dflt)
    else if m[key].JInt? then Ok(m[key].i)
    else Err(TypeError)
  }

  /** `data.get(key)` for an optional string: absent and `null` are `None`. */
  function GetOptStr(m: Fields, key: string): (r: Result<Option<string>, string>)
    ensures key !in m || m[key] == JNull ==> r == Ok(None)
    ensures r.Ok? && r.value.Some? ==> key in m && m[key] == JStr(r.value.value)
  {
    if key !in m || m[key].JNull? then Ok(None)
    else if m[key].JStr? then Ok(Some(m[key].s))
    else Err(TypeError)
  }

  /** `data.get(key)` for an optional number; a whole number read back as an
      integer is the same mtime. */
  function GetOptReal(m: Fields, key: string): (r: Result<Option<real>, string>)
    ensures key !in m || m[key] == JNull ==> r == Ok(None)
    ensures key in m && m[key].JReal? ==> r == Ok(Some(m[key].r))
  {
    if key !in m || m[key].JNull? then Ok(None)
    else if m[key].JReal? then Ok(Some(m[key].r))
    else if m[key].JInt? then Ok(Some(m[key].i as real))
    else Err(TypeError)
  }

  function StrList(xs: seq<string>): (j: JVal)
    ensures j.JArr? && |j.items| == |xs|
    ensures forall k :: 0 <= k < |xs| ==> j.items[k] == JStr(xs[k])
  {
    JArr(seq(|xs|, k requires 0 <= k < |xs| => JStr(xs[k])))
  }

  /** A JSON array of strings as a list of strings. */
  function AsStrList(v: JVal): (r: Result<seq<string>, string>)
    ensures r.Ok? <==> v.JArr? && forall k :: 0 <= k < |v.items| ==> v.items[k].JStr?
    ensures r.Ok? ==> v == StrList(r.value)
  {
    if v.JArr? && forall k :: 0 <= k < |v.items| ==> v.items[k].JStr? then
      var xs := seq(|v.items|, k requires 0 <= k < |v.items| => v.items[k].s);
      assert v.items == StrList(xs).items;
      Ok(xs)
    else Err(TypeError)
  }

  /** `data.get(key, dflt)` for a list of strings. */
  function GetStrList(m: Fields, key: string, dflt: seq<string>): (r: Result<seq<string>, string>)
    ensures key !in m ==> r == Ok(dflt)
    ensures key in m && r.Ok? ==> m[key] == StrList(r.value)
  {
    if key !in m then Ok(dflt) else AsStrList(m[key])
  }

  lemma {:induction false} StrListRoundTrip(xs: seq<string>)
    ensures AsStrList(StrList(xs)) == Ok(xs)
  {
    var v := StrList(xs);
    var ys := seq(|v.items|, k requires 0 <= k < |v.items| => v.items[k].s);
    assert ys == xs;
  }

  function OptStr(o: Option<string>): (j: JVal)
    ensures o.None? <==> j == JNull
  {
    match o
    case None => JNull
    case Some(s) => JStr(s)
  }

  // ---------------------------------------------------------------------------
  // VersionInfo and DiscoveryResult
  // ---------------------------------------------------------------------------

  /** A detected version of a watched source: a version folder, or a single
      versioned file. */
  datatype VersionInfo = VersionInfo(
    versionString: string,
    versionNumber: int,
    sourcePath: string,
    frameRange: Option<string>,
    frameCount: int,
    fileCount: int,
    totalSizeBytes: int,
    startTimecode: Option<string>)

  /** A versioned location found by a directory scan. */
  datatype DiscoveryResult = DiscoveryResult(
    path: string,
    name: string,
    versionsFound: seq<VersionInfo>,
    suggestedPattern: string,
    suggestedExtensions: seq<string>,
    sampleFilename: string)

  // ---------------------------------------------------------------------------
  // Objects written by `to_dict`
  // ---------------------------------------------------------------------------

  /** A field `to_dict` writes only when `cond` holds. */
  function WriteIf(cond: bool, v: JVal): (r: Option<JVal>)
    ensures r.Some? <==> cond
  {
    if cond then Some(v) else None
  }

  /** The dict a `to_dict` builds from its key table: each `keys[i]` whose
      value is written is added in turn. */
  function ObjectOf(keys: seq<string>, vals: seq<Option<JVal>>): Fields
    requires |keys| == |vals|
    decreases |keys|
  {
    if |keys| == 0 then map[]
    else
      var rest := ObjectOf(keys[..|keys| - 1], vals[..|vals| - 1]);
      match vals[|vals| - 1]
      case Some(v) => rest[keys[|keys| - 1] := v]
      case None => rest
  }

  /** A key outside the table is not written. */
  lemma {:induction false} ObjectOfOther(keys: seq<string>, vals: seq<Option<JVal>>, k: string)
    requires |keys| == |vals| && k !in keys
    ensures k !in ObjectOf(keys, vals)
    decreases |keys|
  {
    if |keys| > 0 {
      ObjectOfOther(keys[..|keys| - 1], vals[..|vals| - 1], k);
    }
  }

  /** No key is listed twice. */
  predicate DistinctKeys(keys: seq<string>) {
    forall i, j :: 0 <= i < j < |keys| ==> keys[i] != keys[j]
  }

  /** With no key listed twice, `keys[i]` holds `vals[i]` exactly when that
      value is written. */
  lemma {:induction false} ObjectLookup(keys: seq<string>, vals: seq<Option<JVal>>, i: nat)
    requires |keys| == |vals| && i < |keys| && DistinctKeys(keys)
    ensures vals[i].Some? ==> keys[i] in ObjectOf(keys, vals) && ObjectOf(keys, vals)[keys[i]] == vals[i].value
    ensures vals[i].None? ==> keys[i] !in ObjectOf(keys, vals)
    decreases |keys|
  {
    var n := |keys| - 1;
    if i < n {
      assert DistinctKeys(keys[..n]) by {
        forall a, b | 0 <= a < b < n ensures keys[..n][a] != keys[..n][b] {
          assert keys[..n][a] == keys[a] && keys[..n][b] == keys[b];
        }
      }
      assert keys[..n][i] == keys[i] && vals[..n][i] == vals[i];
      ObjectLookup(keys[..n], vals[..n], i);
      assert keys[n] != keys[i];
    } else {
      assert keys[i] !in keys[..n] by {
        forall a | 0 <= a < n ensures keys[..n][a] != keys[i] {
          assert keys[..n][a] == keys[a];
        }
      }
      ObjectOfOther(keys[..n], vals[..n], keys[i]);
    }
  }

  // ---------------------------------------------------------------------------
  // HistoryEntry
  // ---------------------------------------------------------------------------

  /** One promotion: which version was made "latest", from where, by whom and
      when, plus the mtimes recorded for staleness checks. */
  datatype HistoryEntry = HistoryEntry(
    version: string,
    source: string,
    setBy: string,
    setAt: string,
    frameRange: Option<string>,
    frameCount: int,
    fileCount: int,
    startTimecode: Option<string>,
    sourceMtime: Option<real>,
    targetMtime: Option<real>)

  const HistoryEntryKeys: seq<string> :=
    ["version", "source", "set_by", "set_at", "frame_range", "frame_count", "file_count",
     "start_timecode", "source_mtime", "target_mtime"]

  lemma HistoryEntryKeysDistinct()
    ensures DistinctKeys(HistoryEntryKeys)
  {
  }

  function WriteReal(o: Option<real>): (r: Option<JVal>)
    ensures r.Some? <==> o.Some?
  {
    match o
    case None => None
    case Some(x) => Some(JReal(x))
  }

  function HistoryEntryValues(e: HistoryEntry): (vs: seq<Option<JVal>>)
    ensures |vs| == |HistoryEntryKeys|
  {
    [Some(JStr(e.version)), Some(JStr(e.source)), Some(JStr(e.setBy)), Some(JStr(e.setAt)),
     Some(OptStr(e.frameRange)), Some(JInt(e.frameCount)), Some(JInt(e.fileCount)),
     Some(OptStr(e.startTimecode)), WriteReal(e.sourceMtime), WriteReal(e.targetMtime)]
  }

  /** `HistoryEntry.to_dict`: the mtimes are written only when known. */
  function HistoryEntryToJson(e: HistoryEntry): (j: JVal)
    ensures j.JObj?
    ensures "source_mtime" in j.fields <==> e.sourceMtime.Some?
    ensures "target_mtime" in j.fields <==> e.targetMtime.Some?
  {
    HistoryEntryKeysDistinct();
    ObjectLookup(HistoryEntryKeys, HistoryEntryValues(e), 8);
    ObjectLookup(HistoryEntryKeys, HistoryEntryValues(e), 9);
    JObj(ObjectOf(HistoryEntryKeys, HistoryEntryValues(e)))
  }

  /** `HistoryEntry.from_dict`: "version" and "source" are required; the other
      fields fall back to "unknown", "", 0 or `None`. */
  function HistoryEntryFromJson(j: JVal): (r: Result<HistoryEntry, string>)
    ensures !j.JObj? ==> r == Err(TypeError)
    ensures r.Err? ==> r.error == KeyError || r.error == TypeError
    ensures j.JObj? && "version" !in j.fields ==> r == Err(KeyError)
    ensures j.JObj? && "source" !in j.fields ==> r.Err?
    ensures r.Ok? ==> JStr(r.value.version) == j.fields["version"] && JStr(r.value.source) == j.fields["source"]
    ensures r.Ok? && "set_by" !in j.fields ==> r.value.setBy == "unknown"
    ensures r.Ok? && "set_at" !in j.fields ==> r.value.setAt == ""
    ensures r.Ok? && "frame_count" !in j.fields ==> r.value.frameCount == 0
    ensures r.Ok? && "file_count" !in j.fields ==> r.value.fileCount == 0
    ensures r.Ok? && "source_mtime" !in j.fields ==> r.value.sourceMtime.None?
    ensures r.Ok? && "target_mtime" !in j.fields ==> r.value.targetMtime.None?
  {
    if !j.JObj? then Err(TypeError)
    else
      var m := j.fields;
      var version :- ReqStr(m, "version");
      var source :- ReqStr(m, "source");
      var setBy :- GetStr(m, "set_by", "unknown");
      var setAt :- GetStr(m, "set_at", "");
      var frameRange :- GetOptStr(m, "frame_range");
      var frameCount :- GetInt(m, "frame_count", 0);
      var fileCount :- GetInt(m, "file_count", 0);
      var startTimecode :- GetOptStr(m, "start_timecode");
      var sourceMtime :- GetOptReal(m, "source_mtime");
      var targetMtime :- GetOptReal(m, "target_mtime");
      Ok(HistoryEntry(version, source, setBy, setAt, frameRange, frameCount, fileCount,
                      startTimecode, sourceMtime, targetMtime))
  }

  lemma OptStrRoundTrip(m: Fields, key: string, o: Option<string>)
    requires key in m && m[key] == OptStr(o)
    ensures GetOptStr(m, key) == Ok(o)
  {
  }

  lemma OptRealRoundTrip(m: Fields, key: string, o: Option<real>)
    requires o.Some? ==> key in m && m[key] == JReal(o.value)
    requires o.None? ==> key !in m
    ensures GetOptReal(m, key) == Ok(o)
  {
  }

  /** Where `to_dict` puts the identifying fields of an entry. */
  lemma HistoryEntryHeadLookups(e: HistoryEntry)
    ensures var m := HistoryEntryToJson(e).fields;
      && ReqStr(m, "version") == Ok(e.version)
      && ReqStr(m, "source") == Ok(e.source)
      && GetStr(m, "set_by", "unknown") == Ok(e.setBy)
      && GetStr(m, "set_at", "") == Ok(e.setAt)
      && GetOptStr(m, "frame_range") == Ok(e.frameRange)
  {
    var ks, vs := HistoryEntryKeys, HistoryEntryValues(e);
    HistoryEntryKeysDistinct();
    var m := HistoryEntryToJson(e).fields;
    ObjectLookup(ks, vs, 0);
    ObjectLookup(ks, vs, 1);
    ObjectLookup(ks, vs, 2);
    ObjectLookup(ks, vs, 3);
    ObjectLookup(ks, vs, 4);
    OptStrRoundTrip(m, "frame_range", e.frameRange);
  }

  /** Where `to_dict` puts the counts, timecode and mtimes of an entry. */
  lemma HistoryEntryTailLookups(e: HistoryEntry)
    ensures var m := HistoryEntryToJson(e).fields;
      && GetInt(m, "frame_count", 0) == Ok(e.frameCount)
      && GetInt(m, "file_count", 0) == Ok(e.fileCount)
      && GetOptStr(m, "start_timecode") == Ok(e.startTimecode)
      && GetOptReal(m, "source_mtime") == Ok(e.sourceMtime)
      && GetOptReal(m, "target_mtime") == Ok(e.targetMtime)
  {
    var ks, vs := HistoryEntryKeys, HistoryEntryValues(e);
    HistoryEntryKeysDistinct();
    var m := HistoryEntryToJson(e).fields;
    ObjectLookup(ks, vs, 5);
    ObjectLookup(ks, vs, 6);
    ObjectLookup(ks, vs, 7);
    OptStrRoundTrip(m, "start_timecode", e.startTimecode);
    ObjectLookup(ks, vs, 8);
    OptRealRoundTrip(m, "source_mtime", e.sourceMtime);
    ObjectLookup(ks, vs, 9);
    OptRealRoundTrip(m, "target_mtime", e.targetMtime);
  }

  /** Every history entry survives a save and reload unchanged. */
  lemma HistoryEntryRoundTrip(e: HistoryEntry)
    ensures HistoryEntryFromJson(HistoryEntryToJson(e)) == Ok(e)
  {
    HistoryEntryHeadLookups(e);
    HistoryEntryTailLookups(e);
  }

  /** `HistoryEntry.from_version_info`: the clock reading `setAt` and the user
      name are parameters. */
  function HistoryEntryFromVersionInfo(vi: VersionInfo, user: string, setAt: string): (e: HistoryEntry)
    ensures e.version == vi.versionString && e.source == vi.sourcePath
    ensures e.setBy == user && e.setAt == setAt
    ensures e.frameRange == vi.frameRange && e.frameCount == vi.frameCount
    ensures e.fileCount == vi.fileCount && e.startTimecode == vi.startTimecode
    ensures e.sourceMtime.None? && e.targetMtime.None?
  {
    HistoryEntry(vi.versionString, vi.sourcePath, user, setAt, vi.frameRange, vi.frameCount,
                 vi.fileCount, vi.startTimecode, None, None)
  }

  /** An entry made from a version info writes no mtime keys, and reading it
      back gives the same entry. */
  lemma FromVersionInfoSerialises(vi: VersionInfo, user: string, setAt: string)
    ensures var e := HistoryEntryFromVersionInfo(vi, user, setAt);
      "source_mtime" !in HistoryEntryToJson(e).fields &&
      "target_mtime" !in HistoryEntryToJson(e).fields &&
      HistoryEntryFromJson(HistoryEntryToJson(e)) == Ok(e)
  {
    HistoryEntryRoundTrip(HistoryEntryFromVersionInfo(vi, user, setAt));
  }

  // ---------------------------------------------------------------------------
  // WatchedSource
  // ---------------------------------------------------------------------------

  /** One watched folder and how its latest version is published. */
  datatype WatchedSource = WatchedSource(
    name: string,
    sourceDir: string,
    versionPattern: string,
    fileExtensions: seq<string>,
    latestTarget: string,
    fileRenameTemplate: string,
    historyFilename: string,
    linkMode: string,
    sampleFilename: string,
    group: string,
    overrideVersionPattern: bool,
    overrideFileExtensions: bool,
    overrideLatestTarget: bool,
    overrideFileRename: bool,
    overrideLinkMode: bool)

  /** A source as the constructor builds it from a name and a directory. */
  function NewWatchedSource(name: string, sourceDir: string): (s: WatchedSource)
    ensures s.name == name && s.sourceDir == sourceDir
    ensures !HasOverrides(s)
    ensures s.versionPattern == DefaultVersionPattern && s.fileExtensions == DefaultFileExtensions
    ensures s.linkMode == DefaultLinkMode && s.historyFilename == DefaultHistoryFilename
  {
    WatchedSource(name, sourceDir, DefaultVersionPattern, DefaultFileExtensions, "", "",
                  DefaultHistoryFilename, DefaultLinkMode, "", "", false, false, false, false, false)
  }

  /** `has_overrides`: the source overrides its latest target or link mode. */
  predicate HasOverrides(s: WatchedSource) {
    s.overrideLatestTarget || s.overrideLinkMode
  }

  /** The keys `to_dict` writes for a source, in order. */
  const WatchedSourceKeys: seq<string> :=
    ["name", "source_dir", "version_pattern", "file_extensions", "latest_target",
     "history_filename", "link_mode", "file_rename_template", "sample_filename", "group",
     "override_version_pattern", "override_file_extensions", "override_latest_target",
     "override_file_rename", "override_link_mode"]

  lemma WatchedSourceKeysDistinct()
    ensures DistinctKeys(WatchedSourceKeys)
  {
  }

  function WatchedSourceValues(s: WatchedSource): (vs: seq<Option<JVal>>)
    ensures |vs| == |WatchedSourceKeys|
  {
    [Some(JStr(s.name)), Some(JStr(s.sourceDir)), Some(JStr(s.versionPattern)),
     Some(StrList(s.fileExtensions)), Some(JStr(s.latestTarget)), Some(JStr(s.historyFilename)),
     Some(JStr(s.linkMode)),
     WriteIf(s.fileRenameTemplate != "", JStr(s.fileRenameTemplate)),
     WriteIf(s.sampleFilename != "", JStr(s.sampleFilename)),
     WriteIf(s.group != "", JStr(s.group)),
     WriteIf(s.overrideVersionPattern, JBool(true)),
     WriteIf(s.overrideFileExtensions, JBool(true)),
     WriteIf(s.overrideLatestTarget, JBool(true)),
     WriteIf(s.overrideFileRename, JBool(true)),
     WriteIf(s.overrideLinkMode, JBool(true))]
  }

  /** `WatchedSource.to_dict`: the seven main fields always, the optional
      strings when non-empty and the override flags only when set. */
  function WatchedSourceToJson(s: WatchedSource): (j: JVal)
    ensures j.JObj?
  {
    JObj(ObjectOf(WatchedSourceKeys, WatchedSourceValues(s)))
  }

  /** `to_dict` writes the link mode under its current key and never the
      legacy symlink keys. */
  lemma WatchedSourceWritesLinkMode(s: WatchedSource)
    ensures var m := WatchedSourceToJson(s).fields;
      "link_mode" in m && m["link_mode"] == JStr(s.linkMode) &&
      "use_symlinks" !in m && "override_use_symlinks" !in m
  {
    WatchedSourceKeysDistinct();
    ObjectLookup(WatchedSourceKeys, WatchedSourceValues(s), 6);
    ObjectOfOther(WatchedSourceKeys, WatchedSourceValues(s), "use_symlinks");
    ObjectOfOther(WatchedSourceKeys, WatchedSourceValues(s), "override_use_symlinks");
  }

  /** The link mode `from_dict` settles on: "link_mode" when present, else
      "symlink" for a true legacy "use_symlinks", else "copy". */
  function LinkModeOf(m: Fields): (r: Result<string, string>)
    ensures "link_mode" in m ==> r == ReqStr(m, "link_mode")
    ensures "link_mode" !in m && "use_symlinks" in m && Truthy(m["use_symlinks"]) ==> r == Ok("symlink")
    ensures "link_mode" !in m && ("use_symlinks" !in m || !Truthy(m["use_symlinks"])) ==> r == Ok(DefaultLinkMode)
  {
    if "link_mode" in m then ReqStr(m, "link_mode")
    else if "use_symlinks" in m && Truthy(m["use_symlinks"]) then Ok("symlink")
    else Ok(DefaultLinkMode)
  }

  /** `override_link_mode`, falling back to the legacy "override_use_symlinks". */
  function OverrideLinkOf(m: Fields): (r: Result<bool, string>)
    ensures "override_link_mode" in m ==> r == GetBool(m, "override_link_mode", false)
    ensures "override_link_mode" !in m ==> r == GetBool(m, "override_use_symlinks", false)
  {
    if "override_link_mode" in m then GetBool(m, "override_link_mode", false)
    else GetBool(m, "override_use_symlinks", false)
  }

  /** `WatchedSource.from_dict`: "name" and "source_dir" are required. */
  function WatchedSourceFromJson(j: JVal): (r: Result<WatchedSource, string>)
    ensures !j.JObj? ==> r.Err?
    ensures j.JObj? && ("name" !in j.fields || "source_dir" !in j.fields) ==> r.Err?
    ensures r.Ok? ==> LinkModeOf(j.fields) == Ok(r.value.linkMode)
    ensures r.Ok? ==> OverrideLinkOf(j.fields) == Ok(r.value.overrideLinkMode)
    ensures r.Ok? && "version_pattern" !in j.fields ==> r.value.versionPattern == DefaultVersionPattern
    ensures r.Ok? && "file_extensions" !in j.fields ==> r.value.fileExtensions == DefaultFileExtensions
    ensures r.Ok? && "history_filename" !in j.fields ==> r.value.historyFilename == DefaultHistoryFilename
  {
    if !j.JObj? then Err(TypeError)
    else
      var m := j.fields;
      var linkMode :- LinkModeOf(m);
      var overrideLink :- OverrideLinkOf(m);
      var name :- ReqStr(m, "name");
      var sourceDir :- ReqStr(m, "source_dir");
      var versionPattern :- GetStr(m, "version_pattern", DefaultVersionPattern);
      var fileExtensions :- GetStrList(m, "file_extensions", DefaultFileExtensions);
      var latestTarget :- GetStr(m, "latest_target", "");
      var fileRenameTemplate :- GetStr(m, "file_rename_template", "");
      var historyFilename :- GetStr(m, "history_filename", DefaultHistoryFilename);
      var sampleFilename :- GetStr(m, "sample_filename", "");
      var group :- GetStr(m, "group", "");
      var overrideVersionPattern :- GetBool(m, "override_version_pattern", false);
      var overrideFileExtensions :- GetBool(m, "override_file_extensions", false);
      var overrideLatestTarget :- GetBool(m, "override_latest_target", false);
      var overrideFileRename :- GetBool(m, "override_file_rename", false);
      Ok(WatchedSource(name, sourceDir, versionPattern, fileExtensions, latestTarget,
                       fileRenameTemplate, historyFilename, linkMode, sampleFilename, group,
                       overrideVersionPattern, overrideFileExtensions, overrideLatestTarget,
                       overrideFileRename, overrideLink))
  }

  /** A field written only when it differs from its default reads back as
      itself. */
  lemma DefaultedStrRoundTrip(m: Fields, key: string, v: string, dflt: string)
    requires (key in m <==> v != dflt) && (key in m ==> m[key] == JStr(v))
    ensures GetStr(m, key, dflt) == Ok(v)
  {
  }

  lemma DefaultedListRoundTrip(m: Fields, key: string, v: seq<string>, dflt: seq<string>)
    requires (key in m <==> v != dflt) && (key in m ==> m[key] == StrList(v))
    ensures GetStrList(m, key, dflt) == Ok(v)
  {
    if key in m {
      StrListRoundTrip(v);
    }
  }

  /** A flag written only when set reads back as itself. */
  lemma FlagRoundTrip(m: Fields, key: string, v: bool)
    requires (key in m <==> v) && (key in m ==> m[key] == JBool(true))
    ensures GetBool(m, key, false) == Ok(v)
  {
  }

  /** Where `to_dict` puts the required fields and the version pattern of a
      source. */
  lemma WatchedSourceNameLookups(s: WatchedSource)
    ensures var m := WatchedSourceToJson(s).fields;
      && ReqStr(m, "name") == Ok(s.name)
      && ReqStr(m, "source_dir") == Ok(s.sourceDir)
      && GetStr(m, "version_pattern", DefaultVersionPattern) == Ok(s.versionPattern)
  {
    var ks, vs := WatchedSourceKeys, WatchedSourceValues(s);
    WatchedSourceKeysDistinct();
    ObjectLookup(ks, vs, 0);
    ObjectLookup(ks, vs, 1);
    ObjectLookup(ks, vs, 2);
  }

  /** Where `to_dict` puts the extensions, target and history file of a
      source. */
  lemma WatchedSourceTargetLookups(s: WatchedSource)
    ensures var m := WatchedSourceToJson(s).fields;
      && GetStrList(m, "file_extensions", DefaultFileExtensions) == Ok(s.fileExtensions)
      && GetStr(m, "latest_target", "") == Ok(s.latestTarget)
      && GetStr(m, "history_filename", DefaultHistoryFilename) == Ok(s.historyFilename)
  {
    var ks, vs := WatchedSourceKeys, WatchedSourceValues(s);
    WatchedSourceKeysDistinct();
    ObjectLookup(ks, vs, 3);
    StrListRoundTrip(s.fileExtensions);
    ObjectLookup(ks, vs, 4);
    ObjectLookup(ks, vs, 5);
  }

  /** Where `to_dict` puts the optional strings of a source. */
  lemma WatchedSourceOptionLookups(s: WatchedSource)
    ensures var m := WatchedSourceToJson(s).fields;
      && GetStr(m, "file_rename_template", "") == Ok(s.fileRenameTemplate)
      && GetStr(m, "sample_filename", "") == Ok(s.sampleFilename)
      && GetStr(m, "group", "") == Ok(s.group)
  {
    OptionalStrLookup(s, 7, "file_rename_template", s.fileRenameTemplate);
    OptionalStrLookup(s, 8, "sample_filename", s.sampleFilename);
    OptionalStrLookup(s, 9, "group", s.group);
  }

  /** An optional string written only when non-empty reads back, defaulting
      to the empty string. */
  lemma OptionalStrLookup(s: WatchedSource, i: nat, key: string, v: string)
    requires i < |WatchedSourceKeys| && WatchedSourceKeys[i] == key
    requires WatchedSourceValues(s)[i] == WriteIf(v != "", JStr(v))
    ensures GetStr(WatchedSourceToJson(s).fields, key, "") == Ok(v)
  {
    WatchedSourceKeysDistinct();
    ObjectLookup(WatchedSourceKeys, WatchedSourceValues(s), i);
    DefaultedStrRoundTrip(WatchedSourceToJson(s).fields, key, v, "");
  }

  /** Where `to_dict` puts the override flags of a source. */
  lemma WatchedSourceFlagLookups(s: WatchedSource)
    ensures var m := WatchedSourceToJson(s).fields;
      && GetBool(m, "override_version_pattern", false) == Ok(s.overrideVersionPattern)
      && GetBool(m, "override_file_extensions", false) == Ok(s.overrideFileExtensions)
      && GetBool(m, "override_latest_target", false) == Ok(s.overrideLatestTarget)
      && GetBool(m, "override_file_rename", false) == Ok(s.overrideFileRename)
  {
    var ks, vs := WatchedSourceKeys, WatchedSourceValues(s);
    WatchedSourceKeysDistinct();
    var m := WatchedSourceToJson(s).fields;
    ObjectLookup(ks, vs, 10);
    FlagRoundTrip(m, "override_version_pattern", s.overrideVersionPattern);
    ObjectLookup(ks, vs, 11);
    FlagRoundTrip(m, "override_file_extensions", s.overrideFileExtensions);
    ObjectLookup(ks, vs, 12);
    FlagRoundTrip(m, "override_latest_target", s.overrideLatestTarget);
    ObjectLookup(ks, vs, 13);
    FlagRoundTrip(m, "override_file_rename", s.overrideFileRename);
  }

  /** The link-mode override reads back through its current key. */
  lemma WatchedSourceOverrideLinkLookup(s: WatchedSource)
    ensures OverrideLinkOf(WatchedSourceToJson(s).fields) == Ok(s.overrideLinkMode)
  {
    var ks, vs := WatchedSourceKeys, WatchedSourceValues(s);
    WatchedSourceKeysDistinct();
    var m := WatchedSourceToJson(s).fields;
    ObjectLookup(ks, vs, 14);
    if !s.overrideLinkMode {
      ObjectOfOther(ks, vs, "override_use_symlinks");
    }
  }

  /** Every watched source survives a save and reload unchanged. */
  lemma WatchedSourceRoundTrip(s: WatchedSource)
    ensures WatchedSourceFromJson(WatchedSourceToJson(s)) == Ok(s)
  {
    WatchedSourceNameLookups(s);
    WatchedSourceTargetLookups(s);
    WatchedSourceWritesLinkMode(s);
    WatchedSourceOptionLookups(s);
    WatchedSourceFlagLookups(s);
    WatchedSourceOverrideLinkLookup(s);
  }

  /** A legacy record with `use_symlinks: true` and no "link_mode" loads as a
      symlinking source, and its legacy override flag carries over. */
  lemma LegacySymlinkRecord(name: string, dir: string)
    ensures var m := map["name" := JStr(name), "source_dir" := JStr(dir),
                         "use_symlinks" := JBool(true), "override_use_symlinks" := JBool(true)];
      var r := WatchedSourceFromJson(JObj(m));
      r.Ok? && r.value.linkMode == "symlink" && r.value.overrideLinkMode && HasOverrides(r.value)
  {
  }

  // ---------------------------------------------------------------------------
  // ProjectConfig
  // ---------------------------------------------------------------------------

  /** The project file: its sources, path templates, project-wide defaults,
      discovery filters, task tokens and groups. `projectDir` is set at load
      time and never written. */
  datatype ProjectConfig = ProjectConfig(
    projectName: string,
    watchedSources: seq<WatchedSource>,
    basePathTemplate: string,
    latestPathTemplate: string,
    defaultVersionPattern: string,
    defaultFileExtensions: seq<string>,
    defaultFileRenameTemplate: string,
    defaultLinkMode: string,
    nameWhitelist: seq<string>,
    nameBlacklist: seq<string>,
    taskTokens: seq<string>,
    groups: map<string, Fields>,
    defaultNamingRule: string,
    namingConfigured: bool,
    timecodeMode: string,
    discoverySearchHistory: seq<string>,
    projectRoot: string,
    projectDir: string)

  /** `effective_project_root`: the explicit root, else the config's folder. */
  function EffectiveProjectRoot(c: ProjectConfig): (r: string)
    ensures c.projectRoot != "" ==> r == c.projectRoot
    ensures c.projectRoot == "" ==> r == c.projectDir
  {
    if c.projectRoot != "" then c.projectRoot else c.projectDir
  }

  function SourcesToJson(ss: seq<WatchedSource>): (r: seq<JVal>)
    ensures |r| == |ss|
    ensures forall k :: 0 <= k < |ss| ==> r[k] == WatchedSourceToJson(ss[k])
  {
    seq(|ss|, k requires 0 <= k < |ss| => WatchedSourceToJson(ss[k]))
  }

  /** `[WatchedSource.from_dict(s) for s in ...]`: fails if any entry fails. */
  function SourcesFromJson(vs: seq<JVal>): (r: Result<seq<WatchedSource>, string>)
    ensures r.Ok? ==> |r.value| == |vs|
    ensures r.Ok? ==> forall k :: 0 <= k < |vs| ==> WatchedSourceFromJson(vs[k]) == Ok(r.value[k])
  {
    if |vs| == 0 then Ok([])
    else
      var first :- WatchedSourceFromJson(vs[0]);
      var rest :- SourcesFromJson(vs[1..]);
      Ok([first] + rest)
  }

  lemma {:induction false} SourcesRoundTrip(ss: seq<WatchedSource>)
    ensures SourcesFromJson(SourcesToJson(ss)) == Ok(ss)
  {
    if |ss| > 0 {
      WatchedSourceRoundTrip(ss[0]);
      assert SourcesToJson(ss)[1..] == SourcesToJson(ss[1..]);
      SourcesRoundTrip(ss[1..]);
      assert ss == [ss[0]] + ss[1..];
    }
  }

  function GroupsToJson(g: map<string, Fields>): (j: JVal)
    ensures j.JObj? && j.fields.Keys == g.Keys
  {
    JObj(map k | k in g :: JObj(g[k]))
  }

  /** The groups table: an object whose values are objects. */
  function GroupsFromJson(v: JVal): (r: Result<map<string, Fields>, string>)
    ensures r.Ok? ==> v == GroupsToJson(r.value)
  {
    if v.JObj? && forall k | k in v.fields :: v.fields[k].JObj? then
      Ok(map k | k in v.fields :: v.fields[k].fields)
    else Err(TypeError)
  }

  lemma GroupsRoundTrip(g: map<string, Fields>)
    ensures GroupsFromJson(GroupsToJson(g)) == Ok(g)
  {
    var j := GroupsToJson(g);
    assert forall k | k in j.fields :: j.fields[k] == JObj(g[k]);
    var back := map k | k in j.fields :: j.fields[k].fields;
    assert back == g;
  }

  /** The keys `to_dict` writes for a project, in order. */
  const ProjectConfigKeys: seq<string> :=
    ["project_name", "watched_sources", "base_path_template", "latest_path_template",
     "default_version_pattern", "default_file_extensions", "default_file_rename_template",
     "default_link_mode", "name_whitelist", "name_blacklist", "groups", "task_tokens",
     "default_naming_rule", "naming_configured", "timecode_mode", "discovery_search_history",
     "project_root"]

  lemma ProjectConfigKeysDistinct()
    ensures DistinctKeys(ProjectConfigKeys)
  {
  }

  function ProjectConfigValues(c: ProjectConfig): (vs: seq<Option<JVal>>)
    ensures |vs| == |ProjectConfigKeys|
  {
    [Some(JStr(c.projectName)),
     Some(JArr(SourcesToJson(c.watchedSources))),
     WriteIf(c.basePathTemplate != "", JStr(c.basePathTemplate)),
     WriteIf(c.latestPathTemplate != "", JStr(c.latestPathTemplate)),
     WriteIf(c.defaultVersionPattern != DefaultVersionPattern, JStr(c.defaultVersionPattern)),
     WriteIf(c.defaultFileExtensions != DefaultFileExtensions, StrList(c.defaultFileExtensions)),
     WriteIf(c.defaultFileRenameTemplate != "" && c.defaultFileRenameTemplate != DefaultRenameTemplate,
             JStr(c.defaultFileRenameTemplate)),
     WriteIf(c.defaultLinkMode != DefaultLinkMode, JStr(c.defaultLinkMode)),
     WriteIf(c.nameWhitelist != [], StrList(c.nameWhitelist)),
     WriteIf(c.nameBlacklist != [], StrList(c.nameBlacklist)),
     WriteIf(c.groups != map[], GroupsToJson(c.groups)),
     WriteIf(c.taskTokens != [], StrList(c.taskTokens)),
     WriteIf(c.defaultNamingRule != "", JStr(c.defaultNamingRule)),
     WriteIf(c.namingConfigured, JBool(true)),
     WriteIf(c.timecodeMode != DefaultTimecodeMode, JStr(c.timecodeMode)),
     WriteIf(c.discoverySearchHistory != [], StrList(c.discoverySearchHistory)),
     WriteIf(c.projectRoot != "", JStr(c.projectRoot))]
  }

  /** `ProjectConfig.to_dict`: fields holding their default are left out, and
      `projectDir` is never written. */
  function ProjectConfigToJson(c: ProjectConfig): (j: JVal)
    ensures j.JObj?
  {
    JObj(ObjectOf(ProjectConfigKeys, ProjectConfigValues(c)))
  }

  /** `to_dict` never writes the runtime `projectDir` nor the legacy
      "default_use_symlinks" key. */
  lemma ProjectConfigNeverWritten(c: ProjectConfig)
    ensures var m := ProjectConfigToJson(c).fields;
      "project_dir" !in m && "default_use_symlinks" !in m
  {
    ObjectOfOther(ProjectConfigKeys, ProjectConfigValues(c), "project_dir");
    ObjectOfOther(ProjectConfigKeys, ProjectConfigValues(c), "default_use_symlinks");
  }

  /** The rename template and link mode are written exactly when they differ
      from the defaults (an empty template counts as the default). */
  lemma ProjectConfigOmitsDefaults(c: ProjectConfig)
    ensures var m := ProjectConfigToJson(c).fields;
      && ("default_file_rename_template" in m <==>
            c.defaultFileRenameTemplate != "" && c.defaultFileRenameTemplate != DefaultRenameTemplate)
      && ("default_link_mode" in m <==> c.defaultLinkMode != DefaultLinkMode)
  {
    ProjectConfigKeysDistinct();
    ObjectLookup(ProjectConfigKeys, ProjectConfigValues(c), 6);
    ObjectLookup(ProjectConfigKeys, ProjectConfigValues(c), 7);
  }

  /** `default_link_mode`, falling back to the legacy "default_use_symlinks". */
  function DefaultLinkModeOf(m: Fields): (r: Result<string, string>)
    ensures "default_link_mode" in m ==> r == ReqStr(m, "default_link_mode")
    ensures "default_link_mode" !in m ==>
      r == Ok(if "default_use_symlinks" in m && Truthy(m["default_use_symlinks"]) then "symlink" else DefaultLinkMode)
  {
    if "default_link_mode" in m then ReqStr(m, "default_link_mode")
    else Ok(if "default_use_symlinks" in m && Truthy(m["default_use_symlinks"]) then "symlink" else DefaultLinkMode)
  }

  function GetSources(m: Fields): (r: Result<seq<WatchedSource>, string>)
    ensures "watched_sources" !in m ==> r == Ok([])
  {
    if "watched_sources" !in m then Ok([])
    else if m["watched_sources"].JArr? then SourcesFromJson(m["watched_sources"].items)
    else Err(TypeError)
  }

  function GetGroups(m: Fields): (r: Result<map<string, Fields>, string>)
    ensures "groups" !in m ==> r == Ok(map[])
  {
    if "groups" !in m then Ok(map[]) else GroupsFromJson(m["groups"])
  }

  /** `ProjectConfig.from_dict`: every key is optional; `projectDir` starts
      empty (the loader sets it). */
  function ProjectConfigFromJson(j: JVal): (r: Result<ProjectConfig, string>)
    ensures !j.JObj? ==> r.Err?
    ensures r.Ok? ==> r.value.projectDir == ""
    ensures r.Ok? ==> DefaultLinkModeOf(j.fields) == Ok(r.value.defaultLinkMode)
    ensures r.Ok? && "project_name" !in j.fields ==> r.value.projectName == DefaultProjectName
    ensures r.Ok? && "default_file_rename_template" !in j.fields ==>
      r.value.defaultFileRenameTemplate == DefaultRenameTemplate
    ensures r.Ok? && "timecode_mode" !in j.fields ==> r.value.timecodeMode == DefaultTimecodeMode
  {
    if !j.JObj? then Err(TypeError)
    else
      var m := j.fields;
      var sources :- GetSources(m);
      var projectName :- GetStr(m, "project_name", DefaultProjectName);
      var basePathTemplate :- GetStr(m, "base_path_template", "");
      var latestPathTemplate :- GetStr(m, "latest_path_template", "");
      var defaultVersionPattern :- GetStr(m, "default_version_pattern", DefaultVersionPattern);
      var defaultFileExtensions :- GetStrList(m, "default_file_extensions", DefaultFileExtensions);
      var defaultFileRenameTemplate :- GetStr(m, "default_file_rename_template", DefaultRenameTemplate);
      var defaultLinkMode :- DefaultLinkModeOf(m);
      var nameWhitelist :- GetStrList(m, "name_whitelist", []);
      var nameBlacklist :- GetStrList(m, "name_blacklist", []);
      var groups :- GetGroups(m);
      var taskTokens :- GetStrList(m, "task_tokens", []);
      var defaultNamingRule :- GetStr(m, "default_naming_rule", "");
      var namingConfigured :- GetBool(m, "naming_configured", false);
      var timecodeMode :- GetStr(m, "timecode_mode", DefaultTimecodeMode);
      var discoverySearchHistory :- GetStrList(m, "discovery_search_history", []);
      var projectRoot :- GetStr(m, "project_root", "");
      Ok(ProjectConfig(projectName, sources, basePathTemplate, latestPathTemplate,
                       defaultVersionPattern, defaultFileExtensions, defaultFileRenameTemplate,
                       defaultLinkMode, nameWhitelist, nameBlacklist, taskTokens, groups,
                       defaultNamingRule, namingConfigured, timecodeMode, discoverySearchHistory,
                       projectRoot, ""))
  }

  /** What a configuration looks like after a save and reload: the runtime
      `projectDir` is dropped and an empty rename template comes back as the
      default one. */
  function Reloaded(c: ProjectConfig): (r: ProjectConfig)
    ensures r.projectDir == ""
    ensures r.defaultFileRenameTemplate ==
      (if c.defaultFileRenameTemplate == "" then DefaultRenameTemplate else c.defaultFileRenameTemplate)
  {
    c.(projectDir := "",
       defaultFileRenameTemplate :=
         if c.defaultFileRenameTemplate == "" then DefaultRenameTemplate else c.defaultFileRenameTemplate)
  }

  /** Where `to_dict` puts the name and the root of a configuration. */
  lemma ProjectConfigNameLookups(c: ProjectConfig)
    ensures var m := ProjectConfigToJson(c).fields;
      && GetStr(m, "project_name", DefaultProjectName) == Ok(c.projectName)
      && GetStr(m, "project_root", "") == Ok(c.projectRoot)
  {
    var ks, vs := ProjectConfigKeys, ProjectConfigValues(c);
    ProjectConfigKeysDistinct();
    var m := ProjectConfigToJson(c).fields;
    ObjectLookup(ks, vs, 0);
    ObjectLookup(ks, vs, 16);
    DefaultedStrRoundTrip(m, "project_root", c.projectRoot, "");
  }

  /** Where `to_dict` puts the path templates of a configuration. */
  lemma ProjectConfigTemplateLookups(c: ProjectConfig)
    ensures var m := ProjectConfigToJson(c).fields;
      && GetStr(m, "base_path_template", "") == Ok(c.basePathTemplate)
      && GetStr(m, "latest_path_template", "") == Ok(c.latestPathTemplate)
  {
    var ks, vs := ProjectConfigKeys, ProjectConfigValues(c);
    ProjectConfigKeysDistinct();
    var m := ProjectConfigToJson(c).fields;
    ObjectLookup(ks, vs, 2);
    DefaultedStrRoundTrip(m, "base_path_template", c.basePathTemplate, "");
    ObjectLookup(ks, vs, 3);
    DefaultedStrRoundTrip(m, "latest_path_template", c.latestPathTemplate, "");
  }

  /** Where `to_dict` puts the default version pattern and extensions. */
  lemma ProjectConfigPatternLookups(c: ProjectConfig)
    ensures var m := ProjectConfigToJson(c).fields;
      && GetStr(m, "default_version_pattern", DefaultVersionPattern) == Ok(c.defaultVersionPattern)
      && GetStrList(m, "default_file_extensions", DefaultFileExtensions) == Ok(c.defaultFileExtensions)
  {
    var ks, vs := ProjectConfigKeys, ProjectConfigValues(c);
    ProjectConfigKeysDistinct();
    var m := ProjectConfigToJson(c).fields;
    ObjectLookup(ks, vs, 4);
    DefaultedStrRoundTrip(m, "default_version_pattern", c.defaultVersionPattern, DefaultVersionPattern);
    ObjectLookup(ks, vs, 5);
    DefaultedListRoundTrip(m, "default_file_extensions", c.defaultFileExtensions, DefaultFileExtensions);
  }

  /** The default rename template and link mode read back, an empty template
      as the default one. */
  lemma ProjectConfigPublishLookups(c: ProjectConfig)
    ensures var m := ProjectConfigToJson(c).fields;
      && GetStr(m, "default_file_rename_template", DefaultRenameTemplate) == Ok(Reloaded(c).defaultFileRenameTemplate)
      && DefaultLinkModeOf(m) == Ok(c.defaultLinkMode)
  {
    var ks, vs := ProjectConfigKeys, ProjectConfigValues(c);
    ProjectConfigKeysDistinct();
    var m := ProjectConfigToJson(c).fields;
    ObjectLookup(ks, vs, 6);
    DefaultedStrRoundTrip(m, "default_file_rename_template", Reloaded(c).defaultFileRenameTemplate, DefaultRenameTemplate);
    ObjectLookup(ks, vs, 7);
    ProjectConfigNeverWritten(c);
  }

  /** Where `to_dict` puts the naming and timecode settings. */
  lemma ProjectConfigNamingLookups(c: ProjectConfig)
    ensures var m := ProjectConfigToJson(c).fields;
      && GetStrList(m, "task_tokens", []) == Ok(c.taskTokens)
      && GetStr(m, "default_naming_rule", "") == Ok(c.defaultNamingRule)
      && GetBool(m, "naming_configured", false) == Ok(c.namingConfigured)
      && GetStr(m, "timecode_mode", DefaultTimecodeMode) == Ok(c.timecodeMode)
  {
    var ks, vs := ProjectConfigKeys, ProjectConfigValues(c);
    ProjectConfigKeysDistinct();
    var m := ProjectConfigToJson(c).fields;
    ObjectLookup(ks, vs, 11);
    DefaultedListRoundTrip(m, "task_tokens", c.taskTokens, []);
    ObjectLookup(ks, vs, 12);
    DefaultedStrRoundTrip(m, "default_naming_rule", c.defaultNamingRule, "");
    ObjectLookup(ks, vs, 13);
    FlagRoundTrip(m, "naming_configured", c.namingConfigured);
    ObjectLookup(ks, vs, 14);
    DefaultedStrRoundTrip(m, "timecode_mode", c.timecodeMode, DefaultTimecodeMode);
  }

  /** Where `to_dict` puts the sources and groups. */
  lemma ProjectConfigTableLookups(c: ProjectConfig)
    ensures var m := ProjectConfigToJson(c).fields;
      && GetSources(m) == Ok(c.watchedSources)
      && GetGroups(m) == Ok(c.groups)
  {
    var ks, vs := ProjectConfigKeys, ProjectConfigValues(c);
    ProjectConfigKeysDistinct();
    ObjectLookup(ks, vs, 1);
    SourcesRoundTrip(c.watchedSources);
    ObjectLookup(ks, vs, 10);
    if c.groups != map[] {
      GroupsRoundTrip(c.groups);
    }
  }

  /** Where `to_dict` puts the discovery filters and search history. */
  lemma ProjectConfigListLookups(c: ProjectConfig)
    ensures var m := ProjectConfigToJson(c).fields;
      && GetStrList(m, "name_whitelist", []) == Ok(c.nameWhitelist)
      && GetStrList(m, "name_blacklist", []) == Ok(c.nameBlacklist)
      && GetStrList(m, "discovery_search_history", []) == Ok(c.discoverySearchHistory)
  {
    var ks, vs := ProjectConfigKeys, ProjectConfigValues(c);
    ProjectConfigKeysDistinct();
    var m := ProjectConfigToJson(c).fields;
    ObjectLookup(ks, vs, 8);
    DefaultedListRoundTrip(m, "name_whitelist", c.nameWhitelist, []);
    ObjectLookup(ks, vs, 9);
    DefaultedListRoundTrip(m, "name_blacklist", c.nameBlacklist, []);
    ObjectLookup(ks, vs, 15);
    DefaultedListRoundTrip(m, "discovery_search_history", c.discoverySearchHistory, []);
  }

  /** Saving and reloading a configuration gives `Reloaded(c)`. */
  lemma ProjectConfigRoundTrip(c: ProjectConfig)
    ensures ProjectConfigFromJson(ProjectConfigToJson(c)) == Ok(Reloaded(c))
  {
    ProjectConfigNameLookups(c);
    ProjectConfigTemplateLookups(c);
    ProjectConfigPatternLookups(c);
    ProjectConfigPublishLookups(c);
    ProjectConfigNamingLookups(c);
    ProjectConfigTableLookups(c);
    ProjectConfigListLookups(c);
  }

  /** After a reload the effective root is the explicit root if one was set;
      otherwise it is empty until the loader fills in `projectDir`. */
  lemma ReloadedEffectiveRoot(c: ProjectConfig)
    ensures EffectiveProjectRoot(Reloaded(c)) == c.projectRoot
  {
  }

  // ---------------------------------------------------------------------------
  // Path templates
  // ---------------------------------------------------------------------------

  predicate HasKey(tokens: seq<(string, string)>, key: string) {
    exists k :: 0 <= k < |tokens| && tokens[k].0 == key
  }

  /** The token table `resolve_path` expands with, in dict order:
      `project_root` is appended (as `projectDir`) when not supplied. */
  function AllTokens(tokens: seq<(string, string)>, projectDir: string): (r: seq<(string, string)>)
    ensures HasKey(tokens, "project_root") ==> r == tokens
    ensures !HasKey(tokens, "project_root") ==> r == tokens + [("project_root", projectDir)]
    ensures HasKey(r, "project_root")
  {
    if HasKey(tokens, "project_root") then tokens
    else
      var r := tokens + [("project_root", projectDir)];
      assert r[|tokens|].0 == "project_root";
      r
  }

  function Placeholder(key: string): (p: string)
    ensures |p| == |key| + 2 && p[0] == '{' && p[|p| - 1] == '}'
  {
    "{" + key + "}"
  }

  /** Replaces `{key}` by its value for each token in turn. */
  function ExpandTokens(template: string, tokens: seq<(string, string)>): string
    decreases |tokens|
  {
    if |tokens| == 0 then template
    else ExpandTokens(ReplaceAll(template, Placeholder(tokens[0].0), tokens[0].1), tokens[1..])
  }

  /** A template mentioning none of the supplied placeholders comes out as it
      went in: unknown placeholders stay intact. */
  lemma {:induction false} ExpandWithoutPlaceholders(template: string, tokens: seq<(string, string)>)
    requires forall k :: 0 <= k < |tokens| ==> !Contains(template, Placeholder(tokens[k].0))
    ensures ExpandTokens(template, tokens) == template
    decreases |tokens|
  {
    if |tokens| > 0 {
      ReplaceAbsent(template, Placeholder(tokens[0].0), tokens[0].1);
      ExpandWithoutPlaceholders(template, tokens[1..]);
    }
  }

  /** A template that is exactly one placeholder becomes that token's value. */
  lemma ExpandSinglePlaceholder(key: string, value: string)
    ensures ExpandTokens(Placeholder(key), [(key, value)]) == value
  {
    var p := Placeholder(key);
    assert p[..|p|] == p;
    assert ReplaceAll(p, p, value) == value + ReplaceAll(p[|p|..], p, value);
  }

  /** `resolve_path`: expand the tokens, put a relative result under
      `projectDir` when one is given, and return the normal form
      `str(Path(...))` of that path. */
  function ResolvePath(template: string, tokens: seq<(string, string)>, projectDir: string): (r: string)
    ensures var expanded := ExpandTokens(template, AllTokens(tokens, projectDir));
      Paths.IsAbsolute(r) <==> Paths.IsAbsolute(expanded) || (projectDir != "" && Paths.IsAbsolute(projectDir))
    ensures var expanded := ExpandTokens(template, AllTokens(tokens, projectDir));
      Paths.DropEmptyAndDot(Split(r, '/')) ==
        (if !Paths.IsAbsolute(expanded) && projectDir != "" then Paths.DropEmptyAndDot(Split(projectDir, '/')) else [])
        + Paths.DropEmptyAndDot(Split(expanded, '/'))
    ensures Paths.Normal(r) == r
  {
    var expanded := ExpandTokens(template, AllTokens(tokens, projectDir));
    var path := if !Paths.IsAbsolute(expanded) && projectDir != "" then Paths.Join(projectDir, expanded) else expanded;
    Paths.NormalKeepsComponents(path);
    Paths.NormalIdempotent(path);
    if !Paths.IsAbsolute(expanded) && projectDir != "" then
      Paths.JoinComponents(projectDir, expanded);
      Paths.Normal(path)
    else
      Paths.Normal(path)
  }

  /** With no tokens given, `{project_root}` resolves to the project folder
      in normal form. */
  lemma ProjectRootDefaultsToProjectDir(projectDir: string)
    requires Paths.IsAbsolute(projectDir)
    ensures ResolvePath("{project_root}", [], projectDir) == Paths.Normal(projectDir)
  {
    assert AllTokens([], projectDir) == [("project_root", projectDir)];
    ExpandSinglePlaceholder("project_root", projectDir);
  }

  /** A trailing slash on the project folder is dropped: "/proj/" gives "/proj". */
  lemma ProjectRootTrailingSlash()
    ensures ResolvePath("{project_root}", [], "/proj/") == "/proj"
  {
    ProjectRootDefaultsToProjectDir("/proj/");
    Paths.NormalDropsTrailingSlash();
  }
}

=== FILE: paths.dfy ===
/** The parts of `pathlib.PurePosixPath` the core relies on: components, name,
    suffix, stem and `with_suffix`, plus `os.path.join` and `relative_to`. */
module Paths {
  import opened Wrappers
  import opened Strs

  /** Index of the last occurrence of `c` in `s` (Python's `rfind`). */
  function LastIndexOf(s: string, c: char): (r: Option<nat>)
    ensures r.Some? ==> r.value < |s| && s[r.value] == c
    ensures r.Some? ==> forall k :: r.value < k < |s| ==> s[k] != c
    ensures r.None? ==> c !in s
  {
    if |s| == 0 then None
    else if s[|s| - 1] == c then Some(|s| - 1)
    else
      var r := LastIndexOf(s[..|s| - 1], c);
      assert r.None? ==> forall k :: 0 <= k < |s| ==> s[k] != c by {
        if r.None? {
          forall k | 0 <= k < |s| ensures s[k] != c {
            if k < |s| - 1 {
              assert s[k] == s[..|s| - 1][k];
            }
          }
        }
      }
      r
  }

  function DropEmptyAndDot(cs: seq<string>): (r: seq<string>)
    ensures forall k :: 0 <= k < |r| ==> r[k] != "" && r[k] != "."
    ensures forall x :: x in r ==> x in cs
  {
    if |cs| == 0 then []
    else (if cs[0] == "" || cs[0] == "." then [] else [cs[0]]) + DropEmptyAndDot(cs[1..])
  }

  /** `PurePosixPath(p).parts`: the root "/" (when absolute) followed by the
      non-empty components other than ".". */
  function Parts(p: string): (r: seq<string>)
    ensures forall k :: 0 <= k < |r| ==> r[k] != ""
  {
    var comps := DropEmptyAndDot(Split(p, '/'));
    if |p| > 0 && p[0] == '/' then ["/"] + comps else comps
  }

  /** `PurePosixPath(p).name`: the last component, "" for the root or "". */
  function Name(p: string): (r: string)
    ensures '/' !in r
  {
    var parts := Split(p, '/');
    var comps := DropEmptyAndDot(parts);
    if |comps| == 0 then ""
    else
      var n := comps[|comps| - 1];
      assert n in parts;
      n
  }

  /** A name with no separator that is neither empty nor "." is its own path
      name. */
  lemma NameOfComponent(n: string)
    requires '/' !in n && n != "" && n != "."
    ensures Name(n) == n
  {
    SplitNoSeparator(n, '/');
    assert DropEmptyAndDot([n]) == [n] + DropEmptyAndDot([]);
  }

  /** Position of the dot that starts `Path(name).suffix`, if the name has one:
      the last dot, provided it is neither the first nor the last character. */
  function SuffixDot(name: string): (r: Option<nat>)
    ensures r.Some? ==> 0 < r.value < |name| - 1 && name[r.value] == '.'
    ensures r.Some? ==> '.' !in name[r.value + 1..]
  {
    match LastIndexOf(name, '.')
    case Some(i) =>
      if 0 < i < |name| - 1 then
        Some(i)
      else None
    case None => None
  }

  /** `Path(name).suffix` for a single path name. */
  function Suffix(name: string): (r: string)
    ensures r == "" || (r[0] == '.' && |r| >= 2 && '.' !in r[1..])
  {
    match SuffixDot(name)
    case Some(i) => name[i..]
    case None => ""
  }

  /** `Path(name).stem` for a single path name. */
  function Stem(name: string): (r: string)
    ensures r + Suffix(name) == name
  {
    match SuffixDot(name)
    case Some(i) => name[..i]
    case None => name
  }

  /** The suffix `os.scandir`-based helpers use: everything from the last dot,
      when there is a dot at all (so ".exr" and "a." have one). */
  function DotSuffix(name: string): (r: Option<string>)
    ensures r.Some? ==> |r.value| >= 1 && r.value[0] == '.' && '.' !in r.value[1..]
    ensures r.None? ==> '.' !in name
  {
    match LastIndexOf(name, '.')
    case Some(i) =>
      Some(name[i..])
    case None => None
  }

  /** A dot inside the name with no dot after it starts the suffix. */
  lemma SuffixAtLastDot(name: string, d: nat)
    requires 0 < d < |name| - 1 && name[d] == '.'
    requires forall j :: d < j < |name| ==> name[j] != '.'
    ensures Suffix(name) == name[d..]
  {
    var r := LastIndexOf(name, '.');
    assert name[d] in name;
    assert r == Some(d);
  }

  /** Whenever `Path.suffix` is non-empty it agrees with the scandir suffix. */
  lemma SuffixAgreesWithDotSuffix(name: string)
    requires Suffix(name) != ""
    ensures DotSuffix(name) == Some(Suffix(name))
  {
  }

  /** `Path(p).with_suffix(suf)` on a normalised path: the suffix of the last
      component is replaced by `suf` (or `suf` is appended when there is none). */
  function WithSuffix(p: string, suf: string): (r: string)
    ensures EndsWith(r, suf)
  {
    var sfx := Suffix(Name(p));
    if EndsWith(p, sfx) then p[..|p| - |sfx|] + suf else p + suf
  }

  /** A suffix holds exactly one dot, so replacing it by a suffix with two dots
      (".json.tmp", ".json.bak") always yields a different path. */
  lemma WithTwoDotSuffixDiffers(p: string, suf: string)
    requires |suf| >= 2 && suf[0] == '.' && '.' in suf[1..]
    ensures WithSuffix(p, suf) != p
  {
  }

  /** Two suffixes with two dots give the same path only if they are equal. */
  lemma WithSuffixInjective(p: string, a: string, b: string)
    requires WithSuffix(p, a) == WithSuffix(p, b)
    ensures a == b
  {
    var sfx := Suffix(Name(p));
    var base := if EndsWith(p, sfx) then p[..|p| - |sfx|] else p;
    assert WithSuffix(p, a) == base + a && WithSuffix(p, b) == base + b;
    assert a == (base + a)[|base|..];
    assert b == (base + b)[|base|..];
  }

  /** `PurePosixPath(p).is_absolute()`. */
  predicate IsAbsolute(p: string) {
    |p| > 0 && p[0] == '/'
  }

  /** `os.path.join(parent, child)` (and `Path(parent) / child` before
      normalisation): an absolute child replaces the parent. */
  function Join(parent: string, child: string): (r: string)
    ensures EndsWith(r, child)
    ensures IsAbsolute(r) <==> IsAbsolute(child) || IsAbsolute(parent)
  {
    if IsAbsolute(child) then child
    else if |parent| == 0 || parent[|parent| - 1] == '/' then parent + child
    else parent + "/" + child
  }

  lemma {:induction false} SplitAppendPlain(a: string, c: char, b: string)
    requires c !in b && |a| > 0 && a[|a| - 1] == c
    ensures Split(a + b, c) == Split(a[..|a| - 1], c) + [b]
  {
    assert a + b == a[..|a| - 1] + [c] + b;
    SplitAppend(a[..|a| - 1], c, b);
  }

  lemma {:induction false} DropAppend(cs: seq<string>, n: string)
    requires n != "" && n != "."
    ensures DropEmptyAndDot(cs + [n]) == DropEmptyAndDot(cs) + [n]
    decreases |cs|
  {
    if |cs| == 0 {
      assert DropEmptyAndDot([n]) == [n] + DropEmptyAndDot([]);
    } else {
      assert (cs + [n])[1..] == cs[1..] + [n];
      DropAppend(cs[1..], n);
    }
  }

  /** Joining a plain component onto any directory makes it the path's name. */
  lemma NameOfJoin(parent: string, child: string)
    requires '/' !in child && child != "" && child != "."
    ensures Name(Join(parent, child)) == child
  {
    if |parent| == 0 {
      NameOfComponent(child);
    } else if parent[|parent| - 1] == '/' {
      SplitAppendPlain(parent, '/', child);
      DropAppend(Split(parent[..|parent| - 1], '/'), child);
    } else {
      assert parent + "/" + child == parent + ['/'] + child;
      SplitAppend(parent, '/', child);
      DropAppend(Split(parent, '/'), child);
    }
  }

  // ---------------------------------------------------------------------------
  // Normal form
  // ---------------------------------------------------------------------------

  lemma {:induction false} DropConcat(a: seq<string>, b: seq<string>)
    ensures DropEmptyAndDot(a + b) == DropEmptyAndDot(a) + DropEmptyAndDot(b)
    decreases |a|
  {
    if |a| == 0 {
      assert a + b == b;
    } else {
      assert (a + b)[1..] == a[1..] + b;
      DropConcat(a[1..], b);
    }
  }

  lemma {:induction false} DropNothing(cs: seq<string>)
    requires forall k :: 0 <= k < |cs| ==> cs[k] != "" && cs[k] != "."
    ensures DropEmptyAndDot(cs) == cs
    decreases |cs|
  {
    if |cs| > 0 {
      DropNothing(cs[1..]);
    }
  }

  /** The components of a path: non-empty, not ".", without a separator. */
  lemma ComponentsArePlain(p: string)
    ensures forall k :: 0 <= k < |DropEmptyAndDot(Split(p, '/'))| ==>
      DropEmptyAndDot(Split(p, '/'))[k] != "" && DropEmptyAndDot(Split(p, '/'))[k] != "." &&
      '/' !in DropEmptyAndDot(Split(p, '/'))[k]
  {
    var parts := Split(p, '/');
    var comps := DropEmptyAndDot(parts);
    forall k | 0 <= k < |comps| ensures '/' !in comps[k] {
      assert comps[k] in parts;
    }
  }

  /** The root `PurePosixPath` keeps: exactly two leading slashes stay "//",
      one, three or more become "/". */
  function RootOf(p: string): (r: string)
    ensures r == "" <==> !IsAbsolute(p)
  {
    if |p| >= 2 && p[0] == '/' && p[1] == '/' && (|p| == 2 || p[2] != '/') then "//"
    else if IsAbsolute(p) then "/"
    else ""
  }

  /** `str(PurePosixPath(p))`: the root, then the components other than ""
      and "." joined by '/', or "." when there is neither. */
  function Normal(p: string): (r: string)
    ensures r != ""
    ensures IsAbsolute(r) <==> IsAbsolute(p)
  {
    var comps := DropEmptyAndDot(Split(p, '/'));
    var root := RootOf(p);
    if |comps| == 0 then (if root == "" then "." else root)
    else
      ComponentsArePlain(p);
      JoinStartsWithComponent(comps);
      root + JoinWith(comps, '/')
  }

  /** Normalising keeps every component. */
  lemma NormalKeepsComponents(p: string)
    ensures DropEmptyAndDot(Split(Normal(p), '/')) == DropEmptyAndDot(Split(p, '/'))
  {
    var comps := DropEmptyAndDot(Split(p, '/'));
    var root := RootOf(p);
    if |comps| == 0 {
      assert Split("/", '/') == Split("", '/') + Split("", '/') by { SplitConcat("", '/', ""); }
      assert Split("//", '/') == Split("/", '/') + Split("", '/') by { SplitConcat("/", '/', ""); }
      assert Split(".", '/') == ["."] by { SplitNoSeparator(".", '/'); }
    } else {
      var body := JoinWith(comps, '/');
      ComponentsArePlain(p);
      SplitJoin(comps, '/');
      DropNothing(comps);
      if root == "/" {
        assert root + body == "" + ['/'] + body;
        SplitConcat("", '/', body);
      } else if root == "//" {
        assert root + body == "/" + ['/'] + body;
        SplitConcat("/", '/', body);
        assert "/" == "" + ['/'] + "";
        SplitConcat("", '/', "");
        assert Split("/", '/') == ["", ""];
        assert Split(root + body, '/') == ["", ""] + comps;
        DropConcat(["", ""], comps);
        assert DropEmptyAndDot(["", ""]) == [];
      } else {
        assert Normal(p) == body;
      }
    }
  }

  /** The text of a non-empty list of real components starts with one. */
  lemma JoinStartsWithComponent(comps: seq<string>)
    requires |comps| > 0 && forall k :: 0 <= k < |comps| ==> comps[k] != "" && '/' !in comps[k]
    ensures |JoinWith(comps, '/')| > 0 && JoinWith(comps, '/')[0] == comps[0][0]
  {
    if |comps| > 1 {
      assert JoinWith(comps, '/') == comps[0] + ['/'] + JoinWith(comps[1..], '/');
    }
  }

  /** A path in normal form stays as it is. */
  lemma NormalIdempotent(p: string)
    ensures Normal(Normal(p)) == Normal(p)
  {
    var comps := DropEmptyAndDot(Split(p, '/'));
    var r := Normal(p);
    NormalKeepsComponents(p);
    if |comps| > 0 {
      ComponentsArePlain(p);
      JoinStartsWithComponent(comps);
      assert comps[0] in comps;
      var root := RootOf(p);
      assert r == root + JoinWith(comps, '/');
      assert RootOf(r) == root;
    }
  }

  /** A trailing slash disappears: "/proj/" is "/proj". */
  lemma NormalDropsTrailingSlash()
    ensures Normal("/proj/") == "/proj"
  {
    assert "/proj/" == "" + ['/'] + "proj" + ['/'] + "";
    SplitConcat("", '/', "proj/");
    assert "proj/" == "proj" + ['/'] + "";
    SplitConcat("proj", '/', "");
    SplitNoSeparator("proj", '/');
    assert Split("/proj/", '/') == ["", "proj", ""];
    assert DropEmptyAndDot(["", "proj", ""]) == ["proj"];
  }

  /** A doubled slash inside a path disappears: "a//b" is "a/b". */
  lemma NormalDropsDoubledSlash()
    ensures Normal("a//b") == "a/b"
  {
    assert "a//b" == "a" + ['/'] + "/b";
    SplitConcat("a", '/', "/b");
    assert "/b" == "" + ['/'] + "b";
    SplitConcat("", '/', "b");
    SplitNoSeparator("a", '/');
    SplitNoSeparator("b", '/');
    assert Split("a//b", '/') == ["a", "", "b"];
    assert DropEmptyAndDot(["a", "", "b"]) == ["a", "b"];
    assert JoinWith(["a", "b"], '/') == "a" + ['/'] + JoinWith(["b"], '/');
  }

  /** The empty path reads ".". */
  lemma NormalOfEmpty()
    ensures Normal("") == "."
  {
  }

  /** A separator between two texts separates their components. */
  lemma SeparatedComponents(a: string, b: string)
    ensures DropEmptyAndDot(Split(a + ['/'] + b, '/')) ==
      DropEmptyAndDot(Split(a, '/')) + DropEmptyAndDot(Split(b, '/'))
  {
    SplitConcat(a, '/', b);
    DropConcat(Split(a, '/'), Split(b, '/'));
  }

  /** Joining a relative path onto a folder appends its components. */
  lemma JoinComponents(parent: string, child: string)
    requires !IsAbsolute(child)
    ensures DropEmptyAndDot(Split(Join(parent, child), '/')) ==
      DropEmptyAndDot(Split(parent, '/')) + DropEmptyAndDot(Split(child, '/'))
  {
    var n := |parent|;
    if n == 0 {
      assert Join(parent, child) == child;
    } else if parent[n - 1] == '/' {
      var front := parent[..n - 1];
      assert parent == front + ['/'] + "";
      assert Join(parent, child) == front + ['/'] + child;
      SeparatedComponents(front, "");
      SeparatedComponents(front, child);
    } else {
      assert Join(parent, child) == parent + ['/'] + child;
      SeparatedComponents(parent, child);
    }
  }

  /** `Path(path).relative_to(root)`: `None` stands for the `ValueError` raised
      when `root` is not a leading part sequence of `path`; "." when equal. */
  function RelativeTo(path: string, root: string): (r: Option<string>)
    ensures r.Some? <==> |Parts(root)| <= |Parts(path)| && Parts(path)[..|Parts(root)|] == Parts(root)
  {
    var pp := Parts(path);
    var rp := Parts(root);
    if |rp| <= |pp| && pp[..|rp|] == rp then
      var rest := pp[|rp|..];
      Some(if |rest| == 0 then "." else JoinWith(rest, '/'))
    else None
  }
}

=== FILE: patterns.dfy ===
/** The fixed regular expressions the core shares, written as position
    predicates with leftmost-match search:

    - the version marker `[._\-]v(\d+)` (case-insensitive), used by the naming
      functions, discovery and the promoter;
    - the frame suffix `[._](\d{3,8})\.\w+$`, used by the scanner, discovery,
      the naming functions and the promoter.

    Names are assumed to hold no line feed, so `$` is the end of the text. */
module Patterns {
  import opened Wrappers
  import opened Strs

  /** The leftmost `i` in `[from, to)` satisfying `p`, as `re.search` returns
      the leftmost match. */
  function FirstFrom(p: nat -> bool, lo: nat, hi: nat): (r: Option<nat>)
    requires lo <= hi
    ensures r.Some? ==> lo <= r.value < hi && p(r.value)
    ensures r.Some? ==> forall j: nat :: lo <= j < r.value ==> !p(j)
    ensures r.None? ==> forall j: nat :: lo <= j < hi ==> !p(j)
    decreases hi - lo
  {
    if lo == hi then None
    else if p(lo) then Some(lo)
    else FirstFrom(p, lo + 1, hi)
  }

  // ---------------------------------------------------------------------------
  // Version marker
  // ---------------------------------------------------------------------------

  /** `[._\-]v\d` matches at `i` (ignoring case for the `v`). */
  predicate VersionAt(s: string, i: nat) {
    i + 2 < |s| && IsDivider(s[i]) && (s[i + 1] == 'v' || s[i + 1] == 'V') && IsDigit(s[i + 2])
  }

  /** Number of digits the greedy `\d+` takes after the marker at `i`. */
  function VersionDigitCount(s: string, i: nat): (k: nat)
    requires VersionAt(s, i)
    ensures k >= 1 && i + 2 + k <= |s|
    ensures AllDigits(s[i + 2..i + 2 + k])
    ensures i + 2 + k == |s| || !IsDigit(s[i + 2 + k])
  {
    DigitRun(s, i + 2)
  }

  /** End (exclusive) of the whole marker match at `i`. */
  function VersionEnd(s: string, i: nat): (e: nat)
    requires VersionAt(s, i)
    ensures i + 3 <= e <= |s|
  {
    i + 2 + VersionDigitCount(s, i)
  }

  /** The captured digits of the marker at `i`. */
  function VersionDigits(s: string, i: nat): (d: string)
    requires VersionAt(s, i)
    ensures |d| >= 1 && AllDigits(d)
  {
    s[i + 2..VersionEnd(s, i)]
  }

  /** Start of the leftmost version marker (`VERSION_RE.search`). */
  function FindVersion(s: string): (r: Option<nat>)
    ensures r.Some? ==> VersionAt(s, r.value)
    ensures r.Some? ==> forall j: nat :: j < r.value ==> !VersionAt(s, j)
    ensures r.None? ==> forall j: nat :: !VersionAt(s, j)
  {
    var p := (i: nat) => VersionAt(s, i);
    var r := FirstFrom(p, 0, |s|);
    forall j: nat | (r.Some? && j < r.value) || r.None? ensures !VersionAt(s, j) {
      if j < |s| {
        assert !p(j);
      }
    }
    r
  }

  /** A marker at `i` with none before it is the one `FindVersion` finds. */
  lemma FindVersionAt(s: string, i: nat)
    requires VersionAt(s, i) && forall j: nat :: j < i ==> !VersionAt(s, j)
    ensures FindVersion(s) == Some(i)
  {
  }

  /** `VERSION_RE.sub("", s, count=1)`: removes the leftmost marker only. */
  function RemoveFirstVersion(s: string): (r: string)
    ensures FindVersion(s).None? ==> r == s
    ensures FindVersion(s).Some? ==>
      var i := FindVersion(s).value;
      r == s[..i] + s[VersionEnd(s, i)..]
  {
    match FindVersion(s)
    case None => s
    case Some(i) => s[..i] + s[VersionEnd(s, i)..]
  }

  /** The text before the leftmost marker carries no marker, and removing the
      leftmost marker leaves that text in place. */
  lemma RemoveFirstVersionKeepsPrefix(s: string)
    requires FindVersion(s).Some?
    ensures StartsWith(RemoveFirstVersion(s), s[..FindVersion(s).value])
    ensures |RemoveFirstVersion(s)| + 3 <= |s|
  {
  }

  // ---------------------------------------------------------------------------
  // Frame suffix
  // ---------------------------------------------------------------------------

  /** `[._](\d{3,8})\.\w+$` matches at `i`. Because the digits must be followed
      by a dot, the counted repetition can only take the whole digit run. */
  predicate FrameAt(s: string, i: nat) {
    i < |s| && (s[i] == '.' || s[i] == '_') &&
    var k := DigitRun(s, i + 1);
    3 <= k <= 8 && i + 2 + k < |s| && s[i + 1 + k] == '.' && AllWordChars(s[i + 2 + k..])
  }

  /** Start of the leftmost frame suffix. */
  function FindFrame(s: string): (r: Option<nat>)
    ensures r.Some? ==> FrameAt(s, r.value)
    ensures r.Some? ==> forall j: nat :: j < r.value ==> !FrameAt(s, j)
    ensures r.None? ==> forall j: nat :: !FrameAt(s, j)
  {
    var p := (i: nat) => FrameAt(s, i);
    var r := FirstFrom(p, 0, |s|);
    forall j: nat | (r.Some? && j < r.value) || r.None? ensures !FrameAt(s, j) {
      if j < |s| {
        assert !p(j);
      }
    }
    r
  }

  /** The pieces of a frame suffix at `i`: separator, frame digits, extension. */
  datatype FrameParts = FrameParts(sep: char, digits: string, ext: string)

  function FrameSplit(s: string, i: nat): (f: FrameParts)
    requires FrameAt(s, i)
    ensures f.sep == '.' || f.sep == '_'
    ensures 3 <= |f.digits| <= 8 && AllDigits(f.digits)
    ensures |f.ext| >= 1 && AllWordChars(f.ext)
    ensures s[i..] == [f.sep] + f.digits + "." + f.ext
  {
    var k := DigitRun(s, i + 1);
    var f := FrameParts(s[i], s[i + 1..i + 1 + k], s[i + 2 + k..]);
    assert s[i..] == [s[i]] + s[i + 1..i + 1 + k] + [s[i + 1 + k]] + s[i + 2 + k..];
    f
  }

  /** The frame number `int(match.group(1))`. */
  function FrameNumber(s: string, i: nat): nat
    requires FrameAt(s, i)
  {
    DigitsValue(FrameSplit(s, i).digits)
  }

  /** Inside a frame suffix at `a`, the frame digits are digits and no dot
      follows the extension's dot. */
  lemma FrameAtShape(s: string, a: nat)
    requires FrameAt(s, a)
    ensures var k := DigitRun(s, a + 1);
      (forall m :: a + 1 <= m < a + 1 + k ==> IsDigit(s[m])) &&
      (forall m :: a + 2 + k <= m < |s| ==> IsWordChar(s[m]))
  {
    var k := DigitRun(s, a + 1);
    assert forall m :: a + 1 <= m < a + 1 + k ==> s[m] == s[a + 1..a + 1 + k][m - a - 1];
    assert forall m :: a + 2 + k <= m < |s| ==> s[m] == s[a + 2 + k..][m - a - 2 - k];
  }

  /** No frame suffix starts after another one: a later start would sit in
      the digits (not a separator) or need a dot inside the extension. */
  lemma FrameAtExcludesLater(s: string, a: nat, b: nat)
    requires FrameAt(s, a)
    ensures a < b ==> !FrameAt(s, b)
  {
    FrameAtShape(s, a);
  }

  /** A text has at most one frame suffix. */
  lemma FrameAtUnique(s: string, i: nat, j: nat)
    requires FrameAt(s, i) && FrameAt(s, j)
    ensures i == j
  {
    FrameAtExcludesLater(s, i, j);
    FrameAtExcludesLater(s, j, i);
  }

  /** Whenever a frame suffix starts at `i`, it is the one `FindFrame` finds. */
  lemma FindFrameFinds(s: string, i: nat)
    requires FrameAt(s, i)
    ensures FindFrame(s) == Some(i)
  {
    var r := FindFrame(s);
    if r.Some? {
      FrameAtUnique(s, i, r.value);
    }
  }
}

=== FILE: promoter.dfy ===
/** Publishing a version into a watched source's "latest" folder: the names
    the files get there, the checks made before anything is touched, clearing
    the folder, linking or copying the files, the history record with its
    mtime snapshots, the dry-run preview, the staleness check and the export
    report. A folder is the sequence of its entries in listing order; the
    history record lives in a `History.Store`. */
module Promoter {
  import opened Wrappers
  import opened Strs
  import opened Sorting
  import opened Fs
  import opened Patterns
  import opened Models
  import Paths
  import TaskTokens
  import Config
  import Scanner
  import History

  // ---------------------------------------------------------------------------
  // Target file names
  // ---------------------------------------------------------------------------

  const SourceNameToken := "{source_name}"
  const SourceBasenameToken := "{source_basename}"
  const SourceFullnameToken := "{source_fullname}"

  /** How a source renames its files: the rename template, the tokens derived
      from its sample file (or its name), and its group. */
  datatype Renamer = Renamer(template: string, tokens: TaskTokens.SourceTokens, group: string)

  /** The tokens are derived once per promoter from `sample_filename`, or from
      the source name when there is no sample. */
  function RenamerOf(s: WatchedSource, taskTokens: seq<string>): Renamer {
    var input := if s.sampleFilename != "" then s.sampleFilename else s.name;
    Renamer(s.fileRenameTemplate, TaskTokens.DeriveSourceTokens(input, taskTokens), s.group)
  }

  /** The three source placeholders are replaced in turn, then `{group}`. */
  function ExpandTemplate(template: string, t: TaskTokens.SourceTokens, group: string): string {
    var a := ReplaceAll(template, SourceNameToken, t.name);
    var b := ReplaceAll(a, SourceBasenameToken, t.basename);
    var c := ReplaceAll(b, SourceFullnameToken, t.fullname);
    Config.ExpandGroupToken(c, group)
  }

  /** A template without any of the four placeholders is used verbatim, so
      any other `{...}` text stays literal. */
  lemma TemplateWithoutPlaceholders(template: string, t: TaskTokens.SourceTokens, group: string)
    requires !Contains(template, SourceNameToken) && !Contains(template, SourceBasenameToken)
    requires !Contains(template, SourceFullnameToken) && !Contains(template, Config.GroupToken)
    ensures ExpandTemplate(template, t, group) == template
  {
    ReplaceAbsent(template, SourceNameToken, t.name);
    ReplaceAbsent(template, SourceBasenameToken, t.basename);
    ReplaceAbsent(template, SourceFullnameToken, t.fullname);
  }

  /** `_remap_filename` without a template: the leftmost version marker is
      removed and every run of dividers collapses to its LAST character (the
      backreference of a repeated group names its last repetition). */
  function Unversioned(filename: string): (r: string)
    ensures NoAdjacentDividers(r) && |r| <= |filename|
  {
    CollapseRunsToLast(RemoveFirstVersion(filename))
  }

  /** `f"{base}{frame_sep}{frame_num}.{ext}"` for the frame suffix at `i`:
      the suffix is kept verbatim. */
  function WithFrame(base: string, filename: string, i: nat): (r: string)
    requires FrameAt(filename, i)
    ensures r == base + filename[i..]
  {
    var f := FrameSplit(filename, i);
    base + [f.sep] + f.digits + "." + f.ext
  }

  /** `f"{base}.{ext}"` with `ext` the last extension without its dot: the
      suffix is kept, and a name without one gets a bare dot. */
  function WithExtension(base: string, filename: string): (r: string)
    ensures r == base + (if Paths.Suffix(filename) == "" then "." else Paths.Suffix(filename))
  {
    var sfx := Paths.Suffix(filename);
    assert sfx == "" || (sfx[0] == '.' && |sfx| >= 2 && sfx[1] != '.') by {
      if sfx != "" {
        assert sfx[1] == sfx[1..][0];
      }
    }
    WithSuffixText(base, sfx)
  }

  /** `f"{base}.{ext}"` with `ext = sfx.lstrip(".")` for a suffix with one
      leading dot. */
  function WithSuffixText(base: string, sfx: string): (r: string)
    requires sfx == "" || (sfx[0] == '.' && (|sfx| == 1 || sfx[1] != '.'))
    ensures r == base + (if sfx == "" then "." else sfx)
  {
    if sfx == "" then base + "."
    else
      var ext := TrimLeftBy(sfx, IsDot);
      TrimOneDot(sfx);
      assert (base + ".") + ext == base + ("." + ext);
      base + "." + ext
  }

  /** `_remap_filename` with a template expanded to `base`. */
  function Templated(base: string, filename: string): string {
    match FindFrame(filename)
    case Some(i) => WithFrame(base, filename, i)
    case None => WithExtension(base, filename)
  }

  /** `_remap_filename`. */
  function Remap(rn: Renamer, filename: string): string {
    if rn.template == "" then Unversioned(filename)
    else Templated(ExpandTemplate(rn.template, rn.tokens, rn.group), filename)
  }

  /** Without a template, a name with no version marker and no run of
      dividers is kept as it is. */
  lemma PlainNameKept(filename: string)
    requires FindVersion(filename).None? && NoAdjacentDividers(filename)
    ensures Unversioned(filename) == filename
  {
    CollapseNothing(filename);
  }

  /** Without a template the version marker goes together with the divider
      before it, leaving no run to collapse: "hero_comp_v003.1001.exr"
      becomes "hero_comp.1001.exr". */
  lemma RemapDropsVersion()
    ensures Unversioned("hero_comp_v003.1001.exr") == "hero_comp.1001.exr"
  {
    var s := "hero_comp_v003.1001.exr";
    MarkerOfExample();
    assert RemoveFirstVersion(s) == s[..9] + s[14..];
    var u := "hero_comp.1001.exr";
    assert s[..9] + s[14..] == u;
    assert NoAdjacentDividers(u) by {
      forall i | 0 < i < |u| ensures !(IsDivider(u[i - 1]) && IsDivider(u[i])) {
      }
    }
    CollapseNothing(u);
  }

  lemma MarkerOfExample()
    ensures FindVersion("hero_comp_v003.1001.exr") == Some(9)
    ensures VersionEnd("hero_comp_v003.1001.exr", 9) == 14
  {
    var s := "hero_comp_v003.1001.exr";
    assert VersionAt(s, 9);
    forall j: nat | j < 9 ensures !VersionAt(s, j) {
      assert s[j + 1] != 'v' && s[j + 1] != 'V';
    }
    FindVersionAt(s, 9);
    assert s[11] == '0' && s[12] == '0' && s[13] == '3' && s[14] == '.';
    assert DigitRun(s, 14) == 0;
    assert DigitRun(s, 13) == 1;
    assert DigitRun(s, 12) == 2;
    assert DigitRun(s, 11) == 3;
  }

  // ---------------------------------------------------------------------------
  // The target folder
  // ---------------------------------------------------------------------------

  /** `f.is_file() and f.suffix.lower() in valid_extensions`: the test the
      promotion steps share. Links are followed. */
  predicate Matches(e: Node, valid: set<string>) {
    e.IsFile() && LowerStr(Paths.Suffix(e.name)) in valid
  }

  /** `_target_has_media_files`: a plain file (links are not followed) whose
      text from its last dot is an allowed extension. */
  predicate HasMediaFiles(entries: seq<Node>, valid: set<string>) {
    exists e :: e in entries && Scanner.IsMedia(e, valid)
  }

  /** Opening the file for appending fails. */
  predicate IsLocked(e: Node, valid: set<string>) {
    Matches(e, valid) && e.FileBody().locked
  }

  /** `_check_locked_files`: the names of the locked matching files, in
      listing order. */
  function LockedFiles(entries: seq<Node>, valid: set<string>): (r: seq<string>)
    ensures forall n :: n in r <==> exists e :: e in entries && IsLocked(e, valid) && e.name == n
  {
    var locked := Keep(entries, e => IsLocked(e, valid));
    forall n ensures n in Scanner.NamesOf(locked) <==> exists e :: e in entries && IsLocked(e, valid) && e.name == n {
      Scanner.NamesOfMember(locked, n);
    }
    Scanner.NamesOf(locked)
  }

  /** The first `n` items, as `xs[:n]` takes them. */
  function Take<T>(xs: seq<T>, n: nat): (r: seq<T>)
    ensures |r| <= n && |r| <= |xs| && r == xs[..|r|]
    ensures |r| == n || r == xs
  {
    if |xs| <= n then xs else xs[..n]
  }

  /** Why a promotion stopped. All but `Raised` are `PromotionError`s;
      `Raised` is an error of the history record that propagates as is. */
  datatype Error =
    | SourceMissing(path: string)
    | LockedTarget(names: seq<string>)
    | NoMatchingFiles(dir: string)
    | CannotDelete(name: string)
    | FileOperationFailed(name: string)
    | Raised(kind: string)

  /** The text of each error. Two texts are abbreviated: `CannotDelete`
      shows the entry's name where the program shows the full path, and
      `FileOperationFailed` shows the file's name where the program shows
      the text of the exception, which the model does not carry. */
  function Message(e: Error): string {
    match e
    case SourceMissing(p) => "Source no longer exists: " + p
    case LockedTarget(names) =>
      "Cannot overwrite - these files appear to be locked/in use:\n"
      + (if |names| == 0 then "" else JoinWith(seq(|names|, k requires 0 <= k < |names| => "  " + names[k]), '\n'))
    case NoMatchingFiles(d) => "No matching files found in " + d
    case CannotDelete(n) => "Cannot delete " + n + " - file may be in use"
    case FileOperationFailed(n) => "File operation failed: " + n
    case Raised(k) => k
  }

  /** A removal in `_clear_target` fails only for a locked file. */
  predicate Deletable(e: Node) {
    !(e.File? && e.body.locked)
  }

  datatype Cleared = Cleared(kept: seq<Node>, failed: Option<string>)

  /** `_clear_target`: in listing order, matching files and then any other
      symbolic links are removed; the first removal that fails stops the
      loop, leaving that entry and the rest in place. */
  function ClearTarget(entries: seq<Node>, valid: set<string>): (r: Cleared)
    ensures forall e :: e in r.kept ==> e in entries
    ensures r.failed.None? <==> forall e :: e in entries && Matches(e, valid) ==> Deletable(e)
    ensures r.failed.None? ==> forall e :: e in r.kept <==> e in entries && !Matches(e, valid) && !e.Link?
    ensures r.failed.Some? ==> exists e :: e in entries && Matches(e, valid) && !Deletable(e) && e.name == r.failed.value
  {
    if |entries| == 0 then Cleared([], None)
    else
      var e := entries[0];
      assert forall x :: x in entries <==> x == e || x in entries[1..];
      if Matches(e, valid) then
        if Deletable(e) then ClearTarget(entries[1..], valid) else Cleared(entries, Some(e.name))
      else if e.Link? then ClearTarget(entries[1..], valid)
      else
        var rest := ClearTarget(entries[1..], valid);
        Cleared([e] + rest.kept, rest.failed)
  }

  /** With no empty extension allowed, the lock check sees every file the
      clearing step could fail on: once the check passes (or the folder holds
      no media file), clearing succeeds. */
  lemma LockCheckCoversClear(entries: seq<Node>, valid: set<string>)
    requires "" !in valid
    requires !HasMediaFiles(entries, valid) || LockedFiles(entries, valid) == []
    ensures ClearTarget(entries, valid).failed.None?
  {
    forall e | e in entries && Matches(e, valid) ensures Deletable(e) {
      if Paths.Suffix(e.name) != "" {
        Paths.SuffixAgreesWithDotSuffix(e.name);
      }
    }
  }

  /** No two entries of a folder share a name. */
  predicate UniqueNames(entries: seq<Node>) {
    forall a, b :: a in entries && b in entries && a.name == b.name ==> a == b
  }

  /** The entry `_link_or_copy` creates: a symbolic link to the source path,
      or a file with the source's contents (a hard link and `shutil.copy2`,
      which keeps the mtime, look alike here). */
  function Placed(mode: string, name: string, f: Found): (n: Node)
    requires f.node.IsFile()
    ensures n.name == name && n.IsFile() && n.FileBody() == f.node.FileBody()
    ensures n.Link? <==> mode == "symlink"
  {
    if mode == "symlink" then Link(name, f.path, Some(f.node.FileBody()))
    else File(name, f.node.FileBody())
  }

  /** An entry `Path.unlink` cannot remove: a folder, or a locked file. */
  predicate Unremovable(e: Node) {
    e.Dir? || !Deletable(e)
  }

  /** `_link_or_copy`: an existing entry of that name is unlinked first,
      without a guard, which fails for a folder and for a locked file. */
  function LinkOrCopy(entries: seq<Node>, n: Node): (r: Result<seq<Node>, Error>)
    ensures r.Err? <==> exists e :: e in entries && e.name == n.name && (e.Dir? || (e.File? && e.body.locked))
    ensures r.Ok? ==> forall e :: e in r.value <==> e == n || (e in entries && e.name != n.name)
    ensures r.Ok? && UniqueNames(entries) ==> UniqueNames(r.value)
  {
    if exists e :: e in entries && e.name == n.name && Unremovable(e) then Err(FileOperationFailed(n.name))
    else Ok(Keep(entries, (e: Node) => e.name != n.name) + [n])
  }

  /** The names the files get in the target folder, in order. */
  function TargetNames(rn: Renamer, files: seq<Found>): (r: seq<string>)
    ensures |r| == |files| && forall k :: 0 <= k < |files| ==> r[k] == Remap(rn, files[k].node.name)
  {
    seq(|files|, k requires 0 <= k < |files| => Remap(rn, files[k].node.name))
  }

  /** What a run of `_link_or_copy` calls left behind, and the error that
      stopped it, if any. */
  datatype Step = Step(entries: seq<Node>, error: Option<Error>)

  predicate AllFiles(files: seq<Found>) {
    forall k :: 0 <= k < |files| ==> files[k].node.IsFile()
  }

  /** The entry made for one source file, under its remapped name. */
  function Target(mode: string, rn: Renamer, f: Found): (n: Node)
    requires f.node.IsFile()
    ensures n.name == Remap(rn, f.node.name)
  {
    Placed(mode, Remap(rn, f.node.name), f)
  }

  /** `_link_or_copy` for each file in order, under the name given for it.
      The parallel copy of more than ten files is modelled as the same
      sequence; on a failure the pool still copies the remaining files,
      where this model stops at the first failure.
      Afterwards every name is present, an earlier entry survives exactly
      when no file took its name, and every other entry was made for one of
      the files. */
  function Transfer(entries: seq<Node>, files: seq<Found>, names: seq<string>, mode: string): (r: Step)
    requires AllFiles(files) && |names| == |files|
    ensures r.error.Some? ==> r.error.value.FileOperationFailed?
    ensures r.error.None? ==> forall e :: e in entries && e.name !in names ==> e in r.entries
    ensures r.error.None? ==> forall e :: e in r.entries ==>
      (e in entries && e.name !in names) || exists k :: 0 <= k < |files| && e == Placed(mode, names[k], files[k])
    ensures r.error.None? ==> forall n :: n in names ==> exists e :: e in r.entries && e.name == n
    ensures r.error.None? && UniqueNames(entries) ==> UniqueNames(r.entries)
    decreases |files|
  {
    if |files| == 0 then Step(entries, None)
    else
      var t := Placed(mode, names[0], files[0]);
      match LinkOrCopy(entries, t)
      case Err(e) => Step(entries, Some(e))
      case Ok(next) =>
        var r := Transfer(next, files[1..], names[1..], mode);
        TransferStep(entries, files, names, mode, next, r);
        r
  }

  /** An entry made for a later file was made for one of the files. */
  lemma MadeForTail(mode: string, files: seq<Found>, names: seq<string>, e: Node)
    requires AllFiles(files) && |names| == |files| > 0
    requires exists k :: 0 <= k < |files[1..]| && e == Placed(mode, names[1..][k], files[1..][k])
    ensures exists k :: 0 <= k < |files| && e == Placed(mode, names[k], files[k])
  {
    var k :| 0 <= k < |files[1..]| && e == Placed(mode, names[1..][k], files[1..][k]);
    assert files[1..][k] == files[k + 1] && names[1..][k] == names[k + 1];
  }

  /** One step of `Transfer`: what holds after the rest of the files holds
      after all of them, given what the first `_link_or_copy` did. */
  lemma TransferStep(entries: seq<Node>, files: seq<Found>, names: seq<string>, mode: string, next: seq<Node>, r: Step)
    requires AllFiles(files) && |names| == |files| > 0
    requires forall e :: e in next <==> e == Placed(mode, names[0], files[0]) || (e in entries && e.name != names[0])
    requires r.error.None? ==> forall e :: e in next && e.name !in names[1..] ==> e in r.entries
    requires r.error.None? ==> forall e :: e in r.entries ==>
      (e in next && e.name !in names[1..]) || exists k :: 0 <= k < |files[1..]| && e == Placed(mode, names[1..][k], files[1..][k])
    requires r.error.None? ==> forall n :: n in names[1..] ==> exists e :: e in r.entries && e.name == n
    ensures r.error.None? ==> forall e :: e in entries && e.name !in names ==> e in r.entries
    ensures r.error.None? ==> forall e :: e in r.entries ==>
      (e in entries && e.name !in names) || exists k :: 0 <= k < |files| && e == Placed(mode, names[k], files[k])
    ensures r.error.None? ==> forall n :: n in names ==> exists e :: e in r.entries && e.name == n
  {
    if r.error.None? {
      var t := Placed(mode, names[0], files[0]);
      assert forall n :: n in names <==> n == names[0] || n in names[1..];
      forall e | e in r.entries
        ensures (e in entries && e.name !in names) || exists k :: 0 <= k < |files| && e == Placed(mode, names[k], files[k])
      {
        if !(e in next && e.name !in names[1..]) {
          MadeForTail(mode, files, names, e);
        } else if e == t {
          assert e == Placed(mode, names[0], files[0]);
        }
      }
      forall n | n in names ensures exists e :: e in r.entries && e.name == n {
        if n !in names[1..] {
          assert t in next;
        }
      }
    }
  }

  /** The entries satisfying `p`, ordered by name. */
  function SortedWhere(children: seq<Node>, p: Node -> bool): (r: seq<Node>)
    ensures forall e :: e in r <==> e in children && p(e)
  {
    var kept := Keep(children, p);
    var sorted := SortedEntries(kept);
    Scanner.SameElements(sorted, kept);
    sorted
  }

  /** Each entry of a folder with its path. */
  function WithPaths(dir: string, nodes: seq<Node>): (r: seq<Found>)
    ensures |r| == |nodes|
    ensures forall k :: 0 <= k < |r| ==> r[k].node == nodes[k] && r[k].path == Paths.Join(dir, nodes[k].name)
    ensures forall k :: 0 <= k < |r| ==> r[k].node in nodes
    ensures forall e :: e in nodes ==> exists k :: 0 <= k < |r| && r[k].node == e
  {
    var r := seq(|nodes|, k requires 0 <= k < |nodes| => Found(Paths.Join(dir, nodes[k].name), nodes[k]));
    forall e | e in nodes ensures exists k :: 0 <= k < |r| && r[k].node == e {
      var k :| 0 <= k < |nodes| && nodes[k] == e;
      assert r[k].node == e;
    }
    r
  }

  /** `sorted` matching files of a version folder, each with its path. */
  function FolderFiles(dir: string, children: seq<Node>, valid: set<string>): (r: seq<Found>)
    ensures AllFiles(r)
    ensures forall k :: 0 <= k < |r| ==> r[k].node in children && Matches(r[k].node, valid) && r[k].path == Paths.Join(dir, r[k].node.name)
    ensures forall e :: e in children && Matches(e, valid) ==> exists k :: 0 <= k < |r| && r[k].node == e
  {
    WithPaths(dir, SortedWhere(children, e => Matches(e, valid)))
  }

  /** The files a promotion or a preview works on: the matching files of a
      version folder, or the version file itself. */
  function SourceFiles(sourcePath: string, source: Option<Node>, valid: set<string>): (r: seq<Found>)
    ensures AllFiles(r)
    ensures source.Some? && source.value.Dir? ==> r == FolderFiles(sourcePath, source.value.children, valid)
    ensures !(source.Some? && source.value.Dir?) ==> r == if source.Some? && source.value.IsFile() then [Found(sourcePath, source.value)] else []
  {
    if source.Some? && source.value.Dir? then FolderFiles(sourcePath, source.value.children, valid)
    else if source.Some? && source.value.IsFile() then [Found(sourcePath, source.value)]
    else []
  }

  /** `source_path.exists()`. */
  predicate Exists(source: Option<Node>) {
    source.Some? && (source.value.IsFile() || source.value.Dir?)
  }

  /** The entries of the target folder after `mkdir(exist_ok=True)`. */
  function Created(target: Option<seq<Node>>): seq<Node> {
    if target.Some? then target.value else []
  }

  /** The source's allowed extensions, lowercased. */
  function Valid(s: WatchedSource): set<string> {
    Scanner.LowerSet(s.fileExtensions)
  }

  /** The lock check refuses the promotion. */
  predicate Blocked(entries: seq<Node>, valid: set<string>) {
    HasMediaFiles(entries, valid) && LockedFiles(entries, valid) != []
  }

  /** `_promote_sequence` or `_promote_single_file`, from a folder that is not
      blocked: a version folder without matching files stops before the
      target is cleared; otherwise the target is cleared of matching files
      and links and the files are placed. A single file is placed without
      clearing. */
  function Place(rn: Renamer, mode: string, valid: set<string>, sourcePath: string, source: Node, entries: seq<Node>): (r: Step)
    requires source.IsFile() || source.Dir?
    ensures source.Dir? && |SourceFiles(sourcePath, Some(source), valid)| == 0 ==> r == Step(entries, Some(NoMatchingFiles(sourcePath)))
    ensures r.error.Some? ==> r.error.value.FileOperationFailed? || r.error.value.CannotDelete?
                              || (r.error.value.NoMatchingFiles? && r.entries == entries)
  {
    var files := SourceFiles(sourcePath, Some(source), valid);
    if source.Dir? then
      if |files| == 0 then Step(entries, Some(NoMatchingFiles(sourcePath)))
      else
        var c := ClearTarget(entries, valid);
        if c.failed.Some? then Step(c.kept, Some(CannotDelete(c.failed.value)))
        else Transfer(c.kept, files, TargetNames(rn, files), mode)
    else Transfer(entries, files, TargetNames(rn, files), mode)
  }

  // ---------------------------------------------------------------------------
  // Modification times
  // ---------------------------------------------------------------------------

  /** The largest mtime of the media entries, starting from 0.0 as the loop
      in `_get_max_mtime` does. */
  function MaxMediaMtime(entries: seq<Node>, valid: set<string>): (m: real)
    ensures m >= 0.0
    ensures forall e :: e in entries && Scanner.IsMedia(e, valid) ==> e.body.mtime <= m
    ensures m == 0.0 || exists e :: e in entries && Scanner.IsMedia(e, valid) && e.body.mtime == m
  {
    if |entries| == 0 then 0.0
    else
      var rest := MaxMediaMtime(entries[1..], valid);
      assert forall x :: x in entries <==> x == entries[0] || x in entries[1..];
      if Scanner.IsMedia(entries[0], valid) && entries[0].body.mtime > rest then entries[0].body.mtime else rest
  }

  /** `_get_max_mtime` of a folder: `None` when it holds no media file. */
  function FolderMtime(entries: seq<Node>, valid: set<string>): (r: Option<real>)
    ensures r.None? <==> !HasMediaFiles(entries, valid)
    ensures r.Some? ==> forall e :: e in entries && Scanner.IsMedia(e, valid) ==> e.body.mtime <= r.value
  {
    if HasMediaFiles(entries, valid) then Some(MaxMediaMtime(entries, valid)) else None
  }

  /** `_get_max_mtime`: a folder's media files, a file's own mtime (links
      followed), or `None` for anything else. */
  function MaxMtime(node: Option<Node>, valid: set<string>): (r: Option<real>)
    ensures node.Some? && node.value.IsFile() ==> r == Some(node.value.FileBody().mtime)
    ensures node.None? ==> r.None?
  {
    if node.None? then None
    else if node.value.Dir? then FolderMtime(node.value.children, valid)
    else if node.value.IsFile() then Some(node.value.FileBody().mtime)
    else None
  }

  // ---------------------------------------------------------------------------
  // promote
  // ---------------------------------------------------------------------------

  /** What a `Promoter` holds: its source, the renaming it derives (once,
      then cached) from the sample filename or the source name and the task
      tokens, and the source's lowercased extensions, which every step
      recomputes from the same unchanging list. */
  datatype Setup = Setup(source: WatchedSource, renamer: Renamer, valid: set<string>)

  /** `Promoter(watched_source, task_tokens)`. */
  function SetupOf(s: WatchedSource, taskTokens: seq<string>): Setup {
    Setup(s, RenamerOf(s, taskTokens), Valid(s))
  }

  /** The promoter's `HistoryManager` keeps its record in the target folder. */
  function HistoryPath(p: Setup): string {
    Paths.Join(p.source.latestTarget, p.source.historyFilename)
  }

  /** The target folder afterwards (absent only if it was never created),
      the history store, and the recorded entry or the error raised. */
  datatype Outcome = Outcome(target: Option<seq<Node>>, store: History.Store, result: Result<HistoryEntry, Error>)

  /** The entry recorded: the version's fields, the user, the clock reading
      and the mtime snapshots of the source and of the filled target. */
  function Snapshot(version: VersionInfo, user: string, setAt: string, source: Option<Node>,
                    placed: seq<Node>, valid: set<string>): HistoryEntry {
    HistoryEntryFromVersionInfo(version, user, setAt).(sourceMtime := MaxMtime(source, valid),
                                                      targetMtime := FolderMtime(placed, valid))
  }

  /** `record_promotion`; its errors are not `PromotionError`s. */
  function Record(store: History.Store, path: string, entry: HistoryEntry, placed: seq<Node>, fault: History.Fault): (r: Outcome)
    ensures r.target == Some(placed)
    ensures r.result.Err? ==> r.result.error.Raised?
    ensures r.result.Ok? ==> r.result.value == entry
    ensures r.result.Ok? <==> History.RecordPromotion(store, path, entry, fault).Ok? && fault == History.NoFault
    ensures r.store == store || History.RecordPromotion(store, path, entry, fault).Ok?
    ensures r.result.Ok? ==> r.store == History.RecordPromotion(store, path, entry, fault).value.store
  {
    match History.RecordPromotion(store, path, entry, fault)
    case Err(k) => Outcome(Some(placed), store, Err(Raised(k)))
    case Ok(saved) =>
      Outcome(Some(placed), saved.store, if saved.error.Some? then Err(Raised(saved.error.value)) else Ok(entry))
  }

  /** The placing step of a promotion that got past the lock check. */
  function Placing(p: Setup, version: VersionInfo, source: Node, target: Option<seq<Node>>): Step
    requires source.IsFile() || source.Dir?
  {
    Place(p.renamer, p.source.linkMode, p.valid, version.sourcePath, source, Created(target))
  }

  /** `Promoter.promote`. The user name, the clock reading `setAt`, the node
      found at the version's path and the fault of the history save are
      parameters. A missing source leaves everything as it was. The history
      is written last, only once every file is in place. */
  function Promote(p: Setup, version: VersionInfo, user: string, setAt: string,
                   source: Option<Node>, target: Option<seq<Node>>, store: History.Store, fault: History.Fault): (r: Outcome)
    ensures !Exists(source) ==> r == Outcome(target, store, Err(SourceMissing(version.sourcePath)))
    ensures Exists(source) ==> r.target.Some?
    ensures r.store != store || r.result.Ok? ==>
      && Exists(source) && !Blocked(Created(target), p.valid)
      && Placing(p, version, source.value, target).error.None?
      && r.target == Some(Placing(p, version, source.value, target).entries)
  {
    if !Exists(source) then Outcome(target, store, Err(SourceMissing(version.sourcePath)))
    else
      var entries := Created(target);
      if Blocked(entries, p.valid) then
        Outcome(Some(entries), store, Err(LockedTarget(Take(LockedFiles(entries, p.valid), 10))))
      else
        var step := Placing(p, version, source.value, target);
        if step.error.Some? then Outcome(Some(step.entries), store, Err(step.error.value))
        else Record(store, HistoryPath(p), Snapshot(version, user, setAt, source, step.entries, p.valid), step.entries, fault)
  }

  /** The lock check comes before anything is removed or written: the
      promotion is refused exactly when the source exists and the target
      holds media files some of which are locked; the target is then only
      created, and the error names up to ten of the locked files in listing
      order. */
  lemma LockedTargetRefused(p: Setup, version: VersionInfo, user: string, setAt: string,
                            source: Option<Node>, target: Option<seq<Node>>, store: History.Store, fault: History.Fault)
    ensures var r := Promote(p, version, user, setAt, source, target, store, fault);
      (r.result.Err? && r.result.error.LockedTarget?) <==> Exists(source) && Blocked(Created(target), p.valid)
    ensures var r := Promote(p, version, user, setAt, source, target, store, fault);
      r.result.Err? && r.result.error.LockedTarget? ==>
        && r.target == Some(Created(target)) && r.store == store
        && 0 < |r.result.error.names| <= 10
        && r.result.error.names == LockedFiles(Created(target), p.valid)[..|r.result.error.names|]
  {
    var r := Promote(p, version, user, setAt, source, target, store, fault);
    if Exists(source) && !Blocked(Created(target), p.valid) {
      PlacingErrors(p, version, source.value, target);
    }
  }

  /** A version folder without matching files stops before the target is
      cleared or the history touched. */
  lemma NoMatchingFilesKeepsTarget(p: Setup, version: VersionInfo, user: string, setAt: string,
                                   source: Option<Node>, target: Option<seq<Node>>, store: History.Store, fault: History.Fault)
    ensures var r := Promote(p, version, user, setAt, source, target, store, fault);
      r.result.Err? && r.result.error.NoMatchingFiles? ==> Created(r.target) == Created(target) && r.store == store
  {
    if Exists(source) && !Blocked(Created(target), p.valid) {
      PlacingErrors(p, version, source.value, target);
    }
  }

  /** The errors a placing step can stop with. */
  lemma PlacingErrors(p: Setup, version: VersionInfo, source: Node, target: Option<seq<Node>>)
    requires source.IsFile() || source.Dir?
    ensures var step := Placing(p, version, source, target);
      step.error.Some? ==> step.error.value.FileOperationFailed? || step.error.value.CannotDelete?
                           || (step.error.value.NoMatchingFiles? && step.entries == Created(target))
  {
  }

  /** After a promotion, loading the history gives the recorded entry as
      current, with the version's fields, the user and the clock reading,
      and the source and target mtime snapshots taken after the files were
      placed. */
  lemma PromotionIsRecorded(p: Setup, version: VersionInfo, user: string, setAt: string,
                            source: Option<Node>, target: Option<seq<Node>>, store: History.Store, fault: History.Fault)
    requires Promote(p, version, user, setAt, source, target, store, fault).result.Ok?
    ensures var r := Promote(p, version, user, setAt, source, target, store, fault);
      var e := r.result.value;
      && e.version == version.versionString && e.source == version.sourcePath && e.setBy == user && e.setAt == setAt
      && e.fileCount == version.fileCount
      && e.sourceMtime == MaxMtime(source, p.valid) && e.targetMtime == FolderMtime(r.target.value, p.valid)
      && History.Load(r.store, HistoryPath(p)).Ok?
      && History.Load(r.store, HistoryPath(p)).value.record.current == Some(e)
  {
    var r := Promote(p, version, user, setAt, source, target, store, fault);
    var step := Placing(p, version, source.value, target);
    var e := Snapshot(version, user, setAt, source, step.entries, p.valid);
    assert r == Record(store, HistoryPath(p), e, step.entries, fault);
    History.RecordedPromotionIsCurrent(store, HistoryPath(p), e);
  }

  /** After a promotion from a version folder, every file of the allowed
      extensions and every link in the target was made for one of the
      version's files: the earlier media files and links are gone. */
  lemma FolderPromotionReplacesMedia(p: Setup, version: VersionInfo, user: string, setAt: string,
                                     source: Option<Node>, target: Option<seq<Node>>, store: History.Store, fault: History.Fault)
    requires Promote(p, version, user, setAt, source, target, store, fault).result.Ok?
    requires source.Some? && source.value.Dir?
    ensures var r := Promote(p, version, user, setAt, source, target, store, fault);
      var files := SourceFiles(version.sourcePath, source, p.valid);
      forall e :: e in r.target.value && (Matches(e, p.valid) || e.Link?) ==>
        exists k :: 0 <= k < |files| && e == Target(p.source.linkMode, p.renamer, files[k])
  {
    var files := SourceFiles(version.sourcePath, source, p.valid);
    var names := TargetNames(p.renamer, files);
    var c := ClearTarget(Created(target), p.valid);
    var step := Transfer(c.kept, files, names, p.source.linkMode);
    assert step == Placing(p, version, source.value, target);
    forall e | e in step.entries && (Matches(e, p.valid) || e.Link?)
      ensures exists k :: 0 <= k < |files| && e == Target(p.source.linkMode, p.renamer, files[k])
    {
      var k :| 0 <= k < |files| && e == Placed(p.source.linkMode, names[k], files[k]);
      assert e == Target(p.source.linkMode, p.renamer, files[k]);
    }
  }

  // ---------------------------------------------------------------------------
  // dry_run
  // ---------------------------------------------------------------------------

  /** One line of the preview's `file_map`. */
  datatype MapEntry = MapEntry(source: string, targetName: string, sizeBytes: nat)

  /** What `dry_run` returns. */
  datatype Preview = Preview(sourceDir: string, targetDir: string, fileMap: seq<MapEntry>,
                             totalFiles: nat, totalSizeBytes: nat, linkMode: string)

  function SumSizes(m: seq<MapEntry>): nat {
    if |m| == 0 then 0 else m[0].sizeBytes + SumSizes(m[1..])
  }

  /** Summing the preview lines gives the total size of the files. */
  lemma {:induction false} SizesAgree(files: seq<Found>, m: seq<MapEntry>)
    requires AllFiles(files) && |m| == |files|
    requires forall k :: 0 <= k < |m| ==> m[k].sizeBytes == files[k].node.Size()
    ensures SumSizes(m) == TotalSize(files)
  {
    if |m| > 0 {
      SizesAgree(files[1..], m[1..]);
    }
  }

  /** The target names listed in a preview, in order. */
  function PreviewedNames(m: seq<MapEntry>): (r: seq<string>)
    ensures |r| == |m| && forall k :: 0 <= k < |m| ==> r[k] == m[k].targetName
  {
    seq(|m|, k requires 0 <= k < |m| => m[k].targetName)
  }

  /** `dry_run`: the files a promotion would place, each with the name it
      would get and its size; the totals are the number of lines and the
      sum of their sizes. */
  function DryRun(p: Setup, version: VersionInfo, source: Option<Node>): (r: Preview)
    ensures r.totalFiles == |r.fileMap|
    ensures r.totalSizeBytes == SumSizes(r.fileMap)
    ensures var files := SourceFiles(version.sourcePath, source, p.valid);
      && |r.fileMap| == |files|
      && (forall k :: 0 <= k < |files| ==> r.fileMap[k].source == files[k].path && r.fileMap[k].sizeBytes == files[k].node.Size())
      && PreviewedNames(r.fileMap) == TargetNames(p.renamer, files)
  {
    var files := SourceFiles(version.sourcePath, source, p.valid);
    var names := TargetNames(p.renamer, files);
    var fileMap := seq(|files|, k requires 0 <= k < |files| => MapEntry(files[k].path, names[k], files[k].node.Size()));
    SizesAgree(files, fileMap);
    Preview(version.sourcePath, p.source.latestTarget, fileMap, |fileMap|, TotalSize(files), p.source.linkMode)
  }

  /** The preview names exactly what a promotion writes: after a successful
      promotion every previewed name is in the target, and every entry that
      was not there before carries a previewed name. */
  lemma DryRunPredictsPromotion(p: Setup, version: VersionInfo, user: string, setAt: string,
                                source: Option<Node>, target: Option<seq<Node>>, store: History.Store, fault: History.Fault)
    requires Promote(p, version, user, setAt, source, target, store, fault).result.Ok?
    ensures var r := Promote(p, version, user, setAt, source, target, store, fault);
      var names := PreviewedNames(DryRun(p, version, source).fileMap);
      && (forall n :: n in names ==> exists e :: e in r.target.value && e.name == n)
      && (forall e :: e in r.target.value && e !in Created(target) ==> e.name in names)
  {
    var files := SourceFiles(version.sourcePath, source, p.valid);
    PlacedNames(p, version, source, target, files, TargetNames(p.renamer, files));
  }

  /** A placing step that succeeded wrote every target name, and every
      entry it added carries one of them. */
  lemma PlacedNames(p: Setup, version: VersionInfo, source: Option<Node>, target: Option<seq<Node>>, files: seq<Found>, names: seq<string>)
    requires Exists(source)
    requires files == SourceFiles(version.sourcePath, source, p.valid) && names == TargetNames(p.renamer, files)
    requires Placing(p, version, source.value, target).error.None?
    ensures forall n :: n in names ==> exists e :: e in Placing(p, version, source.value, target).entries && e.name == n
    ensures forall e :: e in Placing(p, version, source.value, target).entries && e !in Created(target) ==> e.name in names
  {
    var step := Placing(p, version, source.value, target);
    var before := if source.value.Dir? then ClearTarget(Created(target), p.valid).kept else Created(target);
    assert step == Transfer(before, files, names, p.source.linkMode);
    TransferAddsNames(before, files, names, p.source.linkMode);
  }

  /** Every entry a transfer adds carries one of the target names. */
  lemma TransferAddsNames(entries: seq<Node>, files: seq<Found>, names: seq<string>, mode: string)
    requires AllFiles(files) && |names| == |files|
    requires Transfer(entries, files, names, mode).error.None?
    ensures forall e :: e in Transfer(entries, files, names, mode).entries && e !in entries ==> e.name in names
  {
    forall e | e in Transfer(entries, files, names, mode).entries && e !in entries ensures e.name in names {
      var k :| 0 <= k < |files| && e == Placed(mode, names[k], files[k]);
    }
  }

  // ---------------------------------------------------------------------------
  // verify
  // ---------------------------------------------------------------------------

  /** What `verify` reports: the target folder is missing, the outcome of
      `verify_integrity`, or one of the two staleness findings. */
  datatype Check = TargetMissing | Basic(integrity: History.Integrity) | SourceStale(version: string) | TargetStale

  predicate Passes(c: Check) {
    match c
    case TargetMissing => true
    case Basic(i) => i.valid
    case _ => false
  }

  /** The `message` of each finding. */
  function CheckMessage(c: Check): string {
    match c
    case TargetMissing => "Target directory doesn't exist yet."
    case Basic(i) => i.message
    case SourceStale(v) => "Source files for " + v + " modified since promotion \U{2014} may have been re-rendered."
    case TargetStale => "Target files modified since promotion \U{2014} may have been overwritten externally."
  }

  /** The names of the target's files with an allowed extension. */
  function ActualFiles(entries: seq<Node>, valid: set<string>): (r: seq<string>)
    ensures forall n :: n in r <==> exists e :: e in entries && Matches(e, valid) && e.name == n
  {
    var matching := Keep(entries, e => Matches(e, valid));
    forall n ensures n in Scanner.NamesOf(matching) <==> exists e :: e in entries && Matches(e, valid) && e.name == n {
      Scanner.NamesOfMember(matching, n);
    }
    Scanner.NamesOf(matching)
  }

  /** The source was re-rendered: its media files are now more than a
      second newer than recorded. */
  predicate SourceIsStale(c: HistoryEntry, now: Option<real>) {
    c.sourceMtime.Some? && now.Some? && now.value > c.sourceMtime.value + 1.0
  }

  /** The target was overwritten: its media files' mtime moved by more than
      a second, either way. */
  predicate TargetIsStale(c: HistoryEntry, now: Option<real>) {
    c.targetMtime.Some? && now.Some? && (now.value - c.targetMtime.value > 1.0 || c.targetMtime.value - now.value > 1.0)
  }

  /** What a passing `verify` means: the file count agrees with the record,
      and a recorded promotion is neither re-rendered nor overwritten. */
  predicate Healthy(current: Option<HistoryEntry>, files: seq<string>, sourceNow: Option<real>, targetNow: Option<real>) {
    && History.Valid(History.Classify(current, files))
    && (current.Some? ==> !SourceIsStale(current.value, sourceNow) && !TargetIsStale(current.value, targetNow))
  }

  /** The current mtime of the recorded promotion's source. */
  function SourceNow(p: Setup, current: Option<HistoryEntry>, fs: string -> Option<Node>): Option<real> {
    if current.Some? then MaxMtime(fs(current.value.source), p.valid) else None
  }

  /** The staleness checks after a passing count check: the source is
      checked before the target, and without a record the count check
      stands. */
  function Freshness(current: Option<HistoryEntry>, basic: History.Integrity, sourceNow: Option<real>, targetNow: Option<real>): (r: Check)
    requires basic.valid
    ensures Passes(r) <==> current.Some? ==> !SourceIsStale(current.value, sourceNow) && !TargetIsStale(current.value, targetNow)
    ensures r.Basic? ==> r.integrity == basic
    ensures r.SourceStale? ==> current.Some? && r.version == current.value.version
    ensures r.TargetStale? ==> current.Some? && !SourceIsStale(current.value, sourceNow)
  {
    if current.None? then Basic(basic)
    else if SourceIsStale(current.value, sourceNow) then SourceStale(current.value.version)
    else if TargetIsStale(current.value, targetNow) then TargetStale
    else Basic(basic)
  }

  /** `Promoter.verify`. `target` is the target folder's listing (absent when
      it does not exist) and `fs` looks up the recorded source path. The
      record is read twice, as `verify_integrity` and `get_current` each
      load it; the second read sees what the first left. */
  function Verify(p: Setup, target: Option<seq<Node>>, store: History.Store, fs: string -> Option<Node>): (r: Result<(History.Store, Check), string>)
    ensures target.None? ==> r == Ok((store, TargetMissing))
    ensures target.Some? ==> (r.Ok? <==> History.Load(store, HistoryPath(p)).Ok?)
    ensures target.Some? && r.Ok? ==>
      var l := History.Load(store, HistoryPath(p)).value;
      var files := ActualFiles(target.value, p.valid);
      && r.value.0 == l.store
      && (r.value.1.Basic? ==> r.value.1.integrity == History.Report(l.record.current, files))
  {
    if target.None? then Ok((store, TargetMissing))
    else
      var path := HistoryPath(p);
      match History.VerifyIntegrity(store, path, ActualFiles(target.value, p.valid))
      case Err(e) => Err(e)
      case Ok((s1, basic)) =>
        if !basic.valid then Ok((s1, Basic(basic)))
        else
          History.LoadIdempotent(store, path);
          match History.GetCurrent(s1, path)
          case Err(e) => Err(e)
          case Ok((s2, current)) =>
            Ok((s2, Freshness(current, basic, SourceNow(p, current, fs), FolderMtime(target.value, p.valid))))
  }

  /** `verify` passes exactly when the folder is missing or the state is
      healthy: the count agrees with the record and the recorded promotion
      is neither re-rendered nor overwritten. */
  lemma VerifyPassesIffHealthy(p: Setup, target: Option<seq<Node>>, store: History.Store, fs: string -> Option<Node>)
    requires Verify(p, target, store, fs).Ok?
    ensures var l := History.Load(store, HistoryPath(p));
      Passes(Verify(p, target, store, fs).value.1) <==>
        target.None? ||
        (l.Ok? && Healthy(l.value.record.current, ActualFiles(target.value, p.valid),
                          SourceNow(p, l.value.record.current, fs), FolderMtime(target.value, p.valid)))
  {
    if target.Some? {
      History.LoadIdempotent(store, HistoryPath(p));
    }
  }

  /** A re-rendered source is reported before an overwritten target. */
  lemma VerifyChecksSourceFirst(p: Setup, target: Option<seq<Node>>, store: History.Store, fs: string -> Option<Node>)
    requires Verify(p, target, store, fs).Ok? && Verify(p, target, store, fs).value.1.TargetStale?
    ensures var l := History.Load(store, HistoryPath(p));
      && target.Some? && l.Ok? && l.value.record.current.Some?
      && !SourceIsStale(l.value.record.current.value, SourceNow(p, l.value.record.current, fs))
      && TargetIsStale(l.value.record.current.value, FolderMtime(target.value, p.valid))
  {
    History.LoadIdempotent(store, HistoryPath(p));
  }

  /** Right after a promotion, with the source as it was, `verify` finds
      nothing stale: it passes exactly when the file count check does. */
  lemma PromoteThenVerify(p: Setup, version: VersionInfo, user: string, setAt: string,
                          source: Option<Node>, target: Option<seq<Node>>, store: History.Store, fault: History.Fault,
                          fs: string -> Option<Node>)
    requires Promote(p, version, user, setAt, source, target, store, fault).result.Ok?
    requires fs(version.sourcePath) == source
    ensures var r := Promote(p, version, user, setAt, source, target, store, fault);
      var v := Verify(p, r.target, r.store, fs);
      && v.Ok?
      && (Passes(v.value.1) <==> History.Valid(History.Classify(Some(r.result.value), ActualFiles(r.target.value, p.valid))))
  {
    var r := Promote(p, version, user, setAt, source, target, store, fault);
    PromotionIsRecorded(p, version, user, setAt, source, target, store, fault);
    VerifyPassesIffHealthy(p, r.target, r.store, fs);
  }

  // ---------------------------------------------------------------------------
  // generate_report
  // ---------------------------------------------------------------------------

  const ReportKeys: seq<string> :=
    ["timestamp", "source_name", "version", "source_path", "target_path", "set_by", "frame_range",
     "frame_count", "file_count", "link_mode", "start_timecode", "source_mtime", "target_mtime",
     "file_map", "total_size_bytes"]

  lemma ReportKeysDistinct()
    ensures DistinctKeys(ReportKeys)
  {
  }

  /** One `file_map` line as a JSON object. */
  function MapEntryToJson(m: MapEntry): JVal {
    JObj(map["source" := JStr(m.source), "target_name" := JStr(m.targetName), "size_bytes" := JInt(m.sizeBytes)])
  }

  /** The value written under each report key, if any: the start timecode
      only when it is a non-empty string, the mtimes only when known, the
      file map and total size only with a preview. */
  function ReportValues(entry: HistoryEntry, s: WatchedSource, preview: Option<Preview>): (vs: seq<Option<JVal>>)
    ensures |vs| == |ReportKeys|
  {
    [Some(JStr(entry.setAt)), Some(JStr(s.name)), Some(JStr(entry.version)), Some(JStr(entry.source)),
     Some(JStr(s.latestTarget)), Some(JStr(entry.setBy)), Some(OptStr(entry.frameRange)),
     Some(JInt(entry.frameCount)), Some(JInt(entry.fileCount)), Some(JStr(s.linkMode)),
     if entry.startTimecode.Some? && entry.startTimecode.value != "" then Some(JStr(entry.startTimecode.value)) else None,
     WriteReal(entry.sourceMtime), WriteReal(entry.targetMtime),
     if preview.Some? then Some(JArr(History.MapSeq(preview.value.fileMap, MapEntryToJson))) else None,
     if preview.Some? then Some(JInt(preview.value.totalSizeBytes)) else None]
  }

  /** `generate_report`: every key of the report table holds its value
      exactly when that value is written, and there is no other key. */
  function GenerateReport(entry: HistoryEntry, s: WatchedSource, preview: Option<Preview>): (r: Fields)
    ensures forall k :: k in r ==> k in ReportKeys
    ensures var vals := ReportValues(entry, s, preview);
      forall i :: 0 <= i < |ReportKeys| ==>
        && (ReportKeys[i] in r <==> vals[i].Some?)
        && (vals[i].Some? ==> r[ReportKeys[i]] == vals[i].value)
  {
    var keys, vals := ReportKeys, ReportValues(entry, s, preview);
    ReportKeysDistinct();
    forall i | 0 <= i < |keys| ensures (keys[i] in ObjectOf(keys, vals) <==> vals[i].Some?)
                                        && (vals[i].Some? ==> ObjectOf(keys, vals)[keys[i]] == vals[i].value) {
      ObjectLookup(keys, vals, i);
    }
    forall k | k !in keys ensures k !in ObjectOf(keys, vals) {
      ObjectOfOther(keys, vals, k);
    }
    ObjectOf(keys, vals)
  }

  /** The report carries the promotion's identity from the entry and the
      source. */
  lemma ReportFixedFields(entry: HistoryEntry, s: WatchedSource, preview: Option<Preview>)
    ensures var r := GenerateReport(entry, s, preview);
      && "timestamp" in r && r["timestamp"] == JStr(entry.setAt)
      && "version" in r && r["version"] == JStr(entry.version)
      && "source_path" in r && r["source_path"] == JStr(entry.source)
      && "target_path" in r && r["target_path"] == JStr(s.latestTarget)
      && "link_mode" in r && r["link_mode"] == JStr(s.linkMode)
  {
    assert ReportKeys[0] == "timestamp" && ReportKeys[2] == "version" && ReportKeys[3] == "source_path";
    assert ReportKeys[4] == "target_path" && ReportKeys[9] == "link_mode";
  }

  /** The optional fields: the start timecode only when it is a non-empty
      string, each mtime only when known, the file map and the total size
      only with a preview. */
  lemma ReportOptionalFields(entry: HistoryEntry, s: WatchedSource, preview: Option<Preview>)
    ensures var r := GenerateReport(entry, s, preview);
      && ("start_timecode" in r <==> entry.startTimecode.Some? && entry.startTimecode.value != "")
      && ("source_mtime" in r <==> entry.sourceMtime.Some?)
      && ("target_mtime" in r <==> entry.targetMtime.Some?)
      && ("file_map" in r <==> preview.Some?)
      && (preview.Some? ==> "total_size_bytes" in r && r["total_size_bytes"] == JInt(preview.value.totalSizeBytes))
  {
    assert ReportKeys[10] == "start_timecode" && ReportKeys[11] == "source_mtime" && ReportKeys[12] == "target_mtime";
    assert ReportKeys[13] == "file_map" && ReportKeys[14] == "total_size_bytes";
  }
}

=== FILE: scanner.dfy ===
/** The version scanner of one watched source: the version pattern (a
    `{version}` template or a raw regular expression), the version label,
    the scan of the source folder into versions sorted by number, and the
    helpers that turn a dropped file or folder into a manual version. */
module Scanner {
  import opened Wrappers
  import opened Strs
  import opened Sorting
  import opened Fs
  import opened Patterns
  import opened FrameRanges
  import Paths
  import Models

  // ---------------------------------------------------------------------------
  // Cutting a template at its placeholders
  // ---------------------------------------------------------------------------

  const VersionToken := "{version}"

  /** `s.split(sep)`: the pieces between the non-overlapping occurrences of
      `sep`, found left to right. */
  function SplitOn(s: string, sep: string): (r: seq<string>)
    requires |sep| > 0
    ensures |r| >= 1
    decreases |s|
  {
    if |s| < |sep| then [s]
    else if s[..|sep|] == sep then [""] + SplitOn(s[|sep|..], sep)
    else
      var rest := SplitOn(s[1..], sep);
      [[s[0]] + rest[0]] + rest[1..]
  }

  /** `sep.join(parts)`. */
  function JoinOn(parts: seq<string>, sep: string): string
    requires |parts| >= 1
  {
    if |parts| == 1 then parts[0] else parts[0] + sep + JoinOn(parts[1..], sep)
  }

  lemma JoinOnFirst(c: char, parts: seq<string>, sep: string)
    requires |parts| >= 1
    ensures JoinOn([[c] + parts[0]] + parts[1..], sep) == [c] + JoinOn(parts, sep)
  {
    var q := [[c] + parts[0]] + parts[1..];
    assert q[1..] == parts[1..];
  }

  /** Splitting and joining again gives back the text. */
  lemma {:induction false} JoinSplitOn(s: string, sep: string)
    requires |sep| > 0
    ensures JoinOn(SplitOn(s, sep), sep) == s
    decreases |s|
  {
    if |s| < |sep| {
    } else if s[..|sep|] == sep {
      JoinSplitOn(s[|sep|..], sep);
      var r := [""] + SplitOn(s[|sep|..], sep);
      assert r[1..] == SplitOn(s[|sep|..], sep);
      assert s == sep + s[|sep|..];
    } else {
      var rest := SplitOn(s[1..], sep);
      JoinSplitOn(s[1..], sep);
      JoinOnFirst(s[0], rest, sep);
      assert s == [s[0]] + s[1..];
    }
  }

  lemma ContainsShift(s: string, sub: string)
    requires |s| >= |sub| > 0 && s[..|sub|] != sub
    ensures Contains(s, sub) <==> Contains(s[1..], sub)
  {
    if Contains(s, sub) {
      var i: nat :| i <= |s| && IsAt(s, sub, i);
      assert i > 0;
      assert s[1..][i - 1..i - 1 + |sub|] == s[i..i + |sub|];
      assert IsAt(s[1..], sub, i - 1);
    }
    if Contains(s[1..], sub) {
      var i: nat :| i <= |s[1..]| && IsAt(s[1..], sub, i);
      assert s[i + 1..i + 1 + |sub|] == s[1..][i..i + |sub|];
      assert IsAt(s, sub, i + 1);
    }
  }

  /** A text splits into two or more pieces exactly when it contains the
      separator. */
  lemma {:induction false} SplitOnFinds(s: string, sep: string)
    requires |sep| > 0
    ensures |SplitOn(s, sep)| >= 2 <==> Contains(s, sep)
    decreases |s|
  {
    if |s| < |sep| {
      assert !Contains(s, sep);
    } else if s[..|sep|] == sep {
      assert IsAt(s, sep, 0);
    } else {
      SplitOnFinds(s[1..], sep);
      ContainsShift(s, sep);
    }
  }

  // ---------------------------------------------------------------------------
  // The compiled version pattern
  // ---------------------------------------------------------------------------

  /** A compiled version pattern. A template is kept as the literal text
      before the first `{version}` and the literal texts after each one; each
      `{version}` stands for the group `(\d+)`. A raw regular expression is an
      oracle giving the integer value of its first group at the leftmost
      match, or `None` when it does not match. */
  datatype Matcher =
    | Template(head: string, lits: seq<string>)
    | Raw(search: string -> Option<int>)

  predicate ValidMatcher(m: Matcher) {
    m.Template? ==> |m.lits| >= 1
  }

  /** `_compile_version_pattern`: a pattern holding `{version}` is a template
      whose other characters are matched literally; any other pattern is a
      raw regular expression. */
  function CompileVersionPattern(pattern: string, raw: string -> Option<int>): (m: Matcher)
    ensures ValidMatcher(m)
    ensures m.Template? <==> Contains(pattern, VersionToken)
    ensures m.Raw? ==> m.search == raw
  {
    var pieces := SplitOn(pattern, VersionToken);
    SplitOnFinds(pattern, VersionToken);
    if Contains(pattern, VersionToken) then Template(pieces[0], pieces[1..])
    else Raw(raw)
  }

  /** The template's literal pieces, joined by `{version}`, are the pattern. */
  lemma CompileKeepsLiterals(pattern: string, raw: string -> Option<int>)
    requires Contains(pattern, VersionToken)
    ensures var m := CompileVersionPattern(pattern, raw);
      JoinOn([m.head] + m.lits, VersionToken) == pattern
  {
    var pieces := SplitOn(pattern, VersionToken);
    assert [pieces[0]] + pieces[1..] == pieces;
    JoinSplitOn(pattern, VersionToken);
  }

  // ---------------------------------------------------------------------------
  // Matching a template: leftmost start, greedy groups with backtracking
  // ---------------------------------------------------------------------------

  /** The rest of the regex, `(\d+)L1(\d+)L2...`, matches from `pos` on (a
      search only needs a prefix of the remaining text to match). */
  predicate TailMatches(s: string, lits: seq<string>, pos: nat)
    decreases |lits|, 1, 0
  {
    pos <= |s| && (|lits| == 0 || Greedy(s, lits, pos, DigitRun(s, pos)).Some?)
  }

  /** The group at `pos` takes exactly `n` digits and the rest then matches. */
  predicate Fits(s: string, lits: seq<string>, pos: nat, n: nat)
    requires |lits| >= 1
    decreases |lits|, 0, 0
  {
    n >= 1 && pos + n <= |s| && AllDigits(s[pos..pos + n]) &&
    IsAt(s, lits[0], pos + n) && TailMatches(s, lits[1..], pos + n + |lits[0]|)
  }

  /** The regex engine's treatment of a greedy `(\d+)`: try the most digits
      first (at most `n`) and give one back at a time until the rest matches. */
  function Greedy(s: string, lits: seq<string>, pos: nat, n: nat): (r: Option<nat>)
    requires |lits| >= 1
    ensures r.Some? ==> 1 <= r.value <= n && Fits(s, lits, pos, r.value)
    ensures r.Some? ==> forall m :: r.value < m <= n ==> !Fits(s, lits, pos, m)
    ensures r.None? ==> forall m :: 1 <= m <= n ==> !Fits(s, lits, pos, m)
    decreases |lits|, 0, n
  {
    if n == 0 then None
    else if Fits(s, lits, pos, n) then Some(n)
    else Greedy(s, lits, pos, n - 1)
  }

  /** Greedy over the whole digit run finds the largest fitting digit count
      of all. */
  lemma GreedyIsLargest(s: string, lits: seq<string>, pos: nat)
    requires |lits| >= 1 && pos <= |s|
    ensures var r := Greedy(s, lits, pos, DigitRun(s, pos));
      (r.Some? ==> Fits(s, lits, pos, r.value) && forall m :: m > r.value ==> !Fits(s, lits, pos, m)) &&
      (r.None? ==> forall m :: !Fits(s, lits, pos, m))
  {
    var run := DigitRun(s, pos);
    forall m | m > run ensures !Fits(s, lits, pos, m) {
      if pos + m <= |s| {
        assert s[pos..pos + m][run] == s[pos + run];
      }
    }
  }

  /** The whole template matches at `i`. */
  predicate TemplateAt(s: string, head: string, lits: seq<string>, i: nat) {
    IsAt(s, head, i) && TailMatches(s, lits, i + |head|)
  }

  /** `regex.search(s)` for a template: the leftmost start that matches. */
  function FindTemplate(s: string, head: string, lits: seq<string>): (r: Option<nat>)
    ensures r.Some? ==> TemplateAt(s, head, lits, r.value)
    ensures r.Some? ==> forall j: nat :: j < r.value ==> !TemplateAt(s, head, lits, j)
    ensures r.None? ==> forall j: nat :: !TemplateAt(s, head, lits, j)
  {
    var p := (i: nat) => TemplateAt(s, head, lits, i);
    var r := FirstFrom(p, 0, |s| + 1);
    forall j: nat | (r.Some? && j < r.value) || r.None? ensures !TemplateAt(s, head, lits, j) {
      if j <= |s| {
        assert !p(j);
      }
    }
    r
  }

  /** `int(match.group(1))` at the leftmost match, or `None` for no match. */
  function CapturedNumber(m: Matcher, name: string): (r: Option<int>)
    requires ValidMatcher(m)
    ensures m.Template? && r.Some? ==> r.value >= 0
  {
    match m
    case Raw(search) => search(name)
    case Template(head, lits) =>
      match FindTemplate(name, head, lits)
      case None => None
      case Some(i) =>
        var pos := i + |head|;
        var n := Greedy(name, lits, pos, DigitRun(name, pos)).value;
        Some(DigitsValue(name[pos..pos + n]))
  }

  /** The group at `pos` takes `n` digits, and no more digits would let
      the rest match. */
  ghost predicate LargestFit(s: string, lits: seq<string>, pos: nat, n: nat)
    requires |lits| >= 1
  {
    Fits(s, lits, pos, n) && forall m :: m > n ==> !Fits(s, lits, pos, m)
  }

  ghost predicate LeftmostTemplate(s: string, head: string, lits: seq<string>, i: nat) {
    IsAt(s, head, i) && forall j: nat :: j < i ==> !TemplateAt(s, head, lits, j)
  }

  /** The template's group is taken at `i` with `n` digits: `i` is the
      leftmost start where the template matches, and no more digits would
      let the rest match. */
  ghost predicate CapturesAt(s: string, head: string, lits: seq<string>, i: nat, n: nat)
    requires |lits| >= 1
  {
    LeftmostTemplate(s, head, lits, i) && LargestFit(s, lits, i + |head|, n)
  }

  /** A template finds no number exactly when it matches at no start. */
  lemma TemplateNoMatch(head: string, lits: seq<string>, name: string)
    requires |lits| >= 1
    ensures CapturedNumber(Template(head, lits), name).None? <==> forall j: nat :: !TemplateAt(name, head, lits, j)
  {
  }

  /** The largest fitting digit count is the one the engine settles on. */
  lemma GreedyFindsLargestFit(s: string, lits: seq<string>, pos: nat, n: nat)
    requires |lits| >= 1 && pos <= |s| && LargestFit(s, lits, pos, n)
    ensures Greedy(s, lits, pos, DigitRun(s, pos)) == Some(n)
  {
    GreedyIsLargest(s, lits, pos);
    var g := Greedy(s, lits, pos, DigitRun(s, pos));
    assert Fits(s, lits, pos, n);
  }

  lemma LeftmostIsFound(name: string, head: string, lits: seq<string>, i: nat)
    requires TemplateAt(name, head, lits, i) && LeftmostTemplate(name, head, lits, i)
    ensures FindTemplate(name, head, lits) == Some(i)
  {
  }

  /** What a template match means: whenever `i` is the leftmost start where
      the head text is followed by a fitting digit run of `n` digits, and no
      more digits would fit, the number found is the value of those digits. */
  lemma TemplateCapture(head: string, lits: seq<string>, name: string, i: nat, n: nat)
    requires |lits| >= 1 && CapturesAt(name, head, lits, i, n)
    ensures CapturedNumber(Template(head, lits), name) == Some(DigitsValue(name[i + |head|..i + |head| + n]))
  {
    var pos := i + |head|;
    GreedyFindsLargestFit(name, lits, pos, n);
    LeftmostIsFound(name, head, lits, i);
    CapturedAt(head, lits, name, i, n);
  }

  /** The number read where the template is found and the group settles. */
  lemma CapturedAt(head: string, lits: seq<string>, name: string, i: nat, n: nat)
    requires |lits| >= 1 && FindTemplate(name, head, lits) == Some(i)
    requires i + |head| <= |name|
    requires Greedy(name, lits, i + |head|, DigitRun(name, i + |head|)) == Some(n)
    ensures i + |head| + n <= |name|
    ensures CapturedNumber(Template(head, lits), name) == Some(DigitsValue(name[i + |head|..i + |head| + n]))
  {
  }

  /** With one `{version}` followed by text that does not start with a
      digit, nothing is gained by backtracking: the group takes the whole run
      of digits, and the template fails here when the text does not follow
      the run. */
  lemma SingleTokenTakesWholeRun(name: string, tail: string, pos: nat)
    requires pos <= |name| && (tail == "" || !IsDigit(tail[0]))
    ensures var run := DigitRun(name, pos);
      Greedy(name, [tail], pos, run) == if run >= 1 && IsAt(name, tail, pos + run) then Some(run) else None
  {
    var run := DigitRun(name, pos);
    assert [tail][1..] == [];
    forall j | pos + 1 <= j < pos + run && tail != "" ensures !IsAt(name, tail, j) {
      assert name[pos..pos + run][j - pos] == name[j];
    }
    if run >= 1 && IsAt(name, tail, pos + run) {
      assert TailMatches(name, [], pos + run + |tail|);
      assert Fits(name, [tail], pos, run);
    }
  }

  // ---------------------------------------------------------------------------
  // The version label
  // ---------------------------------------------------------------------------

  /** `f"v{n:03d}"`: the number zero-padded to three characters, where a
      minus sign counts as one of them. */
  function VersionLabel(n: int): (l: string)
    ensures |l| >= 4 && l[0] == 'v'
    ensures n >= 0 ==> AllDigits(l[1..]) && DigitsValue(l[1..]) == n && (n < 1000 ==> |l| == 4)
    ensures n < 0 ==> l[1] == '-' && AllDigits(l[2..]) && DigitsValue(l[2..]) == -n && (n > -100 ==> |l| == 4)
  {
    if n >= 0 then
      NatToStringShort(n);
      assert ("v" + ZeroPad(n, 3))[1..] == ZeroPad(n, 3);
      "v" + ZeroPad(n, 3)
    else
      NatToStringShort(-n);
      assert ("v-" + ZeroPad(-n, 2))[2..] == ZeroPad(-n, 2);
      "v-" + ZeroPad(-n, 2)
  }

  /** Reads a label back. */
  function ParseLabel(l: string): Option<int> {
    if |l| >= 2 && l[0] == 'v' && AllDigits(l[1..]) then Some(DigitsValue(l[1..]))
    else if |l| >= 3 && l[0] == 'v' && l[1] == '-' && AllDigits(l[2..]) then Some(-(DigitsValue(l[2..]) as int))
    else None
  }

  /** A label names its number: reading it back gives the number, so two
      numbers never share a label. */
  lemma LabelRoundTrip(n: int)
    ensures ParseLabel(VersionLabel(n)) == Some(n)
  {
    var l := VersionLabel(n);
    if n >= 0 {
      assert l[1..] == ZeroPad(n, 3);
    } else {
      assert l[2..] == ZeroPad(-n, 2);
      assert !IsDigit(l[1]);
    }
  }

  lemma LabelInjective(a: int, b: int)
    requires VersionLabel(a) == VersionLabel(b)
    ensures a == b
  {
    LabelRoundTrip(a);
    LabelRoundTrip(b);
  }

  /** `_extract_version`: the label and number of the first group, or `None`
      when the pattern does not match. */
  function ExtractVersion(m: Matcher, name: string): (r: Option<(string, int)>)
    requires ValidMatcher(m)
    ensures r.Some? <==> CapturedNumber(m, name).Some?
    ensures r.Some? ==> r.value.1 == CapturedNumber(m, name).value
    ensures r.Some? ==> ParseLabel(r.value.0) == Some(r.value.1)
  {
    match CapturedNumber(m, name)
    case None => None
    case Some(n) =>
      LabelRoundTrip(n);
      Some((VersionLabel(n), n))
  }

  // ---------------------------------------------------------------------------
  // Files of a version
  // ---------------------------------------------------------------------------

  lemma SameElements<T>(a: seq<T>, b: seq<T>)
    requires multiset(a) == multiset(b)
    ensures forall x :: x in a <==> x in b
  {
    forall x ensures x in a <==> x in b {
      assert x in a <==> x in multiset(a);
      assert x in b <==> x in multiset(b);
    }
  }

  /** `set(ext.lower() for ext in file_extensions)`. */
  function LowerSet(exts: seq<string>): set<string> {
    set e | e in exts :: LowerStr(e)
  }

  /** The scandir test the folder helpers share: a plain file (a link is not
      followed) whose name has a dot and whose text from the last dot,
      lowercased, is an allowed extension. */
  predicate IsMedia(e: Node, valid: set<string>) {
    e.IsPlainFile() && Paths.DotSuffix(e.name).Some? && LowerStr(Paths.DotSuffix(e.name).value) in valid
  }

  function MediaFiles(entries: seq<Node>, valid: set<string>): (r: seq<Node>)
    ensures forall e :: e in r <==> e in entries && IsMedia(e, valid)
    ensures forall k :: 0 <= k < |r| ==> r[k].IsFile()
  {
    if |entries| == 0 then []
    else
      var rest := MediaFiles(entries[1..], valid);
      assert forall e :: e in entries <==> e == entries[0] || e in entries[1..];
      if IsMedia(entries[0], valid) then [entries[0]] + rest else rest
  }

  function NamesOf(nodes: seq<Node>): (r: seq<string>)
    ensures |r| == |nodes|
    ensures forall k :: 0 <= k < |r| ==> r[k] == nodes[k].name
  {
    seq(|nodes|, k requires 0 <= k < |nodes| => nodes[k].name)
  }

  /** Entries in name order give their names in order. */
  lemma NamesSorted(nodes: seq<Node>)
    requires SortedBy(nodes, NameLe)
    ensures var r := NamesOf(nodes); forall j, k :: 0 <= j < k < |r| ==> StrLe(r[j], r[k])
  {
    var r := NamesOf(nodes);
    forall j, k | 0 <= j < k < |r| ensures StrLe(r[j], r[k]) {
      assert NameLe(nodes[j], nodes[k]);
    }
  }

  lemma NamesOfMember(nodes: seq<Node>, f: string)
    ensures f in NamesOf(nodes) <==> exists e :: e in nodes && e.name == f
  {
    var names := NamesOf(nodes);
    if f in names {
      var j :| 0 <= j < |names| && names[j] == f;
      assert nodes[j] in nodes;
    }
    if exists e :: e in nodes && e.name == f {
      var e :| e in nodes && e.name == f;
      var j :| 0 <= j < |nodes| && nodes[j] == e;
      assert names[j] == f;
    }
  }

  /** `sum(f.stat().st_size for f in files)`. */
  function SizeOf(files: seq<Node>): (n: nat)
    requires forall k :: 0 <= k < |files| ==> files[k].IsFile()
    ensures forall k :: 0 <= k < |files| ==> files[k].Size() <= n
    ensures |files| == 0 ==> n == 0
    ensures |files| == 1 ==> n == files[0].Size()
  {
    if |files| == 0 then 0
    else
      var rest := SizeOf(files[1..]);
      assert forall k :: 1 <= k < |files| ==> files[k] == files[1..][k - 1];
      files[0].Size() + rest
  }

  /** The total adds up: the size of two lists of files together is the sum
      of their sizes, so with the one-file case it is the sum of all sizes. */
  lemma {:induction false} SizeOfAppend(a: seq<Node>, b: seq<Node>)
    requires forall k :: 0 <= k < |a| ==> a[k].IsFile()
    requires forall k :: 0 <= k < |b| ==> b[k].IsFile()
    ensures forall k :: 0 <= k < |a + b| ==> (a + b)[k].IsFile()
    ensures SizeOf(a + b) == SizeOf(a) + SizeOf(b)
    decreases |a|
  {
    if |a| == 0 {
      assert a + b == b;
    } else {
      assert (a + b)[1..] == a[1..] + b;
      SizeOfAppend(a[1..], b);
      assert SizeOf(a + b) == a[0].Size() + SizeOf(a[1..] + b);
      assert SizeOf(a) == a[0].Size() + SizeOf(a[1..]);
    }
  }

  /** The media files of a folder, ordered by name: what `_collect_files`
      and discovery's `_collect_media_files` return for a set of allowed
      extensions. */
  function CollectMedia(children: seq<Node>, valid: set<string>): (r: seq<Node>)
    ensures forall e :: e in r <==> e in children && IsMedia(e, valid)
    ensures forall k :: 0 <= k < |r| ==> r[k].IsFile()
    ensures SortedBy(r, NameLe)
  {
    var files := MediaFiles(children, valid);
    var r := SortedEntries(files);
    SameElements(r, files);
    assert forall k :: 0 <= k < |r| ==> r[k] in r;
    r
  }

  /** `_collect_files`: the configured extensions are lowercased first. */
  function CollectFiles(children: seq<Node>, exts: seq<string>): (r: seq<Node>)
    ensures forall e :: e in r <==> e in children && IsMedia(e, LowerSet(exts))
    ensures forall k :: 0 <= k < |r| ==> r[k].IsFile()
    ensures SortedBy(r, NameLe)
  {
    CollectMedia(children, LowerSet(exts))
  }

  // ---------------------------------------------------------------------------
  // One entry of the source folder
  // ---------------------------------------------------------------------------

  /** `_scan_version_folder`: a folder whose name carries a version and that
      holds at least one media file. */
  function ScanVersionFolder(m: Matcher, exts: seq<string>, dir: string, folder: Node): (r: Option<Models.VersionInfo>)
    requires ValidMatcher(m) && folder.Dir?
    ensures r.Some? <==> ExtractVersion(m, folder.name).Some? && |CollectFiles(folder.children, exts)| > 0
    ensures r.Some? ==>
      var v := r.value;
      var files := CollectFiles(folder.children, exts);
      (v.versionString, v.versionNumber) == ExtractVersion(m, folder.name).value &&
      v.sourcePath == Paths.Join(dir, folder.name) &&
      v.fileCount == |files| &&
      (v.frameRange, v.frameCount) == DetectFrameRange(NamesOf(files)) &&
      v.totalSizeBytes == SizeOf(files) &&
      v.startTimecode.None?
  {
    match ExtractVersion(m, folder.name)
    case None => None
    case Some(ver) =>
      var files := CollectFiles(folder.children, exts);
      if |files| == 0 then None
      else
        var summary := DetectFrameRange(NamesOf(files));
        Some(Models.VersionInfo(ver.0, ver.1, Paths.Join(dir, folder.name), summary.0, summary.1,
                                |files|, SizeOf(files), None))
  }

  /** A versioned folder with no file of an allowed extension yields no
      version, whatever else it holds. */
  lemma FolderWithoutMediaIsSkipped(m: Matcher, exts: seq<string>, dir: string, folder: Node)
    requires ValidMatcher(m) && folder.Dir?
    requires forall e :: e in folder.children ==> !IsMedia(e, LowerSet(exts))
    ensures ScanVersionFolder(m, exts, dir, folder).None?
  {
    var files := CollectFiles(folder.children, exts);
    assert forall k :: 0 <= k < |files| ==> files[k] in files;
  }

  /** `_scan_version_file`: a file (links followed) whose lowercased suffix
      is literally one of the configured extensions and whose name carries a
      version. */
  function ScanVersionFile(m: Matcher, exts: seq<string>, dir: string, file: Node): (r: Option<Models.VersionInfo>)
    requires ValidMatcher(m) && file.IsFile()
    ensures r.Some? <==> LowerStr(Paths.Suffix(file.name)) in exts && ExtractVersion(m, file.name).Some?
    ensures r.Some? ==>
      var v := r.value;
      (v.versionString, v.versionNumber) == ExtractVersion(m, file.name).value &&
      v.sourcePath == Paths.Join(dir, file.name) &&
      v.frameRange.None? && v.frameCount == 1 && v.fileCount == 1 &&
      v.totalSizeBytes == file.Size() && v.startTimecode.None?
  {
    if LowerStr(Paths.Suffix(file.name)) !in exts then None
    else
      match ExtractVersion(m, file.name)
      case None => None
      case Some(ver) =>
        Some(Models.VersionInfo(ver.0, ver.1, Paths.Join(dir, file.name), None, 1, 1, file.Size(), None))
  }

  lemma LowerStrIdempotent(s: string)
    ensures LowerStr(LowerStr(s)) == LowerStr(s)
  {
  }

  /** The two extension tests treat case differently: when no configured
      extension is written in lower case, no bare file is ever accepted,
      while a folder still takes the files whose suffix matches ignoring
      case. */
  lemma UpperCaseExtensionsOnlyInFolders(m: Matcher, exts: seq<string>, dir: string, file: Node)
    requires ValidMatcher(m) && file.IsFile()
    requires forall x :: x in exts ==> LowerStr(x) != x
    ensures ScanVersionFile(m, exts, dir, file).None?
    ensures file.File? && Paths.DotSuffix(file.name).Some? && Paths.DotSuffix(file.name).value in exts ==>
      IsMedia(file, LowerSet(exts))
  {
    LowerStrIdempotent(Paths.Suffix(file.name));
  }

  /** One entry of the sorted listing: folders and files, anything else
      (a dangling link, a link to a folder) is skipped. */
  function ScanEntry(m: Matcher, exts: seq<string>, dir: string, e: Node): Option<Models.VersionInfo>
    requires ValidMatcher(m)
  {
    if e.IsDir() then ScanVersionFolder(m, exts, dir, e)
    else if e.IsFile() then ScanVersionFile(m, exts, dir, e)
    else None
  }

  /** The versions of the entries, in listing order. */
  function ScanEntries(m: Matcher, exts: seq<string>, dir: string, entries: seq<Node>): (r: seq<Models.VersionInfo>)
    requires ValidMatcher(m)
    ensures forall v :: v in r <==> exists e :: e in entries && ScanEntry(m, exts, dir, e) == Some(v)
  {
    if |entries| == 0 then []
    else
      var rest := ScanEntries(m, exts, dir, entries[1..]);
      assert forall e :: e in entries <==> e == entries[0] || e in entries[1..];
      match ScanEntry(m, exts, dir, entries[0])
      case Some(v) => [v] + rest
      case None => rest
  }

  // ---------------------------------------------------------------------------
  // The scan
  // ---------------------------------------------------------------------------

  predicate VersionLe(a: Models.VersionInfo, b: Models.VersionInfo) {
    a.versionNumber <= b.versionNumber
  }

  lemma VersionLeTotalPreorder()
    ensures TotalPreorder(VersionLe)
  {
  }

  /** `scan`: nothing for a missing source folder (`listing` is `None`);
      otherwise the versions of the entries taken in name order, then sorted
      by number, keeping name order among equal numbers. */
  function Scan(m: Matcher, exts: seq<string>, dir: string, listing: Option<seq<Node>>): (r: seq<Models.VersionInfo>)
    requires ValidMatcher(m)
    ensures listing.None? ==> r == []
    ensures SortedBy(r, VersionLe)
    ensures listing.Some? ==>
      multiset(r) == multiset(ScanEntries(m, exts, dir, SortedEntries(listing.value)))
  {
    VersionLeTotalPreorder();
    match listing
    case None => []
    case Some(children) => SortBy(ScanEntries(m, exts, dir, SortedEntries(children)), VersionLe)
  }

  /** Every version the scan reports comes from one entry of the folder, and
      every entry that yields a version is reported. */
  lemma ScanReportsEachEntry(m: Matcher, exts: seq<string>, dir: string, children: seq<Node>, v: Models.VersionInfo)
    requires ValidMatcher(m)
    ensures v in Scan(m, exts, dir, Some(children)) <==>
      exists e :: e in children && ScanEntry(m, exts, dir, e) == Some(v)
  {
    var sorted := SortedEntries(children);
    var found := ScanEntries(m, exts, dir, sorted);
    var r := Scan(m, exts, dir, Some(children));
    SameElements(r, found);
    SameElements(sorted, children);
  }

  lemma LastIsLargest(all: seq<Models.VersionInfo>)
    requires |all| > 0 && SortedBy(all, VersionLe)
    ensures forall w :: w in all ==> w.versionNumber <= all[|all| - 1].versionNumber
  {
    forall w | w in all ensures w.versionNumber <= all[|all| - 1].versionNumber {
      var k :| 0 <= k < |all| && all[k] == w;
      if k < |all| - 1 {
        assert VersionLe(all[k], all[|all| - 1]);
      }
    }
  }

  /** `get_latest_version`: the last version of the scan, which has the
      highest number. */
  function GetLatestVersion(m: Matcher, exts: seq<string>, dir: string, listing: Option<seq<Node>>): (r: Option<Models.VersionInfo>)
    requires ValidMatcher(m)
    ensures var all := Scan(m, exts, dir, listing);
      (r.None? <==> |all| == 0) &&
      (r.Some? ==> r.value in all && forall w :: w in all ==> w.versionNumber <= r.value.versionNumber)
  {
    var all := Scan(m, exts, dir, listing);
    if |all| == 0 then None
    else
      LastIsLargest(all);
      Some(all[|all| - 1])
  }

  /** `sorted` keeps name order among equal numbers, so of the versions with
      the highest number `get_latest_version` returns the one whose entry
      comes last by name, such as the file `shot_v003.mov` over the folder
      `shot_v003`. */
  lemma LatestIsLastOfHighest(m: Matcher, exts: seq<string>, dir: string, children: seq<Node>, j: int)
    requires ValidMatcher(m)
    requires LastLargestAt(ScanEntries(m, exts, dir, SortedEntries(children)), VersionLe, j)
    ensures GetLatestVersion(m, exts, dir, Some(children)) ==
      Some(ScanEntries(m, exts, dir, SortedEntries(children))[j])
  {
    SortByLast(ScanEntries(m, exts, dir, SortedEntries(children)), VersionLe, j);
  }

  /** Whenever the scan finds a version there is such a last highest one. */
  lemma LatestExists(m: Matcher, exts: seq<string>, dir: string, children: seq<Node>) returns (j: nat)
    requires ValidMatcher(m)
    requires GetLatestVersion(m, exts, dir, Some(children)).Some?
    ensures LastLargestAt(ScanEntries(m, exts, dir, SortedEntries(children)), VersionLe, j)
  {
    VersionLeTotalPreorder();
    j := LastLargestExists(ScanEntries(m, exts, dir, SortedEntries(children)), VersionLe);
  }

  // ---------------------------------------------------------------------------
  // Manual import
  // ---------------------------------------------------------------------------

  /** The sibling regex of a framed name: the text up to and including its
      frame divider, its number of frame digits and its lowercased suffix. */
  datatype SiblingRule = SiblingRule(prefix: string, k: nat, ext: string)

  function RuleOf(name: string, i: nat): (p: SiblingRule)
    requires FrameAt(name, i)
    ensures p.prefix == name[..i + 1] && (p.prefix[i] == '.' || p.prefix[i] == '_')
    ensures p.k == DigitRun(name, i + 1) && 3 <= p.k <= 8
    ensures p.ext == "." + LowerStr(name[i + 2 + p.k..])
  {
    var k := DigitRun(name, i + 1);
    SiblingRule(name[..i + 1], k, "." + LowerStr(name[i + 2 + k..]))
  }

  /** The rule's extension is `filepath.suffix.lower()`. */
  lemma RuleExtIsSuffix(name: string, i: nat)
    requires FrameAt(name, i)
    ensures RuleOf(name, i).ext == LowerStr(Paths.Suffix(name))
  {
    var p := RuleOf(name, i);
    var w := name[i + 2 + p.k..];
    FrameSuffix(name, i);
    LowerOfDotted(Paths.Suffix(name), w, p.ext);
  }

  /** `sibling_re.match(name)`, ignoring case: the same text up to and
      including the frame divider, exactly `k` digits, then the extension,
      and nothing after it. */
  predicate SiblingMatch(name: string, p: SiblingRule) {
    |name| == |p.prefix| + p.k + |p.ext| &&
    LowerStr(name[..|p.prefix|]) == LowerStr(p.prefix) &&
    AllDigits(name[|p.prefix|..|p.prefix| + p.k]) &&
    LowerStr(name[|p.prefix| + p.k..]) == p.ext
  }

  function SiblingsOf(entries: seq<Node>, p: SiblingRule): (r: seq<Node>)
    ensures forall e :: e in r <==> e in entries && SiblingMatch(e.name, p)
  {
    if |entries| == 0 then []
    else
      var rest := SiblingsOf(entries[1..], p);
      assert forall e :: e in entries <==> e == entries[0] || e in entries[1..];
      if SiblingMatch(entries[0].name, p) then [entries[0]] + rest else rest
  }

  /** The media files of the folder that match the sibling regex of the
      framed name, ordered by name. */
  function SiblingFiles(name: string, i: nat, siblings: seq<Node>, exts: seq<string>): (r: seq<Node>)
    requires FrameAt(name, i)
    ensures forall e :: e in r <==> e in siblings && IsMedia(e, LowerSet(exts)) && SiblingMatch(e.name, RuleOf(name, i))
    ensures SortedBy(r, NameLe)
  {
    var sibs := SiblingsOf(MediaFiles(siblings, LowerSet(exts)), RuleOf(name, i));
    var r := SortedEntries(sibs);
    SameElements(r, sibs);
    r
  }

  /** `detect_sequence_from_file`: for a file that is not there, itself with
      count 0; for a file without a frame number, itself with count 1;
      otherwise its sibling files (itself when there are none) with their
      summary. `isFile` is `Path.is_file()` of the dropped path and
      `siblings` the listing of its folder. */
  function DetectSequenceFromFile(name: string, isFile: bool, siblings: seq<Node>, exts: seq<string>): (r: Sequence)
    ensures |r.files| >= 1
    ensures !isFile ==> r == Sequence([name], None, 0)
    ensures isFile && FindFrame(name).None? ==> r == Sequence([name], None, 1)
  {
    if !isFile then Sequence([name], None, 0)
    else
      match FindFrame(name)
      case None => Sequence([name], None, 1)
      case Some(i) => SequenceOf(SequenceFiles(name, i, siblings, exts))
  }

  /** For a framed file: the names of its media siblings in name order, or
      the file itself when there are none; no range with fewer than two
      files, otherwise the range text of their frames; the count is the
      number of files either way, since every listed file is framed. */
  lemma FramedSequence(name: string, siblings: seq<Node>, exts: seq<string>)
    requires FindFrame(name).Some?
    ensures var r := DetectSequenceFromFile(name, true, siblings, exts);
      var found := SiblingFiles(name, FindFrame(name).value, siblings, exts);
      (|found| == 0 ==> r.files == [name]) &&
      (|found| > 0 ==> r.files == NamesOf(found)) &&
      (r.frameRange.None? <==> |r.files| < 2) &&
      (r.frameRange.Some? ==> r.frameRange.value == RangeText(FramesOf(r.files))) &&
      r.frameCount == |r.files|
  {
    SequenceCountsEveryFile(name, siblings, exts);
  }

  /** The names of the sibling files, or the dropped name when there are none. */
  function SequenceFiles(name: string, i: nat, siblings: seq<Node>, exts: seq<string>): (r: seq<string>)
    requires FrameAt(name, i)
    ensures |r| >= 1
  {
    var found := SiblingFiles(name, i, siblings, exts);
    if |found| == 0 then [name] else NamesOf(found)
  }

  /** The extension of a framed name is the text after the frame digits. */
  lemma FrameSuffix(name: string, i: nat)
    requires FrameAt(name, i)
    ensures Paths.Suffix(name) == "." + name[i + 2 + RuleOf(name, i).k..]
  {
    var d := i + 1 + RuleOf(name, i).k;
    FrameAtShape(name, i);
    Paths.SuffixAtLastDot(name, d);
    assert name[d..] == [name[d]] + name[d + 1..];
  }

  lemma LowerCons(c: char, s: string)
    ensures LowerStr([c] + s) == [Lower(c)] + LowerStr(s)
  {
  }

  /** A framed name matches its own sibling regex. */
  lemma OwnNameIsSibling(name: string, i: nat)
    requires FrameAt(name, i)
    ensures SiblingMatch(name, RuleOf(name, i))
  {
    var k := DigitRun(name, i + 1);
    var w := name[i + 2 + k..];
    assert name[i + 1 + k..] == "." + w;
    MatchesOwnRule(name, i + 1, k, w, RuleOf(name, i));
  }

  lemma MatchesOwnRule(name: string, n: nat, k: nat, w: string, p: SiblingRule)
    requires n + k + 1 + |w| == |name| && AllDigits(name[n..n + k]) && name[n + k..] == "." + w
    requires p.prefix == name[..n] && p.k == k && p.ext == "." + LowerStr(w)
    ensures SiblingMatch(name, p)
  {
    LowerCons('.', w);
  }

  lemma {:induction false} DigitRunExact(s: string, i: nat, k: nat)
    requires i + k <= |s| && AllDigits(s[i..i + k])
    requires i + k == |s| || !IsDigit(s[i + k])
    ensures DigitRun(s, i) == k
    decreases k
  {
    if k > 0 {
      assert IsDigit(s[i..i + k][0]);
      assert s[i + 1..i + k] == s[i..i + k][1..];
      DigitRunExact(s, i + 1, k - 1);
    }
  }

  lemma LowerKeepsOthers(c: char, d: char)
    requires Lower(c) == d && !('a' <= d <= 'z')
    ensures c == d
  {
  }

  lemma LowerKeepsWordChars(s: string)
    requires AllWordChars(s)
    ensures AllWordChars(LowerStr(s))
  {
  }

  lemma LowerWordChar(c: char)
    requires IsWordChar(Lower(c))
    ensures IsWordChar(c)
  {
  }

  /** The shape every sibling regex has: a prefix ending in a frame
      divider, three to eight digits, a dot and word characters. */
  predicate FramedRule(p: SiblingRule) {
    |p.prefix| >= 1 && (p.prefix[|p.prefix| - 1] == '.' || p.prefix[|p.prefix| - 1] == '_') &&
    3 <= p.k <= 8 && |p.ext| >= 2 && p.ext[0] == '.' && AllWordChars(p.ext[1..])
  }

  lemma RuleIsFramed(name: string, i: nat)
    requires FrameAt(name, i)
    ensures FramedRule(RuleOf(name, i))
  {
    var p := RuleOf(name, i);
    var x := name[i + 2 + p.k..];
    LowerKeepsWordChars(x);
    assert p.ext[1..] == LowerStr(x);
  }

  /** Every name a sibling regex accepts has a frame suffix right after the
      shared prefix. */
  lemma SiblingHasFrame(name: string, p: SiblingRule)
    requires FramedRule(p) && SiblingMatch(name, p)
    ensures FrameAt(name, |p.prefix| - 1)
  {
    var n := |p.prefix|;
    var k := p.k;
    assert LowerStr(name[..n])[n - 1] == Lower(name[n - 1]);
    LowerKeepsOthers(name[n - 1], p.prefix[n - 1]);
    DigitRunExact(name, n, k);
    var w := name[n + k..];
    LowerDottedWord(w, p.ext);
    assert name[n + k] == w[0] && name[n + k + 1..] == w[1..];
  }

  lemma SiblingFound(name: string, p: SiblingRule)
    requires FramedRule(p) && SiblingMatch(name, p)
    ensures FindFrame(name).Some?
  {
    SiblingHasFrame(name, p);
    FindFrameFinds(name, |p.prefix| - 1);
  }

  /** Every sibling file of a framed name carries a frame number. */
  lemma SiblingFilesFramed(name: string, i: nat, siblings: seq<Node>, exts: seq<string>)
    requires FrameAt(name, i)
    ensures var found := SiblingFiles(name, i, siblings, exts);
      forall j :: 0 <= j < |found| ==> FindFrame(found[j].name).Some?
  {
    var found := SiblingFiles(name, i, siblings, exts);
    var p := RuleOf(name, i);
    RuleIsFramed(name, i);
    forall j | 0 <= j < |found| ensures FindFrame(found[j].name).Some? {
      assert found[j] in found;
      SiblingFound(found[j].name, p);
    }
  }

  /** The sibling regex only takes framed names, so for a dropped framed
      file the frame count is the number of files found. */
  lemma SequenceCountsEveryFile(name: string, siblings: seq<Node>, exts: seq<string>)
    requires FindFrame(name).Some?
    ensures var r := DetectSequenceFromFile(name, true, siblings, exts);
      |FramesOf(r.files)| == |r.files|
  {
    var i := FindFrame(name).value;
    SequenceFilesFramed(name, i, siblings, exts);
  }

  lemma SequenceFilesFramed(name: string, i: nat, siblings: seq<Node>, exts: seq<string>)
    requires FrameAt(name, i)
    ensures var files := SequenceFiles(name, i, siblings, exts);
      forall k :: 0 <= k < |files| ==> FindFrame(files[k]).Some?
  {
    var found := SiblingFiles(name, i, siblings, exts);
    if |found| == 0 {
      FindFrameFinds(name, i);
      assert SequenceFiles(name, i, siblings, exts) == [name];
    } else {
      SiblingFilesFramed(name, i, siblings, exts);
      var files := NamesOf(found);
      assert SequenceFiles(name, i, siblings, exts) == files;
      forall k | 0 <= k < |files| ensures FindFrame(files[k]).Some? {
        assert files[k] == found[k].name;
      }
    }
  }

  /** Every file of a found sequence is the dropped file or the name of a
      media file of its folder that matches the sibling regex. */
  lemma SequenceFilesAreSiblings(name: string, siblings: seq<Node>, exts: seq<string>, f: string)
    requires FindFrame(name).Some?
    requires f in DetectSequenceFromFile(name, true, siblings, exts).files
    ensures f == name || (SiblingMatch(f, RuleOf(name, FindFrame(name).value)) &&
                          exists e :: e in siblings && IsMedia(e, LowerSet(exts)) && e.name == f)
  {
    var i := FindFrame(name).value;
    var found := SiblingFiles(name, i, siblings, exts);
    assert f in SequenceFiles(name, i, siblings, exts);
    if |found| > 0 {
      var j :| 0 <= j < |found| && NamesOf(found)[j] == f;
      assert found[j] in found;
    }
  }

  /** A media entry named like the dropped framed file is always part of the
      sequence found for it. */
  lemma SequenceKeepsDroppedFile(name: string, siblings: seq<Node>, exts: seq<string>, e: Node)
    requires FindFrame(name).Some?
    requires e in siblings && IsMedia(e, LowerSet(exts)) && e.name == name
    ensures name in DetectSequenceFromFile(name, true, siblings, exts).files
  {
    var i := FindFrame(name).value;
    var found := SiblingFiles(name, i, siblings, exts);
    OwnNameIsSibling(name, i);
    assert e in found;
    var j :| 0 <= j < |found| && found[j] == e;
    assert NamesOf(found)[j] == name;
    assert name in SequenceFiles(name, i, siblings, exts);
  }

  /** `scan_directory_as_version`: the media files of the folder, ordered by
      name; no range and count 0 when there are none, no range and the file
      count when fewer than two carry a frame number, otherwise the range
      text of their frames and the number of framed files. */
  function ScanDirectoryAsVersion(children: seq<Node>, exts: seq<string>): (r: Sequence)
    ensures forall f :: f in r.files <==> exists e :: e in children && IsMedia(e, LowerSet(exts)) && e.name == f
    ensures forall j, k :: 0 <= j < k < |r.files| ==> StrLe(r.files[j], r.files[k])
    ensures |r.files| == 0 ==> r.frameRange.None? && r.frameCount == 0
    ensures |r.files| > 0 ==> (r.frameRange.None? <==> |FramesOf(r.files)| < 2)
    ensures |r.files| > 0 && r.frameRange.None? ==> r.frameCount == |r.files|
    ensures r.frameRange.Some? ==> r.frameRange.value == RangeText(FramesOf(r.files)) && r.frameCount == |FramesOf(r.files)|
  {
    var files := CollectFiles(children, exts);
    var names := NamesOf(files);
    forall f ensures f in names <==> exists e :: e in files && e.name == f {
      NamesOfMember(files, f);
    }
    NamesSorted(files);
    if |names| == 0 then Sequence(names, None, 0)
    else SequenceOf(names)
  }

  /** `create_manual_version`: the label follows the scanner's rule. */
  function CreateManualVersion(sourcePath: string, number: int, fileCount: int, totalSize: int,
                               frameRange: Option<string>, frameCount: int): (v: Models.VersionInfo)
    ensures ParseLabel(v.versionString) == Some(number) && v.versionNumber == number
    ensures v.sourcePath == sourcePath && v.frameRange == frameRange && v.frameCount == frameCount
    ensures v.fileCount == fileCount && v.totalSizeBytes == totalSize && v.startTimecode.None?
  {
    LabelRoundTrip(number);
    Models.VersionInfo(VersionLabel(number), number, sourcePath, frameRange, frameCount, fileCount, totalSize, None)
  }

  /** A manual version and a scanned one with the same number carry the
      same label. */
  lemma ManualLabelMatchesScan(m: Matcher, name: string, sourcePath: string, fileCount: int, totalSize: int,
                               frameRange: Option<string>, frameCount: int)
    requires ValidMatcher(m) && ExtractVersion(m, name).Some?
    ensures var ver := ExtractVersion(m, name).value;
      CreateManualVersion(sourcePath, ver.1, fileCount, totalSize, frameRange, frameCount).versionString == ver.0
  {
    var ver := ExtractVersion(m, name).value;
    LabelInjective(ver.1, ver.1);
    var v := CreateManualVersion(sourcePath, ver.1, fileCount, totalSize, frameRange, frameCount);
    assert ParseLabel(ver.0) == Some(ver.1);
  }
}

=== FILE: sorting.dfy ===
/** Python's `list.sort(key=...)` / `sorted(...)`: a stable insertion sort over
    a total preorder, plus the code-point ordering Python uses for strings. */
module Sorting {

  ghost predicate Total<T(!new)>(le: (T, T) -> bool) {
    forall a, b :: le(a, b) || le(b, a)
  }

  ghost predicate Transitive<T(!new)>(le: (T, T) -> bool) {
    forall a, b, c :: le(a, b) && le(b, c) ==> le(a, c)
  }

  ghost predicate TotalPreorder<T(!new)>(le: (T, T) -> bool) {
    Total(le) && Transitive(le)
  }

  predicate SortedBy<T>(s: seq<T>, le: (T, T) -> bool) {
    forall i, j :: 0 <= i < j < |s| ==> le(s[i], s[j])
  }

  /** Inserts `x` after every element that is not greater than it, so equal
      keys keep their arrival order. */
  function Insert<T(==)>(x: T, s: seq<T>, le: (T, T) -> bool): (r: seq<T>)
    ensures |r| == |s| + 1
    ensures multiset(r) == multiset(s) + multiset{x}
  {
    if |s| == 0 then [x]
    else if le(s[0], x) then
      var tail := Insert(x, s[1..], le);
      assert s == [s[0]] + s[1..];
      [s[0]] + tail
    else [x] + s
  }

  lemma {:induction false} InsertSorted<T(!new)>(x: T, s: seq<T>, le: (T, T) -> bool)
    requires TotalPreorder(le) && SortedBy(s, le)
    ensures SortedBy(Insert(x, s, le), le)
    decreases |s|
  {
    if |s| > 0 && le(s[0], x) {
      var tail := Insert(x, s[1..], le);
      InsertSorted(x, s[1..], le);
      assert multiset(tail) == multiset(s[1..]) + multiset{x};
      forall k | 0 <= k < |tail| ensures le(s[0], tail[k]) {
        assert tail[k] in multiset(tail);
        if tail[k] != x {
          assert tail[k] in multiset(s[1..]);
          var j :| 0 <= j < |s[1..]| && s[1..][j] == tail[k];
          assert s[j + 1] == tail[k];
        }
      }
      var r := [s[0]] + tail;
      forall i, j | 0 <= i < j < |r| ensures le(r[i], r[j]) {
        if i == 0 {
          assert r[j] == tail[j - 1];
        } else {
          assert r[i] == tail[i - 1] && r[j] == tail[j - 1];
        }
      }
    } else if |s| > 0 {
      var r := [x] + s;
      assert le(x, s[0]);
      forall i, j | 0 <= i < j < |r| ensures le(r[i], r[j]) {
        if i == 0 {
          assert r[j] == s[j - 1];
          assert le(s[0], s[j - 1]) || j - 1 == 0;
        } else {
          assert r[i] == s[i - 1] && r[j] == s[j - 1];
        }
      }
    }
  }

  lemma InsertKeepsSorted<T(!new)>(x: T, s: seq<T>, le: (T, T) -> bool)
    ensures TotalPreorder(le) && SortedBy(s, le) ==> SortedBy(Insert(x, s, le), le)
  {
    if TotalPreorder(le) && SortedBy(s, le) {
      InsertSorted(x, s, le);
    }
  }

  /** `sorted(s, key=...)`: stable, and sorted whenever `le` is a total preorder. */
  function SortBy<T(==,!new)>(s: seq<T>, le: (T, T) -> bool): (r: seq<T>)
    ensures |r| == |s|
    ensures multiset(r) == multiset(s)
    ensures TotalPreorder(le) ==> SortedBy(r, le)
  {
    if |s| == 0 then []
    else
      var rest := SortBy(s[..|s| - 1], le);
      assert s == s[..|s| - 1] + [s[|s| - 1]];
      InsertKeepsSorted(s[|s| - 1], rest, le);
      Insert(s[|s| - 1], rest, le)
  }

  /** `s[j]` is the last of the largest elements of `s`: nothing is above
      it, and everything after it is strictly below it. */
  ghost predicate LastLargestAt<T>(s: seq<T>, le: (T, T) -> bool, j: int) {
    0 <= j < |s| &&
    (forall k :: 0 <= k < |s| ==> le(s[k], s[j])) &&
    (forall k :: j < k < |s| ==> !le(s[j], s[k]))
  }

  /** An element no smaller than any other is inserted last. */
  lemma {:induction false} InsertLargest<T>(x: T, s: seq<T>, le: (T, T) -> bool)
    requires forall k :: 0 <= k < |s| ==> le(s[k], x)
    ensures Insert(x, s, le) == s + [x]
    decreases |s|
  {
    if |s| > 0 {
      InsertLargest(x, s[1..], le);
      assert s == [s[0]] + s[1..];
    }
  }

  /** An element below the last one is inserted before it. */
  lemma {:induction false} InsertBelowLast<T>(x: T, s: seq<T>, le: (T, T) -> bool)
    requires |s| > 0 && !le(s[|s| - 1], x)
    ensures Insert(x, s, le)[|s|] == s[|s| - 1]
    decreases |s|
  {
    if |s| > 1 && le(s[0], x) {
      InsertBelowLast(x, s[1..], le);
    }
  }

  /** The sort inserts the last element into the sorted rest. */
  lemma SortByUnfold<T(!new)>(s: seq<T>, le: (T, T) -> bool)
    requires |s| > 0
    ensures SortBy(s, le) == Insert(s[|s| - 1], SortBy(s[..|s| - 1], le), le)
  {
  }

  /** Sorting moves no element above a bound all of them respect. */
  lemma SortByBounded<T(!new)>(s: seq<T>, le: (T, T) -> bool, x: T)
    requires forall k :: 0 <= k < |s| ==> le(s[k], x)
    ensures forall k :: 0 <= k < |s| ==> le(SortBy(s, le)[k], x)
  {
    var r := SortBy(s, le);
    forall k | 0 <= k < |r| ensures le(r[k], x) {
      assert r[k] in multiset(s);
    }
  }

  /** The sort is stable: of the largest elements, the one that came last
      ends up last. */
  lemma {:induction false} SortByLast<T(!new)>(s: seq<T>, le: (T, T) -> bool, j: int)
    requires LastLargestAt(s, le, j)
    ensures SortBy(s, le)[|s| - 1] == s[j]
    decreases |s|
  {
    var n := |s|;
    var p := s[..n - 1];
    SortByUnfold(s, le);
    if j == n - 1 {
      SortByBounded(p, le, s[n - 1]);
      InsertLargest(s[n - 1], SortBy(p, le), le);
    } else {
      assert forall k :: 0 <= k < n - 1 ==> p[k] == s[k];
      SortByLast(p, le, j);
      InsertBelowLast(s[n - 1], SortBy(p, le), le);
    }
  }

  /** A non-empty sequence has a last largest element under a total preorder. */
  lemma {:induction false} LastLargestExists<T(!new)>(s: seq<T>, le: (T, T) -> bool) returns (j: nat)
    requires TotalPreorder(le) && |s| > 0
    ensures LastLargestAt(s, le, j)
    decreases |s|
  {
    var n := |s|;
    var x := s[n - 1];
    if n == 1 {
      assert le(x, x) || le(x, x);
      j := 0;
    } else {
      var i := LastLargestExists(s[..n - 1], le);
      assert forall k :: 0 <= k < n - 1 ==> s[k] == s[..n - 1][k];
      if le(s[i], x) {
        assert le(x, x) || le(x, x);
        j := n - 1;
      } else {
        assert le(s[i], x) || le(x, s[i]);
        j := i;
      }
    }
  }

  /** Python's `a <= b` on strings: lexicographic by code point, a proper
      prefix first. */
  predicate StrLe(a: string, b: string) {
    |a| == 0 || (|b| > 0 && (a[0] < b[0] || (a[0] == b[0] && StrLe(a[1..], b[1..]))))
  }

  lemma {:induction false} StrLeTotal(a: string, b: string)
    ensures StrLe(a, b) || StrLe(b, a)
  {
    if |a| > 0 && |b| > 0 && a[0] == b[0] {
      StrLeTotal(a[1..], b[1..]);
    }
  }

  lemma {:induction false} StrLeTransitive(a: string, b: string, c: string)
    requires StrLe(a, b) && StrLe(b, c)
    ensures StrLe(a, c)
  {
    if |a| > 0 && a[0] == b[0] && b[0] == c[0] {
      StrLeTransitive(a[1..], b[1..], c[1..]);
    }
  }

  lemma StrLeIsTotalPreorder()
    ensures TotalPreorder(StrLe)
  {
    forall a, b ensures StrLe(a, b) || StrLe(b, a) {
      StrLeTotal(a, b);
    }
    forall a, b, c | StrLe(a, b) && StrLe(b, c) ensures StrLe(a, c) {
      StrLeTransitive(a, b, c);
    }
  }

  /** Orders any values by a string key with Python's string order. */
  lemma KeyedStrLeIsTotalPreorder<T(!new)>(key: T -> string)
    ensures TotalPreorder((x: T, y: T) => StrLe(key(x), key(y)))
  {
    StrLeIsTotalPreorder();
  }

  /** Orders any values by an integer key. */
  lemma KeyedIntLeIsTotalPreorder<T(!new)>(key: T -> int)
    ensures TotalPreorder((x: T, y: T) => key(x) <= key(y))
  {
  }

  /** The entries of `s` satisfying `p`, in order. */
  function Keep<T(==,!new)>(s: seq<T>, p: T -> bool): (r: seq<T>)
    ensures |r| <= |s|
    ensures forall x :: x in r <==> x in s && p(x)
  {
    if |s| == 0 then []
    else
      var rest := Keep(s[1..], p);
      assert forall x :: x in s <==> x == s[0] || x in s[1..];
      if p(s[0]) then [s[0]] + rest else rest
  }
}

=== FILE: strs.dfy ===
/** Character classes and string helpers shared by the naming, scanning and
    timecode modules. Text is `seq<char>` and every character class is ASCII
    (Python's `\w`, `\d`, `isdigit` and `lower` restricted to ASCII). */
module Strs {

  // ---------------------------------------------------------------------------
  // Character classes
  // ---------------------------------------------------------------------------

  /** The three characters that separate fields of a pipeline file name. */
  predicate IsDivider(c: char) {
    c == '_' || c == '.' || c == '-'
  }

  predicate IsDigit(c: char) {
    '0' <= c <= '9'
  }

  predicate IsAsciiLetter(c: char) {
    ('a' <= c <= 'z') || ('A' <= c <= 'Z')
  }

  /** Regex `\w` (ASCII): letters, digits and underscore. */
  predicate IsWordChar(c: char) {
    IsDigit(c) || IsAsciiLetter(c) || c == '_'
  }

  /** Python's `str.isspace` on ASCII: space, \t \n \v \f \r and \x1c-\x1f. */
  predicate IsSpace(c: char) {
    c == ' ' || ('\t' <= c <= '\r') || (0x1c <= c as int <= 0x1f)
  }

  function Lower(c: char): (r: char)
    ensures IsAsciiLetter(c) ==> 'a' <= r <= 'z'
    ensures !('A' <= c <= 'Z') ==> r == c
  {
    if 'A' <= c <= 'Z' then (c as int + 32) as char else c
  }

  function LowerStr(s: string): (r: string)
    ensures |r| == |s|
    ensures forall i :: 0 <= i < |s| ==> r[i] == Lower(s[i])
  {
    seq(|s|, i requires 0 <= i < |s| => Lower(s[i]))
  }

  /** A text that lowercases to a dot and word characters is itself a dot
      and word characters. */
  lemma LowerDottedWord(w: string, ext: string)
    requires LowerStr(w) == ext && |ext| >= 2 && ext[0] == '.' && AllWordChars(ext[1..])
    ensures |w| >= 2 && w[0] == '.' && AllWordChars(w[1..])
  {
    assert Lower(w[0]) == '.';
    forall j | 0 <= j < |w| - 1 ensures IsWordChar(w[1..][j]) {
      assert ext[1..][j] == ext[j + 1];
      assert Lower(w[j + 1]) == ext[j + 1];
    }
  }

  /** Regrouping a prefix in front of four pieces. */
  lemma PrefixRegroup(a: string, b: string, c: string, d: string, e: string)
    ensures a + b + c + d + e == a + (b + c + d + e)
  {
  }

  /** Lowercasing keeps a leading dot. */
  lemma LowerDotCons(w: string)
    ensures LowerStr("." + w) == "." + LowerStr(w)
  {
    assert Lower('.') == '.';
  }

  /** A dotted text lowercases to the dot and its lowercased rest. */
  lemma LowerOfDotted(a: string, w: string, e: string)
    requires a == "." + w && e == "." + LowerStr(w)
    ensures e == LowerStr(a)
  {
    LowerDotCons(w);
  }

  predicate AllDigits(s: string) {
    forall i :: 0 <= i < |s| ==> IsDigit(s[i])
  }

  predicate AllWordChars(s: string) {
    forall i :: 0 <= i < |s| ==> IsWordChar(s[i])
  }

  // ---------------------------------------------------------------------------
  // Decimal numbers
  // ---------------------------------------------------------------------------

  function DigitValue(c: char): nat
    requires IsDigit(c)
  {
    c as int - '0' as int
  }

  function DigitChar(d: nat): (c: char)
    requires d < 10
    ensures IsDigit(c) && DigitValue(c) == d
  {
    ('0' as int + d) as char
  }

  /** Python's `int(s)` for a string of ASCII digits. */
  function DigitsValue(s: string): nat
    requires AllDigits(s)
  {
    if |s| == 0 then 0 else DigitsValue(s[..|s| - 1]) * 10 + DigitValue(s[|s| - 1])
  }

  /** Python's `str(n)` for a natural number: shortest decimal spelling. */
  function NatToString(n: nat): (r: string)
    ensures |r| > 0 && AllDigits(r)
    ensures DigitsValue(r) == n
    ensures |r| > 1 ==> r[0] != '0'
    decreases n
  {
    if n < 10 then [DigitChar(n)]
    else
      var prefix := NatToString(n / 10);
      var r := prefix + [DigitChar(n % 10)];
      assert r[..|r| - 1] == prefix;
      r
  }

  /** A number below 10, 100 or 1000 takes at most one, two or three digits. */
  lemma NatToStringShort(n: nat)
    ensures n < 10 ==> |NatToString(n)| == 1
    ensures n < 100 ==> |NatToString(n)| <= 2
    ensures n < 1000 ==> |NatToString(n)| <= 3
  {
    if n >= 10 {
      NatToStringShort(n / 10);
    }
  }

  function Zeros(k: nat): (r: string)
    ensures |r| == k && AllDigits(r)
  {
    if k == 0 then "" else "0" + Zeros(k - 1)
  }

  lemma {:induction false} LeadingZeroValue(s: string)
    requires AllDigits(s)
    ensures AllDigits("0" + s) && DigitsValue("0" + s) == DigitsValue(s)
    decreases |s|
  {
    if |s| > 0 {
      var t := "0" + s;
      assert t[..|t| - 1] == "0" + s[..|s| - 1];
      LeadingZeroValue(s[..|s| - 1]);
    }
  }

  lemma {:induction false} ZerosValue(k: nat, s: string)
    requires AllDigits(s)
    ensures AllDigits(Zeros(k) + s) && DigitsValue(Zeros(k) + s) == DigitsValue(s)
  {
    if k > 0 {
      var t := Zeros(k - 1) + s;
      ZerosValue(k - 1, s);
      assert Zeros(k) + s == "0" + t;
      LeadingZeroValue(t);
      calc {
        DigitsValue(Zeros(k) + s);
        DigitsValue("0" + t);
        DigitsValue(t);
        DigitsValue(s);
      }
    } else {
      assert Zeros(k) + s == s;
    }
  }

  /** Python's `f"{n:0{width}d}"` for a natural number. */
  function ZeroPad(n: nat, width: nat): (r: string)
    ensures AllDigits(r) && DigitsValue(r) == n
    ensures |r| == if |NatToString(n)| < width then width else |NatToString(n)|
  {
    var digits := NatToString(n);
    var pad := if |digits| < width then width - |digits| else 0;
    ZerosValue(pad, digits);
    Zeros(pad) + digits
  }

  /** Length of the run of ASCII digits that starts at position `i`. */
  function DigitRun(s: string, i: nat): (k: nat)
    requires i <= |s|
    ensures i + k <= |s|
    ensures AllDigits(s[i..i + k])
    ensures i + k < |s| ==> !IsDigit(s[i + k])
    decreases |s| - i
  {
    if i < |s| && IsDigit(s[i]) then
      var k := DigitRun(s, i + 1);
      assert s[i..i + 1 + k] == [s[i]] + s[i + 1..i + 1 + k];
      1 + k
    else 0
  }

  // ---------------------------------------------------------------------------
  // Substrings and replacement
  // ---------------------------------------------------------------------------

  predicate IsAt(s: string, sub: string, i: nat) {
    i + |sub| <= |s| && s[i..i + |sub|] == sub
  }

  /** Python's `sub in s`. */
  predicate Contains(s: string, sub: string) {
    exists i: nat | i <= |s| :: IsAt(s, sub, i)
  }

  predicate StartsWith(s: string, prefix: string) {
    |prefix| <= |s| && s[..|prefix|] == prefix
  }

  predicate EndsWith(s: string, suffix: string) {
    |suffix| <= |s| && s[|s| - |suffix|..] == suffix
  }

  /** Python's `s.replace(pat, rep)`: every non-overlapping occurrence, scanning
      left to right. */
  function ReplaceAll(s: string, pat: string, rep: string): string
    requires |pat| > 0
    decreases |s|
  {
    if |s| < |pat| then s
    else if s[..|pat|] == pat then rep + ReplaceAll(s[|pat|..], pat, rep)
    else [s[0]] + ReplaceAll(s[1..], pat, rep)
  }

  lemma {:induction false} ReplaceAbsent(s: string, pat: string, rep: string)
    requires |pat| > 0 && !Contains(s, pat)
    ensures ReplaceAll(s, pat, rep) == s
    decreases |s|
  {
    if |s| >= |pat| {
      assert !IsAt(s, pat, 0);
      forall i: nat | IsAt(s[1..], pat, i) ensures IsAt(s, pat, i + 1) {
        assert s[i + 1..i + 1 + |pat|] == s[1..][i..i + |pat|];
      }
      ReplaceAbsent(s[1..], pat, rep);
    }
  }

  lemma {:induction false} ReplaceSelf(s: string, pat: string)
    requires |pat| > 0
    ensures ReplaceAll(s, pat, pat) == s
    decreases |s|
  {
    if |s| >= |pat| {
      if s[..|pat|] == pat {
        ReplaceSelf(s[|pat|..], pat);
        assert s == s[..|pat|] + s[|pat|..];
      } else {
        ReplaceSelf(s[1..], pat);
        assert s == [s[0]] + s[1..];
      }
    }
  }

  // ---------------------------------------------------------------------------
  // Splitting and joining on one character
  // ---------------------------------------------------------------------------

  /** Python's `s.split(c)`: `|parts|` is one more than the number of `c`. */
  function Split(s: string, c: char): (parts: seq<string>)
    ensures |parts| >= 1
    ensures forall k :: 0 <= k < |parts| ==> c !in parts[k]
  {
    if |s| == 0 then [""]
    else
      var rest := Split(s[1..], c);
      if s[0] == c then [""] + rest else [[s[0]] + rest[0]] + rest[1..]
  }

  /** Text without the separator splits into itself. */
  lemma {:induction false} SplitNoSeparator(s: string, c: char)
    requires c !in s
    ensures Split(s, c) == [s]
  {
    if |s| > 0 {
      assert forall k :: 0 <= k < |s[1..]| ==> s[1..][k] == s[k + 1];
      SplitNoSeparator(s[1..], c);
      assert s == [s[0]] + s[1..];
    }
  }

  /** Appending a separator and a separator-free part appends one part. */
  lemma {:induction false} SplitAppend(a: string, c: char, b: string)
    requires c !in b
    ensures Split(a + [c] + b, c) == Split(a, c) + [b]
    decreases |a|
  {
    if |a| == 0 {
      assert [c] + b == a + [c] + b;
      SplitNoSeparator(b, c);
      assert Split([c] + b, c) == [""] + Split(b, c);
      assert ([c] + b)[1..] == b;
    } else {
      var t := a[1..] + [c] + b;
      assert (a + [c] + b)[1..] == t;
      assert (a + [c] + b)[0] == a[0];
      SplitAppend(a[1..], c, b);
    }
  }

  /** Splitting at one separator splits the two sides independently. */
  lemma {:induction false} SplitConcat(a: string, c: char, b: string)
    ensures Split(a + [c] + b, c) == Split(a, c) + Split(b, c)
    decreases |a|
  {
    if |a| == 0 {
      assert a + [c] + b == [c] + b;
      assert ([c] + b)[1..] == b;
    } else {
      assert (a + [c] + b)[1..] == a[1..] + [c] + b;
      SplitConcat(a[1..], c, b);
    }
  }

  /** Python's `c.join(parts)`. */
  function JoinWith(parts: seq<string>, c: char): string
    requires |parts| >= 1
  {
    if |parts| == 1 then parts[0] else parts[0] + [c] + JoinWith(parts[1..], c)
  }

  lemma {:induction false} JoinSplit(s: string, c: char)
    ensures JoinWith(Split(s, c), c) == s
  {
    if |s| > 0 {
      var rest := Split(s[1..], c);
      JoinSplit(s[1..], c);
      if s[0] == c {
        assert Split(s, c)[1..] == rest;
      } else {
        var parts := Split(s, c);
        if |rest| == 1 {
          assert parts == [[s[0]] + rest[0]];
        } else {
          assert parts[1..] == rest[1..];
          assert JoinWith(rest, c) == rest[0] + [c] + JoinWith(rest[1..], c);
        }
      }
    }
  }

  /** Joining separator-free parts and splitting again gives the parts. */
  lemma {:induction false} SplitJoin(parts: seq<string>, c: char)
    requires |parts| >= 1 && forall k :: 0 <= k < |parts| ==> c !in parts[k]
    ensures Split(JoinWith(parts, c), c) == parts
    decreases |parts|
  {
    SplitNoSeparator(parts[0], c);
    if |parts| > 1 {
      SplitJoin(parts[1..], c);
      SplitConcat(parts[0], c, JoinWith(parts[1..], c));
    }
  }

  function Count(s: string, c: char): nat {
    if |s| == 0 then 0 else (if s[0] == c then 1 else 0) + Count(s[1..], c)
  }

  lemma {:induction false} SplitCount(s: string, c: char)
    ensures |Split(s, c)| == Count(s, c) + 1
  {
    if |s| > 0 {
      SplitCount(s[1..], c);
    }
  }

  // ---------------------------------------------------------------------------
  // Divider clean-up
  // ---------------------------------------------------------------------------

  predicate NoAdjacentDividers(s: string) {
    forall i :: 0 < i < |s| ==> !(IsDivider(s[i - 1]) && IsDivider(s[i]))
  }

  /** No leading or trailing divider and no two dividers in a row. */
  predicate WellDivided(s: string) {
    && NoAdjacentDividers(s)
    && (|s| > 0 ==> !IsDivider(s[0]) && !IsDivider(s[|s| - 1]))
  }

  /** `re.sub(r"[_.\-]{2,}", lambda m: m.group()[0], s)`: every run of two or
      more dividers becomes its first character. */
  function CollapseRunsToFirst(s: string): (r: string)
    ensures NoAdjacentDividers(r)
    ensures |r| <= |s|
    ensures |s| > 0 ==> |r| > 0 && r[0] == s[0]
    decreases |s|
  {
    if |s| <= 1 then s
    else if IsDivider(s[0]) && IsDivider(s[1]) then CollapseRunsToFirst([s[0]] + s[2..])
    else [s[0]] + CollapseRunsToFirst(s[1..])
  }

  /** `re.sub(r"([_.\-]){2,}", r"\1", s)`: the backreference names the LAST
      repetition of the group, so every run becomes its last character. */
  function CollapseRunsToLast(s: string): (r: string)
    ensures NoAdjacentDividers(r)
    ensures |r| <= |s|
    ensures |s| > 0 ==> |r| > 0 && r[|r| - 1] == s[|s| - 1]
    decreases |s|
  {
    if |s| <= 1 then s
    else if IsDivider(s[0]) && IsDivider(s[1]) then CollapseRunsToLast(s[1..])
    else [s[0]] + CollapseRunsToLast(s[1..])
  }

  /** Reference reading of the two collapses: keep character `i` unless it is a
      divider whose left (resp. right) neighbour in `s` is also a divider. */
  function DropDividersAfterDivider(s: string, prevDivider: bool): string {
    if |s| == 0 then ""
    else
      (if prevDivider && IsDivider(s[0]) then "" else [s[0]])
      + DropDividersAfterDivider(s[1..], IsDivider(s[0]))
  }

  function DropDividersBeforeDivider(s: string): string {
    if |s| == 0 then ""
    else
      (if |s| > 1 && IsDivider(s[0]) && IsDivider(s[1]) then "" else [s[0]])
      + DropDividersBeforeDivider(s[1..])
  }

  lemma {:induction false} CollapseFirstIsDropAfter(s: string)
    ensures CollapseRunsToFirst(s) == DropDividersAfterDivider(s, false)
  {
    CollapseFirstDrop(s, false);
  }

  lemma {:induction false} CollapseFirstDrop(s: string, prev: bool)
    ensures prev && |s| > 0 && IsDivider(s[0]) ==>
      DropDividersAfterDivider(s, prev) == DropDividersAfterDivider(s[1..], true)
    ensures !prev || |s| == 0 || !IsDivider(s[0]) ==>
      CollapseRunsToFirst(s) == DropDividersAfterDivider(s, false) == DropDividersAfterDivider(s, prev)
    decreases |s|, 1
  {
    if |s| > 0 {
      CollapseFirstStep(s);
    }
  }

  lemma {:induction false} CollapseFirstStep(s: string)
    requires |s| > 0
    ensures CollapseRunsToFirst(s) == DropDividersAfterDivider(s, false)
    ensures !IsDivider(s[0]) ==> DropDividersAfterDivider(s, false) == DropDividersAfterDivider(s, true)
    decreases |s|, 0
  {
    if |s| == 1 {
    } else if IsDivider(s[0]) && IsDivider(s[1]) {
      var t := [s[0]] + s[2..];
      CollapseFirstStep(t);
      assert t[1..] == s[2..];
      // Both sides drop s[1], the divider that follows a divider.
      assert DropDividersAfterDivider(s[1..], true) == DropDividersAfterDivider(s[2..], true);
    } else {
      CollapseFirstStep(s[1..]);
      if IsDivider(s[0]) {
        // s[1] is not a divider, so the flag does not matter for it.
        assert DropDividersAfterDivider(s[1..], true) == DropDividersAfterDivider(s[1..], false);
      }
    }
  }

  lemma {:induction false} CollapseLastIsDropBefore(s: string)
    ensures CollapseRunsToLast(s) == DropDividersBeforeDivider(s)
    decreases |s|
  {
    if |s| > 1 {
      CollapseLastIsDropBefore(s[1..]);
    }
  }

  /** A text without adjacent dividers has no run to collapse. */
  lemma CollapseNothing(s: string)
    requires NoAdjacentDividers(s)
    ensures CollapseRunsToLast(s) == s
  {
    CollapseLastIsDropBefore(s);
    DropBeforeNothing(s);
  }

  lemma {:induction false} DropBeforeNothing(s: string)
    requires NoAdjacentDividers(s)
    ensures DropDividersBeforeDivider(s) == s
    decreases |s|
  {
    if |s| > 0 {
      assert |s| > 1 ==> !(IsDivider(s[0]) && IsDivider(s[1]));
      NoAdjacentSlice(s, 1, |s|);
      DropBeforeNothing(s[1..]);
      assert [s[0]] + s[1..] == s;
    }
  }

  /** `s.lstrip(chars)` for the character class `p`. */
  function TrimLeftBy(s: string, p: char -> bool): (r: string)
    ensures |r| <= |s| && r == s[|s| - |r|..]
    ensures |r| > 0 ==> !p(r[0])
    decreases |s|
  {
    if |s| > 0 && p(s[0]) then TrimLeftBy(s[1..], p) else s
  }

  predicate IsDot(c: char) {
    c == '.'
  }

  /** `lstrip(".")` of a text with one leading dot drops exactly that dot. */
  lemma TrimOneDot(s: string)
    requires |s| > 0 && s[0] == '.' && (|s| == 1 || s[1] != '.')
    ensures TrimLeftBy(s, IsDot) == s[1..] && "." + s[1..] == s
  {
    assert TrimLeftBy(s, IsDot) == TrimLeftBy(s[1..], IsDot);
  }

  /** `s.rstrip(chars)` for the character class `p`. */
  function TrimRightBy(s: string, p: char -> bool): (r: string)
    ensures |r| <= |s| && r == s[..|r|]
    ensures |r| > 0 ==> !p(r[|r| - 1])
    decreases |s|
  {
    if |s| > 0 && p(s[|s| - 1]) then TrimRightBy(s[..|s| - 1], p) else s
  }

  /** `s.strip(chars)` for the character class `p`. */
  function TrimBy(s: string, p: char -> bool): (r: string)
    ensures |r| <= |s|
    ensures |r| > 0 ==> !p(r[0]) && !p(r[|r| - 1])
  {
    TrimRightBy(TrimLeftBy(s, p), p)
  }

  lemma NoAdjacentSlice(s: string, a: nat, b: nat)
    requires NoAdjacentDividers(s) && a <= b <= |s|
    ensures NoAdjacentDividers(s[a..b])
  {
    var t := s[a..b];
    forall i | 0 < i < |t| ensures !(IsDivider(t[i - 1]) && IsDivider(t[i])) {
      assert t[i - 1] == s[a + i - 1] && t[i] == s[a + i];
    }
  }

  /** Collapse divider runs to their first character, then strip dividers from
      both ends: the clean-up step of the naming functions. */
  function CleanDividers(s: string): (r: string)
    ensures WellDivided(r)
    ensures |r| <= |s|
  {
    var collapsed := CollapseRunsToFirst(s);
    var left := TrimLeftBy(collapsed, IsDivider);
    NoAdjacentSlice(collapsed, |collapsed| - |left|, |collapsed|);
    var r := TrimRightBy(left, IsDivider);
    NoAdjacentSlice(left, 0, |r|);
    r
  }

  lemma CleanWellDivided(s: string)
    requires WellDivided(s)
    ensures CleanDividers(s) == s
  {
    CollapseFirstIsDropAfter(s);
    DropNothing(s, false);
    TrimNothing(s, IsDivider);
  }

  /** Trimming leaves a text alone when neither end is trimmable. */
  lemma TrimNothing(s: string, p: char -> bool)
    requires |s| > 0 ==> !p(s[0]) && !p(s[|s| - 1])
    ensures TrimLeftBy(s, p) == s && TrimRightBy(s, p) == s
  {
  }

  lemma {:induction false} DropNothing(s: string, prev: bool)
    requires NoAdjacentDividers(s)
    requires prev && |s| > 0 ==> !IsDivider(s[0])
    ensures DropDividersAfterDivider(s, prev) == s
    decreases |s|
  {
    if |s| > 0 {
      NoAdjacentSlice(s, 1, |s|);
      assert |s| > 1 ==> !(IsDivider(s[0]) && IsDivider(s[1]));
      DropNothing(s[1..], IsDivider(s[0]));
      assert s == [s[0]] + s[1..];
    }
  }
}

=== FILE: task_tokens.dfy ===
/** The naming algebra of `task_tokens.py`: divider-bounded task tokens with
    counted `%` wildcards, version and frame stripping, the four derived
    source tokens and the naming rules built from them. */
module TaskTokens {
  import opened Wrappers
  import opened Strs
  import opened Sorting
  import opened Patterns
  import Paths

  // ---------------------------------------------------------------------------
  // Compiled task patterns
  // ---------------------------------------------------------------------------

  /** One element of a compiled task pattern: a run of `count` wildcards
      (`[^_.\-]{count}`) or one literal character matched ignoring case. */
  datatype Elem = Wild(count: nat) | Lit(c: char)

  /** Number of leading '%' characters. */
  function PercentRun(tok: string): (k: nat)
    ensures k <= |tok|
    ensures forall j :: 0 <= j < k ==> tok[j] == '%'
    ensures k < |tok| ==> tok[k] != '%'
  {
    if |tok| > 0 && tok[0] == '%' then 1 + PercentRun(tok[1..]) else 0
  }

  /** The pattern body `compile_task_pattern` builds: every maximal run of '%'
      becomes one counted wildcard, every other character a literal. */
  function Compile(tok: string): (es: seq<Elem>)
    ensures ElemsLen(es) == |tok|
    decreases |tok|
  {
    if |tok| == 0 then []
    else if tok[0] == '%' then
      var k := PercentRun(tok);
      [Wild(k)] + Compile(tok[k..])
    else [Lit(tok[0])] + Compile(tok[1..])
  }

  /** Number of characters a compiled pattern consumes. */
  function ElemsLen(es: seq<Elem>): nat {
    if |es| == 0 then 0
    else (match es[0] case Wild(n) => n case Lit(_) => 1) + ElemsLen(es[1..])
  }

  /** `count` characters from `i` on, none of them a divider. */
  predicate WildOk(name: string, i: nat, count: nat)
    decreases count
  {
    count == 0 || (i < |name| && !IsDivider(name[i]) && WildOk(name, i + 1, count - 1))
  }

  /** The compiled body matches `name` from position `i`. */
  predicate ElemsMatch(es: seq<Elem>, name: string, i: nat)
    decreases |es|
  {
    if |es| == 0 then i <= |name|
    else match es[0]
      case Wild(n) => WildOk(name, i, n) && ElemsMatch(es[1..], name, i + n)
      case Lit(c) => i < |name| && Lower(name[i]) == Lower(c) && ElemsMatch(es[1..], name, i + 1)
  }

  /** Lookbehind `(?<=[_.\-])|^`. */
  predicate BoundedBefore(name: string, i: nat) {
    i == 0 || (i <= |name| && IsDivider(name[i - 1]))
  }

  /** Lookahead `(?=[_.\-]|$)`. */
  predicate BoundedAfter(name: string, e: nat) {
    e == |name| || (e < |name| && IsDivider(name[e]))
  }

  /** The full compiled task pattern matches at `i`. */
  predicate PatternAt(name: string, tok: string, i: nat) {
    BoundedBefore(name, i) && ElemsMatch(Compile(tok), name, i) && BoundedAfter(name, i + |tok|)
  }

  /** Independent reading of the rules: '%' matches one non-divider, any other
      character matches itself ignoring case. */
  predicate CharMatches(t: char, c: char) {
    if t == '%' then !IsDivider(c) else Lower(t) == Lower(c)
  }

  predicate MatchesAt(name: string, tok: string, i: nat) {
    BoundedBefore(name, i) && BoundedAfter(name, i + |tok|) && PerChar(tok, name, i)
  }

  lemma {:induction false} WildOkIff(name: string, i: nat, n: nat)
    ensures WildOk(name, i, n) <==> (n == 0 || i + n <= |name|) && forall k :: i <= k < i + n ==> !IsDivider(name[k])
    decreases n
  {
    if n > 0 {
      WildOkIff(name, i + 1, n - 1);
      if i + n <= |name| && forall k :: i <= k < i + n ==> !IsDivider(name[k]) {
        assert !IsDivider(name[i]);
      }
    }
  }

  /** The compiled body matches exactly when every token character matches
      the name character at the same offset; so a match is always exactly as
      long as the token. */
  lemma {:induction false} CompileMatchesPerChar(tok: string, name: string, i: nat)
    ensures ElemsMatch(Compile(tok), name, i) <==> PerChar(tok, name, i)
    decreases |tok|
  {
    if |tok| > 0 {
      var k := if tok[0] == '%' then PercentRun(tok) else 1;
      var e := if tok[0] == '%' then Wild(k) else Lit(tok[0]);
      var rest := tok[k..];
      var es := Compile(tok);
      CompileMatchesPerChar(rest, name, i + k);
      assert es == [e] + Compile(rest);
      assert es[0] == e && es[1..] == Compile(rest);
      var head := if tok[0] == '%' then WildOk(name, i, k) else i < |name| && Lower(name[i]) == Lower(tok[0]);
      assert ElemsMatch(es, name, i) == (head && ElemsMatch(Compile(rest), name, i + k));
      if tok[0] == '%' {
        WildOkIff(name, i, k);
      }
      PerCharSplit(tok, name, i, k);
    }
  }

  /** Every character of `tok` matches the name at the same offset from `i`. */
  predicate PerChar(tok: string, name: string, i: nat) {
    i + |tok| <= |name| && forall k :: 0 <= k < |tok| ==> CharMatches(tok[k], name[i + k])
  }

  lemma PerCharSplit(tok: string, name: string, i: nat, k: nat)
    requires 0 < k <= |tok|
    requires tok[0] != '%' ==> k == 1
    requires forall j :: 0 <= j < k ==> (tok[j] == '%') == (tok[0] == '%')
    ensures PerChar(tok, name, i) <==>
      (if tok[0] == '%' then i + k <= |name| && forall j :: i <= j < i + k ==> !IsDivider(name[j])
       else i < |name| && Lower(name[i]) == Lower(tok[0]))
      && PerChar(tok[k..], name, i + k)
  {
    var rest := tok[k..];
    if PerChar(tok, name, i) {
      forall j | 0 <= j < |rest| ensures CharMatches(rest[j], name[i + k + j]) {
        assert rest[j] == tok[k + j];
        assert CharMatches(tok[k + j], name[i + (k + j)]);
      }
      if tok[0] == '%' {
        forall j | i <= j < i + k ensures !IsDivider(name[j]) {
          assert CharMatches(tok[j - i], name[i + (j - i)]);
        }
      } else {
        assert CharMatches(tok[0], name[i + 0]);
      }
    }
    if PerChar(rest, name, i + k) && (if tok[0] == '%' then i + k <= |name| && forall j :: i <= j < i + k ==> !IsDivider(name[j])
       else i < |name| && Lower(name[i]) == Lower(tok[0])) {
      forall j | 0 <= j < |tok| ensures CharMatches(tok[j], name[i + j]) {
        if j >= k {
          assert tok[j] == rest[j - k];
          assert CharMatches(rest[j - k], name[i + k + (j - k)]);
        }
      }
    }
  }

  /** The compiled task pattern and the per-character reading agree. */
  lemma PatternAtIff(name: string, tok: string, i: nat)
    ensures PatternAt(name, tok, i) <==> MatchesAt(name, tok, i)
  {
    CompileMatchesPerChar(tok, name, i);
  }

  /** 'comp' never matches inside 'compositor': a match needs a divider or
      the end of the text right after it. */
  lemma NoMatchInsideWord(name: string, tok: string, i: nat)
    requires i + |tok| < |name| && !IsDivider(name[i + |tok|])
    ensures !PatternAt(name, tok, i)
  {
  }

  // ---------------------------------------------------------------------------
  // find_task_tokens
  // ---------------------------------------------------------------------------

  /** Start positions `pattern.finditer(name)` reports from `pos` on: after a
      match the search resumes at its end (one further for an empty match). */
  function FindFrom(name: string, tok: string, pos: nat): (r: seq<nat>)
    requires pos <= |name| + 1
    ensures forall k :: 0 <= k < |r| ==> pos <= r[k] <= |name| && PatternAt(name, tok, r[k])
    ensures forall k, l :: 0 <= k < l < |r| ==> r[k] + |tok| <= r[l]
    decreases |name| + 1 - pos
  {
    if pos > |name| then []
    else if PatternAt(name, tok, pos) then
      CompileMatchesPerChar(tok, name, pos);
      var next := pos + (if |tok| == 0 then 1 else |tok|);
      [pos] + FindFrom(name, tok, next)
    else FindFrom(name, tok, pos + 1)
  }

  /** The search finds nothing exactly when no position from `pos` matches. */
  lemma {:induction false} FindFromEmptyIff(name: string, tok: string, pos: nat)
    requires pos <= |name| + 1
    ensures FindFrom(name, tok, pos) == [] <==> forall i :: pos <= i <= |name| ==> !PatternAt(name, tok, i)
    decreases |name| + 1 - pos
  {
    if pos <= |name| && !PatternAt(name, tok, pos) {
      FindFromEmptyIff(name, tok, pos + 1);
    }
  }

  /** No character of the token is a divider. */
  predicate DividerFree(tok: string) {
    forall k :: 0 <= k < |tok| ==> !IsDivider(tok[k])
  }

  /** Two matches of a divider-free token never overlap. */
  lemma NoOverlap(name: string, tok: string, p: nat, i: nat)
    requires DividerFree(tok)
    requires MatchesAt(name, tok, p) && MatchesAt(name, tok, i)
    requires p < i
    ensures p + |tok| <= i
  {
    forall j | p <= j < p + |tok| ensures !IsDivider(name[j]) {
      assert CharMatches(tok[j - p], name[p + (j - p)]);
    }
  }

  /** For a divider-free token every match position at or after `pos` is
      reported. */
  lemma {:induction false} FindFromComplete(name: string, tok: string, pos: nat, i: nat)
    requires DividerFree(tok)
    requires pos <= i <= |name| && PatternAt(name, tok, i)
    ensures i in FindFrom(name, tok, pos)
    decreases |name| + 1 - pos
  {
    if pos < i {
      if PatternAt(name, tok, pos) {
        PatternAtIff(name, tok, pos);
        PatternAtIff(name, tok, i);
        if |tok| > 0 {
          NoOverlap(name, tok, pos, i);
        }
        var next := pos + (if |tok| == 0 then 1 else |tok|);
        FindFromComplete(name, tok, next, i);
      } else {
        FindFromComplete(name, tok, pos + 1, i);
      }
    }
  }

  /** One entry of `find_task_tokens`: the token, the matched text and its
      half-open span. */
  datatype TaskMatch = TaskMatch(token: string, text: string, start: nat, end: nat)

  /** A well-formed report of `tok` matching `name`. */
  predicate IsMatchOf(name: string, m: TaskMatch) {
    m.end == m.start + |m.token| && m.end <= |name| &&
    m.text == name[m.start..m.end] && MatchesAt(name, m.token, m.start)
  }

  function MatchesFor(name: string, tok: string, starts: seq<nat>): (r: seq<TaskMatch>)
    requires forall k :: 0 <= k < |starts| ==> starts[k] + |tok| <= |name| && PatternAt(name, tok, starts[k])
    ensures |r| == |starts|
    ensures forall k :: 0 <= k < |r| ==> r[k].token == tok && r[k].start == starts[k] && IsMatchOf(name, r[k])
  {
    if |starts| == 0 then []
    else
      PatternAtIff(name, tok, starts[0]);
      [TaskMatch(tok, name[starts[0]..starts[0] + |tok|], starts[0], starts[0] + |tok|)]
        + MatchesFor(name, tok, starts[1..])
  }

  /** Matches for a single token, in the order finditer yields them. */
  function TokenMatches(name: string, tok: string): (r: seq<TaskMatch>)
    ensures forall k :: 0 <= k < |r| ==> r[k].token == tok && IsMatchOf(name, r[k])
    ensures r == [] <==> forall i :: 0 <= i <= |name| ==> !PatternAt(name, tok, i)
    ensures |r| == |FindFrom(name, tok, 0)| && forall k :: 0 <= k < |r| ==> r[k].start == FindFrom(name, tok, 0)[k]
  {
    var starts := FindFrom(name, tok, 0);
    FindFromEmptyIff(name, tok, 0);
    forall k | 0 <= k < |starts| ensures starts[k] + |tok| <= |name| {
      CompileMatchesPerChar(tok, name, starts[k]);
    }
    MatchesFor(name, tok, starts)
  }

  /** Matches of every token, token by token, before sorting. */
  function AllMatches(name: string, tokens: seq<string>): (r: seq<TaskMatch>)
    ensures forall k :: 0 <= k < |r| ==> r[k].token in tokens && IsMatchOf(name, r[k])
    ensures r == [] <==> forall t, i :: t in tokens && 0 <= i <= |name| ==> !PatternAt(name, t, i)
  {
    if |tokens| == 0 then []
    else
      var first := TokenMatches(name, tokens[0]);
      var rest := AllMatches(name, tokens[1..]);
      assert forall t :: t in tokens[1..] ==> t in tokens;
      assert forall t :: t in tokens ==> t == tokens[0] || t in tokens[1..];
      first + rest
  }

  predicate StartLe(a: TaskMatch, b: TaskMatch) {
    a.start <= b.start
  }

  /** `find_task_tokens(name, task_patterns)`: every match of every token,
      stably sorted by start position. */
  function FindTaskTokens(name: string, tokens: seq<string>): (r: seq<TaskMatch>)
    ensures forall k :: 0 <= k < |r| ==> r[k].token in tokens && IsMatchOf(name, r[k])
    ensures SortedBy(r, StartLe)
    ensures r == [] <==> forall t, i :: t in tokens && 0 <= i <= |name| ==> !PatternAt(name, t, i)
  {
    var all := AllMatches(name, tokens);
    var r := SortBy(all, StartLe);
    SortedFrom(all, r);
    r
  }

  /** A reordering holds only entries of the original. */
  lemma SortedFrom(all: seq<TaskMatch>, r: seq<TaskMatch>)
    requires multiset(r) == multiset(all)
    ensures forall k :: 0 <= k < |r| ==> r[k] in all
  {
    forall k | 0 <= k < |r| ensures r[k] in all {
      assert r[k] in multiset(all);
    }
  }

  /** Every match of a divider-free token is reported. */
  lemma FindTaskTokensComplete(name: string, tokens: seq<string>, tok: string, i: nat)
    requires tok in tokens && DividerFree(tok) && MatchesAt(name, tok, i)
    ensures exists k :: (0 <= k < |FindTaskTokens(name, tokens)| &&
      FindTaskTokens(name, tokens)[k].token == tok && FindTaskTokens(name, tokens)[k].start == i)
  {
    PatternAtIff(name, tok, i);
    FindFromComplete(name, tok, 0, i);
    InAllMatches(name, tokens, tok, i);
    var m := TaskMatch(tok, name[i..i + |tok|], i, i + |tok|);
    InFindTaskTokens(name, tokens, m);
    var r := FindTaskTokens(name, tokens);
    var k :| 0 <= k < |r| && r[k] == m;
  }

  /** Sorting keeps every match. */
  lemma InFindTaskTokens(name: string, tokens: seq<string>, m: TaskMatch)
    requires m in AllMatches(name, tokens)
    ensures m in FindTaskTokens(name, tokens)
  {
    var all := AllMatches(name, tokens);
    assert m in multiset(all);
    assert m in multiset(FindTaskTokens(name, tokens));
  }

  lemma {:induction false} InAllMatches(name: string, tokens: seq<string>, tok: string, i: nat)
    requires tok in tokens && i in FindFrom(name, tok, 0)
    ensures i + |tok| <= |name| && TaskMatch(tok, name[i..i + |tok|], i, i + |tok|) in AllMatches(name, tokens)
    decreases |tokens|
  {
    var m := TaskMatch(tok, name[i..i + |tok|], i, i + |tok|);
    if tokens[0] == tok {
      InTokenMatches(name, tok, i);
    } else {
      assert tok in tokens[1..] by {
        var k :| 0 <= k < |tokens| && tokens[k] == tok;
        assert tokens[1..][k - 1] == tok;
      }
      InAllMatches(name, tokens[1..], tok, i);
    }
    AllMatchesMember(name, tokens, m);
  }

  /** Each reported position of a token gives one entry of its matches. */
  lemma InTokenMatches(name: string, tok: string, i: nat)
    requires i in FindFrom(name, tok, 0)
    ensures i + |tok| <= |name| && TaskMatch(tok, name[i..i + |tok|], i, i + |tok|) in TokenMatches(name, tok)
  {
    var starts := FindFrom(name, tok, 0);
    var j :| 0 <= j < |starts| && starts[j] == i;
    TokenMatchAt(name, tok, j, i);
    var first := TokenMatches(name, tok);
    assert first[j] in first;
  }

  /** The `j`th entry of a token's matches is the match at its `j`th
      reported position. */
  lemma TokenMatchAt(name: string, tok: string, j: nat, i: nat)
    requires j < |FindFrom(name, tok, 0)| && FindFrom(name, tok, 0)[j] == i
    ensures i + |tok| <= |name| && TokenMatches(name, tok)[j] == TaskMatch(tok, name[i..i + |tok|], i, i + |tok|)
  {
    var mj := TokenMatches(name, tok)[j];
    assert mj.token == tok && IsMatchOf(name, mj);
  }

  lemma AllMatchesMember(name: string, tokens: seq<string>, m: TaskMatch)
    requires |tokens| > 0
    ensures m in AllMatches(name, tokens) <==> m in TokenMatches(name, tokens[0]) || m in AllMatches(name, tokens[1..])
  {
    assert AllMatches(name, tokens) == TokenMatches(name, tokens[0]) + AllMatches(name, tokens[1..]);
  }

  // ---------------------------------------------------------------------------
  // strip_task_tokens
  // ---------------------------------------------------------------------------

  /** Removes one reported match from the current text, clamping its span to
      the text and taking the preceding divider, or else the following one. */
  function RemoveMatch(result: string, m: TaskMatch): (r: string)
    ensures |r| <= |result|
  {
    var start := if m.start < |result| then m.start else |result|;
    var end := if m.end < |result| then m.end else |result|;
    var end := if end < start then start else end;
    if start > 0 && IsDivider(result[start - 1]) then result[..start - 1] + result[end..]
    else if end < |result| && IsDivider(result[end]) then result[..start] + result[end + 1..]
    else result[..start] + result[end..]
  }

  /** Applies the removals from the last reported match to the first. */
  function RemoveReversed(result: string, ms: seq<TaskMatch>): (r: string)
    ensures |r| <= |result|
    decreases |ms|
  {
    if |ms| == 0 then result
    else RemoveReversed(RemoveMatch(result, ms[|ms| - 1]), ms[..|ms| - 1])
  }

  /** `strip_task_tokens(name, task_patterns)`. */
  function StripTaskTokens(name: string, tokens: seq<string>): (r: string)
    ensures |tokens| == 0 ==> r == name
    ensures (forall t, i :: t in tokens && 0 <= i <= |name| ==> !MatchesAt(name, t, i)) ==> r == name
    ensures (exists t, i :: t in tokens && 0 <= i <= |name| && MatchesAt(name, t, i)) ==> WellDivided(r)
    ensures |r| <= |name|
  {
    if |tokens| == 0 then name
    else
      var ms := FindTaskTokens(name, tokens);
      forall t, i | t in tokens && 0 <= i <= |name| ensures PatternAt(name, t, i) <==> MatchesAt(name, t, i) {
        PatternAtIff(name, t, i);
      }
      if |ms| == 0 then name
      else CleanDividers(RemoveReversed(name, ms))
  }

  /** Removing a token that sits at the end after a divider takes that
      divider with it. */
  lemma RemoveTrailingToken(head: string, tok: string, m: TaskMatch)
    requires |head| > 0 && IsDivider(head[|head| - 1])
    requires m.start == |head| && m.end == |head| + |tok|
    ensures RemoveMatch(head + tok, m) == head[..|head| - 1]
  {
    var s := head + tok;
    assert s[..|head| - 1] == head[..|head| - 1];
    assert s[|head| + |tok|..] == [];
  }

  // ---------------------------------------------------------------------------
  // strip_version, strip_frame_and_ext
  // ---------------------------------------------------------------------------

  /** `strip_version(name)`: the leftmost version marker is removed, then the
      dividers are tidied. */
  function StripVersion(name: string): (r: string)
    ensures WellDivided(r)
    ensures |r| <= |name|
    ensures FindVersion(name).Some? ==> |r| + 3 <= |name|
  {
    CleanDividers(RemoveFirstVersion(name))
  }

  /** A tidy name with no version marker is its own stripped form. */
  lemma StripVersionFixed(name: string)
    requires WellDivided(name) && FindVersion(name).None?
    ensures StripVersion(name) == name
  {
    CleanWellDivided(name);
  }

  /** Only the leftmost marker goes: a later marker in the text after the
      first one survives the removal. */
  lemma StripVersionKeepsLaterText(name: string)
    requires FindVersion(name).Some?
    ensures var i := FindVersion(name).value;
      RemoveFirstVersion(name) == name[..i] + name[VersionEnd(name, i)..]
  {
  }

  /** `strip_frame_and_ext(filename)`. */
  function StripFrameAndExt(filename: string): (r: string)
    ensures FindFrame(filename).Some? ==> r == filename[..FindFrame(filename).value]
    ensures FindFrame(filename).None? ==> r == Paths.Stem(Paths.Name(filename))
  {
    match FindFrame(filename)
    case Some(i) => filename[..i]
    case None => Paths.Stem(Paths.Name(filename))
  }

  /** With a frame suffix the result is exactly the text before it, and the
      suffix (divider, 3-8 digits, '.', word characters) completes it back to
      the file name. */
  lemma StripFrameAndExtSplits(filename: string)
    requires FindFrame(filename).Some?
    ensures var f := FrameSplit(filename, FindFrame(filename).value);
      StripFrameAndExt(filename) + [f.sep] + f.digits + "." + f.ext == filename
  {
    var i := FindFrame(filename).value;
    var f := FrameSplit(filename, i);
    assert filename == filename[..i] + filename[i..];
    PrefixRegroup(filename[..i], [f.sep], f.digits, ".", f.ext);
  }

  /** Without a frame suffix, only the last extension of a plain file name
      is dropped. */
  lemma StripFrameAndExtDropsExtension(filename: string)
    requires FindFrame(filename).None?
    requires '/' !in filename && filename != "" && filename != "."
    ensures StripFrameAndExt(filename) + Paths.Suffix(filename) == filename
  {
    Paths.NameOfComponent(filename);
  }

  // ---------------------------------------------------------------------------
  // derive_source_tokens
  // ---------------------------------------------------------------------------

  /** The four naming tokens of a source file. */
  datatype SourceTokens = SourceTokens(filename: string, fullname: string, name: string, basename: string)

  /** `derive_source_tokens(source_path_or_name, task_patterns)`. */
  function DeriveSourceTokens(pathOrName: string, tokens: seq<string>): (r: SourceTokens)
    ensures r.filename == Paths.Name(pathOrName)
    ensures r.fullname == StripFrameAndExt(r.filename)
    ensures r.name == StripVersion(r.fullname)
    ensures r.basename == (if StripTaskTokens(r.name, tokens) == "" then r.name else StripTaskTokens(r.name, tokens))
    ensures WellDivided(r.name) && WellDivided(r.basename)
    ensures r.basename == "" ==> r.name == ""
  {
    var filename := Paths.Name(pathOrName);
    var fullname := StripFrameAndExt(filename);
    var name := StripVersion(fullname);
    var stripped := StripTaskTokens(name, tokens);
    var basename := if stripped == "" then name else stripped;
    SourceTokens(filename, fullname, name, basename)
  }

  // ---------------------------------------------------------------------------
  // compute_source_name, get_naming_options
  // ---------------------------------------------------------------------------

  /** The digit body `int()` accepts: ASCII digits, with single underscores
      allowed between two digits. */
  predicate DigitGroups(s: string) {
    |s| > 0 && IsDigit(s[0]) && IsDigit(s[|s| - 1]) &&
    (forall k :: 0 <= k < |s| ==> IsDigit(s[k]) || s[k] == '_') &&
    (forall k :: 0 < k < |s| ==> !(s[k - 1] == '_' && s[k] == '_'))
  }

  /** The digits of `s`, underscores dropped. */
  function Ungrouped(s: string): (r: string)
    requires forall k :: 0 <= k < |s| ==> IsDigit(s[k]) || s[k] == '_'
    ensures AllDigits(r) && |r| <= |s|
    ensures AllDigits(s) ==> r == s
  {
    if |s| == 0 then ""
    else (if s[0] == '_' then "" else [s[0]]) + Ungrouped(s[1..])
  }

  /** Python's `int(s)` on text: surrounding whitespace, an optional sign and
      ASCII digits with single underscores between them; `None` stands for
      `ValueError`. */
  function ParseInt(s: string): (r: Option<int>)
    ensures DigitGroups(s) ==> r == Some(DigitsValue(Ungrouped(s)))
    ensures AllDigits(s) && |s| > 0 ==> r == Some(DigitsValue(s))
  {
    var t := TrimBy(s, IsSpace);
    assert DigitGroups(s) ==> t == s by {
      if DigitGroups(s) {
        TrimNothing(s, IsSpace);
      }
    }
    if |t| > 1 && (t[0] == '+' || t[0] == '-') && DigitGroups(t[1..]) then
      var v: int := DigitsValue(Ungrouped(t[1..]));
      Some(if t[0] == '-' then -v else v)
    else if DigitGroups(t) then Some(DigitsValue(Ungrouped(t)))
    else None
  }

  /** `int("1_0")` is 10; a doubled, leading or trailing underscore is a
      `ValueError`. */
  lemma ParseIntUnderscores()
    ensures ParseInt("1_0") == Some(10)
    ensures ParseInt("1__0") == None && ParseInt("_1") == None && ParseInt("1_") == None
  {
    assert DigitGroups("1_0");
    assert Ungrouped("1_0") == "10";
    assert DigitsValue("10") == 10 by { assert "10"[..1] == "1"; }
    assert !DigitGroups("1__0") by { assert "1__0"[1] == '_' && "1__0"[2] == '_'; }
    TrimNothing("1__0", IsSpace);
    TrimNothing("_1", IsSpace);
    TrimNothing("1_", IsSpace);
  }

  const ParentPrefix := "parent:"

  /** Depth requested by a "parent:N" rule; a missing or non-integer N is 0. */
  function ParentDepth(rule: string): (d: int)
    requires StartsWith(rule, ParentPrefix)
  {
    var parts := Split(rule, ':');
    if |parts| < 2 then 0
    else match ParseInt(parts[1]) case Some(n) => n case None => 0
  }

  /** `compute_source_name` for a discovery result with the given path, name
      and sample file name. `Err` stands for the `IndexError` a negative
      depth beyond the path raises. */
  function ComputeSourceName(path: string, resultName: string, sample: string, rule: string, tokens: seq<string>): (r: Result<string, string>)
    ensures StartsWith(rule, ParentPrefix) && 0 <= ParentDepth(rule) < |Paths.Parts(path)| ==>
      r == Ok(Paths.Parts(path)[|Paths.Parts(path)| - 1 - ParentDepth(rule)])
    ensures StartsWith(rule, ParentPrefix) && ParentDepth(rule) >= |Paths.Parts(path)| ==>
      r == Ok(if |Paths.Parts(path)| > 0 then Paths.Parts(path)[0] else resultName)
    ensures !StartsWith(rule, ParentPrefix) ==> r.Ok?
    ensures !StartsWith(rule, ParentPrefix) && rule != "source_basename" && rule != "source_fullname" ==>
      r == Ok(DeriveSourceTokens(if sample != "" then sample else resultName, tokens).name)
    ensures !StartsWith(rule, ParentPrefix) && rule == "source_basename" ==> r == Ok(DeriveSourceTokens(if sample != "" then sample else resultName, tokens).basename)
    ensures !StartsWith(rule, ParentPrefix) && rule == "source_fullname" ==> r == Ok(DeriveSourceTokens(if sample != "" then sample else resultName, tokens).fullname)
  {
    if StartsWith(rule, ParentPrefix) then ParentName(Paths.Parts(path), resultName, ParentDepth(rule))
    else Ok(FileRuleName(if sample != "" then sample else resultName, rule, tokens))
  }

  /** `parts[-(depth + 1)]` when `depth < len(parts)` (Python indexing, so a
      negative depth counts from the front and can fall off the end), else
      the first part, or the result name for an empty path. */
  function ParentName(parts: seq<string>, resultName: string, depth: int): (r: Result<string, string>)
    ensures 0 <= depth < |parts| ==> r == Ok(parts[|parts| - 1 - depth])
    ensures depth >= |parts| ==> r == Ok(if |parts| > 0 then parts[0] else resultName)
    ensures depth < 0 ==> (r.Ok? <==> -(depth + 1) < |parts|)
  {
    if depth < |parts| then
      var idx := -(depth + 1);
      if idx < 0 then Ok(parts[|parts| + idx])
      else if idx < |parts| then Ok(parts[idx])
      else Err("IndexError")
    else if |parts| > 0 then Ok(parts[0])
    else Ok(resultName)
  }

  /** The derived token a file rule names; any other rule gives the name. */
  function FileRuleName(pathOrName: string, rule: string, tokens: seq<string>): (r: string)
    ensures rule == "source_basename" ==> r == DeriveSourceTokens(pathOrName, tokens).basename
    ensures rule == "source_fullname" ==> r == DeriveSourceTokens(pathOrName, tokens).fullname
    ensures rule != "source_basename" && rule != "source_fullname" ==> r == DeriveSourceTokens(pathOrName, tokens).name
  {
    var tks := DeriveSourceTokens(pathOrName, tokens);
    if rule == "source_basename" then tks.basename
    else if rule == "source_fullname" then tks.fullname
    else tks.name
  }

  /** One entry offered by the naming-rule dialog. */
  datatype NamingOption = NamingOption(rule: string, title: string, preview: string)

  /** A Windows drive letter such as "C:\", which is never offered. */
  predicate IsDriveLike(dirname: string) {
    |dirname| <= 3 && ':' in dirname
  }

  /** `o` offers the directory `d` levels up, for some `d < count`. */
  ghost predicate IsParentOption(parts: seq<string>, count: nat, o: NamingOption)
    requires count <= |parts|
  {
    exists d: nat :: d < count && o.rule == ParentPrefix + NatToString(d) &&
      o.preview == parts[|parts| - 1 - d] && !IsDriveLike(o.preview)
  }

  function ParentOptions(parts: seq<string>, depth: nat, count: nat): (r: seq<NamingOption>)
    requires count <= |parts|
    ensures forall k :: 0 <= k < |r| ==> IsParentOption(parts, count, r[k])
    decreases count - depth
  {
    if depth >= count then []
    else
      var dirname := parts[|parts| - 1 - depth];
      var rest := ParentOptions(parts, depth + 1, count);
      if IsDriveLike(dirname) then rest
      else
        var title := "Parent directory: \"" + dirname + "\"" +
          (if depth > 0 then "  (depth " + NatToString(depth) + ")" else "");
        [NamingOption(ParentPrefix + NatToString(depth), title, dirname)] + rest
  }

  /** The file-based options, offered when a sample file name is known. */
  function FileOptions(t: SourceTokens, tokens: seq<string>): (r: seq<NamingOption>)
    ensures |r| >= 1 && r[0].rule == "source_name" && r[0].preview == t.name
    ensures forall k :: 0 <= k < |r| ==>
      (r[k].rule == "source_name" && r[k].preview == t.name) ||
      (r[k].rule == "source_basename" && r[k].preview == t.basename) ||
      (r[k].rule == "source_fullname" && r[k].preview == t.fullname)
    ensures (exists k :: 0 <= k < |r| && r[k].rule == "source_basename") <==> |tokens| > 0 && t.basename != t.name
    ensures (exists k :: 0 <= k < |r| && r[k].rule == "source_fullname") <==> t.fullname != t.name
  {
    var nameOpt := NamingOption("source_name", "Source name: \"" + t.name + "\"  (no version/frames)", t.name);
    var baseOpts := if |tokens| > 0 && t.basename != t.name then
        [NamingOption("source_basename", "Base name: \"" + t.basename + "\"  (no version/frames/tasks)", t.basename)]
      else [];
    var fullOpts := if t.fullname != t.name then
        [NamingOption("source_fullname", "Full name: \"" + t.fullname + "\"  (includes version)", t.fullname)]
      else [];
    var r := [nameOpt] + baseOpts + fullOpts;
    assert baseOpts != [] ==> r[1] == baseOpts[0];
    assert fullOpts != [] ==> r[|r| - 1] == fullOpts[0];
    r
  }

  /** Number of parent levels offered. */
  function ParentCount(parts: seq<string>, maxParentDepth: int): (n: nat)
    ensures n <= |parts| && n <= (if maxParentDepth < 0 then 0 else maxParentDepth)
  {
    if maxParentDepth < 0 then 0 else if maxParentDepth < |parts| then maxParentDepth else |parts|
  }

  /** `get_naming_options(discovery_result, task_patterns, max_parent_depth)`. */
  function GetNamingOptions(path: string, sample: string, tokens: seq<string>, maxParentDepth: int): (r: seq<NamingOption>)
    ensures sample == "" ==> r == ParentOptions(Paths.Parts(path), 0, ParentCount(Paths.Parts(path), maxParentDepth))
  {
    var parts := Paths.Parts(path);
    var parents := ParentOptions(parts, 0, ParentCount(parts, maxParentDepth));
    if sample == "" then parents
    else parents + FileOptions(DeriveSourceTokens(sample, tokens), tokens)
  }

  lemma ParentDepthOf(d: nat)
    ensures StartsWith(ParentPrefix + NatToString(d), ParentPrefix)
    ensures ParentDepth(ParentPrefix + NatToString(d)) == d
  {
    var digits := NatToString(d);
    var rule := ParentPrefix + digits;
    assert rule[..|ParentPrefix|] == ParentPrefix;
    assert ':' !in digits by {
      forall k | 0 <= k < |digits| ensures digits[k] != ':' {
        assert IsDigit(digits[k]);
      }
    }
    assert rule == "parent" + [':'] + digits;
    SplitAppend("parent", ':', digits);
    SplitNoSeparator("parent", ':');
  }

  /** A rule "parent:N" whose N is digits with single underscores between
      them reads N as `int()` does, so "parent:1_0" asks for depth 10. */
  lemma ParentDepthGrouped(body: string)
    requires DigitGroups(body)
    ensures StartsWith(ParentPrefix + body, ParentPrefix)
    ensures ParentDepth(ParentPrefix + body) == DigitsValue(Ungrouped(body))
  {
    var rule := ParentPrefix + body;
    assert rule[..|ParentPrefix|] == ParentPrefix;
    assert ':' !in body by {
      forall k | 0 <= k < |body| ensures body[k] != ':' {
        assert IsDigit(body[k]) || body[k] == '_';
      }
    }
    assert rule == "parent" + [':'] + body;
    SplitAppend("parent", ':', body);
    SplitNoSeparator("parent", ':');
  }

  /** The rule "parent:1_0" is read as depth 10, not rejected. */
  lemma ParentDepthUnderscore()
    ensures ParentDepth("parent:1_0") == 10
  {
    ParentDepthGrouped("1_0");
    assert ParentPrefix + "1_0" == "parent:1_0";
    ParseIntUnderscores();
  }

  /** Every option the dialog offers reproduces its own preview when applied
      as a naming rule to the same discovery result. */
  lemma NamingOptionsAgree(path: string, resultName: string, sample: string, tokens: seq<string>, maxParentDepth: int,
                           opts: seq<NamingOption>, k: nat)
    requires opts == GetNamingOptions(path, sample, tokens, maxParentDepth) && k < |opts|
    ensures ComputeSourceName(path, resultName, sample, opts[k].rule, tokens) == Ok(opts[k].preview)
  {
    var parts := Paths.Parts(path);
    var count := ParentCount(parts, maxParentDepth);
    var parents := ParentOptions(parts, 0, count);
    if sample == "" {
      ParentOptionAgrees(path, resultName, sample, tokens, count, parents[k]);
    } else {
      var files := FileOptions(DeriveSourceTokens(sample, tokens), tokens);
      assert opts == parents + files;
      OptionAt(parents, files, k);
      if k < |parents| {
        ParentOptionAgrees(path, resultName, sample, tokens, count, parents[k]);
      } else {
        FileOptionAgrees(path, resultName, sample, tokens, files[k - |parents|]);
      }
    }
  }

  lemma OptionAt(parents: seq<NamingOption>, files: seq<NamingOption>, k: nat)
    requires k < |parents| + |files|
    ensures k < |parents| ==> (parents + files)[k] == parents[k]
    ensures k >= |parents| ==> (parents + files)[k] == files[k - |parents|]
  {
  }

  lemma ParentOptionAgrees(path: string, resultName: string, sample: string, tokens: seq<string>, count: nat, o: NamingOption)
    requires count <= |Paths.Parts(path)| && IsParentOption(Paths.Parts(path), count, o)
    ensures ComputeSourceName(path, resultName, sample, o.rule, tokens) == Ok(o.preview)
  {
    var parts := Paths.Parts(path);
    var d: nat :| d < count && o.rule == ParentPrefix + NatToString(d) && o.preview == parts[|parts| - 1 - d];
    ParentDepthOf(d);
    ParentRuleName(path, resultName, sample, o.rule, tokens, d);
  }

  /** A `parent:d` rule within the path names the folder `d` levels up. */
  lemma ParentRuleName(path: string, resultName: string, sample: string, rule: string, tokens: seq<string>, d: nat)
    requires StartsWith(rule, ParentPrefix) && ParentDepth(rule) == d && d < |Paths.Parts(path)|
    ensures ComputeSourceName(path, resultName, sample, rule, tokens) == Ok(Paths.Parts(path)[|Paths.Parts(path)| - 1 - d])
  {
  }

  lemma FileOptionAgrees(path: string, resultName: string, sample: string, tokens: seq<string>, o: NamingOption)
    requires sample != ""
    requires var t := DeriveSourceTokens(sample, tokens);
      (o.rule == "source_name" && o.preview == t.name) ||
      (o.rule == "source_basename" && o.preview == t.basename) ||
      (o.rule == "source_fullname" && o.preview == t.fullname)
    ensures ComputeSourceName(path, resultName, sample, o.rule, tokens) == Ok(o.preview)
  {
    assert o.rule[0] == 's';
    NotParentRule(o.rule);
  }

  lemma NotParentRule(rule: string)
    requires |rule| > 0 && rule[0] != 'p'
    ensures !StartsWith(rule, ParentPrefix)
  {
  }

  /** The documented example: a frame of "hero_comp" version 1 with the task
      token "comp". */
  lemma DeriveExample()
    ensures DeriveSourceTokens("hero_comp_v001.1001.exr", ["comp"]) ==
      SourceTokens("hero_comp_v001.1001.exr", "hero_comp_v001", "hero_comp", "hero")
  {
    var file := "hero_comp_v001.1001.exr";
    assert '/' !in file;
    Paths.NameOfComponent(file);
    ExampleFullname();
    ExampleName();
    ExampleBasename();
  }

  lemma ExampleFullname()
    ensures StripFrameAndExt("hero_comp_v001.1001.exr") == "hero_comp_v001"
  {
    var file := "hero_comp_v001.1001.exr";
    assert DigitRun(file, 19) == 0;
    assert DigitRun(file, 15) == 4;
    assert AllWordChars(file[20..]);
    assert FrameAt(file, 14);
    FindFrameFinds(file, 14);
  }

  lemma ExampleName()
    ensures StripVersion("hero_comp_v001") == "hero_comp"
  {
    ExampleVersionRemoved();
    ExampleHeroComp();
  }

  lemma ExampleHeroComp()
    ensures CleanDividers("hero_comp") == "hero_comp"
  {
    var h := "hero_comp";
    forall i | 0 < i < |h| ensures !(IsDivider(h[i - 1]) && IsDivider(h[i])) {
      if i != 4 && i != 5 {
        assert !IsDivider(h[i]);
      }
    }
    CleanWellDivided(h);
  }

  lemma ExampleVersionRemoved()
    ensures RemoveFirstVersion("hero_comp_v001") == "hero_comp"
  {
    var full := "hero_comp_v001";
    ExampleVersionFound();
    ExampleVersionEnd();
    assert full[..9] + full[14..] == "hero_comp";
  }

  lemma ExampleVersionFound()
    ensures FindVersion("hero_comp_v001") == Some(9)
  {
    var full := "hero_comp_v001";
    assert VersionAt(full, 9);
    forall j: nat | j < 9 ensures !VersionAt(full, j) {
      if j == 4 {
        assert full[5] == 'c';
      } else {
        assert !IsDivider(full[j]);
      }
    }
    FindVersionAt(full, 9);
  }

  lemma ExampleVersionEnd()
    ensures VersionAt("hero_comp_v001", 9) && VersionEnd("hero_comp_v001", 9) == 14
  {
    var full := "hero_comp_v001";
    assert VersionAt(full, 9);
    assert IsDigit(full[11]) && IsDigit(full[12]) && IsDigit(full[13]);
  }

  lemma ExampleBasename()
    ensures StripTaskTokens("hero_comp", ["comp"]) == "hero"
  {
    ExampleMatches();
    StripWithMatches("hero_comp", ["comp"]);
    ExampleRemoval();
    ExampleHero();
  }

  /** With at least one match, stripping cleans what the removals leave. */
  lemma StripWithMatches(name: string, tokens: seq<string>)
    requires |tokens| > 0 && |FindTaskTokens(name, tokens)| > 0
    ensures StripTaskTokens(name, tokens) == CleanDividers(RemoveReversed(name, FindTaskTokens(name, tokens)))
  {
  }

  lemma ExampleRemoval()
    ensures RemoveReversed("hero_comp", [TaskMatch("comp", "comp", 5, 9)]) == "hero"
  {
    var m := TaskMatch("comp", "comp", 5, 9);
    assert RemoveMatch("hero_comp", m) == "hero";
    assert [m][..0] == [];
  }

  lemma ExamplePositions()
    ensures FindFrom("hero_comp", "comp", 0) == [5]
  {
    var name := "hero_comp";
    var tok := "comp";
    forall i | 0 <= i <= |name| ensures PatternAt(name, tok, i) <==> i == 5 {
      PatternAtIff(name, tok, i);
      if i == 0 {
        assert !CharMatches(tok[0], name[0]);
      }
    }
    assert FindFrom(name, tok, 10) == [];
    assert FindFrom(name, tok, 9) == [];
    assert FindFrom(name, tok, 5) == [5];
    assert FindFrom(name, tok, 0) == FindFrom(name, tok, 1) == FindFrom(name, tok, 2);
    assert FindFrom(name, tok, 2) == FindFrom(name, tok, 3) == FindFrom(name, tok, 4) == FindFrom(name, tok, 5);
  }

  lemma ExampleMatches()
    ensures FindTaskTokens("hero_comp", ["comp"]) == [TaskMatch("comp", "comp", 5, 9)]
  {
    var name := "hero_comp";
    var tok := "comp";
    var m := TaskMatch(tok, "comp", 5, 9);
    ExamplePositions();
    assert name[5..9] == "comp";
    assert MatchesFor(name, tok, [5]) == [m];
    assert TokenMatches(name, tok) == [m];
    assert AllMatches(name, [tok]) == [m];
  }

  lemma ExampleHero()
    ensures CleanDividers("hero") == "hero"
  {
    var h := "hero";
    forall i | 0 <= i < |h| ensures !IsDivider(h[i]) {
    }
    CleanWellDivided(h);
  }
}

=== FILE: timecode.dfy ===
/** Start-timecode extraction: the SMPTE ST 12-1 time address stored in an
    OpenEXR `timeCode` attribute, the television-header timecode word of a DPX
    file (SMPTE ST 268), Nuke's `nuke/input/timecode` string attribute, the
    validator those strings pass, and the per-version lookup that fills in
    `start_timecode`. Files are byte sequences; the external `ffprobe` query
    is a parameter. */
module Timecode {
  import opened Wrappers
  import opened Strs
  import opened Fs
  import Paths
  import Models

  // ---------------------------------------------------------------------------
  // Reading bytes
  // ---------------------------------------------------------------------------

  /** `f.read(n)` at offset `pos`: at most `n` bytes, fewer at the end of the
      file, none past it. */
  function Read(data: seq<bv8>, pos: nat, n: nat): (r: seq<bv8>)
    ensures |r| <= n
    ensures |r| == n <==> pos + n <= |data| || n == 0
    ensures pos + n <= |data| ==> r == data[pos..pos + n]
  {
    var lo := if pos <= |data| then pos else |data|;
    var hi := if pos + n <= |data| then pos + n else |data|;
    data[lo..hi]
  }

  /** The 32-bit word whose least significant byte is `b0`. */
  function WordLE(b0: bv8, b1: bv8, b2: bv8, b3: bv8): bv32 {
    (b0 as bv32) | ((b1 as bv32) << 8) | ((b2 as bv32) << 16) | ((b3 as bv32) << 24)
  }

  /** `struct.unpack("<I", ...)` of the four bytes at `at`. */
  function U32LE(data: seq<bv8>, at: nat): bv32
    requires at + 4 <= |data|
  {
    WordLE(data[at], data[at + 1], data[at + 2], data[at + 3])
  }

  /** `struct.unpack(">I", ...)` of the four bytes at `at`. */
  function U32BE(data: seq<bv8>, at: nat): bv32
    requires at + 4 <= |data|
  {
    WordLE(data[at + 3], data[at + 2], data[at + 1], data[at])
  }

  /** The four bytes that `U32LE` reads back as `w`. */
  function LE32(w: bv32): (r: seq<bv8>)
    ensures |r| == 4
  {
    [(w & 0xFF) as bv8, ((w >> 8) & 0xFF) as bv8, ((w >> 16) & 0xFF) as bv8, (w >> 24) as bv8]
  }

  lemma LE32RoundTrip(w: bv32)
    ensures U32LE(LE32(w), 0) == w
  {
  }

  /** `(w >> shift) & mask` as a Python integer. */
  function Field(w: bv32, shift: bv32, mask: bv32): nat
    requires shift < 32
  {
    ((w >> shift) & mask) as nat
  }

  // ---------------------------------------------------------------------------
  // Time addresses and their text
  // ---------------------------------------------------------------------------

  datatype Time = Time(hours: nat, minutes: nat, seconds: nat, frames: nat)

  /** The sanity check both decoders apply before formatting. */
  predicate InRange(t: Time) {
    t.hours <= 23 && t.minutes <= 59 && t.seconds <= 59 && t.frames <= 59
  }

  /** `f"{hours:02d}:{minutes:02d}:{seconds:02d}:{frames:02d}"`. */
  function Text(t: Time): string {
    ZeroPad(t.hours, 2) + ":" + ZeroPad(t.minutes, 2) + ":" + ZeroPad(t.seconds, 2) + ":" + ZeroPad(t.frames, 2)
  }

  // ---------------------------------------------------------------------------
  // The timecode-string validator
  // ---------------------------------------------------------------------------

  /** `_is_valid_timecode_string`: at least eight characters that, once every
      ';' reads ':', split on ':' into four non-empty runs of digits. */
  predicate IsValidTimecodeString(s: string) {
    |s| >= 8 &&
    var parts := Split(ReplaceAll(s, ";", ":"), ':');
    |parts| == 4 && forall k :: 0 <= k < 4 ==> |parts[k]| > 0 && AllDigits(parts[k])
  }

  predicate IsSeparator(c: char) {
    c == ':' || c == ';'
  }

  /** Replacing the one-character text ";" works piece by piece. */
  lemma {:induction false} ReplaceAppend(x: string, y: string)
    ensures ReplaceAll(x + y, ";", ":") == ReplaceAll(x, ";", ":") + ReplaceAll(y, ";", ":")
    decreases |x|
  {
    if |x| == 0 {
      assert x + y == y;
    } else {
      ReplaceAppend(x[1..], y);
      assert (x + y)[1..] == x[1..] + y;
      assert (x + y)[..1] == x[..1];
      var rest := ReplaceAll(x[1..] + y, ";", ":");
      if x[0] == ';' {
        assert x[..1] == ";";
        assert ReplaceAll(x + y, ";", ":") == ":" + rest;
        assert ReplaceAll(x, ";", ":") == ":" + ReplaceAll(x[1..], ";", ":");
      } else {
        assert x[..1] != ";" by { assert x[..1][0] == x[0]; }
        assert (x + y)[0] == x[0];
        assert ReplaceAll(x + y, ";", ":") == [x[0]] + rest;
        assert ReplaceAll(x, ";", ":") == [x[0]] + ReplaceAll(x[1..], ";", ":");
      }
    }
  }

  /** Text without ';' is left as it is. */
  lemma {:induction false} ReplaceNothing(x: string)
    requires ';' !in x
    ensures ReplaceAll(x, ";", ":") == x
  {
    if |x| > 0 {
      assert x[..1] != ";" by { assert x[..1][0] == x[0]; }
      assert x == [x[0]] + x[1..];
      ReplaceNothing(x[1..]);
    }
  }

  lemma ReplaceSeparator(c: char)
    requires IsSeparator(c)
    ensures ReplaceAll([c], ";", ":") == ":"
  {
    assert [c][..1] == [c];
    assert [c][1..] == [];
  }

  lemma DigitsHaveNoSeparator(a: string)
    requires AllDigits(a)
    ensures ':' !in a && ';' !in a
  {
    assert forall k :: 0 <= k < |a| ==> IsDigit(a[k]);
  }

  /** Four non-empty digit groups joined by ':' or ';' (the drop-frame form)
      form a valid timecode string once they reach eight characters. */
  lemma GroupsAreValid(a: string, b: string, c: string, d: string, s1: char, s2: char, s3: char)
    requires |a| > 0 && |b| > 0 && |c| > 0 && |d| > 0
    requires AllDigits(a) && AllDigits(b) && AllDigits(c) && AllDigits(d)
    requires IsSeparator(s1) && IsSeparator(s2) && IsSeparator(s3)
    requires |a| + |b| + |c| + |d| >= 5
    ensures IsValidTimecodeString(a + [s1] + b + [s2] + c + [s3] + d)
  {
    DigitsHaveNoSeparator(a);
    DigitsHaveNoSeparator(b);
    DigitsHaveNoSeparator(c);
    DigitsHaveNoSeparator(d);
    var t := a + [':'] + b + [':'] + c + [':'] + d;
    ReplaceNormalises(a, b, c, d, s1, s2, s3);
    SplitNoSeparator(a, ':');
    SplitAppend(a, ':', b);
    SplitAppend(a + [':'] + b, ':', c);
    SplitAppend(a + [':'] + b + [':'] + c, ':', d);
    assert Split(t, ':') == [a, b, c, d];
  }

  lemma ReplaceNormalises(a: string, b: string, c: string, d: string, s1: char, s2: char, s3: char)
    requires ';' !in a && ';' !in b && ';' !in c && ';' !in d
    requires IsSeparator(s1) && IsSeparator(s2) && IsSeparator(s3)
    ensures ReplaceAll(a + [s1] + b + [s2] + c + [s3] + d, ";", ":")
         == a + [':'] + b + [':'] + c + [':'] + d
  {
    ReplaceNothing(a);
    ReplaceNothing(b);
    ReplaceNothing(c);
    ReplaceNothing(d);
    ReplaceSeparator(s1);
    ReplaceSeparator(s2);
    ReplaceSeparator(s3);
    ReplaceAppend(a, [s1]);
    ReplaceAppend(a + [s1], b);
    ReplaceAppend(a + [s1] + b, [s2]);
    ReplaceAppend(a + [s1] + b + [s2], c);
    ReplaceAppend(a + [s1] + b + [s2] + c, [s3]);
    ReplaceAppend(a + [s1] + b + [s2] + c + [s3], d);
  }

  /** Every formatted time address passes the validator. */
  lemma TextIsValid(t: Time)
    ensures IsValidTimecodeString(Text(t))
  {
    GroupsAreValid(ZeroPad(t.hours, 2), ZeroPad(t.minutes, 2), ZeroPad(t.seconds, 2), ZeroPad(t.frames, 2), ':', ':', ':');
    assert Text(t) == ZeroPad(t.hours, 2) + [':'] + ZeroPad(t.minutes, 2) + [':'] + ZeroPad(t.seconds, 2) + [':'] + ZeroPad(t.frames, 2);
  }

  /** Three groups are not enough, whatever their length. */
  lemma ThreeGroupsAreInvalid(a: string, b: string, c: string)
    requires AllDigits(a) && AllDigits(b) && AllDigits(c)
    ensures !IsValidTimecodeString(a + ":" + b + ":" + c)
  {
    DigitsHaveNoSeparator(a);
    DigitsHaveNoSeparator(b);
    DigitsHaveNoSeparator(c);
    var s := a + [':'] + b + [':'] + c;
    assert a + ":" + b + ":" + c == s;
    ReplaceNothing(a);
    ReplaceNothing(b);
    ReplaceNothing(c);
    ReplaceNothing([':']);
    ReplaceAppend(a, [':']);
    ReplaceAppend(a + [':'], b);
    ReplaceAppend(a + [':'] + b, [':']);
    ReplaceAppend(a + [':'] + b + [':'], c);
    SplitNoSeparator(a, ':');
    SplitAppend(a, ':', b);
    SplitAppend(a + [':'] + b, ':', c);
  }

  // ---------------------------------------------------------------------------
  // Binary-coded decimal
  // ---------------------------------------------------------------------------

  function Lo(b: bv8): bv32 {
    (b & 0xF) as bv32
  }

  function Hi(b: bv8): bv32 {
    (b >> 4) as bv32
  }

  /** One byte holding a tens digit in its high nibble and a units digit in
      its low nibble. */
  function Bcd(tens: nat, units: nat): bv8
    requires tens < 16 && units < 16
  {
    ((tens as bv8) << 4) | (units as bv8)
  }

  /** The two decimal digits of `n` as one BCD byte. */
  function Digits(n: nat): bv8
    requires n < 100
  {
    Bcd(n / 10, n % 10)
  }

  lemma BcdNibbles(tens: nat, units: nat)
    requires tens < 16 && units < 16
    ensures Lo(Bcd(tens, units)) as nat == units
    ensures Hi(Bcd(tens, units)) as nat == tens
  {
  }

  /** Where each nibble of the four bytes lands in the word. */
  lemma WordNibbles(b0: bv8, b1: bv8, b2: bv8, b3: bv8)
    ensures var w := WordLE(b0, b1, b2, b3);
      && (w >> 0) & 0xF == Lo(b0) && (w >> 4) & 0xF == Hi(b0)
      && (w >> 8) & 0xF == Lo(b1) && (w >> 12) & 0xF == Hi(b1)
      && (w >> 16) & 0xF == Lo(b2) && (w >> 20) & 0xF == Hi(b2)
      && (w >> 24) & 0xF == Lo(b3) && (w >> 28) & 0xF == Hi(b3)
  {
  }

  // ---------------------------------------------------------------------------
  // SMPTE ST 12-1 time address (the EXR `timeCode` attribute)
  // ---------------------------------------------------------------------------

  /** The fields of the first word: units in the low nibble of each byte,
      tens in the two or three bits above them. The remaining bits (drop
      frame, colour frame and the binary-group flags) are not read. */
  function SmpteTime(w: bv32): Time {
    Time(Field(w, 24, 0xF) + Field(w, 28, 0x3) * 10,
         Field(w, 16, 0xF) + Field(w, 20, 0x7) * 10,
         Field(w, 8, 0xF) + Field(w, 12, 0x7) * 10,
         Field(w, 0, 0xF) + Field(w, 4, 0x3) * 10)
  }

  /** The units digit of a BCD byte. */
  function Units(b: bv8): nat {
    (b & 0xF) as nat
  }

  /** The tens digit of a BCD byte, read through `mask`. */
  function Tens(b: bv8, mask: bv8): nat {
    ((b >> 4) & mask) as nat
  }

  /** The same fields read byte by byte: frames, seconds, minutes and hours
      in the four bytes of the word, least significant first. */
  function SmpteBytes(f: bv8, s: bv8, m: bv8, h: bv8): Time {
    Time(Units(h) + Tens(h, 0x3) * 10,
         Units(m) + Tens(m, 0x7) * 10,
         Units(s) + Tens(s, 0x7) * 10,
         Units(f) + Tens(f, 0x3) * 10)
  }

  lemma ByteFields(b: bv8, w: bv32, shift: bv32, mask: bv8)
    requires shift <= 24 && (w >> shift) & 0xFF == b as bv32
    requires mask == 0x3 || mask == 0x7
    ensures Field(w, shift, 0xF) == Units(b)
    ensures Field(w, shift + 4, mask as bv32) == Tens(b, mask)
  {
  }

  lemma WordBytes(f: bv8, s: bv8, m: bv8, h: bv8)
    ensures var w := WordLE(f, s, m, h);
      && (w >> 0) & 0xFF == f as bv32 && (w >> 8) & 0xFF == s as bv32
      && (w >> 16) & 0xFF == m as bv32 && (w >> 24) & 0xFF == h as bv32
  {
  }

  /** Reading the word and reading its bytes give the same time. */
  lemma SmpteWordIsBytes(f: bv8, s: bv8, m: bv8, h: bv8)
    ensures SmpteTime(WordLE(f, s, m, h)) == SmpteBytes(f, s, m, h)
  {
    var w := WordLE(f, s, m, h);
    WordBytes(f, s, m, h);
    ByteFields(f, w, 0, 0x3);
    ByteFields(s, w, 8, 0x7);
    ByteFields(m, w, 16, 0x7);
    ByteFields(h, w, 24, 0x3);
  }

  /** `_decode_smpte_timecode`: nothing for fewer than eight bytes; otherwise
      the time address in the first four bytes, if in range. */
  function DecodeSmpte(data: seq<bv8>): (r: Option<string>)
    ensures r.Some? ==> |data| >= 8 && IsValidTimecodeString(r.value)
    ensures |data| >= 8 && !InRange(SmpteBytes(data[0], data[1], data[2], data[3])) ==> r.None?
  {
    if |data| < 8 then None
    else
      var t := SmpteBytes(data[0], data[1], data[2], data[3]);
      if InRange(t) then TextIsValid(t); Some(Text(t)) else None
  }

  /** The decoder reads the fields of the first little-endian word, as the
      source does with `struct.unpack("<I", ...)` and shifts. */
  lemma DecodeSmpteWord(data: seq<bv8>)
    requires |data| >= 8
    ensures var t := SmpteTime(U32LE(data, 0));
      DecodeSmpte(data) == if InRange(t) then Some(Text(t)) else None
  {
    SmpteWordIsBytes(data[0], data[1], data[2], data[3]);
  }

  /** Only the first four of the eight bytes matter. */
  lemma SmpteReadsFirstWord(a: seq<bv8>, b: seq<bv8>)
    requires |a| >= 8 && |b| >= 8 && a[..4] == b[..4]
    ensures DecodeSmpte(a) == DecodeSmpte(b)
  {
    assert a[0] == a[..4][0] && a[1] == a[..4][1] && a[2] == a[..4][2] && a[3] == a[..4][3];
    assert b[0] == b[..4][0] && b[1] == b[..4][1] && b[2] == b[..4][2] && b[3] == b[..4][3];
  }

  /** The flag bits (6, 7, 15, 23, 30 and 31) lie outside every field. */
  lemma FlagBits(w: bv32)
    ensures var v := w | 0xC080_80C0;
      && (v >> 0) & 0xF == (w >> 0) & 0xF && (v >> 4) & 0x3 == (w >> 4) & 0x3
      && (v >> 8) & 0xF == (w >> 8) & 0xF && (v >> 12) & 0x7 == (w >> 12) & 0x7
      && (v >> 16) & 0xF == (w >> 16) & 0xF && (v >> 20) & 0x7 == (w >> 20) & 0x7
      && (v >> 24) & 0xF == (w >> 24) & 0xF && (v >> 28) & 0x3 == (w >> 28) & 0x3
  {
  }

  /** Setting the flag bits does not change the time. */
  lemma SmpteIgnoresFlags(w: bv32)
    ensures SmpteTime(w | 0xC080_80C0) == SmpteTime(w)
  {
    FlagBits(w);
  }

  /** A time the SMPTE word can hold: the frame tens have two bits. */
  predicate SmpteEncodable(t: Time) {
    InRange(t) && t.frames <= 39
  }

  /** The first word of an SMPTE time address, least significant byte first. */
  function PackSmpte(t: Time): (r: seq<bv8>)
    requires SmpteEncodable(t)
    ensures |r| == 4
  {
    [Digits(t.frames), Digits(t.seconds), Digits(t.minutes), Digits(t.hours)]
  }

  /** The two nibbles of a packed pair of digits. */
  lemma DigitsNibbles(n: nat)
    requires n < 100
    ensures Lo(Digits(n)) as nat == n % 10 && Hi(Digits(n)) as nat == n / 10
  {
    BcdNibbles(n / 10, n % 10);
  }

  /** A packed pair of digits read back through a tens mask wide enough
      for its tens digit. */
  lemma DigitsByte(n: nat, mask: bv8)
    requires (mask == 0x3 && n < 40) || (mask == 0x7 && n < 80)
    ensures Units(Digits(n)) == n % 10 && Tens(Digits(n), mask) == n / 10
  {
    BcdNibbles(n / 10, n % 10);
  }

  /** The nibbles of the word the four packed bytes form. */
  lemma PackedTime(t: Time)
    requires InRange(t)
    ensures var w := WordLE(Digits(t.frames), Digits(t.seconds), Digits(t.minutes), Digits(t.hours));
      && Field(w, 0, 0xF) == t.frames % 10 && Field(w, 4, 0xF) == t.frames / 10
      && Field(w, 8, 0xF) == t.seconds % 10 && Field(w, 12, 0xF) == t.seconds / 10
      && Field(w, 16, 0xF) == t.minutes % 10 && Field(w, 20, 0xF) == t.minutes / 10
      && Field(w, 24, 0xF) == t.hours % 10 && Field(w, 28, 0xF) == t.hours / 10
  {
    WordNibbles(Digits(t.frames), Digits(t.seconds), Digits(t.minutes), Digits(t.hours));
    DigitsNibbles(t.frames);
    DigitsNibbles(t.seconds);
    DigitsNibbles(t.minutes);
    DigitsNibbles(t.hours);
  }

  /** Packing valid digits and decoding gives the zero-padded text back,
      whatever the second word holds. */
  lemma SmpteRoundTrip(t: Time, second: seq<bv8>)
    requires SmpteEncodable(t) && |second| >= 4
    ensures DecodeSmpte(PackSmpte(t) + second) == Some(Text(t))
  {
    var data := PackSmpte(t) + second;
    assert data[0] == Digits(t.frames) && data[1] == Digits(t.seconds);
    assert data[2] == Digits(t.minutes) && data[3] == Digits(t.hours);
    SmptePackedBytes(t);
  }

  lemma SmptePackedBytes(t: Time)
    requires SmpteEncodable(t)
    ensures SmpteBytes(Digits(t.frames), Digits(t.seconds), Digits(t.minutes), Digits(t.hours)) == t
  {
    DigitsByte(t.frames, 0x3);
    DigitsByte(t.seconds, 0x7);
    DigitsByte(t.minutes, 0x7);
    DigitsByte(t.hours, 0x3);
  }

  // ---------------------------------------------------------------------------
  // DPX television-header timecode (SMPTE ST 268)
  // ---------------------------------------------------------------------------

  const Sdpx: seq<bv8> := [0x53, 0x44, 0x50, 0x58]
  const Xpds: seq<bv8> := [0x58, 0x50, 0x44, 0x53]
  const DpxTimecodeOffset: nat := 1920

  /** Eight nibbles, tens above units, with a full four bits each. */
  function DpxTime(w: bv32): Time {
    Time(Field(w, 28, 0xF) * 10 + Field(w, 24, 0xF),
         Field(w, 20, 0xF) * 10 + Field(w, 16, 0xF),
         Field(w, 12, 0xF) * 10 + Field(w, 8, 0xF),
         Field(w, 4, 0xF) * 10 + Field(w, 0, 0xF))
  }

  /** `_read_dpx_timecode`: the byte order follows the magic number; a
      missing word, the undefined word 0xFFFFFFFF or an out-of-range time
      give nothing. */
  function ReadDpx(data: seq<bv8>): (r: Option<string>)
    ensures r.Some? ==> IsValidTimecodeString(r.value)
    ensures r.Some? ==> |data| >= DpxTimecodeOffset + 4 && (data[..4] == Sdpx || data[..4] == Xpds)
  {
    var magic := Read(data, 0, 4);
    if magic != Sdpx && magic != Xpds then None
    else if DpxTimecodeOffset + 4 > |data| then None
    else
      var w := if magic == Sdpx then U32BE(data, DpxTimecodeOffset) else U32LE(data, DpxTimecodeOffset);
      if w == 0xFFFF_FFFF then None
      else
        var t := DpxTime(w);
        if InRange(t) then TextIsValid(t); Some(Text(t)) else None
  }

  /** The timecode word as a big-endian DPX file stores it. */
  function PackDpxBE(t: Time): (r: seq<bv8>)
    requires InRange(t)
    ensures |r| == 4
  {
    [Digits(t.hours), Digits(t.minutes), Digits(t.seconds), Digits(t.frames)]
  }

  /** The same word in little-endian byte order. */
  function PackDpxLE(t: Time): (r: seq<bv8>)
    requires InRange(t)
    ensures |r| == 4
  {
    [Digits(t.frames), Digits(t.seconds), Digits(t.minutes), Digits(t.hours)]
  }

  /** Decoding the packed word gives the time, and it is never the undefined
      word. */
  lemma DpxWord(t: Time)
    requires InRange(t)
    ensures var w := WordLE(Digits(t.frames), Digits(t.seconds), Digits(t.minutes), Digits(t.hours));
      w != 0xFFFF_FFFF && DpxTime(w) == t
  {
    PackedTime(t);
  }

  /** What a DPX file with a known magic number reads: the word at offset
      1920 in the byte order the magic number names. */
  function DpxWordOf(data: seq<bv8>): bv32
    requires |data| >= DpxTimecodeOffset + 4
  {
    if data[..4] == Sdpx then U32BE(data, DpxTimecodeOffset) else U32LE(data, DpxTimecodeOffset)
  }

  lemma DpxReadsWord(data: seq<bv8>)
    requires |data| >= DpxTimecodeOffset + 4 && (data[..4] == Sdpx || data[..4] == Xpds)
    ensures var w := DpxWordOf(data);
      ReadDpx(data) == if w == 0xFFFF_FFFF || !InRange(DpxTime(w)) then None else Some(Text(DpxTime(w)))
  {
    assert Read(data, 0, 4) == data[..4];
  }

  /** A DPX file holding a packed time in the byte order of its magic
      number. */
  lemma DpxReadsTime(data: seq<bv8>, t: Time)
    requires InRange(t) && |data| >= DpxTimecodeOffset + 4 && (data[..4] == Sdpx || data[..4] == Xpds)
    requires DpxWordOf(data) == WordLE(Digits(t.frames), Digits(t.seconds), Digits(t.minutes), Digits(t.hours))
    ensures ReadDpx(data) == Some(Text(t))
  {
    DpxWord(t);
    DpxReadsWord(data);
  }

  /** A time written big-endian at offset 1920, behind the "SDPX" magic
      number, reads back as its text. */
  lemma DpxRoundTripBE(t: Time, header: seq<bv8>, rest: seq<bv8>)
    requires InRange(t) && |header| == DpxTimecodeOffset - 4
    ensures ReadDpx(Sdpx + header + PackDpxBE(t) + rest) == Some(Text(t))
  {
    var data := Sdpx + header + PackDpxBE(t) + rest;
    assert data[..4] == Sdpx;
    assert data[DpxTimecodeOffset..DpxTimecodeOffset + 4] == PackDpxBE(t);
    DpxReadsTime(data, t);
  }

  /** The same for little-endian behind "XPDS". */
  lemma DpxRoundTripLE(t: Time, header: seq<bv8>, rest: seq<bv8>)
    requires InRange(t) && |header| == DpxTimecodeOffset - 4
    ensures ReadDpx(Xpds + header + PackDpxLE(t) + rest) == Some(Text(t))
  {
    var data := Xpds + header + PackDpxLE(t) + rest;
    assert data[..4] == Xpds;
    assert data[DpxTimecodeOffset..DpxTimecodeOffset + 4] == PackDpxLE(t);
    DpxReadsTime(data, t);
  }

  /** Any other magic number, or a file too short to hold the word, reads
      as nothing. */
  lemma DpxRejects(data: seq<bv8>)
    requires |data| < DpxTimecodeOffset + 4 || (data[..4] != Sdpx && data[..4] != Xpds)
    ensures ReadDpx(data) == None
  {
  }

  // ---------------------------------------------------------------------------
  // OpenEXR header attributes
  // ---------------------------------------------------------------------------

  const ExrMagic: seq<bv8> := [0x76, 0x2f, 0x31, 0x01]

  /** `bytes.decode("ascii", errors="replace")` of one byte. */
  function AsciiChar(b: bv8): char {
    if b < 0x80 then b as char else '�'
  }

  function Ascii(bytes: seq<bv8>): (s: string)
    ensures |s| == |bytes|
    ensures forall i :: 0 <= i < |bytes| ==> s[i] == AsciiChar(bytes[i])
  {
    seq(|bytes|, i requires 0 <= i < |bytes| => AsciiChar(bytes[i]))
  }

  /** `_read_null_string`: the bytes up to the next NUL or the end of the
      file, and the offset after the NUL. */
  function ReadNull(data: seq<bv8>, pos: nat): (r: (seq<bv8>, nat))
    ensures 0 !in r.0
    ensures r.1 >= pos + |r.0|
    ensures |r.0| > 0 ==> pos < |data|
    decreases |data| - pos
  {
    if pos >= |data| then ([], pos)
    else if data[pos] == 0 then ([], pos + 1)
    else
      var (s, next) := ReadNull(data, pos + 1);
      ([data[pos]] + s, next)
  }

  /** `value.rstrip(b"\x00")`. */
  function TrimNul(value: seq<bv8>): (r: seq<bv8>)
    ensures |r| <= |value| && r == value[..|r|]
    ensures |r| > 0 ==> r[|r| - 1] != 0
    ensures forall i :: |r| <= i < |value| ==> value[i] == 0
  {
    if |value| > 0 && value[|value| - 1] == 0 then TrimNul(value[..|value| - 1]) else value
  }

  /** `s.lstrip()`. */
  function StripLeft(s: string): (r: string)
    ensures |r| <= |s| && r == s[|s| - |r|..]
    ensures |r| > 0 ==> !IsSpace(r[0])
  {
    if |s| > 0 && IsSpace(s[0]) then StripLeft(s[1..]) else s
  }

  /** `s.rstrip()`. */
  function StripRight(s: string): (r: string)
    ensures |r| <= |s| && r == s[..|r|]
    ensures |r| > 0 ==> !IsSpace(r[|r| - 1])
  {
    if |s| > 0 && IsSpace(s[|s| - 1]) then StripRight(s[..|s| - 1]) else s
  }

  /** The bytes that decode to a character `str.strip()` removes. */
  predicate IsBlankByte(b: bv8) {
    b == 0x20 || (0x09 <= b <= 0x0d) || (0x1c <= b <= 0x1f)
  }

  lemma BlankByte(b: bv8)
    ensures IsSpace(AsciiChar(b)) <==> IsBlankByte(b)
  {
  }

  function StripLeftBytes(v: seq<bv8>): (r: seq<bv8>)
    ensures |r| <= |v| && r == v[|v| - |r|..]
  {
    if |v| > 0 && IsBlankByte(v[0]) then StripLeftBytes(v[1..]) else v
  }

  function StripRightBytes(v: seq<bv8>): (r: seq<bv8>)
    ensures |r| <= |v| && r == v[..|r|]
  {
    if |v| > 0 && IsBlankByte(v[|v| - 1]) then StripRightBytes(v[..|v| - 1]) else v
  }

  /** Blank bytes stripped from both ends, the leading ones first. */
  function StripBytes(v: seq<bv8>): seq<bv8>
  {
    if |v| > 0 && IsBlankByte(v[0]) then StripBytes(v[1..])
    else if |v| > 0 && IsBlankByte(v[|v| - 1]) then StripBytes(v[..|v| - 1])
    else v
  }

  lemma {:induction false} StripBytesRight(v: seq<bv8>)
    requires |v| == 0 || !IsBlankByte(v[0])
    ensures StripBytes(v) == StripRightBytes(v)
  {
    if |v| > 1 && IsBlankByte(v[|v| - 1]) {
      assert v[..|v| - 1][0] == v[0];
      StripBytesRight(v[..|v| - 1]);
    }
  }

  lemma {:induction false} StripBytesEnds(v: seq<bv8>)
    ensures StripBytes(v) == StripRightBytes(StripLeftBytes(v))
  {
    if |v| > 0 && IsBlankByte(v[0]) {
      StripBytesEnds(v[1..]);
    } else {
      StripBytesRight(v);
    }
  }

  /** Stripping the blank bytes and then decoding is stripping the decoded
      text. */
  lemma {:induction false} StripLeftDecoded(v: seq<bv8>)
    ensures Ascii(StripLeftBytes(v)) == StripLeft(Ascii(v))
  {
    if |v| > 0 {
      BlankByte(v[0]);
      assert Ascii(v)[1..] == Ascii(v[1..]);
      if IsBlankByte(v[0]) {
        StripLeftDecoded(v[1..]);
      }
    }
  }

  lemma {:induction false} StripRightDecoded(v: seq<bv8>)
    ensures Ascii(StripRightBytes(v)) == StripRight(Ascii(v))
  {
    if |v| > 0 {
      BlankByte(v[|v| - 1]);
      assert Ascii(v)[..|v| - 1] == Ascii(v[..|v| - 1]);
      if IsBlankByte(v[|v| - 1]) {
        StripRightDecoded(v[..|v| - 1]);
      }
    }
  }

  /** The `nuke/input/timecode` string: NULs stripped from the end, decoded,
      blanks stripped, and kept only if it is a valid timecode. Blanks are
      stripped before decoding, which `StripDecoded` shows is the same. */
  function NukeTimecode(value: seq<bv8>): (r: Option<string>)
    ensures r.Some? ==> IsValidTimecodeString(r.value)
  {
    var s := Ascii(StripBytes(TrimNul(value)));
    if IsValidTimecodeString(s) then Some(s) else None
  }

  lemma StripDecoded(v: seq<bv8>)
    ensures Ascii(StripBytes(v)) == StripRight(StripLeft(Ascii(v)))
  {
    StripBytesEnds(v);
    StripLeftDecoded(v);
    StripRightDecoded(StripLeftBytes(v));
  }

  /** `tc_smpte or tc_nuke_str`. */
  function Prefer(smpte: Option<string>, nuke: Option<string>): (r: Option<string>)
    ensures smpte.Some? ==> r == smpte
    ensures smpte.None? ==> r == nuke
  {
    if smpte.Some? then smpte else nuke
  }

  predicate IsTimeCodeAttr(name: string, typ: string, size: nat) {
    name == "timeCode" && typ == "timecode" && size == 8
  }

  predicate IsNukeAttr(name: string, typ: string, size: nat) {
    name == "nuke/input/timecode" && typ == "string" && size <= 32
  }

  /** Both answers valid, whichever the walk returns. */
  predicate Valid(o: Option<string>) {
    o.Some? ==> IsValidTimecodeString(o.value)
  }

  /** One attribute header: its decoded name and type, the value size and
      the offset where the value starts. */
  datatype Attr = Attr(name: string, typ: string, size: nat, at: nat)

  /** The next header, or nothing at an empty name (the end of the header)
      or when the size field is cut short. */
  function NextAttr(data: seq<bv8>, pos: nat): (r: Option<Attr>)
    ensures r.Some? ==> pos < r.value.at <= |data|
  {
    var (nameBytes, p1) := ReadNull(data, pos);
    if |nameBytes| == 0 then None
    else
      var (typeBytes, p2) := ReadNull(data, p1);
      if p2 + 4 > |data| then None
      else Some(Attr(Ascii(nameBytes), Ascii(typeBytes), U32LE(data, p2) as nat, p2 + 4))
  }

  /** What one attribute contributes: the SMPTE `timeCode` of size 8 is
      decoded, a `nuke/input/timecode` string of at most 32 bytes is read and
      validated, anything else is skipped by its size. Also gives the offset
      after the value. */
  function Take(data: seq<bv8>, a: Attr, smpte: Option<string>, nuke: Option<string>)
    : (r: (Option<string>, Option<string>, nat))
    ensures r.2 >= a.at
    ensures !IsTimeCodeAttr(a.name, a.typ, a.size) ==> r.0 == smpte
    ensures !IsNukeAttr(a.name, a.typ, a.size) ==> r.1 == nuke
  {
    if IsTimeCodeAttr(a.name, a.typ, a.size) then (DecodeSmpte(Read(data, a.at, 8)), nuke, a.at + 8)
    else if IsNukeAttr(a.name, a.typ, a.size) then (smpte, NukeTimecode(Read(data, a.at, a.size)), a.at + a.size)
    else (smpte, nuke, a.at + a.size)
  }

  /** The attribute loop of `_read_exr_timecode` from offset `pos`, with the
      two timecodes found so far. */
  function Attrs(data: seq<bv8>, pos: nat, smpte: Option<string>, nuke: Option<string>): (r: Option<string>)
    decreases |data| - pos, 1
  {
    match NextAttr(data, pos)
    case None => Prefer(smpte, nuke)
    case Some(a) => Continue(data, a, smpte, nuke)
  }

  /** The rest of one turn of the loop once the header `a` is read: take its
      value, stop early once both timecodes are found, or go on. */
  function Continue(data: seq<bv8>, a: Attr, smpte: Option<string>, nuke: Option<string>): (r: Option<string>)
    requires a.at <= |data|
    decreases |data| - a.at + 1, 0
  {
    var (s, n, next) := Take(data, a, smpte, nuke);
    if s.Some? && n.Some? then s else Attrs(data, next, s, n)
  }

  /** Whatever the walk returns passes the validator: each answer it keeps
      either came out of the SMPTE decoder or passed the validator. */
  lemma {:induction false} AttrsValid(data: seq<bv8>, pos: nat, smpte: Option<string>, nuke: Option<string>)
    requires Valid(smpte) && Valid(nuke)
    ensures Valid(Attrs(data, pos, smpte, nuke))
    decreases |data| - pos, 1
  {
    match NextAttr(data, pos)
    case None =>
    case Some(a) =>
      ContinueValid(data, a, smpte, nuke);
  }

  lemma {:induction false} ContinueValid(data: seq<bv8>, a: Attr, smpte: Option<string>, nuke: Option<string>)
    requires a.at <= |data|
    requires Valid(smpte) && Valid(nuke)
    ensures Valid(Continue(data, a, smpte, nuke))
    decreases |data| - a.at + 1, 0
  {
    var (s, n, next) := Take(data, a, smpte, nuke);
    assert Valid(s) && Valid(n);
    if !(s.Some? && n.Some?) {
      AttrsValid(data, next, s, n);
    }
  }

  /** `_read_exr_timecode`: a wrong magic number gives nothing; otherwise the
      four version bytes are skipped and the attributes walked. */
  function ReadExr(data: seq<bv8>): (r: Option<string>)
    ensures r.Some? ==> IsValidTimecodeString(r.value)
    ensures Read(data, 0, 4) != ExrMagic ==> r.None?
  {
    if Read(data, 0, 4) != ExrMagic then None
    else AttrsValid(data, 8, None, None); Attrs(data, 8, None, None)
  }

  // ---------------------------------------------------------------------------
  // Writing attributes, and what the walk makes of them
  // ---------------------------------------------------------------------------

  predicate BytesAt(data: seq<bv8>, pos: nat, a: seq<bv8>) {
    pos + |a| <= |data| && data[pos..pos + |a|] == a
  }

  lemma BytesAtConcat(pre: seq<bv8>, a: seq<bv8>, post: seq<bv8>)
    ensures BytesAt(pre + a + post, |pre|, a)
  {
    assert (pre + a + post)[|pre|..|pre| + |a|] == a;
  }

  /** A NUL-terminated string reads back without its NUL. */
  lemma {:induction false} ReadNullOf(data: seq<bv8>, pos: nat, s: seq<bv8>)
    requires 0 !in s && BytesAt(data, pos, s + [0])
    ensures ReadNull(data, pos) == (s, pos + |s| + 1)
    decreases |s|
  {
    assert data[pos] == (s + [0])[0];
    if |s| > 0 {
      assert data[pos + 1..pos + 1 + |s|] == (s + [0])[1..] == s[1..] + [0];
      ReadNullOf(data, pos + 1, s[1..]);
      assert [s[0]] + s[1..] == s;
    }
  }

  /** One attribute as a writer lays it out: name, NUL, type, NUL, the
      little-endian size, the value. */
  function AttrBytes(name: seq<bv8>, typ: seq<bv8>, size: bv32, value: seq<bv8>): (r: seq<bv8>)
    ensures |r| == |name| + |typ| + 6 + |value|
  {
    name + [0] + typ + [0] + LE32(size) + value
  }

  predicate WellFormedAttr(name: seq<bv8>, typ: seq<bv8>, size: bv32, value: seq<bv8>) {
    |name| > 0 && 0 !in name && 0 !in typ && size as nat == |value|
  }

  lemma BytesAtSplit(data: seq<bv8>, pos: nat, a: seq<bv8>, b: seq<bv8>)
    requires BytesAt(data, pos, a + b)
    ensures BytesAt(data, pos, a) && BytesAt(data, pos + |a|, b)
  {
    assert data[pos..pos + |a|] == (a + b)[..|a|];
    assert data[pos + |a|..pos + |a| + |b|] == (a + b)[|a|..];
  }

  /** Where the pieces of a written attribute lie. */
  lemma AttrPieces(data: seq<bv8>, pos: nat, name: seq<bv8>, typ: seq<bv8>, size: bv32, value: seq<bv8>)
    requires BytesAt(data, pos, AttrBytes(name, typ, size, value))
    ensures BytesAt(data, pos, name + [0])
    ensures BytesAt(data, pos + |name| + 1, typ + [0])
    ensures BytesAt(data, pos + |name| + |typ| + 2, LE32(size))
    ensures BytesAt(data, pos + |name| + |typ| + 6, value)
  {
    BytesAtSplit(data, pos, name + [0] + typ + [0] + LE32(size), value);
    BytesAtSplit(data, pos, name + [0] + typ + [0], LE32(size));
    BytesAtSplit(data, pos, name + [0], typ + [0]);
  }

  /** Four bytes written by `LE32` read back as the word. */
  lemma WordAt(data: seq<bv8>, p: nat, w: bv32)
    requires BytesAt(data, p, LE32(w))
    ensures U32LE(data, p) == w
  {
    LE32RoundTrip(w);
    assert data[p] == LE32(w)[0] && data[p + 1] == LE32(w)[1];
    assert data[p + 2] == LE32(w)[2] && data[p + 3] == LE32(w)[3];
  }

  /** The header of a written attribute reads back as written. */
  lemma HeaderOf(data: seq<bv8>, pos: nat, name: seq<bv8>, typ: seq<bv8>, size: bv32, value: seq<bv8>)
    requires WellFormedAttr(name, typ, size, value)
    requires BytesAt(data, pos, AttrBytes(name, typ, size, value))
    ensures NextAttr(data, pos) == Some(Attr(Ascii(name), Ascii(typ), |value|, pos + |name| + |typ| + 6))
    ensures Read(data, pos + |name| + |typ| + 6, |value|) == value
  {
    var p2 := pos + |name| + |typ| + 2;
    AttrPieces(data, pos, name, typ, size, value);
    ReadNullOf(data, pos, name);
    ReadNullOf(data, pos + |name| + 1, typ);
    WordAt(data, p2, size);
    NextAttrOf(data, pos, name, pos + |name| + 1, typ, p2);
  }

  /** `NextAttr` once both strings have been read. */
  lemma NextAttrOf(data: seq<bv8>, pos: nat, name: seq<bv8>, p1: nat, typ: seq<bv8>, p2: nat)
    requires ReadNull(data, pos) == (name, p1) && |name| > 0
    requires ReadNull(data, p1) == (typ, p2) && p2 + 4 <= |data|
    ensures NextAttr(data, pos) == Some(Attr(Ascii(name), Ascii(typ), U32LE(data, p2) as nat, p2 + 4))
  {
  }

  /** An attribute that is neither timecode is skipped by its size. */
  lemma ExrSkipsOther(data: seq<bv8>, pos: nat, a: Attr, smpte: Option<string>, nuke: Option<string>)
    requires NextAttr(data, pos) == Some(a)
    requires !IsTimeCodeAttr(a.name, a.typ, a.size) && !IsNukeAttr(a.name, a.typ, a.size)
    requires !(smpte.Some? && nuke.Some?)
    ensures Attrs(data, pos, smpte, nuke) == Attrs(data, a.at + a.size, smpte, nuke)
  {
    assert Take(data, a, smpte, nuke) == (smpte, nuke, a.at + a.size);
    assert Attrs(data, pos, smpte, nuke) == Continue(data, a, smpte, nuke);
  }

  /** A `timeCode` attribute of size 8 replaces the SMPTE answer by its
      decoded value; the walk stops if a Nuke string was already found. */
  lemma ExrReadsTimeCode(data: seq<bv8>, pos: nat, a: Attr, smpte: Option<string>, nuke: Option<string>)
    requires NextAttr(data, pos) == Some(a)
    requires IsTimeCodeAttr(a.name, a.typ, a.size)
    ensures var found := DecodeSmpte(Read(data, a.at, 8));
      Attrs(data, pos, smpte, nuke)
      == if found.Some? && nuke.Some? then found else Attrs(data, a.at + 8, found, nuke)
  {
    assert Take(data, a, smpte, nuke) == (DecodeSmpte(Read(data, a.at, 8)), nuke, a.at + 8);
    assert Attrs(data, pos, smpte, nuke) == Continue(data, a, smpte, nuke);
  }

  /** A `nuke/input/timecode` string of at most 32 bytes replaces the Nuke
      answer; the walk stops if an SMPTE timecode was already found. */
  lemma ExrReadsNuke(data: seq<bv8>, pos: nat, a: Attr, smpte: Option<string>, nuke: Option<string>)
    requires NextAttr(data, pos) == Some(a)
    requires IsNukeAttr(a.name, a.typ, a.size)
    ensures var found := NukeTimecode(Read(data, a.at, a.size));
      Attrs(data, pos, smpte, nuke)
      == if smpte.Some? && found.Some? then smpte else Attrs(data, a.at + a.size, smpte, found)
  {
    assert !IsTimeCodeAttr(a.name, a.typ, a.size) by {
      assert a.name[0] != "timeCode"[0];
    }
    assert Take(data, a, smpte, nuke) == (smpte, NukeTimecode(Read(data, a.at, a.size)), a.at + a.size);
    assert Attrs(data, pos, smpte, nuke) == Continue(data, a, smpte, nuke);
  }

  /** An empty name ends the header: the SMPTE answer wins over the Nuke
      one. */
  lemma ExrEnds(data: seq<bv8>, pos: nat, smpte: Option<string>, nuke: Option<string>)
    requires BytesAt(data, pos, [0])
    ensures Attrs(data, pos, smpte, nuke) == Prefer(smpte, nuke)
  {
    assert data[pos] == data[pos..pos + 1][0];
  }

  /** A Nuke attribute, then a `timeCode` attribute, then the end of the
      header: the time address is the answer when it decodes, the Nuke
      string otherwise. */
  lemma NukeThenTimeCode(data: seq<bv8>, pos: nat, a1: Attr, a2: Attr)
    requires NextAttr(data, pos) == Some(a1) && IsNukeAttr(a1.name, a1.typ, a1.size)
    requires NextAttr(data, a1.at + a1.size) == Some(a2) && IsTimeCodeAttr(a2.name, a2.typ, a2.size)
    requires NextAttr(data, a2.at + 8) == None
    ensures Attrs(data, pos, None, None)
         == Prefer(DecodeSmpte(Read(data, a2.at, 8)), NukeTimecode(Read(data, a1.at, a1.size)))
  {
    var found := NukeTimecode(Read(data, a1.at, a1.size));
    var decoded := DecodeSmpte(Read(data, a2.at, 8));
    ExrReadsTimeCode(data, a1.at + a1.size, a2, None, found);
    ExrReadsNuke(data, pos, a1, None, None);
    if !(decoded.Some? && found.Some?) {
      AttrsAtEnd(data, a2.at + 8, decoded, found);
    }
  }

  lemma AttrsAtEnd(data: seq<bv8>, pos: nat, smpte: Option<string>, nuke: Option<string>)
    requires NextAttr(data, pos) == None
    ensures Attrs(data, pos, smpte, nuke) == Prefer(smpte, nuke)
  {
  }

  /** A Nuke attribute before a `timeCode` attribute holding a packed time
      address: the time address wins, whatever the Nuke string holds. */
  lemma SmpteWinsOverNuke(data: seq<bv8>, pos: nat, a1: Attr, a2: Attr, t: Time, second: seq<bv8>)
    requires NextAttr(data, pos) == Some(a1) && IsNukeAttr(a1.name, a1.typ, a1.size)
    requires NextAttr(data, a1.at + a1.size) == Some(a2) && IsTimeCodeAttr(a2.name, a2.typ, a2.size)
    requires NextAttr(data, a2.at + 8) == None
    requires SmpteEncodable(t) && |second| == 4 && Read(data, a2.at, 8) == PackSmpte(t) + second
    ensures Attrs(data, pos, None, None) == Some(Text(t))
  {
    NukeThenTimeCode(data, pos, a1, a2);
    SmpteRoundTrip(t, second);
  }

  /** A file whose only attribute is a `timeCode` holding a packed time
      address reads as that address. */
  lemma ExrReadsSmpte(version: seq<bv8>, name: seq<bv8>, typ: seq<bv8>, t: Time, second: seq<bv8>, rest: seq<bv8>)
    requires |version| == 4 && SmpteEncodable(t) && |second| == 4
    requires WellFormedAttr(name, typ, 8, PackSmpte(t) + second)
    requires Ascii(name) == "timeCode" && Ascii(typ) == "timecode"
    ensures ReadExr(ExrMagic + version + (AttrBytes(name, typ, 8, PackSmpte(t) + second) + [0]) + rest)
            == Some(Text(t))
  {
    var value := PackSmpte(t) + second;
    var tail := AttrBytes(name, typ, 8, value) + [0];
    var data := ExrMagic + version + tail + rest;
    assert data[..4] == ExrMagic;
    ExrWalksFrom8(data);
    BytesAtConcat(ExrMagic + version, tail, rest);
    ExrTimeCodeThenEnd(data, 8, name, typ, value);
    SmpteRoundTrip(t, second);
  }

  lemma ExrTimeCodeThenEnd(data: seq<bv8>, pos: nat, name: seq<bv8>, typ: seq<bv8>, value: seq<bv8>)
    requires WellFormedAttr(name, typ, 8, value)
    requires Ascii(name) == "timeCode" && Ascii(typ) == "timecode"
    requires BytesAt(data, pos, AttrBytes(name, typ, 8, value) + [0])
    ensures Attrs(data, pos, None, None) == DecodeSmpte(value)
  {
    var attr := AttrBytes(name, typ, 8, value);
    var a := Attr(Ascii(name), Ascii(typ), |value|, pos + |name| + |typ| + 6);
    BytesAtSplit(data, pos, attr, [0]);
    HeaderOf(data, pos, name, typ, 8, value);
    NoAttrAtZero(data, pos + |attr|);
    ExrReadsTimeCode(data, pos, a, None, None);
    AttrsAtEnd(data, a.at + 8, DecodeSmpte(value), None);
  }

  /** Behind the magic number the answer is the walk from offset 8. */
  lemma ExrWalksFrom8(data: seq<bv8>)
    requires |data| >= 4 && data[..4] == ExrMagic
    ensures ReadExr(data) == Attrs(data, 8, None, None)
  {
    assert Read(data, 0, 4) == ExrMagic;
  }

  /** A zero byte where a name would start ends the header. */
  lemma NoAttrAtZero(data: seq<bv8>, pos: nat)
    requires BytesAt(data, pos, [0])
    ensures NextAttr(data, pos) == None
  {
    assert data[pos] == data[pos..pos + 1][0];
  }

  /** A Nuke attribute and then the end of the header. */
  lemma NukeThenEnd(data: seq<bv8>, pos: nat, a: Attr)
    requires NextAttr(data, pos) == Some(a) && IsNukeAttr(a.name, a.typ, a.size)
    requires NextAttr(data, a.at + a.size) == None
    ensures Attrs(data, pos, None, None) == NukeTimecode(Read(data, a.at, a.size))
  {
    ExrReadsNuke(data, pos, a, None, None);
  }

  lemma ExrNukeThenEnd(data: seq<bv8>, pos: nat, name: seq<bv8>, typ: seq<bv8>, size: bv32, value: seq<bv8>)
    requires WellFormedAttr(name, typ, size, value)
    requires Ascii(name) == "nuke/input/timecode" && Ascii(typ) == "string" && |value| <= 32
    requires BytesAt(data, pos, AttrBytes(name, typ, size, value) + [0])
    ensures Attrs(data, pos, None, None) == NukeTimecode(value)
  {
    var attr := AttrBytes(name, typ, size, value);
    BytesAtSplit(data, pos, attr, [0]);
    HeaderOf(data, pos, name, typ, size, value);
    NoAttrAtZero(data, pos + |attr|);
    NukeThenEnd(data, pos, Attr(Ascii(name), Ascii(typ), |value|, pos + |name| + |typ| + 6));
  }

  /** With no SMPTE time address, a valid Nuke string is the answer. */
  lemma ExrFallsBackToNuke(version: seq<bv8>, name: seq<bv8>, typ: seq<bv8>, size: bv32, value: seq<bv8>, rest: seq<bv8>)
    requires |version| == 4
    requires WellFormedAttr(name, typ, size, value)
    requires Ascii(name) == "nuke/input/timecode" && Ascii(typ) == "string" && |value| <= 32
    ensures ReadExr(ExrMagic + version + (AttrBytes(name, typ, size, value) + [0]) + rest) == NukeTimecode(value)
  {
    var tail := AttrBytes(name, typ, size, value) + [0];
    var data := ExrMagic + version + tail + rest;
    assert data[..4] == ExrMagic;
    ExrWalksFrom8(data);
    BytesAtConcat(ExrMagic + version, tail, rest);
    ExrNukeThenEnd(data, 8, name, typ, size, value);
  }

  // ---------------------------------------------------------------------------
  // Choosing the reader, and the per-version lookup
  // ---------------------------------------------------------------------------

  /** The lower-cased `Path.suffix` of the last component of `path`. */
  function Extension(path: string): string {
    LowerStr(Paths.Suffix(Paths.Name(path)))
  }

  predicate IsNative(path: string) {
    Extension(path) == ".exr" || Extension(path) == ".dpx"
  }

  /** The bytes behind a path, when it names a file (a link is followed); a
      missing path or a folder cannot be opened. */
  function Contents(node: Option<Node>): (r: Option<seq<bv8>>)
    ensures r.Some? <==> node.Some? && node.value.IsFile()
  {
    if node.Some? && node.value.IsFile() then Some(node.value.FileBody().data) else None
  }

  /** `extract_timecode`: EXR and DPX files are parsed natively, whatever the
      case of their extension; every other path goes to `probe`, the
      `ffprobe` query. `node` is what the file system holds at `path`. */
  function ExtractTimecode(path: string, node: Option<Node>, probe: string -> Option<string>): (r: Option<string>)
    ensures IsNative(path) && r.Some? ==> IsValidTimecodeString(r.value) && Contents(node).Some?
    ensures !IsNative(path) ==> r == probe(path)
  {
    var ext := Extension(path);
    if ext == ".exr" then
      match Contents(node)
      case Some(data) => ReadExr(data)
      case None => None
    else if ext == ".dpx" then
      match Contents(node)
      case Some(data) => ReadDpx(data)
      case None => None
    else probe(path)
  }

  /** An EXR file is read by the EXR parser and a DPX file by the DPX one,
      and neither consults `probe`. */
  lemma NativeReaders(path: string, node: Node, probe: string -> Option<string>)
    requires node.IsFile()
    ensures Extension(path) == ".exr" ==> ExtractTimecode(path, Some(node), probe) == ReadExr(node.FileBody().data)
    ensures Extension(path) == ".dpx" ==> ExtractTimecode(path, Some(node), probe) == ReadDpx(node.FileBody().data)
  {
  }

  /** A directory entry the fallback scan tries: a file (a link to a file
      counts) whose name does not start with a dot. */
  predicate Candidate(e: Node) {
    e.IsFile() && !StartsWith(e.name, ".")
  }

  /** What `extract` (the extractor, given a path and what lies there) finds
      for the entry `e` of the folder `parent`. */
  function Try(e: Node, parent: string, extract: (string, Node) -> Option<string>): Option<string> {
    extract(Paths.Join(parent, e.name), e)
  }

  /** An entry the scan stops at. */
  predicate Hit(e: Node, parent: string, extract: (string, Node) -> Option<string>) {
    Candidate(e) && Try(e, parent, extract).Some?
  }

  /** The loop over the sorted directory: the first candidate with a
      timecode gives it; the others are passed over. */
  function FirstTimecode(entries: seq<Node>, parent: string, extract: (string, Node) -> Option<string>): (r: Option<string>)
    ensures r.Some? ==> exists e :: e in entries && Hit(e, parent, extract) && Try(e, parent, extract) == r
  {
    if |entries| == 0 then None
    else if Hit(entries[0], parent, extract) then Try(entries[0], parent, extract)
    else FirstTimecode(entries[1..], parent, extract)
  }

  /** Nothing is found exactly when no entry is a hit. */
  lemma {:induction false} FirstTimecodeNone(entries: seq<Node>, parent: string, extract: (string, Node) -> Option<string>)
    ensures FirstTimecode(entries, parent, extract).None? <==> forall e :: e in entries ==> !Hit(e, parent, extract)
  {
    if |entries| > 0 {
      FirstTimecodeNone(entries[1..], parent, extract);
      assert forall e :: e in entries <==> e == entries[0] || e in entries[1..];
    }
  }

  /** What is found comes from the first hit: every entry before it is
      passed over. */
  lemma {:induction false} FirstTimecodeIsFirst(entries: seq<Node>, parent: string, extract: (string, Node) -> Option<string>)
    requires FirstTimecode(entries, parent, extract).Some?
    ensures exists k :: 0 <= k < |entries| && Hit(entries[k], parent, extract)
              && Try(entries[k], parent, extract) == FirstTimecode(entries, parent, extract)
              && forall j :: 0 <= j < k ==> !Hit(entries[j], parent, extract)
  {
    if !Hit(entries[0], parent, extract) {
      var tail := entries[1..];
      FirstTimecodeIsFirst(tail, parent, extract);
      var k :| 0 <= k < |tail| && Hit(tail[k], parent, extract)
               && Try(tail[k], parent, extract) == FirstTimecode(tail, parent, extract)
               && forall j :: 0 <= j < k ==> !Hit(tail[j], parent, extract);
      assert entries[k + 1] == tail[k];
      forall j | 1 <= j < k + 1
        ensures !Hit(entries[j], parent, extract)
      {
        assert entries[j] == tail[j - 1];
      }
      assert FirstTimecode(entries, parent, extract) == FirstTimecode(tail, parent, extract);
    } else {
      assert Try(entries[0], parent, extract) == FirstTimecode(entries, parent, extract);
    }
  }

  /** Hidden files and folders never decide the answer: dropping them changes
      nothing. */
  lemma {:induction false} FirstTimecodeSkipsOthers(entries: seq<Node>, parent: string, extract: (string, Node) -> Option<string>)
    ensures FirstTimecode(entries, parent, extract) == FirstTimecode(Candidates(entries), parent, extract)
  {
    if |entries| > 0 {
      FirstTimecodeSkipsOthers(entries[1..], parent, extract);
      if Candidate(entries[0]) {
        assert Candidates(entries)[1..] == Candidates(entries[1..]);
      }
    }
  }

  function Candidates(entries: seq<Node>): (r: seq<Node>)
    ensures forall k :: 0 <= k < |r| ==> Candidate(r[k])
  {
    if |entries| == 0 then []
    else if Candidate(entries[0]) then [entries[0]] + Candidates(entries[1..])
    else Candidates(entries[1..])
  }

  /** `extract_timecode` as the folder scan calls it. */
  function Reader(probe: string -> Option<string>): (string, Node) -> Option<string> {
    (p: string, e: Node) => ExtractTimecode(p, Some(e), probe)
  }

  /** `extract_timecode_for_version`: a file is read itself; a folder uses the
      first of the collected `files` when there are any, and otherwise scans
      its entries in name order; anything else has no timecode. */
  function ExtractForVersion(source: Option<Node>, path: string, files: seq<Found>, probe: string -> Option<string>)
    : (r: Option<string>)
    ensures source.None? || !(source.value.IsFile() || source.value.Dir?) ==> r.None?
    ensures source.Some? && source.value.IsFile() ==> r == ExtractTimecode(path, source, probe)
    ensures source.Some? && source.value.Dir? && |files| > 0 ==> r == ExtractTimecode(files[0].path, Some(files[0].node), probe)
  {
    if source.None? then None
    else if source.value.IsFile() then ExtractTimecode(path, source, probe)
    else if source.value.Dir? then
      if |files| > 0 then ExtractTimecode(files[0].path, Some(files[0].node), probe)
      else FirstTimecode(SortedEntries(source.value.children), path, Reader(probe))
    else None
  }

  /** Without collected files, a folder's timecode is the one of the first
      visible file in name order that has one, and there is none exactly when
      no visible file has one. */
  lemma FolderScan(source: Node, path: string, probe: string -> Option<string>)
    requires source.Dir?
    ensures var r := ExtractForVersion(Some(source), path, [], probe);
      var sorted := SortedEntries(source.children);
      && (r.None? <==> forall e :: e in source.children ==> !Hit(e, path, Reader(probe)))
      && (r.Some? ==> exists k :: 0 <= k < |sorted| && Hit(sorted[k], path, Reader(probe))
                        && Try(sorted[k], path, Reader(probe)) == r
                        && forall j :: 0 <= j < k ==> !Hit(sorted[j], path, Reader(probe)))
  {
    var sorted := SortedEntries(source.children);
    assert forall e :: e in source.children <==> e in sorted by {
      assert forall e :: e in source.children <==> e in multiset(source.children);
      assert forall e :: e in sorted <==> e in multiset(sorted);
    }
    FirstTimecodeNone(sorted, path, Reader(probe));
    if ExtractForVersion(Some(source), path, [], probe).Some? {
      FirstTimecodeIsFirst(sorted, path, Reader(probe));
    }
  }

  /** `populate_timecodes`: each version still without a start timecode gets
      the one found at its source path (looked up in `fs`); the others are
      left as they are. */
  function Populate(versions: seq<Models.VersionInfo>, fs: string -> Option<Node>, probe: string -> Option<string>)
    : (r: seq<Models.VersionInfo>)
    ensures |r| == |versions|
    ensures forall i :: 0 <= i < |versions| && versions[i].startTimecode.Some? ==> r[i] == versions[i]
    ensures forall i :: 0 <= i < |versions| && versions[i].startTimecode.None? ==>
      r[i] == versions[i].(startTimecode := ExtractForVersion(fs(versions[i].sourcePath), versions[i].sourcePath, [], probe))
  {
    seq(|versions|, i requires 0 <= i < |versions| =>
      var v := versions[i];
      if v.startTimecode.Some? then v
      else v.(startTimecode := ExtractForVersion(fs(v.sourcePath), v.sourcePath, [], probe)))
  }

  /** Populating twice is populating once: what the first pass could not
      find, the second does not find either. */
  lemma PopulateIdempotent(versions: seq<Models.VersionInfo>, fs: string -> Option<Node>, probe: string -> Option<string>)
    ensures Populate(Populate(versions, fs, probe), fs, probe) == Populate(versions, fs, probe)
  {
  }
}

=== FILE: updater.dfy ===
/** Release-version comparison of the self-updater: a tag such as `v0.1.0`
    becomes a tuple of integers, and a release is newer when its tuple is
    larger in Python's tuple order. */
module Updater {
  import opened Wrappers
  import opened Strs

  /** Python's `s.lstrip("vV")`. */
  function StripV(s: string): (r: string)
    ensures |r| <= |s| && r == s[|s| - |r|..]
    ensures forall i :: 0 <= i < |s| - |r| ==> s[i] == 'v' || s[i] == 'V'
    ensures |r| > 0 ==> r[0] != 'v' && r[0] != 'V'
  {
    if |s| > 0 && (s[0] == 'v' || s[0] == 'V') then StripV(s[1..]) else s
  }

  /** `re.match(r"(\d+)", part)`: the value of the part's leading digit
      run, if it has one. */
  function LeadingNumber(part: string): (r: Option<nat>)
    ensures r.None? <==> |part| == 0 || !IsDigit(part[0])
  {
    var k := DigitRun(part, 0);
    if k == 0 then None else Some(DigitsValue(part[..k]))
  }

  /** The numbers of the parts that have one, in order. */
  function Numbers(parts: seq<string>): (r: seq<nat>)
    ensures |r| <= |parts|
  {
    if |parts| == 0 then []
    else
      var rest := Numbers(parts[1..]);
      match LeadingNumber(parts[0])
      case None => rest
      case Some(n) => [n] + rest
  }

  /** A single part gives its number, or nothing. */
  lemma NumbersOfOne(part: string)
    ensures Numbers([part]) == match LeadingNumber(part) case Some(n) => [n] case None => []
  {
    assert [part][1..] == [];
  }

  /** No number comes out exactly when no part starts with a digit. */
  lemma {:induction false} NumbersEmpty(parts: seq<string>)
    ensures Numbers(parts) == [] <==> forall j :: 0 <= j < |parts| ==> LeadingNumber(parts[j]).None?
  {
    if |parts| > 0 {
      NumbersEmpty(parts[1..]);
      assert forall j :: 1 <= j < |parts| ==> parts[j] == parts[1..][j - 1];
    }
  }

  /** Numbering distributes over concatenation: the parts are read one by
      one, left to right. */
  lemma {:induction false} NumbersAppend(a: seq<string>, b: seq<string>)
    ensures Numbers(a + b) == Numbers(a) + Numbers(b)
  {
    if |a| > 0 {
      assert (a + b)[1..] == a[1..] + b;
      NumbersAppend(a[1..], b);
    } else {
      assert a + b == b;
    }
  }

  /** `parse_version`: leading `v`/`V` characters are stripped, each
      dot-separated part contributes the value of its leading digits, and a
      string without any number reads as `(0,)`. */
  function ParseVersion(v: string): (r: seq<nat>)
    ensures |r| >= 1
    ensures r == [0] || r == Numbers(Split(StripV(v), '.'))
    ensures Numbers(Split(StripV(v), '.')) == [] ==> r == [0]
    ensures Numbers(Split(StripV(v), '.')) != [] ==> r == Numbers(Split(StripV(v), '.'))
  {
    var ns := Numbers(Split(StripV(v), '.'));
    if ns == [] then [0] else ns
  }

  /** Python's `<` on tuples of integers: the first difference decides, and
      a proper prefix is smaller. */
  predicate TupleLess(a: seq<nat>, b: seq<nat>) {
    |b| > 0 && (|a| == 0 || a[0] < b[0] || (a[0] == b[0] && TupleLess(a[1..], b[1..])))
  }

  /** `is_newer(remote, local)`. */
  predicate IsNewer(remote: string, local: string) {
    TupleLess(ParseVersion(local), ParseVersion(remote))
  }

  // ---------------------------------------------------------------------------
  // The tuple order
  // ---------------------------------------------------------------------------

  /** The order described directly: after a common prefix of length `i`,
      either `a` ends while `b` goes on, or `a`'s next number is smaller. */
  predicate DecidedAt(a: seq<nat>, b: seq<nat>, i: nat) {
    i <= |a| && i < |b| && a[..i] == b[..i] && (i == |a| || a[i] < b[i])
  }

  lemma {:induction false} TupleLessIffDecided(a: seq<nat>, b: seq<nat>)
    ensures TupleLess(a, b) <==> exists i: nat :: DecidedAt(a, b, i)
  {
    if TupleLess(a, b) {
      if |a| == 0 || a[0] < b[0] {
        assert DecidedAt(a, b, 0);
      } else {
        TupleLessIffDecided(a[1..], b[1..]);
        var i: nat :| DecidedAt(a[1..], b[1..], i);
        assert a[..i + 1] == [a[0]] + a[1..][..i];
        assert b[..i + 1] == [b[0]] + b[1..][..i];
        assert DecidedAt(a, b, i + 1);
      }
    }
    if exists i: nat :: DecidedAt(a, b, i) {
      var i: nat :| DecidedAt(a, b, i);
      if i > 0 && |a| > 0 && a[0] == b[0] {
        assert a[..i][0] == a[0] && b[..i][0] == b[0];
        assert a[1..][..i - 1] == a[..i][1..] && b[1..][..i - 1] == b[..i][1..];
        assert DecidedAt(a[1..], b[1..], i - 1);
        TupleLessIffDecided(a[1..], b[1..]);
      }
    }
  }

  lemma {:induction false} TupleLessIrreflexive(a: seq<nat>)
    ensures !TupleLess(a, a)
  {
    if |a| > 0 {
      TupleLessIrreflexive(a[1..]);
    }
  }

  lemma {:induction false} TupleLessAsymmetric(a: seq<nat>, b: seq<nat>)
    ensures !(TupleLess(a, b) && TupleLess(b, a))
  {
    if |a| > 0 && |b| > 0 && a[0] == b[0] {
      TupleLessAsymmetric(a[1..], b[1..]);
    }
  }

  lemma {:induction false} TupleLessTransitive(a: seq<nat>, b: seq<nat>, c: seq<nat>)
    requires TupleLess(a, b) && TupleLess(b, c)
    ensures TupleLess(a, c)
  {
    if |a| > 0 && a[0] == b[0] && b[0] == c[0] {
      TupleLessTransitive(a[1..], b[1..], c[1..]);
    }
  }

  /** Any two tuples are equal or one is smaller. */
  lemma {:induction false} TupleLessTrichotomy(a: seq<nat>, b: seq<nat>)
    ensures TupleLess(a, b) || a == b || TupleLess(b, a)
  {
    if |a| > 0 && |b| > 0 && a[0] == b[0] {
      TupleLessTrichotomy(a[1..], b[1..]);
      if a[1..] == b[1..] {
        assert a == [a[0]] + a[1..] && b == [b[0]] + b[1..];
      }
    }
  }

  /** A release is never newer than itself, and of two releases at most one
      is newer than the other. */
  lemma IsNewerIsStrict(x: string, y: string)
    ensures !IsNewer(x, x)
    ensures !(IsNewer(x, y) && IsNewer(y, x))
  {
    TupleLessIrreflexive(ParseVersion(x));
    TupleLessAsymmetric(ParseVersion(x), ParseVersion(y));
  }

  /** Appending numbers makes a tuple larger. */
  lemma {:induction false} ProperPrefixIsSmaller(a: seq<nat>, rest: seq<nat>)
    requires |rest| > 0
    ensures TupleLess(a, a + rest)
  {
    if |a| > 0 {
      assert (a + rest)[1..] == a[1..] + rest;
      ProperPrefixIsSmaller(a[1..], rest);
    }
  }

  // ---------------------------------------------------------------------------
  // Formatting, and reading back
  // ---------------------------------------------------------------------------

  /** `str(n)` for each number. */
  function Spellings(xs: seq<nat>): (r: seq<string>)
    ensures |r| == |xs|
  {
    if |xs| == 0 then [] else [NatToString(xs[0])] + Spellings(xs[1..])
  }

  lemma {:induction false} SpellingsAreDigits(xs: seq<nat>)
    ensures forall k :: 0 <= k < |xs| ==> |Spellings(xs)[k]| > 0 && AllDigits(Spellings(xs)[k])
  {
    if |xs| > 0 {
      SpellingsAreDigits(xs[1..]);
      assert forall k :: 1 <= k < |xs| ==> Spellings(xs)[k] == Spellings(xs[1..])[k - 1];
    }
  }

  /** `".".join(str(n) for n in xs)`. */
  function FormatVersion(xs: seq<nat>): string
    requires |xs| >= 1
  {
    JoinWith(Spellings(xs), '.')
  }

  /** A run of digits from `i` to the end is all of the rest. */
  lemma {:induction false} DigitRunToEnd(s: string, i: nat)
    requires i <= |s| && forall j :: i <= j < |s| ==> IsDigit(s[j])
    ensures DigitRun(s, i) == |s| - i
    decreases |s| - i
  {
    if i < |s| {
      DigitRunToEnd(s, i + 1);
    }
  }

  /** A decimal spelling reads back as its number. */
  lemma NumberOfSpelling(n: nat)
    ensures LeadingNumber(NatToString(n)) == Some(n)
  {
    var s := NatToString(n);
    DigitRunToEnd(s, 0);
    assert s[..|s|] == s;
  }

  /** Splitting at the first separator. */
  lemma {:induction false} SplitFirst(a: string, c: char, b: string)
    requires c !in a
    ensures Split(a + [c] + b, c) == [a] + Split(b, c)
  {
    if |a| == 0 {
      assert a + [c] + b == [c] + b;
      assert ([c] + b)[1..] == b;
    } else {
      assert (a + [c] + b)[1..] == a[1..] + [c] + b;
      SplitFirst(a[1..], c, b);
      assert [a[0]] + a[1..] == a;
    }
  }

  /** Parts without the separator split back out of their join. */
  lemma {:induction false} SplitJoin(parts: seq<string>, c: char)
    requires |parts| >= 1 && forall k :: 0 <= k < |parts| ==> c !in parts[k]
    ensures Split(JoinWith(parts, c), c) == parts
  {
    if |parts| == 1 {
      SplitNoSeparator(parts[0], c);
    } else {
      SplitJoin(parts[1..], c);
      SplitFirst(parts[0], c, JoinWith(parts[1..], c));
      assert [parts[0]] + parts[1..] == parts;
    }
  }

  /** Parts that each start with their number read back as those numbers. */
  lemma {:induction false} NumbersOfNumerals(parts: seq<string>, xs: seq<nat>)
    requires |parts| == |xs| && forall k :: 0 <= k < |xs| ==> LeadingNumber(parts[k]) == Some(xs[k])
    ensures Numbers(parts) == xs
  {
    if |xs| > 0 {
      NumbersOfNumerals(parts[1..], xs[1..]);
      assert Numbers(parts) == [xs[0]] + Numbers(parts[1..]);
      assert xs == [xs[0]] + xs[1..];
    }
  }

  /** Each spelling starts with, and is, its number. */
  lemma {:induction false} SpellingsRead(xs: seq<nat>)
    ensures forall k :: 0 <= k < |xs| ==> LeadingNumber(Spellings(xs)[k]) == Some(xs[k])
  {
    if |xs| > 0 {
      NumberOfSpelling(xs[0]);
      SpellingsRead(xs[1..]);
      assert forall k :: 1 <= k < |xs| ==> Spellings(xs)[k] == Spellings(xs[1..])[k - 1] && xs[k] == xs[1..][k - 1];
    }
  }

  /** The spellings of a tuple read back as the tuple. */
  lemma NumbersOfSpellings(xs: seq<nat>)
    ensures Numbers(Spellings(xs)) == xs
  {
    SpellingsRead(xs);
    NumbersOfNumerals(Spellings(xs), xs);
  }

  /** `parse_version` reads a formatted tuple back, with or without a
      leading `v`. */
  lemma ParseFormatted(xs: seq<nat>)
    requires |xs| >= 1
    ensures ParseVersion(FormatVersion(xs)) == xs
    ensures ParseVersion("v" + FormatVersion(xs)) == xs
  {
    var f := FormatVersion(xs);
    SplitFormatted(xs);
    NumbersOfSpellings(xs);
    StripOneV(f);
  }

  /** Text starting with a digit loses exactly one leading `v`. */
  lemma StripOneV(f: string)
    requires |f| > 0 && IsDigit(f[0])
    ensures StripV(f) == f && StripV("v" + f) == f
  {
    var g := "v" + f;
    assert g[0] == 'v' && g[1..] == f;
    assert StripV(g) == StripV(f);
  }

  /** A formatted tuple splits into the spellings of its numbers, and does
      not start with a `v`. */
  lemma SplitFormatted(xs: seq<nat>)
    requires |xs| >= 1
    ensures Split(FormatVersion(xs), '.') == Spellings(xs)
    ensures |FormatVersion(xs)| > 0 && IsDigit(FormatVersion(xs)[0])
  {
    var parts := Spellings(xs);
    SpellingsAreDigits(xs);
    forall k | 0 <= k < |parts| ensures '.' !in parts[k] {
      assert AllDigits(parts[k]);
    }
    SplitJoin(parts, '.');
    assert |parts[0]| > 0 && IsDigit(parts[0][0]);
    FormatStartsWithDigit(parts);
  }

  /** A join starts with its first part. */
  lemma FormatStartsWithDigit(parts: seq<string>)
    requires |parts| >= 1 && |parts[0]| > 0 && IsDigit(parts[0][0])
    ensures |JoinWith(parts, '.')| > 0 && IsDigit(JoinWith(parts, '.')[0])
  {
  }

  lemma FormatExample()
    ensures FormatVersion([1, 2, 0]) == "1.2.0"
    ensures FormatVersion([1, 2]) == "1.2"
  {
    assert Spellings([1, 2, 0]) == ["1", "2", "0"];
    assert Spellings([1, 2]) == ["1", "2"];
  }

  lemma ParseExample3()
    ensures ParseVersion("1.2.0") == [1, 2, 0]
  {
    assert FormatVersion([1, 2, 0]) == "1.2.0" by { FormatExample(); }
    ParseFormatted([1, 2, 0]);
  }

  lemma ParseExample2()
    ensures ParseVersion("1.2") == [1, 2]
  {
    assert FormatVersion([1, 2]) == "1.2" by { FormatExample(); }
    ParseFormatted([1, 2]);
  }

  lemma ParseExampleV()
    ensures ParseVersion("v1.2") == [1, 2]
  {
    assert "v" + FormatVersion([1, 2]) == "v1.2" by { FormatExample(); }
    ParseFormatted([1, 2]);
  }

  /** `is_newer("1.2.0", "1.2")`: a longer tag with the same prefix is a
      newer release, and a leading `v` changes nothing. */
  lemma LongerTagIsNewer()
    ensures IsNewer("1.2.0", "1.2")
    ensures !IsNewer("v1.2", "1.2") && !IsNewer("1.2", "v1.2")
  {
    ParseExample3();
    ParseExample2();
    ParseExampleV();
    PrefixExample();
  }

  lemma PrefixExample()
    ensures TupleLess([1, 2], [1, 2, 0]) && !TupleLess([1, 2], [1, 2])
  {
    ProperPrefixIsSmaller([1, 2], [0]);
    assert [1, 2] + [0] == [1, 2, 0];
    TupleLessIrreflexive([1, 2]);
  }
}

=== FILE: wrappers.dfy ===
/** Failure-compatible wrappers used across the model: an optional value and a
    value-or-error result. */
module Wrappers {

  datatype Option<+T> = None | Some(value: T) {

    predicate IsFailure() {
      None?
    }

    function PropagateFailure<U>(): Option<U>
      requires None?
    {
      None
    }

    function Extract(): T
      requires Some?
    {
      value
    }

    /** Python's `x or default` on an optional value. */
    function GetOr(default: T): T {
      match this
      case Some(v) => v
      case None => default
    }
  }

  datatype Result<+R, +E> = Ok(value: R) | Err(error: E) {

    predicate IsFailure() {
      Err?
    }

    function PropagateFailure<U>(): Result<U, E>
      requires Err?
    {
      Err(error)
    }

    function Extract(): R
      requires Ok?
    {
      value
    }
  }
}
